=== FILE: README.md ===
# v8-jsi core, modelled in Dafny

v8-jsi embeds the V8 JavaScript engine behind two interfaces: JSI, the
C++ interface React Native uses, and Node-API (with its JSR extensions),
the C interface of Node.js add-ons. Most of the repository is glue around
calls into V8. Inside that glue sit many small sequential pieces with
behaviour that can be stated precisely. This project models those pieces
as pure Dafny functions, lemmas and a few methods with loops, one module
per component:

- `WsFrame`, `Http`, `InspectorUtils` and `InspectorAgent` cover the
  inspector's wire formats and state:
  - the WebSocket frame encoder and decoder (sections 5.2 and 5.3 of RFC 6455);
  - the WebSocket handler's frame loop;
  - the HTTP host and port checks and header accumulation;
  - UTF-16 to UTF-8 transcoding (section 3 of RFC 3629);
  - Base64 (section 4 of RFC 4648);
  - ASCII case folding;
  - the inspector target title;
  - the frontend session machine and the message queue;
  - the version 4 UUID generator (section 4.4 of RFC 4122).
- `ArrayIndex`, `BigIntText`, `Murmur` and `OwnKeys` cover numeric and text
  conversions in the JSI runtimes:
  - the array-index parser (section 6.1.7 of ECMA-262);
  - BigInt printing in radix 2 to 36;
  - the 32/64-bit split and join;
  - MurmurHash3 x64-128 and its ASCII flag;
  - the own-keys order of host objects.
- `NodeApiRuntime`, `NapiJsiRuntime`, `ExtApi`, `NodeApiEnv`, `NapiV8Api`,
  `V8Runtime`, `V8RuntimeImpl`, `UtilInl` and `ApiLoader` cover the lifetime
  and reference-count state machines:
  - intrusive reference counts;
  - external references with a finalizer;
  - the pointer-value scope stack;
  - the host-object tracker;
  - the finalizer queue with its single drain task;
  - the nested env-scope locker;
  - module-env removal;
  - scope-leave guards;
  - the platform use count;
  - move-only reference holders;
  - the lazily resolved API table.

  The same modules also cover the bounded buffers and tables: string copy
  into a caller's buffer, the heap-snapshot buffer contract, and the
  512-slot counter collection.
- `HarnessTasks`, `HarnessText` and `Text` cover the test harnesses:
  - the FIFO task queues with 32-bit ids;
  - `replaceAll`;
  - the module text wrapper;
  - the source-slice window;
  - stack processing;
  - argument filtering;
  - the `file:`/`line:` exit message and the parser that reads it back;
  - test naming.
- `Wrappers` (`Option`) and `Bits` (machine integer types) are shared helpers.

Calls into V8 or Node-API, I/O, clocks and randomness are parameters of the
model. Engine values, function pointers and callbacks are opaque ids.
Machine integer widths are written out where the source depends on them:
- `size_t` and `std::string::npos` arithmetic wraps modulo 2^64;
- counters are unsigned 32-bit;
- the hash uses `bv64`.

Each operation is stated as the source writes it. Where the code departs
from what it evidently means to do, the model keeps both versions. The
"as written" version is used to exhibit the problem (see Findings). The
corrected version is the one the rest of the model uses.

## Model

| member | source | states |
|---|---|---|
| ApiLoader.InitialTable | src/node-api-jsi/ApiLoaders/JSRuntimeApi.cpp:61-77 | every table slot starts as the stub of its kind: `stub` for JSR functions, `optionalStub` with the function's default for JSI-support functions, `preloadStub` for prepared-script functions |
| ApiLoader.LoadPreparedScriptFuncs | src/node-api-jsi/ApiLoaders/JSRuntimeApi.cpp:42-55 | loading the prepared-script functions writes exactly their slots and leaves every other slot as it was |
| ApiLoader.PreparedAllOrNothing | src/node-api-jsi/ApiLoaders/JSRuntimeApi.cpp:41-55 | the prepared-script slots are never mixed: all hold the loaded functions, or all hold the defaults exactly when one of them failed to resolve |
| ApiLoader.CallThrough | src/node-api-jsi/ApiLoaders/NodeApi.h:26-61 | a call through any slot leaves a stored pointer in that slot and reaches exactly the function stored there |
| ApiLoader.StubResolvesOnce | src/node-api-jsi/ApiLoaders/NodeApi.h:26-52 | the first call resolves the function by name (falling back to the default for an optional stub); a second call reaches the same function without consulting the library and leaves the table unchanged |
| ApiLoader.FirstPreparedCallLoadsAll | src/node-api-jsi/ApiLoaders/JSRuntimeApi.cpp:41-74 | whichever prepared-script function is called first, afterwards all prepared-script slots hold functions of one origin, and the other slots keep their stubs |
| ApiLoader.LeaveScope | src/node-api-jsi/ApiLoaders/NodeApi.h:109-111 | the destructor makes current the NodeApi the innermost live scope saved, and that scope ends |
| ApiLoader.EnterScope | src/node-api-jsi/ApiLoaders/NodeApi.h:103-115 | the constructor makes the given NodeApi current, and the matching destructor undoes it exactly |
| ApiLoader.NestedApiScopesRestore | src/node-api-jsi/ApiLoaders/NodeApi.h:103-115 | inside nested scopes the innermost scope's NodeApi is current, and once they all close, innermost first, the thread's current NodeApi and its saved values are as before |
| NapiJsiRuntime.DestroyHolder | src/public/NapiJsiRuntime.cpp:967-972 | the destructor releases the held reference once when it is not null, and nothing otherwise |
| NapiJsiRuntime.MoveHolder | src/public/NapiJsiRuntime.cpp:953-954 | the move constructor transfers runtime and reference and leaves the source null |
| NapiJsiRuntime.MoveAssignReleasesOld | src/public/NapiJsiRuntime.cpp:956-965 | move assignment takes over the source's reference, nulls the source, releases the old reference once, and across both destructors no reference is leaked or released twice |
| NapiJsiRuntime.CloneRef | src/public/NapiJsiRuntime.cpp:974-980 | cloning returns the same reference and adds one count to it when it is not null |
| NapiJsiRuntime.CloneThenReleaseBalanced | src/public/NapiJsiRuntime.cpp:967-980 | a clone handed to a new holder and destroyed with it leaves every reference count as it was |
| NapiJsiRuntime.RewriteErrorMessage | src/public/NapiJsiRuntime.cpp:1224-1240 | a throwing getter's exception is cleared; the message is replaced exactly when it is the string "Out of stack space", and then by the V8-style RangeError text |
| NapiJsiRuntime.RewriteIdempotent | src/public/NapiJsiRuntime.cpp:1232-1237 | a rewritten message is never rewritten again |
| NapiJsiRuntime.ThrowJsException | src/public/NapiJsiRuntime.cpp:1204-1216 | a JSError is thrown exactly when no JS error is pending and the status is napi_pending_exception or the value is an Error; its message is rewritten while the pending flag is set, and the flag is restored afterwards |
| NapiJsiRuntime.NativeExceptionNamesCode | src/public/NapiJsiRuntime.cpp:1212-1215 | the native exception's text is the fixed prefix, the status in hexadecimal and a period, and its digits read back as the status |
| NapiV8Api.NestedScopes | src/napi/v8_api.cpp:156-176 | opening a scope for each runtime in turn and closing them innermost first keeps the thread's stack of lockers well formed |
| NapiV8Api.CloseSeesOnlyStack | src/napi/v8_api.cpp:167-176 | closeEnvScope's status and resulting stack depend only on the stack of lockers it is given |
| NapiV8Api.NestedScopesRestore | src/napi/v8_api.cpp:121-176 | however the runtimes of nested scopes alternate, every close succeeds and closing the outermost scope restores the thread's lockers exactly (LIFO) |
| NapiV8Api.PreparedScriptVariants | src/napi/v8_api.cpp:337-357 | the JSR cache hands back a buffer for whatever the load callback wrote; it agrees with the Node-API runtime's cache exactly when the data is present and non-empty, and otherwise hands V8 an empty buffer where the other reports none |
| NapiV8Api.ReleaseBuffer | src/napi/v8_api.cpp:296-300 | the buffer's destructor calls its delete callback at most once, exactly when there is one, with the buffer's data and its deleter data |
| NapiV8Api.CachedBufferReturnsData | src/napi/v8_api.cpp:291-357 | releasing a cached buffer returns exactly the loaded data to its deleter once, even when the data is null or empty |
| NapiV8Api.DrainMicrotasksVariants | src/napi/v8_api.cpp:110-113 | the JSR drainMicrotasks, which never writes its result, agrees with the Node-API runtime's (which writes true) exactly when no result is passed or it already holds true |
| NapiV8Api.PrepareChecks | src/napi/v8_api.cpp:213-223 | preparation proceeds exactly when no exception is pending and the script data, source URL and result pointers are all present; a pending exception reports napi_pending_exception and a missing pointer napi_invalid_arg |
| NapiV8Api.CreatePreparedScriptAsWritten | src/napi/v8_api.cpp:213-230 | a failed check returns its status and writes nothing; otherwise the script is written and no status is returned at all |
| NapiV8Api.CreatePreparedScript | src/node-api/v8_api.cpp:401-419 | the corrected createPreparedScript always returns a status, napi_ok exactly when the checks pass and preparing leaves no exception, and writes a script exactly when the checks pass |
| NapiV8Api.PreparedScriptMissingStatus | src/napi/v8_api.cpp:213-230 | the as-written and corrected functions write the same script, and report the same status exactly when a check fails |
| NapiV8Api.PostedTasksRunOnceAndFree | src/napi/v8_api.cpp:275-282 | an embedder that calls the run and then the delete callback of each posted task runs every task once in posting order and frees exactly those tasks |
| NapiV8Api.DestroyRunner | src/napi/v8_api.cpp:269-273 | the runner's destructor calls its delete callback at most once, exactly when there is one, with the runner's data and its deleter data |
| ExtApi.Finalize | src/napi/js_native_ext_api_v8.cpp:107-113 | finalizing deletes the reference and calls the finalize callback at most once, exactly when the reference carries data with a callback, with its env, native object and hint |
| ExtApi.Ref | src/napi/js_native_ext_api_v8.cpp:45-47 | Ref keeps the reference and its data and adds one to the count when that does not wrap the unsigned 32-bit counter |
| ExtApi.Unref | src/napi/js_native_ext_api_v8.cpp:49-53 | Unref from one finalizes; from more than one it decrements; from zero the unsigned 32-bit counter wraps to 2^32-1 |
| ExtApi.ExtRefLifetime | src/napi/js_native_ext_api_v8.cpp:40-67 | for any series of Ref and Unref calls made while the reference is held, it is deleted exactly when the count reaches zero, otherwise it keeps the net count and its data, and its finalizer runs once then and never before |
| ExtApi.CreateReferenceWithData | src/napi/js_native_ext_api_v8.cpp:524-545 | a reference is created, with count one and the given native data, exactly when env, value, native object and result are all present; otherwise napi_invalid_arg and nothing is created |
| ExtApi.CreatedReferenceFinalizesObject | src/napi/js_native_ext_api_v8.cpp:88-113 | a reference created with a native object and a finalizer and then released by its only owner calls that finalizer with that object and hint exactly once |
| ExtApi.DestroyScope | src/napi/js_native_ext_api_v8.cpp:169-180 | a moved-from (all null) scope releases nothing, and no scope releases more than its three parts |
| ExtApi.MoveScope | src/napi/js_native_ext_api_v8.cpp:186-190 | the move constructor carries every field to the new scope and leaves the source null |
| ExtApi.MoveAssignReleasesOnce | src/napi/js_native_ext_api_v8.cpp:186-206 | after a move assignment the target holds the source's scopes and the source is null; across the assignment and both destructors every scope the two held is released exactly once |
| ExtApi.EnvCall | src/napi/js_native_ext_api_v8.cpp:243-257 | a missing env is napi_invalid_arg and changes nothing; otherwise the call succeeds, and a ref adds one env reference |
| ExtApi.RuntimeDeletedWithLastEnvRef | src/napi/js_native_ext_api_v8.cpp:149-257 | from a live env, any series of ref and unref calls that keeps the env referenced deletes the env and the runtime exactly when the net count of references reaches zero, and the runtime is deleted exactly when the holder marked it |
| ExtApi.CreateEnvArgs | src/napi/js_native_ext_api_v8.cpp:215-231 | the GC API and the ignore-unhandled-promises options are on exactly when their attribute bits are set, and every tracing and logging option is off |
| ExtApi.CreateEnvReadsAttributes | src/napi/js_native_ext_api_v8.cpp:224-230 | each attribute bit turns on its own option and no other |
| ExtApi.RunChecks | src/napi/js_native_ext_api_v8.cpp:298-307 | a script runs only when no exception is pending, the source, URL and result are present and the source is a string |
| ExtApi.RunScript | src/napi/js_native_ext_api_v8.cpp:298-323 | a failed check returns its status and no value; otherwise the engine's completion value is written with napi_ok, or napi_generic_failure when there is none |
| ExtApi.SerializedScriptFallsBack | src/napi/js_native_ext_api_v8.cpp:325-363 | with no buffer or an empty one the serialized entry point behaves as napi_ext_run_script; with a buffer it fails on the same arguments with the same status, and otherwise runs the source with the buffer as code cache |
| ArrayIndex.ToArrayIndex | src/node-api-jsi/NodeApiJsiRuntime.cpp:2794-2809 | the empty string is not an index, "0" is index 0, and any other text with a leading zero is not an index |
| ArrayIndex.ParseDigitsSpec | src/node-api-jsi/NodeApiJsiRuntime.cpp:2811-2827 | the digit loop, entered with the value of the digits read so far, gives the whole text's value exactly when the text is all digits and the value is below 0xFFFFFFFF, and nothing otherwise (the 64-bit overflow test included) |
| ArrayIndex.DigitsValuePrefix | src/node-api-jsi/NodeApiJsiRuntime.cpp:2813-2820 | reading more digits never makes the value smaller, which is why an overflow anywhere means the whole numeral is too large |
| ArrayIndex.ToArrayIndexSpec | src/node-api-jsi/NodeApiJsiRuntime.cpp:2794-2829 | toArrayIndex gives a value exactly for canonical decimal numerals (digits only, no leading zero except "0") whose value is below 0xFFFFFFFF, and that value is the numeral's |
| ArrayIndex.NatDigitsOfDigitsValue | src/node-api-jsi/NodeApiJsiRuntime.cpp:2801-2809 | printing the value of a canonical numeral gives the numeral back |
| ArrayIndex.ToArrayIndexOfNumeral | src/node-api-jsi/NodeApiJsiRuntime.cpp:2794-2829 | every array index (below 0xFFFFFFFF) is recognised from its decimal text |
| ArrayIndex.ToArrayIndexIsNumeral | src/node-api-jsi/NodeApiJsiRuntime.cpp:2794-2829 | whatever toArrayIndex accepts is exactly the decimal text of the index it returns: the two form a round trip |
| BigIntText.Make64 | src/node-api-jsi/NodeApiJsiRuntime.cpp:1285-1287 | the shift-and-or of two 32-bit halves is the value high·2^32 + low |
| BigIntText.Make64OfHalves | src/node-api-jsi/NodeApiJsiRuntime.cpp:1275-1287 | splitting a 64-bit value with Hi_32/Lo_32 and joining it with Make_64 gives the value back |
| BigIntText.HalvesOfMake64 | src/node-api-jsi/NodeApiJsiRuntime.cpp:1275-1287 | Hi_32 and Lo_32 of a Make_64 recover the high and the low half |
| BigIntText.CharDigitOfRadixChar | src/node-api-jsi/NodeApiJsiRuntime.cpp:1365-1369 | every digit 0..35 is written as a character that reads back as the same digit |
| BigIntText.RadixDigitsRoundTrip | src/node-api-jsi/NodeApiJsiRuntime.cpp:1331-1377 | the canonical digit string of n in radix d reads back as n |
| BigIntText.RadixDigitsNoLeadingZero | src/node-api-jsi/NodeApiJsiRuntime.cpp:1331-1370 | the digit string starts with '0' exactly when the number is zero |
| BigIntText.HalfWordsValue | src/node-api-jsi/NodeApiJsiRuntime.cpp:1318-1322 | reading the 64-bit words as little-endian 32-bit halfwords keeps the magnitude |
| BigIntText.StripZeros | src/node-api-jsi/NodeApiJsiRuntime.cpp:1322-1325 | dropping the trailing zero halfwords leaves a prefix with a non-zero top and the same value |
| BigIntText.DivideHalvesValue | src/node-api-jsi/NodeApiJsiRuntime.cpp:1337-1362 | one top-down pass of schoolbook division satisfies quotient·d + remainder = dividend |
| BigIntText.Divide | src/node-api-jsi/NodeApiJsiRuntime.cpp:1337-1362 | a corrected pass divides by the radix, leaves a smaller stripped quotient and a remainder below the radix |
| BigIntText.RunSpec | src/node-api-jsi/NodeApiJsiRuntime.cpp:1331-1370 | the corrected do-while loop pushes the canonical digits of the value least significant first |
| BigIntText.BigIntToString | src/node-api-jsi/NodeApiJsiRuntime.cpp:1289-1378 | corrected bigintToString: an error exactly for a radix outside 2..36, otherwise the sign and the canonical digits of the magnitude |
| BigIntText.BigIntToStringRoundTrip | src/node-api-jsi/NodeApiJsiRuntime.cpp:1289-1378 | the printed text starts with '-' for a negative BigInt and its digits read back as the magnitude |
| BigIntText.StripCount | src/node-api-jsi/NodeApiJsiRuntime.cpp:1322-1325 | the count-shortening loop stops at a non-zero halfword and skips only zeros |
| BigIntText.FastLoopSpec | src/node-api-jsi/NodeApiJsiRuntime.cpp:1333-1335 | the 64-bit path of the loop pushes the canonical digits of word0 least significant first |
| BigIntText.BigIntToStringAsWritten | src/node-api-jsi/NodeApiJsiRuntime.cpp:1289-1378 | bigintToString as written: the radix error exactly for a radix outside 2..36 |
| BigIntText.AsWrittenCorrectBelow2To64 | src/V8JsiRuntime.cpp:1680-1749 | in both runtimes' copies of the loop, for a magnitude that fits in the first word the code as written prints the same text as the corrected one |
| BigIntText.AsWrittenPrintsTwoTo64Wrongly | src/node-api-jsi/NodeApiJsiRuntime.cpp:1337-1362 | as written, 2^64 in radix 10 prints "6", which the corrected printer does not |
| Http.TrimPort | src/inspector/inspector_socket.cpp:175-183 | the result is a prefix of the host; a host without ':' is kept; anything cut starts at a ':' after the last ']' and holds no other ':' |
| Http.TrimPortOfHostAndPort | src/inspector/inspector_socket.cpp:175-183 | "name:port" loses exactly ":port" when the port holds no ':' or ']' |
| Http.TrimPortKeepsBracketedHost | src/inspector/inspector_socket.cpp:175-183 | a host ending in ']' (an IPv6 literal without port) is kept whole |
| Http.ScanQuadsSpec | src/inspector/inspector_socket.cpp:188-195 | the digit-and-dot scan answers true exactly for a string of digits and dots with three dots |
| Http.IsIPAddressSpec | src/inspector/inspector_socket.cpp:185-196 | IsIPAddress holds exactly for a bracketed literal of four or more chars or a dotted quad |
| Http.IsAllowedHostSpec | src/inspector/inspector_socket.cpp:600-605 | a Host is allowed exactly when, without its port, it is empty, an IP address, or localhost/localhost6 in any case |
| Http.AppendValue | src/inspector/inspector_socket.cpp:547 | appending to a header entry creates it empty when missing and leaves every other entry alone |
| Http.OnHeaderField | src/inspector/inspector_socket.cpp:551-559 | a field chunk after a value starts a new header name, otherwise extends the current one; nothing else changes |
| Http.OnHeaderValue | src/inspector/inspector_socket.cpp:544-549 | a value chunk is appended to the current header's value only |
| Http.OnPath | src/inspector/inspector_socket.cpp:561-565 | a URL chunk is appended to the path only |
| Http.HeaderFieldChunks | src/inspector/inspector_socket.cpp:551-559 | a header name delivered in two chunks gives the same state as in one |
| Http.HeaderValueChunks | src/inspector/inspector_socket.cpp:544-549 | a header value delivered in two chunks is stored as their concatenation |
| Http.NextHeaderStored | src/inspector/inspector_socket.cpp:544-559 | after a value, a new field and value store that value under the new name |
| Http.HeaderValueFromSpec | src/inspector/inspector_socket.cpp:585-598 | the lookup loop from any entry on answers in terms of how many later entries match |
| Http.HeaderValueSpec | src/inspector/inspector_socket.cpp:585-598 | HeaderValue answers the value of the one matching header, and "" when none or several match |
| Http.KeyMatchesIsPrefix | src/inspector/inspector_socket.cpp:589-590 | the StringEqualNoCaseN test on a header name is a case-insensitive prefix test |
| Http.OnMessageComplete | src/inspector/inspector_socket.cpp:571-583 | a completed request appends one event with its path and flags and resets the per-request state |
| Http.OnMessageCompleteHost | src/inspector/inspector_socket.cpp:571-583 | the event of a request with a single Host header carries that header's value |
| Http.FirstWhereIsFirst | src/inspector/inspector_socket.cpp:513-525 | the search for the first element meeting a test finds the first one, or the end |
| Http.FirstRefusedIsFirst | src/inspector/inspector_socket.cpp:513-521 | no event before the first refused one is refused, and that one is |
| Http.AcceptAllAt | src/inspector/inspector_socket.cpp:516-524 | among served events the j-th delegate call serves the j-th event |
| Http.DispatchEventsSpec | src/inspector/inspector_socket.cpp:510-526 | events before the first refused one are served in order, and a refused event ends the loop with one cancel |
| Http.ServedHead | src/inspector/inspector_socket.cpp:510-526 | when the first event is served, the first action serves it |
| Http.UpgradesAreChecked | src/inspector/inspector_socket.cpp:513-524 | every socket upgrade carries a non-empty key and comes from an allowed GET request |
| InspectorAgent.SizeDec | src/inspector/inspector_agent.cpp:623 | size_t decrement: one less, with 0 wrapping to npos |
| InspectorAgent.FindLastSeparator | src/inspector/inspector_agent.cpp:619-628 | find_last_of("/\\", pos) finds the last separator at or before pos, or reports none when there is none |
| InspectorAgent.UrlSuffixAsWrittenLosesSegments | src/inspector/inspector_agent.cpp:615-637 | as written (`UrlSuffixAsWritten`), "/a/b" becomes "...b" because the search from index 0 - 1 wraps to npos; the corrected suffix is ".../a/b" |
| InspectorAgent.PreviousSeparator | src/inspector/inspector_agent.cpp:623-628 | the corrected search finds the last separator strictly before the given one, and none before index 0 |
| InspectorAgent.UrlSuffixSpec | src/inspector/inspector_agent.cpp:615-637 | a URL with no separator is kept; one with one or two separators is prefixed by "..."; otherwise "..." and the last three segments |
| InspectorAgent.UrlSuffixNonEmpty | src/inspector/inspector_agent.cpp:615-637 | a non-empty URL always adds non-empty text to the title |
| InspectorAgent.NotifyLoadedUrl | src/inspector/inspector_agent.cpp:639-641 | the suffix is appended ", "-separated after the first, and the title is "V8JSI Host(" + the list + ")" |
| InspectorAgent.NotifyAllFrom | src/inspector/inspector_agent.cpp:615-641 | loading several URLs after others appends their suffixes joined with ", " |
| InspectorAgent.TitleOfLoadedUrls | src/inspector/inspector_agent.cpp:615-641 | after loading URLs into a fresh agent the title is "V8JSI Host(" + their suffixes joined with ", " + ")" |
| InspectorAgent.NotifyAllTitle | src/inspector/inspector_agent.cpp:639-641 | the title always equals "V8JSI Host(" + the loaded list + ")" |
| InspectorAgent.Start | src/inspector/inspector_agent.cpp:392-396 | Start moves the agent to accepting and changes nothing else |
| InspectorAgent.WaitForDisconnect | src/inspector/inspector_agent.cpp:445-450 | only a connected agent is marked as shutting down; the state stays |
| InspectorAgent.TagOfSpec | src/inspector/inspector_agent.cpp:560-565 | the length test before decoding only saves work: a message is taken as a tag exactly when it equals it |
| InspectorAgent.DispatchFromFrontend | src/inspector/inspector_agent.cpp:259-266 | as written, a waiting agent goes on waiting exactly when the message contains "Runtime.runIfWaitingForDebugger" (the `!= npos` test), an agent that is not waiting never starts; the message reaches the session and nothing else changes |
| InspectorAgent.DispatchFromFrontendIntended | src/inspector/inspector_agent.cpp:259-266 | the rule the wait loop `while (waiting_for_frontend_)` at line 408 needs: a waiting agent stops waiting exactly when the message contains "Runtime.runIfWaitingForDebugger"; the message reaches the session |
| InspectorAgent.WaitsWhileEveryMessageAsksToRun | src/inspector/inspector_agent.cpp:259-266 | as written, after a series of messages the agent is still waiting exactly when it was and every message contained "Runtime.runIfWaitingForDebugger"; all of them reach the session in order |
| InspectorAgent.IntendedWaitsUntilAskedToRun | src/inspector/inspector_agent.cpp:259-266 | by the intended rule the agent is still waiting exactly when it was and no message contained "Runtime.runIfWaitingForDebugger" |
| InspectorAgent.AsWrittenStopsWaitingEarly | src/inspector/inspector_agent.cpp:262-265 | as written, "Runtime.enable" releases a waiting agent and "Runtime.runIfWaitingForDebugger" keeps it waiting; the intended rule does the opposite |
| InspectorAgent.ConnectTransition | src/inspector/inspector_agent.cpp:567-571 | "#connect" passes its check exactly while accepting, and connects that session |
| InspectorAgent.DisconnectTransition | src/inspector/inspector_agent.cpp:572-582 | "#disconnect" passes its check exactly while connected, and ends the agent when shutting down, else reopens it |
| InspectorAgent.ProtocolMessageTransition | src/inspector/inspector_agent.cpp:583-591 | any other message leaves the session state alone and goes to the session when a frontend is connected; with none connected it is passed to the null session that disconnecting left behind (lines 255-267) and stops the process, and only then |
| InspectorAgent.HandleAllKeepsStarted | src/inspector/inspector_agent.cpp:556-592 | handling messages keeps a started agent in a started state |
| InspectorAgent.WaitingNeverResumes | src/inspector/inspector_agent.cpp:259-266 | once the agent stops waiting for the frontend, no message makes it wait again |
| InspectorAgent.SessionRoundTrip | src/inspector/inspector_agent.cpp:567-582 | a connect then a disconnect, while not shutting down, returns the agent to accepting |
| InspectorAgent.AppendMessage | src/inspector/inspector_agent.cpp:499-507 | the message is pushed at the back, and pumping is asked for exactly when the queue was empty |
| InspectorAgent.DispatchMessages | src/inspector/inspector_agent.cpp:547-595 | a nested call returns at once without change, and a completed pump clears the dispatching flag |
| InspectorAgent.HandleAllKeepsQueue | src/inspector/inspector_agent.cpp:556-592 | handling taken messages never touches the incoming queue |
| InspectorAgent.PumpHandlesEverything | src/inspector/inspector_agent.cpp:555-593 | the pump handles the queued messages and then every arrival, each once and in order, and leaves the queue empty |
| InspectorAgent.Hex4RoundTrip | src/inspector/inspector_agent.cpp:713 | %04x of a 16-bit value is four lower-case hex digits that read back as the value |
| InspectorAgent.GenerateIdShape | src/inspector/inspector_agent.cpp:703-716 | the id is 36 characters with dashes at 8, 13, 18 and 23 and lower-case hex digits elsewhere |
| InspectorAgent.GenerateIdVersionAndVariant | src/inspector/inspector_agent.cpp:713-715 | the third group begins with the version digit 4 and the fourth with 8, 9, a or b, as section 4.4 of RFC 4122 asks |
| InspectorAgent.GenerateIdKeepsRandomBits | src/inspector/inspector_agent.cpp:713-715 | the random bits outside the version and variant fields survive in the id |
| InspectorUtils.Utf16ToUtf8Length | src/inspector/inspector_utils.cpp:21-50 | a null or empty input counts 0, and a count that fits in 32 bits is the per-unit byte count |
| InspectorUtils.Utf16ToUtf8MatchesLength | src/inspector/inspector_utils.cpp:52-94 | utf16toUTF8 writes exactly as many bytes as utf16toUTF8Length sized the string with |
| InspectorUtils.EncodeAscii | src/inspector/inspector_utils.cpp:62-64 | ASCII text is copied byte for byte |
| InspectorUtils.EncodeWellFormed | src/inspector/inspector_utils.cpp:52-94 | the bytes are well-formed UTF-8 (section 3 of RFC 3629) and decode to the code points of the UTF-16 input, a pair as one supplementary code point |
| InspectorUtils.ToLowerChar | src/inspector/inspector_utils.cpp:152-154 | 'A'..'Z' move to 'a'..'z' and every other char is kept |
| InspectorUtils.ToLower | src/inspector/inspector_utils.cpp:156-161 | the result has the input's length with each char lower-cased |
| InspectorUtils.ToLowerChangesOnlyUpper | src/inspector/inspector_utils.cpp:152-161 | lower-casing changes only upper-case letters and is idempotent |
| InspectorUtils.StringEqualNoCaseSpec | src/inspector/inspector_utils.cpp:163-171 | StringEqualNoCase holds exactly when the two C strings have the same length and are equal lower-cased |
| InspectorUtils.EqualNoCaseFromAgrees | src/inspector/inspector_utils.cpp:163-171 | comparing two buffers gives the same answer as comparing the C strings they hold |
| InspectorUtils.StringEqualNoCaseNSpec | src/inspector/inspector_utils.cpp:173-181 | StringEqualNoCaseN holds exactly when the strings agree lower-cased on every index below the length up to the first one's NUL |
| InspectorUtils.EqualNoCaseNIsPrefixTest | src/inspector/inspector_utils.cpp:173-181 | comparing with the length of `name` tests whether `key` starts with `name`, ignoring case |
| InspectorUtils.Base64Encode | src/inspector/inspector_utils.cpp:183-240 | the returned size equals the text's length, four characters per started 3-byte group, and the text is alphabet characters then the right number of '=' |
| InspectorUtils.Base64Shape | src/inspector/inspector_utils.cpp:200-237 | the text is alphabet characters followed by two '=' after one tail byte, one after two, none otherwise |
| InspectorUtils.Base64RoundTrip | src/inspector/inspector_utils.cpp:183-240 | decoding the text as section 4 of RFC 4648 gives back the source bytes |
| Murmur.Rotl64IsRotation | src/MurmurHash.cpp:19-21 | the shift-or rotl64 is a true left rotation for the amounts 27, 31 and 33 the hash uses |
| Murmur.IsAsciiLoad64 | src/MurmurHash.cpp:39-41 | the mask test on a loaded word holds exactly when each of its eight bytes is at most 127 |
| Murmur.ZeroPad | src/MurmurHash.cpp:96-137 | the tail padded to 16 bytes keeps the tail bytes in place and zeros the rest |
| Murmur.TailIsZeroPaddedBlock | src/MurmurHash.cpp:96-137 | the fall-through switch builds k1 and k2 as the two little-endian words of the zero-padded tail |
| Murmur.MurmurHash | src/MurmurHash.cpp:162-170 | murmurhash returns the first lane of the seed-31 hash and a flag that holds exactly when every byte is at most 127 |
| Murmur.MurmurHashAscii | src/MurmurHash.cpp:58-94 | the flag of the block loop and the tail loop holds exactly when every byte of the key is at most 127 |
| Murmur.BodyReadsWholeBlocks | src/MurmurHash.cpp:56-84 | bytes after the last whole block do not change what the block loop computes |
| NodeApiEnv.CopyStringToOutput | src/node-api/v8_api.cpp:89-103 | a missing out-pointer is an argument error that writes nothing; otherwise the caller gets a fresh NUL-terminated copy and its length |
| NodeApiEnv.CopiedStringReadsBack | src/node-api/v8_api.cpp:89-103 | the copy read by the reported length is the string, and read as a C string it is the string when that holds no NUL |
| NodeApiEnv.PutChar | src/node-api/v8_api.cpp:116-143 | a character through the stream buffer keeps its invariants, its size and whether it has a real buffer |
| NodeApiEnv.HeapSnapshotAsWritten | src/node-api/v8_api.cpp:545-582 | createHeapSnapshotToString as written: a null required_length is an argument error that touches nothing; otherwise a length is reported, and the caller's buffer, when there is one, keeps its length |
| NodeApiEnv.HeapSnapshotToString | src/node-api/v8_api.cpp:545-582 | as documented: a null required_length is an argument error; otherwise the required length is the snapshot's; an argument error exactly for a null required_length or a non-empty buffer without room; a buffer with room gets the snapshot and a NUL; any other buffer is untouched |
| NodeApiEnv.CountingModeCounts | src/node-api/v8_api.cpp:116-139 | without a usable buffer overflow() counts every character and stores none |
| NodeApiEnv.CountingModeMeetsContract | src/node-api/v8_api.cpp:545-582 | with no buffer, or an empty one, the code as written agrees with the documented behaviour, with or without a required_length |
| NodeApiEnv.AsWrittenLosesShortSnapshot | src/node-api/v8_api.cpp:116-139 | as written, "abc" into a 10-character buffer reports length 0 and puts the NUL over the first character |
| NodeApiEnv.AsWrittenAcceptsOverlongSnapshot | src/node-api/v8_api.cpp:126-139 | as written, 4 characters into a 3-character buffer succeed and one is stored past the end; the documented behaviour is an argument error |
| NodeApiEnv.DrainFinalizerQueue | src/node-api/v8_api.cpp:253-264 | the drain loop empties the pending set; it finalizes only live trackers, each once; every tracker pending at the start is finalized or deleted by a finalizer; every live tracker a finalizer queues is finalized or deleted too; queuing during the drain schedules one task and takes one reference only when none is scheduled and the env is not torn down |
| NodeApiEnv.EnqueueFinalizer | src/node-api/v8_api.cpp:239-253 | the tracker becomes pending (the set stays free of duplicates), and a drain task with an env reference is scheduled only when none is and the env is not being torn down; one drain per reference is kept |
| NodeApiEnv.EnqueueAll | src/node-api/v8_api.cpp:239-253 | queuing several trackers adds all of them to the pending set, and schedules one task with one reference only when none is scheduled and the env is not being torn down; during teardown nothing is scheduled |
| NodeApiEnv.RunDrainTask | src/node-api/v8_api.cpp:246-264 | the scheduled task clears the flag and drops its reference, then drains: nothing is left pending, every tracker pending at the start is finalized or deleted, and a new task with a new reference is scheduled exactly when a finalizer queued a live tracker on a live env; one drain per reference is kept |
| NodeApiEnv.DrainTaskReschedules | src/node-api/v8_api.cpp:239-264 | when the finalizer of the one pending tracker queues another live tracker, the task finalizes both and leaves a new task scheduled with the reference count back where it was |
| NodeApiEnv.DeleteFinalization | src/node-api/v8_api.cpp:227-264 | DeleteMe marks the env as torn down and drains: nothing stays pending, every pending tracker and every live tracker queued meanwhile is finalized or deleted, and no task or reference is added |
| NodeApiEnv.QueuedFinalizersShareOneDrain | src/node-api/v8_api.cpp:239-253 | however many finalizers are queued on a live env, exactly one drain task ends up scheduled |
| NodeApiEnv.CallFinalizer | src/node-api/v8_api.cpp:268-304 | the process aborts exactly when a finalizer outside GC throws while the env is not terminating, after printing the exception's detail |
| NodeApiEnv.NewModuleEnvs | src/node-api/v8_api.cpp:160-163 | a new runtime lists its root env, first |
| NodeApiEnv.CreateNodeApi | src/node-api/v8_api.cpp:619-623 | createNodeApi lists the new env last and keeps the root |
| NodeApiEnv.PositionOf | src/node-api/v8_api.cpp:631 | std::find gives the first position holding the env |
| NodeApiEnv.RemoveModuleEnv | src/node-api/v8_api.cpp:630-647 | an unlisted env changes nothing; a listed one loses its first entry, and removing the root clears it and unrefs every env still listed |
| NodeApiEnv.CreateThenRemove | src/node-api/v8_api.cpp:619-647 | an env created and removed again, not the root, leaves the list as it was |
| NodeApiEnv.RemoveRootUnrefsModules | src/node-api/v8_api.cpp:630-647 | removing the root of a runtime unrefs the envs created since, in creation order |
| NodeApiEnv.Current | src/node-api/v8_api.cpp:191 | the current locker is the top of the thread's stack, when there is one |
| NodeApiEnv.OpenEnvScope | src/node-api/v8_api.cpp:338-348 | a missing out-pointer is an argument error; a locker for this runtime gains a reference, otherwise a new locker becomes current; the handle is the current locker |
| NodeApiEnv.CloseEnvScope | src/node-api/v8_api.cpp:350-358 | a missing handle is an argument error; a handle that is not current fails without change; otherwise the locker loses a reference and at the last one the previous locker is current again |
| NodeApiEnv.OpenCloseRestores | src/node-api/v8_api.cpp:184-211 | an env scope opened and closed again leaves the thread's lockers as they were |
| NodeApiEnv.GetV8RuntimeArgs | src/node-api/v8_api.cpp:830-864 | every runtime flag no setter controls is off |
| NodeApiEnv.ConfigureReflectsSetters | src/node-api/v8_api.cpp:788-885 | after any setter calls, each field holds the last value its setter was given, or its default |
| NodeApiEnv.ArgsReflectLastSetters | src/node-api/v8_api.cpp:830-864 | the runtime arguments carry the last value each setter was given, the default otherwise, and every other flag off |
| NodeApiRuntime.IncRefCount | src/node-api-jsi/NodeApiJsiRuntime.cpp:357-361 | the increment crashes exactly when the count was below one or reaches INT32_MAX, with the "bounce from zero" message for the former; otherwise the count grows by one |
| NodeApiRuntime.DecRefCount | src/node-api-jsi/NodeApiJsiRuntime.cpp:363-371 | the decrement crashes exactly when the count was below one, and reports zero exactly when it was one |
| NodeApiRuntime.IncThenDec | src/node-api-jsi/NodeApiJsiRuntime.cpp:357-371 | a reference taken and dropped again leaves a live count as it was, not reporting zero |
| NodeApiRuntime.ReleasesSpec | src/node-api-jsi/NodeApiJsiRuntime.cpp:363-371 | of the releases of the holders of a count, exactly the last reports zero, and one release more than there are holders crashes |
| NodeApiRuntime.ReleasedCountIsZero | src/node-api-jsi/NodeApiJsiRuntime.cpp:363-376 | after as many releases as holders the last release reported zero |
| NodeApiRuntime.AddStackValue | src/node-api-jsi/NodeApiJsiRuntime.cpp:2875-2877 | addStackValue pushes the value on top, keeps the scopes, and keeps the scope stack well formed |
| NodeApiRuntime.AddStackValues | src/node-api-jsi/NodeApiJsiRuntime.cpp:2875-2877 | adding values in order appends them to the stack and keeps the scope stack well formed |
| NodeApiRuntime.PushScope | src/node-api-jsi/NodeApiJsiRuntime.cpp:2879-2881 | pushPointerValueScope records the current stack height as the new innermost mark |
| NodeApiRuntime.PopScope | src/node-api-jsi/NodeApiJsiRuntime.cpp:2883-2893 | popping crashes exactly with no scope open; otherwise it drops the innermost mark and deletes exactly the values above it, leaving the stack at the mark |
| NodeApiRuntime.ScopeRestores | src/node-api-jsi/NodeApiJsiRuntime.cpp:2875-2893 | pushing a scope, adding values and popping it deletes exactly those values and restores the state before the push |
| NodeApiRuntime.NoScopesToPop | src/node-api-jsi/NodeApiJsiRuntime.cpp:2883-2884 | a runtime without scopes is well formed and popping it crashes with "There are no scopes to pop" |
| NodeApiRuntime.NewStringKey | src/node-api-jsi/NodeApiJsiRuntime.cpp:939-946 | each constructor stores the text and the hash of that text |
| NodeApiRuntime.MoveStringKey | src/node-api-jsi/NodeApiJsiRuntime.cpp:948-954 | the moved-to key takes the kind, text and hash; the source is left with hash 0 and no text |
| NodeApiRuntime.MoveAssignStringKey | src/node-api-jsi/NodeApiJsiRuntime.cpp:956-962 | a self-move changes nothing; otherwise the target takes the source's text and hash and the source's hash becomes 0 |
| NodeApiRuntime.MoveKeepsHash | src/node-api-jsi/NodeApiJsiRuntime.cpp:948-954 | a moved key keeps its hash consistent with its text and equals the key it came from |
| NodeApiRuntime.CompareSelf | src/node-api-jsi/NodeApiJsiRuntime.cpp:976-978 | a string compares equal to itself |
| NodeApiRuntime.CompareZero | src/node-api-jsi/NodeApiJsiRuntime.cpp:976-978 | the lexicographic compare is zero exactly for equal strings |
| NodeApiRuntime.StringKeyEqualSpec | src/node-api-jsi/NodeApiJsiRuntime.cpp:972-990 | keys are equal exactly when their texts are, whichever storage they use, and equal keys hashed alike have equal hashes |
| NodeApiRuntime.EnterGuards | src/node-api-jsi/NodeApiJsiRuntime.cpp:1750-1752 | nested guards leave the innermost new value in the variable, each guard saving the value before it |
| NodeApiRuntime.GuardsRestore | src/node-api-jsi/NodeApiJsiRuntime.cpp:1750-1756 | guards restore in LIFO order: after the k innermost are gone the variable holds what the next enclosing guard set, after all of them its original value |
| OwnKeys.ReadTargetSpec | src/node-api-jsi/NodeApiJsiRuntime.cpp:2626-2648 | the target loop succeeds exactly when no key has another type and the kept keys have distinct identities, and then yields those keys; each error names its cause |
| OwnKeys.ReadTargetKeysSpec | src/node-api-jsi/NodeApiJsiRuntime.cpp:2609-2648 | with one target key or none nothing is read; otherwise the target's keys less the host-object symbol, or the error that stops the loop |
| OwnKeys.KeptDropsHostSymbol | src/node-api-jsi/NodeApiJsiRuntime.cpp:2638-2641 | the host-object symbol never survives from the target, and every other target key does |
| OwnKeys.AddHostKeys | src/node-api-jsi/NodeApiJsiRuntime.cpp:2650-2657 | host keys are appended only when their identity is new, so identities stay distinct and every host identity ends up present |
| OwnKeys.PartitionKeepsKeys | src/node-api-jsi/NodeApiJsiRuntime.cpp:2664-2680 | splitting into index keys and named keys neither loses nor adds a key |
| OwnKeys.NamedAreNotIndices | src/node-api-jsi/NodeApiJsiRuntime.cpp:2664-2680 | no named key is an array index |
| OwnKeys.SortByIndexKeys | src/node-api-jsi/NodeApiJsiRuntime.cpp:2682-2684 | sorting by index is a permutation of the index keys |
| OwnKeys.OwnKeysTrapKeys | src/node-api-jsi/NodeApiJsiRuntime.cpp:2605-2696 | the trap fails exactly on a target key of another type or a repeated identity; otherwise every key appears once, the target's less the host-object symbol, and the host's |
| OwnKeys.OwnKeysTrapOrder | src/node-api-jsi/NodeApiJsiRuntime.cpp:2659-2694 | the result is array-index keys in ascending index order followed by the named keys in collection order |
| OwnKeys.SortedKeysAscend | src/node-api-jsi/NodeApiJsiRuntime.cpp:2682-2690 | the keys written first carry the indices of the sorted table, in non-decreasing order (not strictly: keys are made unique by handle, not by text, so two keys may share an index) |
| OwnKeys.DedupRefs | src/public/NapiJsiRuntime.cpp:1707-1711 | inserting the key refs into a set keeps each new ref once and no other |
| OwnKeys.PublicOwnKeysTrap | src/public/NapiJsiRuntime.cpp:1700-1720 | the public runtime's trap returns each distinct key ref exactly once |
| UtilInl.FromCode | src/node-api/util-inl.h:127-166 | a number maps back only to an exit code that stands for it |
| UtilInl.CodesRoundTrip | src/node-api/util-inl.h:127-166 | every exit code reads back from its number, 2, 8 and 11 are unused, and Abort is 128 + SIGABRT |
| UtilInl.StaticUniquePointerCast | src/node-api/util-inl.h:179-182 | the cast leaves the source empty and the result owning what the source owned |
| UtilInl.Leave | src/node-api/util-inl.h:190-192 | the destructor calls the function once when the guard is active and not at all otherwise |
| UtilInl.MoveGuard | src/node-api/util-inl.h:196-199 | a move passes the function and the obligation to the new guard and deactivates the old one |
| UtilInl.MoveChainRunsOnce | src/node-api/util-inl.h:185-209 | however many times a guard is moved, once every guard is destroyed its function has run exactly as often as the original would have run it |
| Text.FindAtZero | src/node-api/test/testmain.cpp:42-47 | find(pat) answers 0 exactly when the text starts with pat |
| Text.LinesOfJoinLines | src/node-api/test/testmain.cpp:32-40 | reading with getline text written one piece per line gives the pieces back |
| Text.JoinLinesOfLines | src/node-api/test/testmain.cpp:32-40 | text that ends in a newline is rebuilt exactly from the lines getline reads |
| Text.LineCountIsNewlineCount | src/node-api/test/testmain.cpp:32-41 | text that ends in a newline yields as many lines as it holds newlines |
| Text.StoiOfIntToString | src/node-api/test/testmain.cpp:45-47 | std::stoi reads back what std::to_string wrote, for every int32 |
| V8Runtime.Bind | src/V8JsiRuntime.cpp:173-180 | binding keeps the count and the sample total and records the histogram flag |
| V8Runtime.BindNameSpec | src/V8JsiRuntime.cpp:173-180 | the bound name is the C string cut to 63 characters and always followed by one NUL, at most 64 bytes in all |
| V8Runtime.BindCopyStops | src/V8JsiRuntime.cpp:175-176 | the copy stops at the first NUL, at the end of the name, or after 63 characters |
| V8Runtime.AddSample | src/V8JsiRuntime.cpp:182-185 | one more sample and its value added, both modulo 2^32, with the name and kind kept |
| V8Runtime.AddSamplesCount | src/V8JsiRuntime.cpp:182-185 | below the 32-bit limit a counter counts its samples exactly |
| V8Runtime.GetNextCounter | src/V8JsiRuntime.cpp:194-198 | none when all 512 slots are in use, otherwise the next slot, and the in-use count grows by one |
| V8Runtime.SlotsHandedOut | src/V8JsiRuntime.cpp:187-198 | successive calls hand out consecutive slots from the in-use count on |
| V8Runtime.GetCounter | src/V8JsiRuntime.cpp:233-247 | a known name gives its slot without change when its histogram flag matches, and the failed `assert` exactly when it does not; an unknown one takes the next free slot, bound to the name, or none when the collection is full |
| V8Runtime.GetCounterOtherKindFails | src/V8JsiRuntime.cpp:233-247 | a name handed out as a counter and then asked for as a histogram, or the reverse, fails the assert and changes nothing |
| V8Runtime.GetCounterTwice | src/V8JsiRuntime.cpp:233-247 | asking again for a name with the same flag returns the same counter and changes nothing |
| V8Runtime.NearHeapLimit | src/V8JsiRuntime.cpp:96-105 | the new limit is 5 MiB above the current one, in size_t arithmetic |
| V8Runtime.StripUncaught | src/V8JsiRuntime.cpp:966-970 | a message with the "Uncaught Error:" prefix loses its first 16 characters; any other is kept |
| V8Runtime.StripUncaughtPrefix | src/V8JsiRuntime.cpp:966-970 | the message V8 prefixed with "Uncaught Error: " comes back as it was |
| V8Runtime.FindNewline | src/V8JsiRuntime.cpp:989-991 | a found position is a newline at or after the start position |
| V8Runtime.TrimStackIsSuffix | src/V8JsiRuntime.cpp:985-994 | whatever the message, the trimmed stack is a suffix of the stack |
| V8Runtime.NewlinesSplit | src/V8JsiRuntime.cpp:985-994 | the newlines before a position and those from it on make up all of them |
| V8Runtime.SkipNewlinesSpec | src/V8JsiRuntime.cpp:989-992 | starting at a newline with at least k more after it, the loop lands on the k-th of them |
| V8Runtime.TrimStackDropsMessageLines | src/V8JsiRuntime.cpp:985-994 | with more newlines in the stack than in the message, trimming keeps what follows the (n + 1)-th newline, n being the message's newlines |
| V8Runtime.TrimStackWithoutNewline | src/V8JsiRuntime.cpp:989-993 | a stack without a newline is kept whole, because npos + 1 wraps to 0 |
| V8Runtime.ReportException | src/V8JsiRuntime.cpp:946-1001 | with no message object only the exception text is thrown; otherwise the message without V8's prefix, always with a stack |
| V8Runtime.ReportExceptionStack | src/V8JsiRuntime.cpp:955-997 | a stack "header\nframes" comes back as the frames and the newline std::endl adds, when the header has no newline and no stack overflow is reported |
| V8Runtime.HeaderLineDropped | src/V8JsiRuntime.cpp:989-993 | the first newline of "header\nrest" ends the header, and erasing through it leaves the rest |
| V8Runtime.GCTypeToStringAsWritten | src/V8JsiRuntime.cpp:107-151 | GCTypeToString as written extends the prefix with a comma-led field |
| V8Runtime.GCTypeToString | src/V8JsiRuntime.cpp:107-151 | the corrected trace extends the prefix with a comma-led field |
| V8Runtime.GCTypeToStringNamesFlags | src/V8JsiRuntime.cpp:127-147 | the corrected trace ends with the flags' label, so the flags can be read back from it |
| V8Runtime.GCTypeToStringNamesType | src/V8JsiRuntime.cpp:107-151 | splitting the corrected trace at its commas gives back the prefix and the GC type's label, the field before the flags |
| V8Runtime.AsWrittenReportsTypeForFlags | src/V8JsiRuntime.cpp:146-148 | as written, a scavenge with flags 0 ends in "1", the type's number, where the corrected trace ends in "0" |
| V8RuntimeImpl.Destroy | src/V8JsiRuntime_impl.h:449-453 | an object proxy gives up its host object and a function proxy is left with a function that returns undefined, the kind of proxy being kept |
| V8RuntimeImpl.DestroyReleases | src/V8JsiRuntime_impl.h:449-527 | a destroyed proxy holds nothing of the embedder's, and destroying it again changes nothing |
| V8RuntimeImpl.ResetHostObject | src/V8JsiRuntime_impl.h:235-242 | the assertion fails exactly for a GC reset after a reset; the first reset destroys the proxy once, later ones leave the tracker as it was |
| V8RuntimeImpl.ResetsDestroyOnce | src/V8JsiRuntime_impl.h:233-267 | over any series of resets destroy runs once if there was a reset and never otherwise, and the assertion holds exactly when no GC reset follows an earlier reset |
| V8RuntimeImpl.LaterResetsIdle | src/V8JsiRuntime_impl.h:235-242 | once reset, further resets change nothing and the series fails exactly when one of them comes from the GC |
| V8RuntimeImpl.DestructionNeedsReset | src/V8JsiRuntime_impl.h:233-253 | the destructor's assertion fails for a tracker never reset, and after a series of resets that did not trip the reset assertion it holds exactly when there was a reset |
| V8RuntimeImpl.AddUsage | src/V8JsiRuntime_impl.h:86-97 | the platform exists afterwards when it did or the use count was zero, it is created only in that case, and the count grows by one modulo 2^32 |
| V8RuntimeImpl.ReleaseUsage | src/V8JsiRuntime_impl.h:99-110 | the count goes down by one (wrapping from zero) and the platform is never torn down |
| V8RuntimeImpl.PlatformMadeOnce | src/V8JsiRuntime_impl.h:81-123 | for any balanced order of uses and releases the platform is created at most once, exists exactly when a use was added, and firstInit holds only before the first use |
| WsFrame.BeValueOfBeBytes | src/inspector/inspector_socket.cpp:236-243 | the eight length bytes the encoder writes in network byte order read back, as the decoder reads them, to the length written |
| WsFrame.Mask | src/inspector/inspector_socket.cpp:325-329 | each payload byte is XOR-ed with the key byte at its index modulo 4, and the length is kept |
| WsFrame.MaskInvolution | src/inspector/inspector_socket.cpp:325-329 | unmasking a masked payload with the same key gives the payload back |
| WsFrame.EncodeFrame | src/inspector/inspector_socket.cpp:222-248 | a server frame is FIN plus the text opcode, the length field, then the message unchanged |
| WsFrame.EncodeFrameLengthField | src/inspector/inspector_socket.cpp:222-245 | lengths up to 125 sit in the second byte; up to 0xFFFF it holds 126 and two big-endian bytes follow; beyond that 127 and eight bytes; the mask bit is clear |
| WsFrame.ParseHeader | src/inspector/inspector_socket.cpp:255-320 | the header checks stop only with an incomplete or error outcome |
| WsFrame.Decode | src/inspector/inspector_socket.cpp:250-333 | with the corrected completeness check (header, key and payload all present; the as-written line 322 test is WsFrame.AsWrittenPayloadFits): fewer than 2 bytes is incomplete; RSV1 is reported as compressed; a frame without FIN, with RSV2 or RSV3, with another opcode than text or close, or unmasked from a client is an error; a missing length extension is incomplete; a declared length above 2^63 - 1 is an error; incomplete and error consume nothing |
| WsFrame.DecodeClientFrame | src/inspector/inspector_socket.cpp:222-333 | a masked text frame as a client builds it decodes back to its message, unflagged and consuming exactly the frame, whatever bytes follow |
| WsFrame.ClientFrameHeaderParses | src/inspector/inspector_socket.cpp:255-320 | the header of such a frame parses to the message's length, with the right header size |
| WsFrame.ClientFramePayload | src/inspector/inspector_socket.cpp:325-331 | after the header of such a frame come its key and its masked payload |
| WsFrame.AsWrittenCheckAdmitsShortFrames | src/inspector/inspector_socket.cpp:322-323 | the completeness check as written passes a 9-byte buffer that is two bytes short of a 5-byte frame, and a bare 2-byte header through size_t wrap-around, both of which the corrected decoder reports incomplete |
| WsFrame.ParseWsFrames | src/inspector/inspector_socket.cpp:406-426 | bytes are removed exactly when a text frame is delivered, never more than the buffer holds, and a close frame is answered with the close frame 0x88 0x00 |
| WsFrame.ParseWsFramesOutcome | src/inspector/inspector_socket.cpp:406-426 | a text frame is delivered unless flagged compressed; an incomplete frame waits; an error or a compressed frame ends the connection; a close frame is answered |
| WsFrame.OnDataSpec | src/inspector/inspector_socket.cpp:354-363 | OnData leaves a suffix of what arrived, every action but the last is a delivered message, and what is left does not start with a deliverable frame |
| WsFrame.OnDataDeliversClientFrames | src/inspector/inspector_socket.cpp:354-363 | a run of client text frames is delivered as its messages, in order, and leaves nothing behind |
| WsFrame.OnDataAfterMessage | src/inspector/inspector_socket.cpp:354-363 | after a delivered frame OnData goes on with the bytes that follow it, and stops when none remain |
| WsFrame.ParseClientFrame | src/inspector/inspector_socket.cpp:406-426 | a client text frame at the head of the buffer is delivered and exactly its bytes are removed |
| HarnessTasks.PostAllAppends | src/node-api/test/node_api_test.h:96-100 | posts that keep the counter below 2^32 append their tasks in order under the consecutive ids that follow the counter |
| HarnessTasks.FreshIdsIncrease | src/node-api/test/node_api_test.h:96-143 | from a new runner the ids handed out are 1, 2, 3, … in posting order, and the tasks are queued in that order |
| HarnessTasks.PostAllTasks | src/napi/test/napitest.cpp:426-430 | posting always appends, whatever the counter, so the queue holds the old tasks followed by the new |
| HarnessTasks.Without | src/node-api/test/node_api_test.h:102-107 | remove_if keeps every entry with another id, drops every entry with that id, and adds nothing |
| HarnessTasks.RemoveTask | src/napi/test/napitest.cpp:432-434 | after removal no entry has the id, every other entry is still queued, and the counter is untouched |
| HarnessTasks.WithoutAndMatching | src/node-api/test/node_api_test.h:102-107 | removal by id splits a queue into what stays and what goes, with nothing gained or lost |
| HarnessTasks.PerformConserves | src/napi/test/napitest.cpp:393-445 | the posts and clearTimeout removals one task makes lose and gain nothing: the queue and the posts are the new queue and the removed entries |
| HarnessTasks.PerformKeepsOrder | src/napi/test/napitest.cpp:426-434 | a task's posts and removals keep the relative order of the entries that stay |
| HarnessTasks.PerformFollowsActions | src/napi/test/napitest.cpp:393-434 | the tasks appended are exactly the task's posts, in order, and every entry removed carries an id a removal named |
| HarnessTasks.WithoutAppend | src/node-api/test/node_api_test.h:102-107 | removal by id distributes over the concatenation of two queues |
| HarnessTasks.PostThenRemove | src/napi/test/napitest.cpp:426-434 | removing a task by the id its post returned gives back the queue from before the post, when that id was not already queued |
| HarnessTasks.DrainTaskQueue | src/node-api/test/node_api_test.h:96-116 | a drain runs at most `fuel` tasks; a task that throws (each task ends in a checked JS call, node_api_test.cpp lines 765-774 and the napi drain loop) is the last to run and the drain reports it, leaving the rest of the queue in place, and a drain in which no task threw and that stops before its bound has emptied the queue; the tasks queued at the start together with those posted while draining are exactly the tasks that ran, those left and those removed by id, as a multiset; the tasks that ran followed by those left keep the order of the queue followed by the posts (removals drop entries but never reorder them); and the tasks posted are exactly the posts the tasks that ran made, in the order they ran |
| HarnessTasks.ThrowLeavesRest | src/napi/test/napitest.cpp:436-445 | a first task that throws without posting anything is the only one to run: the drain reports the exception and the rest of the queue is left as it was |
| HarnessTasks.DrainIsFifo | src/node-api/test/node_api_test.h:109-116 | when no entry was removed, the tasks that ran followed by those left are exactly the queue followed by the posted tasks, so the tasks that ran are a prefix of that sequence; a drain allowed to run at least as many tasks as were queued, in which no task threw, runs the queued ones first, in queue order |
| HarnessTasks.RunWrapper | src/node-api/test/node_api_test.h:118-135 | the posted wrapper calls the run callback when there is one and then the delete callback when there is one, each with its task data |
| HarnessTasks.OpenTestEnvScope | src/node-api/test/node_api_test.h:220-223 | the scope exists exactly when opening succeeded, and it holds the env and the scope opened |
| HarnessTasks.DestroyEnvScope | src/node-api/test/node_api_test.h:225-229 | the destructor closes the scope once when the env is set and does nothing otherwise |
| HarnessTasks.EnvScopeClosesOnce | src/node-api/test/node_api_test.h:231-242 | for `MoveEnvScope` and `MoveAssignEnvScope`: a moved-from scope closes nothing and the moved-to one closes what the original would have; a move assignment closes the old scope once, so across all destructors each scope is closed exactly once |
| HarnessTasks.Catch | src/napi/test/napitest.cpp:592-594 | Catch installs a handler and leaves the throw requirement and the error name alone |
| HarnessTasks.Throws | src/napi/test/napitest.cpp:596-607 | Throws installs a handler and requires an exception; only the named form sets the error name |
| HarnessTasks.Judge | src/napi/test/napitest.cpp:520-590 | the handler is called exactly for a NapiTestException without error info or with the expected name; the test passes exactly when nothing was thrown and nothing was required; a missing required exception fails with its own title |
| HarnessTasks.ThrowsVersusCatch | src/napi/test/napitest.cpp:520-607 | Throws makes a body that does not throw fail and Catch lets it pass; a plain Catch handles a JS error only when its name is empty; Throws with a name handles an error of that name |
| HarnessText.ReplaceAll | src/node-api/test/node_api_test.cpp:36-48 | an empty pattern leaves the string alone; otherwise every occurrence found scanning left to right, resuming after the text put in, is replaced, which is the reference replacement |
| HarnessText.ReplacedNoMatch | src/node-api/test/node_api_test.cpp:41-47 | a string without the pattern comes through unchanged |
| HarnessText.ReplacedAtMatch | src/node-api/test/node_api_test.cpp:41-47 | a string starting with the pattern gets the replacement for it, and the search resumes after the pattern |
| HarnessText.DoubleBackslashes | src/node-api/test/node_api_test.cpp:68-72 | escaping a path grows it by one character per backslash |
| HarnessText.EscapedPathReadsBack | src/node-api/test/node_api_test.cpp:62-73 | replacing each backslash with two is the escape, and a JavaScript string literal reads the escaped path back as the path |
| HarnessText.SrcFilePathMapsBuildPath | src/node-api/test/node_api_test.cpp:94-102 | in `UseSrcFilePath`, a path made of a prefix without the letter 'b', the build directory and any suffix has that occurrence replaced by "src" and the rest kept; a path without the build directory is kept |
| HarnessText.PrefixLineCounts | src/node-api/test/node_api_test.cpp:53-60 | the number of newlines in each harness' module prefix (six for node-api, four for napi, the napi one at src/napi/test/napitest.cpp:32-40) is its number of lines, so module line n is script line n plus that count |
| HarnessText.ModuleTextLayout | src/node-api/test/node_api_test.cpp:50-73 | the module text built by `ModuleText` is the prefix, the code unchanged, then the suffix with the escaped file name and directory, which the script reads back as the original paths |
| HarnessText.NapiModuleTextLayout | src/napi/test/napitest.cpp:32-48 | the napi module text is its prefix, the code unchanged, then its suffix |
| HarnessText.Window | src/node-api/test/node_api_test.cpp:970-988 | the window holds the lines from max(1, lineIndex - extra) to min(n, lineIndex + extra), and no line when that range is empty |
| HarnessText.SourceSlice | src/napi/test/napitest.cpp:609-627 | the loop that reads the script plus a newline line by line produces exactly the reference window, one shown line per output line |
| HarnessText.WindowCentred | src/node-api/test/node_api_test.cpp:970-988 | for a line inside the script the window shows up to `extra` lines on each side, only the failing line marked "===> " and the others indented five spaces |
| HarnessText.FirstAssertFrame | src/node-api/test/node_api_test.cpp:836-842 | the assert frame found is the first frame holding "<method> (" right after a '.' or a space, or no frame holds it |
| HarnessText.ProcessedFrames | src/node-api/test/node_api_test.cpp:795-845 | of the stack's lines (what `ProcessStack` splits off), without the message line and the root call: with no assert frame nothing is printed; otherwise every frame after the first assert frame is printed, in order, each as rewritten when the rewrite is non-empty and as it was otherwise |
| HarnessText.DropLeadingOptionsShape | src/node-api/test/node_api_test.cpp:229-236 | exactly the leading run of "--" options is dropped: what is kept is a suffix, everything before it is an option, and it starts with a non-option if it is not empty |
| HarnessText.EvaluateArgs | src/node-api/test/node_api_test.cpp:220-245 | as written: fewer than two arguments give the usage error; a command line made only of options goes on to read `args[1]` past the end of a one-element vector; otherwise the program name followed by the arguments from the first non-option on, which starts with the script path |
| HarnessText.EvaluateArgsIntended | src/node-api/test/node_api_test.cpp:220-245 | the corrected handling: the usage error exactly when no argument after the program name is a non-option, so `args[1]` always exists and is the first non-option |
| HarnessText.EvaluateArgsIntendedAgrees | src/node-api/test/node_api_test.cpp:220-245 | the as-written and corrected handling differ exactly on a command line of two or more arguments that are all options |
| HarnessText.AsWrittenReadsPastArguments | src/node-api/test/node_api_test.cpp:229-245 | "prog --x" reads the script path past the end as written, and gets the usage error when corrected |
| HarnessText.KeepArguments | src/node-api/test/node_api_test.cpp:229-236 | the loop keeps the program name and the arguments from the first non-option on, options after it included |
| HarnessText.FormatExitMessage | src/node-api/test/node_api_test.cpp:952-968 | the exit code is 1 and the text ends with the newline std::endl writes |
| HarnessText.HandleAtProcessExit | src/node-api/test/node_api_test.cpp:869-944 | the process exits with 0 exactly when the test raised no exception |
| HarnessText.StripCarriageReturn | src/node-api/test/testmain.cpp:36-38 | a line loses at most one trailing carriage return and nothing else |
| HarnessText.TestBody | src/node-api/test/testmain.cpp:25-62 | status 0 passes and nothing else does; a report needs three stderr lines and takes its message from the third |
| HarnessText.ExitMessageRoundTrip | src/node-api/test/testmain.cpp:25-62 | what the child's exit handler writes the fixture reads back as the same file, line and message, the details ended by a newline; a child without an exception passes |
| HarnessText.SanitizeNameProperties | src/node-api/test/testmain.cpp:69-73 | sanitising only touches dashes, works piecewise, and is idempotent; a name without dashes is kept |
| HarnessText.TestNamesShape | src/node-api/test/testmain.cpp:75-87 | the test name is the sanitised parent, a '/', and the sanitised file name; neither the suite nor the test name holds a dash; the suite keeps its length |

## Left out

- Calls into V8 and Node-API are not modelled. This covers script compilation and execution, the heap snapshot writer, `ToWordsArray` and property enumeration. Their results are parameters, and engine values are opaque ids.
- The HTTP parser (`llhttp`) is not modelled. `Http.HandleData` takes the sequence of callbacks it would make as input and carries no contract.
- Sockets, TCP, `uv` handles, threads, mutexes and atomics are not modelled. Every operation is modelled as one sequential step, so locking is out of scope.
- The harnesses' child processes and GoogleTest registration are not modelled. `spawnSync` becomes the child's exit status and stderr text.
- The regular expression and script lookup in `ProcessStack` are the `rewrite` parameter of `HarnessText.ProcessedFrames`.
- `HarnessText.ModuleText` takes the parent directory as a parameter, because `std::filesystem::path::parent_path` is not modelled.
- `HarnessText.Window` uses unbounded integers for `lineIndex + extraLineCount`. The source computes it in `int32_t`, but callers pass small values.
- `ProcessStack` reads `frame[pos - 1]` even when the pattern is at index 0, which is out of bounds. `HarnessText.IsAssertFrame` treats that case as "not an assert frame".
- A failing `std::stoi` in the test fixture throws. The model returns the outcome `ParseThrew` instead.
- `NodeApiEnv.DrainFinalizerQueue` takes pending trackers from the front of a sequence. The source takes `*begin()` of an `std::unordered_set`, whose order is unspecified; no contract depends on the order.
- `NodeApiEnv.DrainFinalizerQueue` models what a finalizer's user code does as the `effect` parameter: the references it deletes and the trackers it queues. That a deleted reference leaves the pending set follows the comment at src/node-api/v8_api.cpp:256-258; the code that unlinks it (js_native_api_v8.h) is not part of this model.
- `HarnessTasks.DrainTaskQueue` bounds the number of tasks run with `fuel`, because a task may post tasks forever. Its contract and DrainIsFifo hold for every fuel value, and a drain that stops before its fuel runs out has emptied the queue unless a task threw.
- `BigIntText.BigIntToStringAsWritten` bounds its loop with `fuel`, because the pass as written need not make progress. Its outcome `NoVerdict` means the fuel ran out.
- Process crashes (`CRASH_IF_FALSE`, failed `assert`, `std::abort`, exit code 134) are modelled as explicit outcomes, never as real termination. A failed `assert` is the debug build's behaviour; under `NDEBUG` the check is compiled out and the call goes on, which is not modelled.
- `arraysize` and `strsize` (src/node-api/util-inl.h:170-178) are compile-time constants, the element count of an array and one less; they carry no behaviour beyond that, so they are not modelled.
- `std::map` and `std::list` containers are modelled as sequences. The header map of `HttpHandler` keeps arrival order instead of key order. `HeaderValue` depends only on how many keys match, so the result is the same.
- `Murmur.MurmurHash` requires `|key| <= INT32_MAX`. The source truncates `size_t` to `int`, and the 2 GiB wrap is not modelled.
- `Murmur.MurmurHashAscii` computes the ASCII flag in a separate pass over the blocks and the tail. The source computes it inside the hash loop; the flag is the same.
- `InspectorUtils.Utf16ToUtf8MatchesLength` requires `3 * |units| < 2^32`. The source's length is `size_t`, and lengths that overflow it are not modelled.
- The numeric values of `napi_status` are not modelled. Statuses are an enumeration, and only their identity matters to the code modelled.
- The `napi_env__` reference count of the Node-API runtime is modelled only as far as finalization and module-env removal use it.
- `V8RuntimeImpl.IsEqual` is a plain comparison of the tracker's proxy with the one given, and has no contract. The `Counter` accessors (`ptr`, `count`, `sample_total`, `is_histogram`) are the field selectors of `V8Runtime.Counter`.
- `operator|` on `napi_property_attributes` in src/node-api/test/node_api_test.h is a bitwise or of two enumerators, and is not modelled.
- `NapiV8Api.TryGetPreparedScriptAlways` and `NapiV8Api.DrainMicrotasksUnwritten` are defined and compared with their Node-API counterparts in `NapiV8Api.PreparedScriptVariants` and `NapiV8Api.DrainMicrotasksVariants`. Their own contracts would only repeat their bodies, so they have none.

## Findings

| source | as written | input that shows it | evidently intended | confidence | as-written member | corrected member |
|---|---|---|---|---|---|---|
| src/inspector/inspector_socket.cpp:322-323 | the completeness check compares `buffer.size() - 4` with the payload length. It leaves out the 2, 4 or 10 header bytes, and the subtraction wraps for buffers under 4 bytes | the 9-byte client frame `81 85 k0 k1 k2 k3 p0 p1 p2` declares 5 payload bytes but holds 3, and passes the check. So does the bare header `81 80` | a frame is complete only when header, key and payload are all in the buffer; otherwise the result is FRAME_INCOMPLETE | high; not executed | WsFrame.AsWrittenCheckAdmitsShortFrames | WsFrame.DecodeClientFrame |
| src/inspector/inspector_agent.cpp:623-628 | `find_last_of(…, found - 1)` with `found == 0` searches from `npos`, i.e. the whole string, and finds the same separator again | the URL "/a/b" contributes "...b" | a separator at index 0 is the last one to find, so "/a/b" (two separators) contributes ".../a/b" | high; not executed | InspectorAgent.UrlSuffixAsWrittenLosesSegments | InspectorAgent.UrlSuffixSpec |
| src/node-api-jsi/NodeApiJsiRuntime.cpp:1337-1362 | the long-division pass reads `halfWords[i - 1]` but stores the quotient digit at `halfWords[i]`. It also re-reads `word0` from the buffer as soon as `count` drops to 2 | 2^64 (words [0, 1]) in radix 10 prints "6" | the digits of the whole magnitude: "18446744073709551616" | medium; not executed | BigIntText.AsWrittenPrintsTwoTo64Wrongly | BigIntText.BigIntToStringRoundTrip |
| src/V8JsiRuntime.cpp:145-147 | the default case of the flags switch appends the GC type's number | a scavenge with flags 0 is traced as ",Scavenge ,1" | the flags' number: ",Scavenge ,0" | high; not executed | V8Runtime.AsWrittenReportsTypeForFlags | V8Runtime.GCTypeToStringNamesFlags |
| src/inspector/inspector_agent.cpp:262-265 | while waiting for the frontend, the agent keeps waiting only when the message contains "Runtime.runIfWaitingForDebugger" (`!= npos`), so the request to run is the one message that cannot end the wait | a waiting agent that receives "Runtime.enable" stops waiting, and one that receives "Runtime.runIfWaitingForDebugger" keeps waiting | the wait loop at line 408 runs until the frontend asks to run: waiting ends exactly when the message contains "Runtime.runIfWaitingForDebugger" (`== npos` keeps waiting) | medium; not executed | InspectorAgent.AsWrittenStopsWaitingEarly | InspectorAgent.IntendedWaitsUntilAskedToRun |
| src/node-api/v8_api.cpp:116-139 | characters that fit the put area bypass `overflow()` and are not counted; the area ends one character before the buffer's end | "abc" into a 10-character buffer reports length 0 and puts the NUL over 'a'. "abcd" into a 3-character buffer succeeds, with one character stored past the end | the required length is the snapshot's; a buffer with room gets the snapshot and a NUL; a buffer without room is an argument error | high; not executed | NodeApiEnv.AsWrittenLosesShortSnapshot | NodeApiEnv.HeapSnapshotToString |
| src/napi/v8_api.cpp:213-230 | `createPreparedScript` has no return statement after its checks pass | any call with an exception not pending, script data, a source URL and a result pointer: the caller reads an indeterminate status | return the call's status, napi_ok or napi_pending_exception, as the Node-API runtime's copy at src/node-api/v8_api.cpp:401-419 does | high; not executed | NapiV8Api.PreparedScriptMissingStatus | NapiV8Api.CreatePreparedScript |
| src/node-api/test/node_api_test.cpp:226-245 | the usage check `argc < 2` runs before the options are filtered out, and `args[1]` is then read unconditionally | the command line "prog --x" passes the check, leaves `args` holding only "prog", and reads `args[1]` past its end | report the usage error when no argument after the options names a script | high; not executed | HarnessText.AsWrittenReadsPastArguments | HarnessText.EvaluateArgsIntended |

=== FILE: api_loader.dfy ===
/**
 * The delay-loaded function table of the Node-API JSI loader
 * (src/node-api-jsi/ApiLoaders/NodeApi.h and JSRuntimeApi.cpp). Each API
 * function has a slot in the table that starts out holding a stub; the
 * first call through the slot resolves the function by name, stores it in
 * the slot and calls it, and later calls go through the slot directly.
 * Function pointers are opaque ids; the engine library's lookup is the
 * `resolve` parameter, None for a null pointer.
 */
module ApiLoader {
  import opened Wrappers

  /** What a slot holds: one of the three stubs, or a stored function pointer (None for null). */
  datatype Slot =
    | Stub
    | OptionalStub(fallback: nat)
    | PreloadStub
    | Stored(fn: Option<nat>)

  /**
   * The function names the JSRuntimeApi table knows, by how they are
   * resolved: plain JSR functions, JSI-support functions that have a
   * default, and the prepared-script functions loaded together.
   */
  datatype Names = Names(plain: set<string>, jsi: set<string>, prepared: set<string>)

  predicate Disjoint(n: Names) {
    n.plain !! n.jsi && n.plain !! n.prepared && n.jsi !! n.prepared
  }

  function AllNames(n: Names): set<string> {
    n.plain + n.jsi + n.prepared
  }

  /**
   * The JSRuntimeApi constructor: plain functions start as `stub`, JSI
   * functions as `optionalStub` with their `default_` function, and
   * prepared-script functions as `preloadStub`.
   */
  function InitialTable(n: Names, defaultOf: string -> nat): (t: map<string, Slot>)
    requires Disjoint(n)
    ensures t.Keys == AllNames(n)
    ensures forall f :: f in n.plain ==> t[f] == Stub
    ensures forall f :: f in n.jsi ==> t[f] == OptionalStub(defaultOf(f))
    ensures forall f :: f in n.prepared ==> t[f] == PreloadStub
  {
    map f | f in AllNames(n) ::
      if f in n.plain then Stub else if f in n.jsi then OptionalStub(defaultOf(f)) else PreloadStub
  }

  /** Some prepared-script function failed to resolve. */
  predicate AnyMissing(prepared: set<string>, resolve: string -> Option<nat>) {
    exists f :: f in prepared && resolve(f).None?
  }

  /**
   * loadPreparedScriptFuncs: every prepared-script slot gets the loaded
   * function, or, when any of them failed to load, every one gets its
   * default; the other slots are untouched.
   */
  function LoadPreparedScriptFuncs(
    t: map<string, Slot>, prepared: set<string>, resolve: string -> Option<nat>, defaultOf: string -> nat): (r: map<string, Slot>)
    ensures r.Keys == t.Keys + prepared
    ensures forall f :: f in t && f !in prepared ==> r[f] == t[f]
  {
    var useDefault := AnyMissing(prepared, resolve);
    t + map f | f in prepared :: Stored(Some(if useDefault then defaultOf(f) else resolve(f).value))
  }

  /**
   * The prepared-script slots are never mixed: they all hold the loaded
   * functions or all hold the defaults, and the defaults exactly when some
   * prepared-script function failed to resolve.
   */
  lemma {:induction false} PreparedAllOrNothing(
    t: map<string, Slot>, prepared: set<string>, resolve: string -> Option<nat>, defaultOf: string -> nat)
    ensures var r := LoadPreparedScriptFuncs(t, prepared, resolve, defaultOf);
      && (AnyMissing(prepared, resolve) ==> forall f :: f in prepared ==> r[f] == Stored(Some(defaultOf(f))))
      && (!AnyMissing(prepared, resolve) ==> forall f :: f in prepared ==> r[f] == Stored(resolve(f)))
  {
    var r := LoadPreparedScriptFuncs(t, prepared, resolve, defaultOf);
    if !AnyMissing(prepared, resolve) {
      forall f | f in prepared
        ensures r[f] == Stored(resolve(f))
      {
        assert resolve(f).Some?;
      }
    }
  }

  /** A call through a slot: the table afterwards and the function the call reached (None for a null pointer). */
  datatype Called = Called(table: map<string, Slot>, invoked: Option<nat>)

  /**
   * Calling the function `name` through its slot. `stub` stores the
   * resolved pointer, null or not, and calls it; `optionalStub` stores and
   * calls the fallback when resolution gives null; `preloadStub` loads all
   * prepared-script functions and then calls what the slot holds; a
   * stored pointer is called directly.
   */
  function CallThrough(
    t: map<string, Slot>, name: string, prepared: set<string>,
    resolve: string -> Option<nat>, defaultOf: string -> nat): (r: Called)
    requires name in t
    requires t[name] == PreloadStub ==> name in prepared
    ensures r.table.Keys == t.Keys + (if t[name] == PreloadStub then prepared else {})
    ensures r.table[name].Stored?
    ensures r.invoked == r.table[name].fn
  {
    match t[name]
    case Stub =>
      var f := resolve(name);
      Called(t[name := Stored(f)], f)
    case OptionalStub(fallback) =>
      var f := if resolve(name).None? then fallback else resolve(name).value;
      Called(t[name := Stored(Some(f))], Some(f))
    case PreloadStub =>
      var loaded := LoadPreparedScriptFuncs(t, prepared, resolve, defaultOf);
      Called(loaded, loaded[name].fn)
    case Stored(f) => Called(t, f)
  }

  /**
   * The first call of a JSR function resolves it by name and stores the
   * result; an optional one falls back to its default; later calls, with
   * whatever the library would now answer, reach the same function and
   * leave the table as it is.
   */
  lemma {:induction false} StubResolvesOnce(
    t: map<string, Slot>, name: string, prepared: set<string>,
    resolve: string -> Option<nat>, later: string -> Option<nat>, defaultOf: string -> nat)
    requires name in t && (t[name] == PreloadStub ==> name in prepared)
    ensures t[name] == Stub ==> CallThrough(t, name, prepared, resolve, defaultOf).invoked == resolve(name)
    ensures t[name].OptionalStub? ==>
      CallThrough(t, name, prepared, resolve, defaultOf).invoked
        == Some(if resolve(name).None? then t[name].fallback else resolve(name).value)
    ensures var first := CallThrough(t, name, prepared, resolve, defaultOf);
      var second := CallThrough(first.table, name, prepared, later, defaultOf);
      second.invoked == first.invoked && second.table == first.table
  {
  }

  /**
   * Whichever prepared-script function is called first, afterwards every
   * prepared-script slot holds a function of the same origin: all loaded,
   * or all defaults when some failed to load.
   */
  lemma {:induction false} FirstPreparedCallLoadsAll(
    n: Names, name: string, resolve: string -> Option<nat>, defaultOf: string -> nat)
    requires Disjoint(n) && name in n.prepared
    ensures var c := CallThrough(InitialTable(n, defaultOf), name, n.prepared, resolve, defaultOf);
      && (AnyMissing(n.prepared, resolve) ==>
            c.invoked == Some(defaultOf(name)) && forall f :: f in n.prepared ==> c.table[f] == Stored(Some(defaultOf(f))))
      && (!AnyMissing(n.prepared, resolve) ==>
            c.invoked == resolve(name) && forall f :: f in n.prepared ==> c.table[f] == Stored(resolve(f)))
      && (forall f :: f in AllNames(n) && f !in n.prepared ==> c.table[f] == InitialTable(n, defaultOf)[f])
  {
    PreparedAllOrNothing(InitialTable(n, defaultOf), n.prepared, resolve, defaultOf);
  }

  // ---------------------------------------------------------------------
  // NodeApi::Scope
  // ---------------------------------------------------------------------

  /**
   * The thread's current NodeApi (an opaque id, None for null) and the
   * previous value each live Scope object saved, innermost last.
   */
  datatype ApiScopes = ApiScopes(current: Option<nat>, saved: seq<Option<nat>>)

  /** The Scope destructor: the innermost scope puts back the value it saved. */
  function LeaveScope(s: ApiScopes): (r: ApiScopes)
    requires s.saved != []
    ensures r.current == s.saved[|s.saved| - 1]
    ensures r.saved == s.saved[..|s.saved| - 1]
  {
    ApiScopes(s.saved[|s.saved| - 1], s.saved[..|s.saved| - 1])
  }

  /** The Scope constructor: remember the current NodeApi and make `api` current. */
  function EnterScope(s: ApiScopes, api: Option<nat>): (r: ApiScopes)
    ensures r.current == api && |r.saved| == |s.saved| + 1
    ensures LeaveScope(r) == s
  {
    ApiScopes(api, s.saved + [s.current])
  }

  /** NodeApi scopes opened one inside the other, outermost first. */
  function EnterScopes(s: ApiScopes, apis: seq<Option<nat>>): (r: ApiScopes)
    ensures |r.saved| == |s.saved| + |apis|
    decreases |apis|
  {
    if apis == [] then s else EnterScopes(EnterScope(s, apis[0]), apis[1..])
  }

  /** The `n` innermost scopes closing, innermost first. */
  function LeaveScopes(s: ApiScopes, n: nat): (r: ApiScopes)
    requires n <= |s.saved|
    ensures |r.saved| == |s.saved| - n
  {
    if n == 0 then s else LeaveScope(LeaveScopes(s, n - 1))
  }

  /**
   * Nested scopes: inside all of them the innermost scope's NodeApi is
   * current, and once they have all closed the thread is back where it
   * started, whatever was current before.
   */
  lemma {:induction false} NestedApiScopesRestore(s: ApiScopes, apis: seq<Option<nat>>)
    ensures apis != [] ==> EnterScopes(s, apis).current == apis[|apis| - 1]
    ensures LeaveScopes(EnterScopes(s, apis), |apis|) == s
    decreases |apis|
  {
    if apis != [] {
      var inner := EnterScope(s, apis[0]);
      NestedApiScopesRestore(inner, apis[1..]);
      var e := EnterScopes(inner, apis[1..]);
      assert LeaveScopes(e, |apis|) == LeaveScope(LeaveScopes(e, |apis| - 1));
      assert |apis[1..]| == |apis| - 1;
      if |apis| > 1 {
        assert apis[1..][|apis[1..]| - 1] == apis[|apis| - 1];
      }
    }
  }
}

=== FILE: array_index.dfy ===
/**
 * toArrayIndex (src/node-api-jsi/NodeApiJsiRuntime.cpp): recognise the
 * property keys that are array indices in the sense of section 6.1.7 of
 * ECMA-262, the canonical decimal strings of the integers 0 .. 2^32 - 2.
 */
module ArrayIndex {
  import opened Wrappers
  import opened Text

  const MAX_ARRAY_INDEX_EXCLUSIVE: nat := 0xFFFF_FFFF

  /**
   * The do-while loop from index `i`, with `res` the value read so far: a
   * non-digit gives none, so does a value that needs more than 32 bits,
   * and at the end 0xFFFFFFFF is refused.
   */
  function ParseDigits(s: string, i: nat, res: uint32): Option<uint32>
    requires i < |s|
    decreases |s| - i
  {
    if !IsDigit(s[i]) then None
    else
      var tmp := res * 10 + (s[i] as int - '0' as int);
      if tmp >= UINT32_LIMIT then None
      else if i + 1 == |s| then (if tmp == MAX_ARRAY_INDEX_EXCLUSIVE then None else Some(tmp))
      else ParseDigits(s, i + 1, tmp)
  }

  /** toArrayIndex: "" gives none, "0" gives 0, any other leading '0' gives none. */
  function ToArrayIndex(s: string): (r: Option<uint32>)
    ensures s == [] ==> r.None?
    ensures s == "0" ==> r == Some(0)
    ensures |s| > 1 && s[0] == '0' ==> r.None?
  {
    if s == [] then None
    else if s[0] == '0' then (if |s| == 1 then Some(0) else None)
    else ParseDigits(s, 0, 0)
  }

  predicate AllDigits(s: string) {
    forall k :: 0 <= k < |s| ==> IsDigit(s[k])
  }

  /** A canonical decimal numeral: digits only, and no leading zero unless it is "0". */
  predicate Canonical(s: string) {
    |s| > 0 && AllDigits(s) && (s[0] != '0' || |s| == 1)
  }

  /** Reading more digits never makes the value smaller. */
  lemma {:induction false} DigitsValuePrefix(s: string, j: nat)
    requires AllDigits(s) && j <= |s|
    ensures DigitsValue(s[..j]) <= DigitsValue(s)
    decreases |s| - j
  {
    if j < |s| {
      DigitsValuePrefix(s, j + 1);
      assert s[..j + 1][..j] == s[..j];
    } else {
      assert s[..j] == s;
    }
  }

  lemma {:induction false} ParseDigitsSpec(s: string, i: nat, res: uint32)
    requires i < |s| && AllDigits(s[..i]) && res == DigitsValue(s[..i])
    ensures ParseDigits(s, i, res) ==
      if AllDigits(s) && DigitsValue(s) < MAX_ARRAY_INDEX_EXCLUSIVE then Some(DigitsValue(s)) else None
    decreases |s| - i
  {
    if !IsDigit(s[i]) {
      assert !AllDigits(s);
    } else {
      var next := s[..i + 1];
      assert next[..i] == s[..i];
      assert AllDigits(next);
      assert DigitsValue(next) == res * 10 + (s[i] as int - '0' as int);
      var tmp := DigitsValue(next);
      if tmp >= UINT32_LIMIT {
        if AllDigits(s) {
          DigitsValuePrefix(s, i + 1);
        }
      } else if i + 1 == |s| {
        assert next == s;
      } else {
        ParseDigitsSpec(s, i + 1, tmp);
      }
    }
  }

  /**
   * toArrayIndex gives a value exactly for the canonical numerals below
   * 0xFFFFFFFF, and that value is the numeral's.
   */
  lemma {:induction false} ToArrayIndexSpec(s: string)
    ensures ToArrayIndex(s) ==
      if Canonical(s) && DigitsValue(s) < MAX_ARRAY_INDEX_EXCLUSIVE then Some(DigitsValue(s)) else None
  {
    if s != [] && s[0] != '0' {
      assert s[..0] == [];
      ParseDigitsSpec(s, 0, 0);
    } else if s == "0" {
      assert DigitsValue(s) == DigitsValue(s[..0]) * 10 + 0;
    }
  }

  lemma {:induction false} NatDigitsNoLeadingZero(n: nat)
    ensures NatDigits(n)[0] != '0' || n == 0
  {
    if n >= 10 {
      NatDigitsNoLeadingZero(n / 10);
    }
  }

  /** A canonical numeral other than "0" has a positive value. */
  lemma {:induction false} CanonicalPositive(s: string)
    requires Canonical(s) && s[0] != '0'
    ensures DigitsValue(s) >= 1
    decreases |s|
  {
    if |s| > 1 {
      var init := s[..|s| - 1];
      assert init[0] == s[0];
      CanonicalPositive(init);
    }
  }

  /** Printing the value of a canonical numeral gives the numeral back. */
  lemma {:induction false} NatDigitsOfDigitsValue(s: string)
    requires Canonical(s)
    ensures NatDigits(DigitsValue(s)) == s
    decreases |s|
  {
    if |s| == 1 {
      assert DigitsValue(s) == DigitsValue(s[..0]) * 10 + (s[0] as int - '0' as int);
    } else {
      var init := s[..|s| - 1];
      assert init[0] == s[0];
      CanonicalPositive(init);
      NatDigitsOfDigitsValue(init);
      var v := DigitsValue(s);
      assert v == DigitsValue(init) * 10 + (s[|s| - 1] as int - '0' as int);
      assert v / 10 == DigitsValue(init) && v % 10 == s[|s| - 1] as int - '0' as int;
      assert s == init + [s[|s| - 1]];
    }
  }

  /** Every array index is recognised from its decimal text. */
  lemma {:induction false} ToArrayIndexOfNumeral(n: nat)
    requires n < MAX_ARRAY_INDEX_EXCLUSIVE
    ensures ToArrayIndex(NatDigits(n)) == Some(n)
  {
    NatDigitsNoLeadingZero(n);
    DigitsValueOfNatDigits(n);
    ToArrayIndexSpec(NatDigits(n));
  }

  /** Whatever toArrayIndex accepts is the decimal text of the index it returns. */
  lemma {:induction false} ToArrayIndexIsNumeral(s: string)
    requires ToArrayIndex(s).Some?
    ensures NatDigits(ToArrayIndex(s).value) == s
  {
    ToArrayIndexSpec(s);
    NatDigitsOfDigitsValue(s);
  }
}

=== FILE: bigint_string.dfy ===
/**
 * BigInt printing (bigintToString in src/node-api-jsi/NodeApiJsiRuntime.cpp,
 * with the same logic in src/V8JsiRuntime.cpp): the magnitude arrives as
 * little-endian 64-bit words plus a sign bit and is printed in a radix
 * between 2 and 36 with lower-case letters for digits above 9, as
 * section 21.2.3.3 of ECMA-262 (BigInt.prototype.toString) asks.
 */
module BigIntText {
  import opened Wrappers
  import opened Bits

  const HALF: nat := 0x1_0000_0000

  /** Hi_32: the upper 32 bits of a 64-bit value. */
  function Hi32(v: uint64): uint32 {
    v / HALF
  }

  /** Lo_32: the truncating cast to 32 bits. */
  function Lo32(v: uint64): uint32 {
    v % HALF
  }

  /** Make_64: `(High << 32) | Low`; the two fields do not overlap, so the OR is a sum. */
  function Make64(high: uint32, low: uint32): (r: uint64)
    ensures r == high * HALF + low
  {
    assert high * HALF <= 0xFFFF_FFFF * HALF;
    high * HALF + low
  }

  lemma {:induction false} Make64OfHalves(v: uint64)
    ensures Make64(Hi32(v), Lo32(v)) == v
  {
  }

  lemma {:induction false} HalvesOfMake64(high: uint32, low: uint32)
    ensures Hi32(Make64(high, low)) == high
    ensures Lo32(Make64(high, low)) == low
  {
    var v := Make64(high, low);
    assert v == high * HALF + low;
  }

  // ---------------------------------------------------------------------
  // Reference: numbers, digit strings and their values
  // ---------------------------------------------------------------------

  /** The weight of the n-th 32-bit halfword. */
  function PowHalf(n: nat): nat {
    if n == 0 then 1 else HALF * PowHalf(n - 1)
  }

  /** The n-th halfword weighs 2 to the power 32 * n. */
  lemma {:induction false} PowHalfIsPow2(n: nat)
    ensures PowHalf(n) == Pow2(32 * n)
  {
    if n > 0 {
      PowHalfIsPow2(n - 1);
      Pow2Add(32, 32 * (n - 1));
      Pow2Of32();
    }
  }

  lemma {:induction false} Pow2Add(a: nat, b: nat)
    ensures Pow2(a + b) == Pow2(a) * Pow2(b)
    decreases a
  {
    if a > 0 {
      Pow2Add(a - 1, b);
      assert Pow2(a + b) == 2 * Pow2(a - 1 + b);
      assert 2 * (Pow2(a - 1) * Pow2(b)) == (2 * Pow2(a - 1)) * Pow2(b);
    }
  }

  lemma {:induction false} Pow2Of32()
    ensures Pow2(32) == HALF
  {
    assert Pow2(1) == 2;
    Pow2Add(1, 1);
    Pow2Add(2, 2);
    Pow2Add(4, 4);
    Pow2Add(8, 8);
    Pow2Add(16, 16);
  }

  /** The number held by little-endian 32-bit halfwords. */
  function HalfValue(h: seq<uint32>): nat {
    if h == [] then 0 else HalfValue(h[..|h| - 1]) + h[|h| - 1] * PowHalf(|h| - 1)
  }

  /** The magnitude held by little-endian 64-bit words. */
  function Magnitude(words: seq<uint64>): nat {
    if words == [] then 0
    else Magnitude(words[..|words| - 1]) + words[|words| - 1] * PowHalf(2 * (|words| - 1))
  }

  /** The character for digit `x`: '0'..'9', then 'a'..'z'. */
  function RadixChar(x: nat): char
    requires x < 36
  {
    if x < 10 then ('0' as int + x) as char else ('a' as int + x - 10) as char
  }

  /** Reading a digit character back; anything but '0'..'9' and 'a'..'z' is none. */
  function CharDigit(c: char): (r: Option<nat>)
    ensures r.Some? ==> r.value < 36
  {
    if '0' <= c <= '9' then Some(c as int - '0' as int)
    else if 'a' <= c <= 'z' then Some(c as int - 'a' as int + 10)
    else None
  }

  lemma {:induction false} CharDigitOfRadixChar(x: nat)
    requires x < 36
    ensures CharDigit(RadixChar(x)) == Some(x)
  {
  }

  /** The canonical digits of `n` in radix `d`, most significant first. */
  function RadixDigits(n: nat, d: nat): (s: string)
    requires 2 <= d <= 36
    ensures |s| > 0
    decreases n
  {
    DivMod(n, d);
    if n < d then [RadixChar(n)] else RadixDigits(n / d, d) + [RadixChar(n % d)]
  }

  /** The value of a digit string in radix `d`; none when a character is not a digit below `d`. */
  function RadixValue(s: string, d: nat): Option<nat>
    requires 2 <= d <= 36
  {
    if s == [] then Some(0)
    else
      match (RadixValue(s[..|s| - 1], d), CharDigit(s[|s| - 1]))
      case (Some(v), Some(x)) => if x < d then Some(v * d + x) else None
      case _ => None
  }

  /** Printing and reading back give the number. */
  lemma {:induction false} RadixDigitsRoundTrip(n: nat, d: nat)
    requires 2 <= d <= 36
    ensures RadixValue(RadixDigits(n, d), d) == Some(n)
    decreases n
  {
    if n < d {
      assert RadixDigits(n, d) == [RadixChar(n)];
      assert RadixDigits(n, d)[..0] == [];
      CharDigitOfRadixChar(n);
    } else {
      DivMod(n, d);
      RadixDigitsRoundTrip(n / d, d);
      RadixDigitsStep(n, d);
    }
  }

  /** From the digits of `n / d` read back correctly to those of `n`. */
  lemma {:induction false} RadixDigitsStep(n: nat, d: nat)
    requires 2 <= d <= 36 && n >= d
    requires RadixValue(RadixDigits(n / d, d), d) == Some(n / d)
    ensures RadixValue(RadixDigits(n, d), d) == Some(n)
  {
    DivMod(n, d);
    var q, r := n / d, n % d;
    var t := RadixDigits(q, d);
    assert RadixDigits(n, d) == t + [RadixChar(r)];
    CharDigitOfRadixChar(r);
    RadixValueSnoc(t, RadixChar(r), d);
  }

  /** One more digit: the value so far times the radix, plus the digit. */
  lemma {:induction false} RadixValueSnoc(t: string, c: char, d: nat)
    requires 2 <= d <= 36 && RadixValue(t, d).Some? && CharDigit(c).Some? && CharDigit(c).value < d
    ensures RadixValue(t + [c], d) == Some(RadixValue(t, d).value * d + CharDigit(c).value)
  {
    assert (t + [c])[..|t|] == t;
  }

  /** The digits are canonical: no leading zero unless the number is zero. */
  lemma {:induction false} RadixDigitsNoLeadingZero(n: nat, d: nat)
    requires 2 <= d <= 36
    ensures RadixDigits(n, d)[0] == '0' <==> n == 0
    decreases n
  {
    DivMod(n, d);
    if n >= d {
      RadixDigitsNoLeadingZero(n / d, d);
    }
  }

  function Reverse(s: string): (r: string)
    ensures |r| == |s|
  {
    if s == [] then [] else [s[|s| - 1]] + Reverse(s[..|s| - 1])
  }

  lemma {:induction false} ReverseAppend(a: string, b: string)
    ensures Reverse(a + b) == Reverse(b) + Reverse(a)
    decreases |b|
  {
    if b == [] {
      assert a + b == a;
    } else {
      var b0 := b[..|b| - 1];
      assert (a + b)[..|a + b| - 1] == a + b0;
      ReverseAppend(a, b0);
    }
  }

  lemma {:induction false} ReverseReverse(s: string)
    ensures Reverse(Reverse(s)) == s
    decreases |s|
  {
    if s != [] {
      var init := s[..|s| - 1];
      ReverseAppend([s[|s| - 1]], Reverse(init));
      ReverseReverse(init);
      assert Reverse([s[|s| - 1]]) == [s[|s| - 1]];
      assert s == init + [s[|s| - 1]];
    }
  }

  // ---------------------------------------------------------------------
  // Words to halfwords
  // ---------------------------------------------------------------------

  /**
   * The halfword view of the words array, read through a `uint32_t*` on a
   * little-endian machine: low half first.
   */
  function HalfWords(words: seq<uint64>): (h: seq<uint32>)
    ensures |h| == 2 * |words|
  {
    if words == [] then []
    else
      var last := words[|words| - 1];
      HalfWords(words[..|words| - 1]) + [Lo32(last), Hi32(last)]
  }

  lemma {:induction false} HalfValueSnoc(h: seq<uint32>, x: uint32)
    ensures HalfValue(h + [x]) == HalfValue(h) + x * PowHalf(|h|)
  {
    assert (h + [x])[..|h|] == h;
  }

  /** A word is its low half plus its high half times 2^32, at any weight. */
  lemma {:induction false} WordSplit(w: uint64, p: nat)
    ensures Lo32(w) * p + Hi32(w) * (HALF * p) == w * p
  {
    var lo, hi := Lo32(w), Hi32(w);
    assert w == lo + hi * HALF;
    assert hi * (HALF * p) == (hi * HALF) * p;
    assert lo * p + (hi * HALF) * p == (lo + hi * HALF) * p;
  }

  lemma {:induction false} HalfWordsValue(words: seq<uint64>)
    ensures HalfValue(HalfWords(words)) == Magnitude(words)
    decreases |words|
  {
    if words != [] {
      var init := words[..|words| - 1];
      var last := words[|words| - 1];
      var hi := HalfWords(init);
      var n := 2 * |init|;
      HalfWordsValue(init);
      assert HalfWords(words) == (hi + [Lo32(last)]) + [Hi32(last)];
      assert Magnitude(words) == Magnitude(init) + last * PowHalf(n);
      HalfValueSnoc(hi, Lo32(last));
      HalfValueSnoc(hi + [Lo32(last)], Hi32(last));
      assert PowHalf(n + 1) == HALF * PowHalf(n);
      WordSplit(last, PowHalf(n));
    }
  }

  /** Beyond the first word's two halves, zero words give zero halfwords. */
  lemma {:induction false} HalfWordsOfLowWord(words: seq<uint64>, k: nat)
    requires words != [] && forall j :: 1 <= j < |words| ==> words[j] == 0
    requires 2 <= k < 2 * |words|
    ensures HalfWords(words)[k] == 0
    decreases |words|
  {
    var init := words[..|words| - 1];
    if k < 2 * |init| {
      HalfWordsOfLowWord(init, k);
    }
  }

  /** No trailing zero halfword: the top one, if any, is significant. */
  predicate Stripped(h: seq<uint32>) {
    h == [] || h[|h| - 1] != 0
  }

  /** The count-shortening loop over trailing zero halfwords. */
  function StripZeros(h: seq<uint32>): (r: seq<uint32>)
    ensures |r| <= |h| && r == h[..|r|]
    ensures Stripped(r)
    ensures HalfValue(r) == HalfValue(h)
    ensures forall k :: |r| <= k < |h| ==> h[k] == 0
  {
    if h != [] && h[|h| - 1] == 0 then StripZeros(h[..|h| - 1]) else h
  }

  lemma {:induction false} StrippedPositive(h: seq<uint32>)
    requires Stripped(h)
    ensures h != [] ==> HalfValue(h) >= PowHalf(|h| - 1) > 0
  {
    if h != [] {
      var top := h[|h| - 1];
      PowHalfIsPow2(|h| - 1);
      assert top * PowHalf(|h| - 1) >= PowHalf(|h| - 1) by {
        MulAtLeast(top, 2);
        assert top * PowHalf(|h| - 1) == PowHalf(|h| - 1) + (top - 1) * PowHalf(|h| - 1);
      }
    }
  }

  /** Dividing `Make_64(rem, x)` with `rem < d` leaves a quotient that fits in 32 bits. */
  lemma {:induction false} QuotientFits(rem: nat, x: uint32, d: nat)
    requires 2 <= d <= 36 && rem < d
    ensures Make64(rem, x) / d < HALF
  {
    var partial := Make64(rem, x);
    assert partial < d * HALF by {
      MulStep(rem, d, HALF);
    }
    var q: nat := partial / d;
    assert q * d < HALF * d by {
      DivModBasic(partial, d);
    }
    MulCancel(q, HALF, d);
  }

  /** Multiplying by the same positive number keeps a strict order, so it can be cancelled. */
  lemma {:induction false} MulCancel(a: nat, b: nat, d: nat)
    requires d > 0 && a * d < b * d
    ensures a < b
  {
  }

  /** The bookkeeping of one division step, over plain numbers. */
  lemma {:induction false} DivideStepAlgebra(low: nat, q: nat, d: nat, r: nat, pm: nat, p: nat, init: nat, rem: nat, top: nat)
    requires low * d + r == pm * p + init
    requires rem * HALF + top == q * d + pm
    ensures (low + q * p) * d + r == rem * (HALF * p) + (init + top * p)
  {
    assert (low + q * p) * d == low * d + (q * d) * p;
    assert pm * p + (q * d) * p == (pm + q * d) * p;
    assert (rem * HALF + top) * p == rem * (HALF * p) + top * p;
  }

  // ---------------------------------------------------------------------
  // The printing loop with long division corrected
  // ---------------------------------------------------------------------

  /**
   * One pass of schoolbook division by `d`, from the top halfword down,
   * starting from remainder `rem`: each step divides `Make_64(rem, h[i-1])`
   * and stores the quotient halfword back at `i-1`.
   */
  /** One step: divide `Make_64(rem, x)` by `d`, keeping the quotient's low 32 bits. */
  function DivStep(rem: nat, x: uint32, d: nat): (r: (uint32, nat))
    requires 2 <= d <= 36 && rem < d
    ensures r.1 < d && r.0 * d + r.1 == rem * HALF + x
  {
    var partial := Make64(rem, x);
    var q: nat, r := partial / d, partial % d;
    assert q < HALF by {
      QuotientFits(rem, x, d);
    }
    assert q * d + r == partial && r < d by {
      DivModBasic(partial, d);
    }
    (Lo32(q), r)
  }

  function DivideHalves(h: seq<uint32>, d: nat, rem: nat): (r: (seq<uint32>, nat))
    requires 2 <= d <= 36 && rem < d
    ensures |r.0| == |h| && r.1 < d
    decreases |h|
  {
    if h == [] then ([], rem)
    else
      var n := |h| - 1;
      var (q, pm) := DivStep(rem, h[n], d);
      var rest := DivideHalves(h[..n], d, pm);
      (rest.0 + [q], rest.1)
  }

  /** The pass divides: quotient times `d` plus remainder is the dividend. */
  lemma {:induction false} DivideHalvesValue(h: seq<uint32>, d: nat, rem: nat)
    requires 2 <= d <= 36 && rem < d
    ensures var (q, r) := DivideHalves(h, d, rem);
      HalfValue(q) * d + r == rem * PowHalf(|h|) + HalfValue(h)
    decreases |h|
  {
    if h != [] {
      var n := |h| - 1;
      var (q, pm) := DivStep(rem, h[n], d);
      var rest := DivideHalves(h[..n], d, pm);
      DivideHalvesValue(h[..n], d, pm);
      var low := rest.0;
      HalfValueSnoc(low, q);
      assert h == h[..n] + [h[n]];
      HalfValueSnoc(h[..n], h[n]);
      DivideStepAlgebra(HalfValue(low), q, d, rest.1, pm, PowHalf(n), HalfValue(h[..n]), rem, h[n]);
    }
  }

  /**
   * One pass of the loop body for more than two halfwords: divide, then
   * drop the zero halfwords at the top (the `--count` steps).
   */
  function Divide(h: seq<uint32>, d: nat): (r: (seq<uint32>, nat))
    requires 2 <= d <= 36
    ensures Stripped(r.0) && r.1 < d
    ensures HalfValue(r.0) * d + r.1 == HalfValue(h)
    ensures r.0 != [] ==> HalfValue(r.0) > 0
    ensures HalfValue(r.0) > 0 ==> HalfValue(r.0) < HalfValue(h)
  {
    var (q, rem) := DivideHalves(h, d, 0);
    DivideHalvesValue(h, d, 0);
    var q' := StripZeros(q);
    StrippedPositive(q');
    if HalfValue(q') > 0 then
      MulAtLeast(HalfValue(q'), d);
      (q', rem)
    else (q', rem)
  }

  /**
   * The do-while loop: divide, push the remainder's digit, and go on while
   * more than two halfwords or a non-zero value are left.
   */
  function Run(h: seq<uint32>, d: nat, acc: string): string
    requires 2 <= d <= 36 && Stripped(h)
    decreases HalfValue(h)
  {
    var (q, r) := Divide(h, d);
    var acc' := acc + [RadixChar(r)];
    if |q| > 2 || HalfValue(q) != 0 then Run(q, d, acc') else acc'
  }

  /** The loop pushes the digits least significant first. */
  lemma {:induction false} RunSpec(h: seq<uint32>, d: nat, acc: string)
    requires 2 <= d <= 36 && Stripped(h)
    ensures Run(h, d, acc) == acc + Reverse(RadixDigits(HalfValue(h), d))
    decreases HalfValue(h)
  {
    var v := HalfValue(h);
    var (q, r) := Divide(h, d);
    DivModUnique(v, d, HalfValue(q), r);
    var acc' := acc + [RadixChar(r)];
    if |q| > 2 || HalfValue(q) != 0 {
      RunSpec(q, d, acc');
      MulAtLeast(HalfValue(q), d);
      assert RadixDigits(v, d) == RadixDigits(v / d, d) + [RadixChar(r)];
      ReverseAppend(RadixDigits(v / d, d), [RadixChar(r)]);
    } else {
      assert RadixDigits(v, d) == [RadixChar(r)];
    }
  }

  /**
   * bigintToString with the division pass corrected: none for a radix
   * outside 2..36 ("Invalid radix"), "0" for no words, otherwise the
   * sign and the canonical digits of the magnitude.
   */
  /** Pushing the sign after the digits and reversing puts it in front. */
  lemma {:induction false} ReverseWithSign(h: seq<uint32>, d: nat, sign: string)
    requires 2 <= d <= 36 && Stripped(h) && (sign == "" || sign == "-")
    ensures Reverse(Run(h, d, []) + sign) == sign + RadixDigits(HalfValue(h), d)
  {
    var ds := RadixDigits(HalfValue(h), d);
    RunSpec(h, d, []);
    assert Run(h, d, []) == Reverse(ds);
    ReverseAppend(Reverse(ds), sign);
    ReverseReverse(ds);
    assert Reverse(sign) == sign;
  }

  function BigIntToString(negative: bool, words: seq<uint64>, radix: int): (r: Option<string>)
    ensures r.None? <==> radix < 2 || radix > 36
    ensures r.Some? ==>
      r.value == (if negative && words != [] then "-" else "") + RadixDigits(Magnitude(words), radix)
  {
    if radix < 2 || radix > 36 then None
    else if words == [] then Some("0")
    else
      var h := StripZeros(HalfWords(words));
      var sign := if negative then "-" else "";
      HalfWordsValue(words);
      ReverseWithSign(h, radix, sign);
      Some(Reverse(Run(h, radix, []) + sign))
  }

  /** The printed text reads back as the signed value. */
  lemma {:induction false} BigIntToStringRoundTrip(negative: bool, words: seq<uint64>, radix: int)
    requires 2 <= radix <= 36 && words != []
    ensures var s := BigIntToString(negative, words, radix).value;
      var body := if negative then s[1..] else s;
      (negative ==> s[0] == '-') && RadixValue(body, radix) == Some(Magnitude(words))
  {
    var s := BigIntToString(negative, words, radix).value;
    var ds := RadixDigits(Magnitude(words), radix);
    RadixDigitsRoundTrip(Magnitude(words), radix);
    if negative {
      assert s == "-" + ds;
      assert s[1..] == ds;
    } else {
      assert s == ds;
    }
  }

  // ---------------------------------------------------------------------
  // The printing loop as written
  // ---------------------------------------------------------------------

  /** The buffer the halfwords live in: the eight-word stack array, or an exact heap array. */
  function Buffer(words: seq<uint64>): (b: seq<uint32>)
    ensures |b| >= |HalfWords(words)| && b[..|HalfWords(words)|] == HalfWords(words)
    ensures forall k :: |HalfWords(words)| <= k < |b| ==> b[k] == 0
  {
    var h := HalfWords(words);
    if |words| <= 8 then h + seq(16 - |h|, _ => 0) else h
  }

  /** `for (i = count; i > 0 && halfWords[i - 1] == 0; --i) --count;` */
  function StripCount(b: seq<uint32>, count: nat): (r: nat)
    requires count <= |b|
    ensures r <= count
    ensures r > 0 ==> b[r - 1] != 0
    ensures forall k :: r <= k < count ==> b[k] == 0
  {
    if count > 0 && b[count - 1] == 0 then StripCount(b, count - 1) else count
  }

  datatype PassState = PassState(buf: seq<uint32>, count: nat, rem: nat, word0: nat)

  /**
   * One step of the inner loop as written: the special cases for a zero
   * dividend, one below the radix and one equal to it, else a 64-bit
   * division whose quotient and remainder are cut to 32 bits.
   */
  function AsWrittenStep(rem: nat, x: uint32, d: nat): (r: (uint32, nat))
    requires 2 <= d <= 36 && rem < d
    ensures r.1 < d
  {
    var partial := Make64(rem, x);
    if partial == 0 then (0, 0)
    else if partial < d then (0, Lo32(partial))
    else if partial == d then (1, 0)
    else (Lo32(partial / d), Lo32(partial % d))
  }

  /**
   * The inner for-loop as written, from index `i` down to 1. It reads
   * `halfWords[i - 1]` but stores the quotient at `halfWords[i]`, and it
   * re-reads `words[0]` the moment `count` drops to 2. Storing past the
   * end of the buffer is undefined behaviour and gives none.
   */
  function AsWrittenPass(s: PassState, i: nat, d: nat): (r: Option<PassState>)
    requires 2 <= d <= 36 && |s.buf| >= 2 && i <= |s.buf| && s.rem < d && s.count <= |s.buf|
    ensures r.Some? ==> r.value.rem < d && |r.value.buf| == |s.buf| && r.value.count <= s.count
    decreases i
  {
    if i == 0 then Some(s)
    else if i >= |s.buf| then None
    else
      var shrink := Make64(s.rem, s.buf[i - 1]) < d;
      var (q, r) := AsWrittenStep(s.rem, s.buf[i - 1], d);
      var buf := s.buf[i := q];
      var count := if shrink && i == s.count then s.count - 1 else s.count;
      var word0 := if shrink && i == s.count && count == 2 then Make64(buf[1], buf[0]) else s.word0;
      AsWrittenPass(PassState(buf, count, r, word0), i - 1, d)
  }

  /** The do-while loop once `count <= 2`: plain 64-bit division of `word0`. */
  function FastLoop(word0: nat, d: nat, acc: string): string
    requires 2 <= d <= 36
    decreases word0
  {
    DivMod(word0, d);
    var acc' := acc + [RadixChar(word0 % d)];
    if word0 / d != 0 then FastLoop(word0 / d, d, acc') else acc'
  }

  lemma {:induction false} FastLoopSpec(word0: nat, d: nat, acc: string)
    requires 2 <= d <= 36
    ensures FastLoop(word0, d, acc) == acc + Reverse(RadixDigits(word0, d))
    decreases word0
  {
    DivMod(word0, d);
    if word0 / d != 0 {
      FastLoopSpec(word0 / d, d, acc + [RadixChar(word0 % d)]);
      ReverseAppend(RadixDigits(word0 / d, d), [RadixChar(word0 % d)]);
    }
  }

  datatype AsWrittenOutcome = Printed(text: string) | RadixError | OutOfBounds | NoVerdict

  /**
   * The do-while loop while `count > 2`, taking one pass per iteration;
   * `fuel` bounds the iterations since the pass as written need not make
   * progress.
   */
  function SlowLoop(s: PassState, d: nat, acc: string, fuel: nat): (r: AsWrittenOutcome)
    requires 2 <= d <= 36 && 2 < s.count <= |s.buf| && s.rem < d
    ensures r != RadixError
    decreases fuel
  {
    if fuel == 0 then NoVerdict
    else
      match AsWrittenPass(s, s.count, d)
      case None => OutOfBounds
      case Some(t) =>
        var acc' := acc + [RadixChar(t.rem)];
        if t.count > 2 then SlowLoop(t, d, acc', fuel - 1)
        else if t.word0 != 0 then Printed(FastLoop(t.word0, d, acc'))
        else Printed(acc')
  }

  /** bigintToString exactly as written. */
  function BigIntToStringAsWritten(negative: bool, words: seq<uint64>, radix: int, fuel: nat): (r: AsWrittenOutcome)
    ensures r == RadixError <==> radix < 2 || radix > 36
  {
    if radix < 2 || radix > 36 then RadixError
    else if words == [] then Printed("0")
    else
      var buf := Buffer(words);
      var count := StripCount(buf, 2 * |words|);
      var sign := if negative then "-" else "";
      var digits :=
        if count <= 2 then Printed(FastLoop(words[0], radix, []))
        else SlowLoop(PassState(buf, count, 0, words[0]), radix, [], fuel);
      match digits
      case Printed(ds) => Printed(Reverse(ds + sign))
      case other => other
  }

  lemma {:induction false} MagnitudeOfLowWord(words: seq<uint64>)
    requires words != [] && forall k :: 1 <= k < |words| ==> words[k] == 0
    ensures Magnitude(words) == words[0]
    decreases |words|
  {
    if |words| > 1 {
      MagnitudeOfLowWord(words[..|words| - 1]);
    } else {
      assert words[..0] == [];
    }
  }

  lemma {:induction false} FastLoopWithSign(word0: nat, d: nat, sign: string)
    requires 2 <= d <= 36 && (sign == "" || sign == "-")
    ensures Reverse(FastLoop(word0, d, []) + sign) == sign + RadixDigits(word0, d)
  {
    var ds := RadixDigits(word0, d);
    FastLoopSpec(word0, d, []);
    assert FastLoop(word0, d, []) == Reverse(ds);
    ReverseAppend(Reverse(ds), sign);
    ReverseReverse(ds);
    assert Reverse(sign) == sign;
  }

  /** With every word past the first zero, `count` starts at 2 or less. */
  lemma {:induction false} StripCountOfLowWord(words: seq<uint64>)
    requires words != [] && forall k :: 1 <= k < |words| ==> words[k] == 0
    ensures StripCount(Buffer(words), 2 * |words|) <= 2
  {
    var buf := Buffer(words);
    var h := HalfWords(words);
    var count := StripCount(buf, 2 * |words|);
    if count > 2 {
      assert buf[count - 1] == buf[..|h|][count - 1];
      HalfWordsOfLowWord(words, count - 1);
      assert false;
    }
  }

  /** Below 2^64 only the 64-bit path runs, and it prints correctly. */
  lemma {:induction false} AsWrittenCorrectBelow2To64(negative: bool, words: seq<uint64>, radix: int, fuel: nat)
    requires 2 <= radix <= 36 && words != []
    requires forall k :: 1 <= k < |words| ==> words[k] == 0
    ensures BigIntToStringAsWritten(negative, words, radix, fuel) == Printed(BigIntToString(negative, words, radix).value)
  {
    StripCountOfLowWord(words);
    MagnitudeOfLowWord(words);
    var sign := if negative then "-" else "";
    FastLoopWithSign(words[0], radix, sign);
    assert BigIntToStringAsWritten(negative, words, radix, fuel) == Printed(Reverse(FastLoop(words[0], radix, []) + sign));
  }

  lemma {:induction false} TwoTo64Buffer()
    ensures var buf := Buffer([0, 1]);
      |buf| == 16 && buf[..4] == [0, 0, 1, 0] && StripCount(buf, 4) == 3
  {
    var h := HalfWords([0, 1]);
    assert [0, 1][..1] == [0];
    assert HalfWords([0]) == [0, 0];
    assert h == [0, 0, 1, 0];
  }

  lemma {:induction false} TwoTo64FirstStep(buf: seq<uint32>)
    requires |buf| == 16 && buf[..4] == [0, 0, 1, 0]
    ensures AsWrittenPass(PassState(buf, 3, 0, 0), 3, 10) == AsWrittenPass(PassState(buf[3 := 0], 2, 1, 0), 2, 10)
  {
    assert buf[2] == 1 && buf[1] == 0 && buf[0] == 0;
    assert Make64(0, 1) == 1;
    assert Make64(0, 0) == 0;
  }

  lemma {:induction false} TwoTo64SecondStep(buf: seq<uint32>)
    requires |buf| == 16 && buf[..3] == [0, 0, 1]
    ensures AsWrittenPass(PassState(buf, 2, 1, 0), 2, 10) == AsWrittenPass(PassState(buf[2 := 429496729], 2, 6, 0), 1, 10)
  {
    assert buf[1] == 0;
    assert Make64(1, 0) == 4294967296;
  }

  lemma {:induction false} TwoTo64ThirdStep(buf: seq<uint32>)
    requires |buf| == 16 && buf[0] == 0
    ensures AsWrittenPass(PassState(buf, 2, 6, 0), 1, 10) == Some(PassState(buf[1 := 2576980377], 2, 6, 0))
  {
    assert Make64(6, 0) == 25769803776;
  }

  /** The three passes on 2^64 as written leave the single digit 6. */
  lemma {:induction false} TwoTo64AsWritten()
    ensures BigIntToStringAsWritten(false, [0, 1], 10, 1) == Printed("6")
  {
    var words: seq<uint64> := [0, 1];
    var buf := Buffer(words);
    TwoTo64Buffer();
    TwoTo64FirstStep(buf);
    var b1 := buf[3 := 0];
    assert b1[..3] == [0, 0, 1];
    TwoTo64SecondStep(b1);
    var b2 := b1[2 := 429496729];
    TwoTo64ThirdStep(b2);
    assert SlowLoop(PassState(buf, 3, 0, 0), 10, [], 1) == Printed("6");
    assert Reverse("6") == "6";
  }

  /** Words [0, 1] hold 2^64. */
  lemma {:induction false} TwoTo64Magnitude()
    ensures Magnitude([0, 1]) == HALF * HALF
  {
    var words: seq<uint64> := [0, 1];
    HalfWordsValue(words);
    assert words[..1] == [0];
  }

  /**
   * 2^64 (words [0, 1]) in radix 10: the first pass leaves `count` at 2
   * with `word0` re-read as 0, so the loop stops after one digit and
   * prints "6", while the magnitude is 18446744073709551616.
   */
  lemma {:induction false} AsWrittenPrintsTwoTo64Wrongly()
    ensures BigIntToStringAsWritten(false, [0, 1], 10, 1) == Printed("6")
    ensures BigIntToString(false, [0, 1], 10) != Some("6")
  {
    TwoTo64AsWritten();
    TwoTo64Magnitude();
    assert RadixValue("6", 10) == Some(6) by {
      assert "6"[..0] == [];
    }
    RadixDigitsRoundTrip(HALF * HALF, 10);
  }
}

=== FILE: bits.dfy ===
/**
 * Bit operations on unsigned values kept as integers: single-bit tests,
 * exclusive or, and powers of two. Stating them arithmetically keeps the
 * byte-level proofs within reach of the solver.
 */
module Bits {
  import opened Wrappers

  function Pow2(k: nat): (r: nat)
    ensures r >= 1
  {
    if k == 0 then 1 else 2 * Pow2(k - 1)
  }

  /** `x & flag != 0` for a single-bit mask `flag` (a power of two). */
  predicate HasFlag(x: nat, flag: nat)
    requires flag > 0
  {
    (x / flag) % 2 == 1
  }

  /** Bitwise exclusive or, one binary digit at a time from the low end. */
  function XorNat(a: nat, b: nat): nat
    decreases a + b
  {
    if a == 0 && b == 0 then 0 else 2 * XorNat(a / 2, b / 2) + (a + b) % 2
  }

  /** The exclusive or of two bytes is a byte. */
  lemma {:induction false} XorNatBound(a: nat, b: nat, k: nat)
    requires a < Pow2(k) && b < Pow2(k)
    ensures XorNat(a, b) < Pow2(k)
    decreases a + b
  {
    if !(a == 0 && b == 0) {
      XorNatBound(a / 2, b / 2, k - 1);
    }
  }

  /** The low bit of `a ^ b`, and what remains above it. */
  lemma {:induction false} XorNatStep(a: nat, b: nat)
    ensures XorNat(a, b) / 2 == XorNat(a / 2, b / 2)
    ensures XorNat(a, b) % 2 == (a + b) % 2
  {
  }

  lemma {:induction false} SameHalves(u: nat, v: nat)
    requires u / 2 == v / 2 && u % 2 == v % 2
    ensures u == v
  {
  }

  /** XOR-ing twice with the same value restores the original. */
  lemma {:induction false} XorNatInvolution(a: nat, b: nat)
    ensures XorNat(XorNat(a, b), b) == a
    decreases a + b
  {
    if !(a == 0 && b == 0) {
      var c := XorNat(a, b);
      XorNatStep(a, b);
      XorNatStep(c, b);
      XorNatInvolution(a / 2, b / 2);
      assert (c + b) % 2 == a % 2;
      SameHalves(XorNat(c, b), a);
    }
  }

  /** `a ^ b` on bytes. */
  function Xor8(a: uint8, b: uint8): uint8 {
    XorNatBound(a, b, 8);
    XorNat(a, b)
  }

  lemma {:induction false} Xor8Involution(a: uint8, b: uint8)
    ensures Xor8(Xor8(a, b), b) == a
  {
    XorNatInvolution(a, b);
  }

  lemma {:induction false} DivModBasic(n: nat, d: nat)
    requires d >= 2
    ensures n == (n / d) * d + n % d && 0 <= n % d < d
  {
  }

  lemma {:induction false} MulAtLeast(q: nat, d: nat)
    requires q >= 1 && d >= 2
    ensures q * d >= d && q * d >= 2 * q
  {
  }

  lemma {:induction false} MulStep(a: nat, b: nat, d: nat)
    requires a < b
    ensures b * d >= a * d + d
  {
    assert b * d == (b - a) * d + a * d;
    if b - a >= 1 {
      assert (b - a) * d >= d;
    }
  }

  /** The facts about division by a divisor of at least 2 that the digit loops need. */
  lemma {:induction false} DivMod(n: nat, d: nat)
    requires d >= 2
    ensures n == (n / d) * d + n % d && 0 <= n % d < d
    ensures n / d == 0 <==> n < d
    ensures n > 0 ==> n / d < n
  {
    DivModBasic(n, d);
    if n / d >= 1 {
      MulAtLeast(n / d, d);
    }
  }

  /** Quotient and remainder are the only ones. */
  lemma {:induction false} DivModUnique(v: nat, d: nat, q: nat, r: nat)
    requires 2 <= d && r < d && q * d + r == v
    ensures q == v / d && r == v % d
  {
    DivModBasic(v, d);
    var q0 := v / d;
    if q < q0 {
      MulStep(q, q0, d);
    }
    if q > q0 {
      MulStep(q0, q, d);
    }
  }
}

=== FILE: ext_api.dfy ===
/**
 * The extension API of the V8 Node-API environment
 * (src/napi/js_native_ext_api_v8.cpp): reference-counted ext references
 * that run their finalizer once, the movable EnvScope, the runtime that is
 * deleted with the last env reference, env creation from attribute bits,
 * and the argument handling of the script and reference entry points.
 * Engine values are opaque ids and engine calls are parameters.
 */
module ExtApi {
  import opened Wrappers
  import opened NapiStatus
  import opened Bits

  // ---------------------------------------------------------------------
  // ExtRefCounter, ExtReference, ExtReferenceWithData
  // ---------------------------------------------------------------------

  /** The native data an ExtReferenceWithData keeps for its finalizer. */
  datatype NativeData = NativeData(env: nat, nativeObject: nat, finalizeCb: Option<nat>, hint: Option<nat>)

  /**
   * An ext reference: alive with its unsigned 32-bit count and, for a
   * reference with data, its native data; or deleted.
   */
  datatype ExtRef = Live(count: uint32, data: Option<NativeData>) | Deleted

  /** A call finalize_cb(env, native_object, hint). */
  datatype FinalizeCall = FinalizeCall(callback: nat, env: nat, nativeObject: nat, hint: Option<nat>)

  /** The reference after an operation and the finalizer calls the operation made. */
  datatype Step = Step(after: ExtRef, calls: seq<FinalizeCall>)

  /** napi_ext_create_reference: a reference without data, held once. */
  function NewExtReference(): (r: ExtRef)
    ensures r.Live? && r.count == 1 && r.data.None?
  {
    Live(1, None)
  }

  /** napi_ext_create_reference_with_data, once its arguments are checked: held once. */
  function NewExtReferenceWithData(env: nat, nativeObject: nat, finalizeCb: Option<nat>, hint: Option<nat>): (r: ExtRef)
    ensures r.Live? && r.count == 1
    ensures r.data == Some(NativeData(env, nativeObject, finalizeCb, hint))
  {
    Live(1, Some(NativeData(env, nativeObject, finalizeCb, hint)))
  }

  /**
   * Finalize, from the last Unref or from env teardown: a reference with
   * data calls its finalize callback, when it has one, and clears it; then
   * the reference deletes itself.
   */
  function Finalize(r: ExtRef): (s: Step)
    requires r.Live?
    ensures s.after == Deleted
    ensures |s.calls| <= 1
    ensures s.calls != [] <==> r.data.Some? && r.data.value.finalizeCb.Some?
    ensures s.calls != [] ==>
      s.calls[0] == FinalizeCall(r.data.value.finalizeCb.value, r.data.value.env, r.data.value.nativeObject, r.data.value.hint)
  {
    match r.data
    case Some(NativeData(env, obj, Some(cb), hint)) => Step(Deleted, [FinalizeCall(cb, env, obj, hint)])
    case _ => Step(Deleted, [])
  }

  /** Ref: the count goes up by one, wrapping as uint32_t does. */
  function Ref(r: ExtRef): (s: ExtRef)
    requires r.Live?
    ensures s.Live? && s.data == r.data
    ensures r.count + 1 < UINT32_LIMIT ==> s.count == r.count + 1
  {
    Live((r.count + 1) % UINT32_LIMIT, r.data)
  }

  /** Unref: the count goes down by one, wrapping as uint32_t does, and finalizes at zero. */
  function Unref(r: ExtRef): (s: Step)
    requires r.Live?
    ensures r.count == 1 ==> s == Finalize(r)
    ensures r.count > 1 ==> s == Step(Live(r.count - 1, r.data), [])
    ensures r.count == 0 ==> s == Step(Live(UINT32_LIMIT - 1, r.data), [])
  {
    var count := (r.count - 1) % UINT32_LIMIT;
    if count == 0 then Finalize(r) else Step(Live(count, r.data), [])
  }

  /**
   * A series of calls on one reference, true for Ref and false for Unref,
   * with the finalizer calls they make; None when a call reaches a deleted
   * reference.
   */
  function ApplyRefs(r: ExtRef, ops: seq<bool>): Option<Step>
    decreases |ops|
  {
    if ops == [] then Some(Step(r, []))
    else if r.Deleted? then None
    else
      var s := if ops[0] then Step(Ref(r), []) else Unref(r);
      match ApplyRefs(s.after, ops[1..])
      case None => None
      case Some(t) => Some(Step(t.after, s.calls + t.calls))
  }

  /** The count after the calls, when none of them wraps. */
  function Net(c: int, ops: seq<bool>): int
    decreases |ops|
  {
    if ops == [] then c else Net(if ops[0] then c + 1 else c - 1, ops[1..])
  }

  /** Every call finds the reference held: the count is positive before each one. */
  predicate Held(c: int, ops: seq<bool>)
    decreases |ops|
  {
    ops == [] || (c >= 1 && Held(if ops[0] then c + 1 else c - 1, ops[1..]))
  }

  /**
   * A reference whose owners never call it after they dropped it is
   * deleted exactly when its count reaches zero and not before; its
   * finalizer runs then, once, and at no other time.
   */
  lemma {:induction false} ExtRefLifetime(c: uint32, d: Option<NativeData>, ops: seq<bool>)
    requires c >= 1 && c + |ops| < UINT32_LIMIT && Held(c, ops)
    ensures ApplyRefs(Live(c, d), ops).Some?
    ensures var s := ApplyRefs(Live(c, d), ops).value;
      && 0 <= Net(c, ops)
      && (s.after.Deleted? <==> Net(c, ops) == 0)
      && (s.after.Live? ==> s.after.count == Net(c, ops) && s.after.data == d)
      && s.calls == (if Net(c, ops) == 0 then Finalize(Live(c, d)).calls else [])
    decreases |ops|
  {
    if ops != [] {
      var next := if ops[0] then c + 1 else c - 1;
      var rest := ops[1..];
      if next == 0 {
        assert rest == [];
        assert ApplyRefs(Live(c, d), ops) == Some(Step(Deleted, Finalize(Live(c, d)).calls + []));
      } else {
        ExtRefLifetime(next, d, rest);
        OneLiveCall(c, d, ops);
        assert Finalize(Live(c, d)).calls == Finalize(Live(next, d)).calls;
      }
    }
  }

  /** A call that leaves the reference held: nothing finalized, the rest of the calls as from the new count. */
  lemma {:induction false} OneLiveCall(c: uint32, d: Option<NativeData>, ops: seq<bool>)
    requires ops != [] && c >= 1 && c + 1 < UINT32_LIMIT && (ops[0] || c > 1)
    ensures var next: uint32 := if ops[0] then c + 1 else c - 1;
      ApplyRefs(Live(c, d), ops) ==
        match ApplyRefs(Live(next, d), ops[1..])
        case None => None
        case Some(t) => Some(Step(t.after, [] + t.calls))
  {
  }

  /**
   * napi_ext_create_reference_with_data: a missing env is an argument error
   * with nothing created, as is a missing value, native object or result;
   * otherwise a reference held once.
   */
  function CreateReferenceWithData(
    hasEnv: bool, hasValue: bool, nativeObject: Option<nat>, finalizeCb: Option<nat>,
    hint: Option<nat>, hasResult: bool, env: nat): (r: (Status, Option<ExtRef>))
    ensures r.1.Some? <==> r.0 == Ok
    ensures r.0 == Ok <==> hasEnv && hasValue && nativeObject.Some? && hasResult
    ensures r.0 != Ok ==> r.0 == InvalidArg
    ensures r.1.Some? ==> r.1.value == NewExtReferenceWithData(env, nativeObject.value, finalizeCb, hint)
  {
    if !hasEnv || !hasValue || nativeObject.None? || !hasResult then (InvalidArg, None)
    else (Ok, Some(NewExtReferenceWithData(env, nativeObject.value, finalizeCb, hint)))
  }

  /**
   * A reference made with a native object and a finalizer, then dropped by
   * its creator with no other owner, calls that finalizer with that object
   * exactly once.
   */
  lemma {:induction false} CreatedReferenceFinalizesObject(nativeObject: nat, cb: nat, hint: Option<nat>, env: nat)
    ensures var created := CreateReferenceWithData(true, true, Some(nativeObject), Some(cb), hint, true, env);
      && created.1.Some?
      && Unref(created.1.value) == Step(Deleted, [FinalizeCall(cb, env, nativeObject, hint)])
  {
  }

  // ---------------------------------------------------------------------
  // EnvScope
  // ---------------------------------------------------------------------

  /** An env scope: the env and the three scopes it entered, each possibly null. */
  datatype EnvScope = EnvScope(env: Option<nat>, isolateScope: Option<nat>, contextScope: Option<nat>, handleScope: Option<nat>)

  const EmptyScope := EnvScope(None, None, None, None)

  /** What a destructor releases. */
  datatype ScopeRelease = CloseHandleScope(env: nat, scope: nat) | ExitContextScope(id: nat) | ExitIsolateScope(id: nat)

  /**
   * ~EnvScope: the handle scope is closed (a null env or scope makes the
   * close an argument error that does nothing), then the context scope and
   * the isolate scope are deleted when not null.
   */
  function DestroyScope(s: EnvScope): (rs: seq<ScopeRelease>)
    ensures s == EmptyScope ==> rs == []
    ensures |rs| <= 3
  {
    (if s.env.Some? && s.handleScope.Some? then [CloseHandleScope(s.env.value, s.handleScope.value)] else [])
    + (if s.contextScope.Some? then [ExitContextScope(s.contextScope.value)] else [])
    + (if s.isolateScope.Some? then [ExitIsolateScope(s.isolateScope.value)] else [])
  }

  /** The move constructor: every field moves over and the source is left null. */
  function MoveScope(other: EnvScope): (r: (EnvScope, EnvScope))
    ensures r.0 == other && r.1 == EmptyScope
  {
    (EnvScope(other.env, other.isolateScope, other.contextScope, other.handleScope), EmptyScope)
  }

  /** The swap of two scopes, field by field. */
  function SwapScopes(a: EnvScope, b: EnvScope): (r: (EnvScope, EnvScope))
    ensures r.0 == b && r.1 == a
  {
    (EnvScope(b.env, b.isolateScope, b.contextScope, b.handleScope),
     EnvScope(a.env, a.isolateScope, a.contextScope, a.handleScope))
  }

  /** After a move assignment: the target, the source and what the temporary released. */
  datatype ScopeAssigned = ScopeAssigned(target: EnvScope, source: EnvScope, released: seq<ScopeRelease>)

  /**
   * The move assignment: unless the target is the source, the target's
   * scopes move into a temporary, the emptied target swaps with the
   * source, and the temporary's destructor releases the target's old scopes.
   */
  function MoveAssignScope(target: EnvScope, source: EnvScope, sameObject: bool): (r: ScopeAssigned)
    requires sameObject ==> target == source
  {
    if sameObject then ScopeAssigned(target, source, [])
    else
      var (temp, emptied) := MoveScope(target);
      var (newTarget, newSource) := SwapScopes(emptied, source);
      ScopeAssigned(newTarget, newSource, DestroyScope(temp))
  }

  /**
   * A moved-from scope releases nothing, and across a move assignment and
   * the two destructors every scope the two held is released exactly
   * once: nothing leaks and nothing is closed twice.
   */
  lemma {:induction false} MoveAssignReleasesOnce(target: EnvScope, source: EnvScope)
    ensures DestroyScope(MoveScope(source).1) == []
    ensures DestroyScope(MoveScope(source).0) == DestroyScope(source)
    ensures var a := MoveAssignScope(target, source, false);
      && a.target == source && a.source == EmptyScope
      && multiset(a.released + DestroyScope(a.target) + DestroyScope(a.source))
        == multiset(DestroyScope(target) + DestroyScope(source))
  {
    var a := MoveAssignScope(target, source, false);
    assert a.released == DestroyScope(target);
    assert DestroyScope(a.source) == [];
    assert a.released + DestroyScope(a.target) + DestroyScope(a.source) == DestroyScope(target) + DestroyScope(source);
  }

  // ---------------------------------------------------------------------
  // napi_ext_env_ref / napi_ext_env_unref and the runtime holder
  // ---------------------------------------------------------------------

  /**
   * An env and its runtime: the env's reference count, whether the env is
   * deleted, whether the runtime holder marked the runtime env-deleted,
   * and whether the runtime itself is deleted.
   */
  datatype EnvRuntime = EnvRuntime(refs: nat, envDeleted: bool, markedEnvDeleted: bool, runtimeDeleted: bool)

  /** A live env with one reference and a live runtime: what napi_ext_create_env leaves. */
  const CreatedEnv := EnvRuntime(1, false, false, false)

  /**
   * napi_ext_env_ref / napi_ext_env_unref. A missing env is an argument
   * error that changes nothing. Unref drops one env reference; the last
   * one deletes the env, whose teardown finalizes the V8RuntimeHolder,
   * which marks the runtime env-deleted; the runtime, fetched before the
   * unref, is then deleted exactly when it is so marked.
   */
  function EnvCall(e: EnvRuntime, hasEnv: bool, isRef: bool): (r: (Status, EnvRuntime))
    requires hasEnv ==> !e.envDeleted && e.refs >= 1
    ensures !hasEnv ==> r == (InvalidArg, e)
    ensures hasEnv ==> r.0 == Ok
    ensures hasEnv && isRef ==> r.1 == e.(refs := e.refs + 1)
  {
    if !hasEnv then (InvalidArg, e)
    else if isRef then (Ok, e.(refs := e.refs + 1))
    else
      var refs := e.refs - 1;
      var envDeleted := refs == 0;
      var marked := e.markedEnvDeleted || envDeleted;
      (Ok, EnvRuntime(refs, envDeleted, marked, e.runtimeDeleted || marked))
  }

  /** A series of env ref (true) and unref (false) calls on a live env. */
  function EnvCalls(e: EnvRuntime, ops: seq<bool>): (r: Option<EnvRuntime>)
    decreases |ops|
  {
    if ops == [] then Some(e)
    else if e.envDeleted || e.refs == 0 then None
    else EnvCalls(EnvCall(e, true, ops[0]).1, ops[1..])
  }

  /**
   * From the env napi_ext_create_env made, any series of ref and unref
   * calls in which the env stays referenced until the last one deletes
   * the runtime exactly when the env references run out, together with
   * the env.
   */
  lemma {:induction false} RuntimeDeletedWithLastEnvRef(e: EnvRuntime, ops: seq<bool>)
    requires e.refs >= 1 && !e.envDeleted && !e.markedEnvDeleted && !e.runtimeDeleted
    requires Held(e.refs, ops)
    ensures EnvCalls(e, ops).Some?
    ensures var f := EnvCalls(e, ops).value;
      && Net(e.refs, ops) >= 0 && f.refs == Net(e.refs, ops)
      && (f.runtimeDeleted <==> Net(e.refs, ops) == 0)
      && (f.envDeleted <==> Net(e.refs, ops) == 0)
      && f.markedEnvDeleted == f.runtimeDeleted
    decreases |ops|
  {
    if ops != [] {
      var next := EnvCall(e, true, ops[0]).1;
      if next.refs == 0 {
        assert ops[1..] == [];
      } else {
        RuntimeDeletedWithLastEnvRef(next, ops[1..]);
      }
    }
  }

  // ---------------------------------------------------------------------
  // napi_ext_create_env
  // ---------------------------------------------------------------------

  const ATTRIBUTE_ENABLE_GC_API := 1
  const ATTRIBUTE_IGNORE_UNHANDLED_PROMISES := 2

  /** The runtime arguments napi_ext_create_env sets. */
  datatype ExtEnvArgs = ExtEnvArgs(
    trackGCObjectStats: bool, enableTracing: bool, enableJitTracing: bool,
    enableMessageTracing: bool, enableLog: bool, enableGCTracing: bool,
    enableGCApi: bool, ignoreUnhandledPromises: bool)

  /** The arguments from the attribute bits; every tracing option is off. */
  function CreateEnvArgs(attributes: uint32): (a: ExtEnvArgs)
    ensures a.enableGCApi <==> HasFlag(attributes, ATTRIBUTE_ENABLE_GC_API)
    ensures a.ignoreUnhandledPromises <==> HasFlag(attributes, ATTRIBUTE_IGNORE_UNHANDLED_PROMISES)
    ensures !a.trackGCObjectStats && !a.enableTracing && !a.enableJitTracing
    ensures !a.enableMessageTracing && !a.enableLog && !a.enableGCTracing
  {
    ExtEnvArgs(false, false, false, false, false, false,
      HasFlag(attributes, ATTRIBUTE_ENABLE_GC_API),
      HasFlag(attributes, ATTRIBUTE_IGNORE_UNHANDLED_PROMISES))
  }

  /** The attribute bits of the two options. */
  function Attributes(gcApi: bool, ignorePromises: bool): (x: uint32)
    ensures x < 4
  {
    (if gcApi then ATTRIBUTE_ENABLE_GC_API else 0)
    + (if ignorePromises then ATTRIBUTE_IGNORE_UNHANDLED_PROMISES else 0)
  }

  /** Each attribute bit turns on its own option and no other. */
  lemma {:induction false} CreateEnvReadsAttributes(gcApi: bool, ignorePromises: bool)
    ensures CreateEnvArgs(Attributes(gcApi, ignorePromises)).enableGCApi == gcApi
    ensures CreateEnvArgs(Attributes(gcApi, ignorePromises)).ignoreUnhandledPromises == ignorePromises
  {
    var x := Attributes(gcApi, ignorePromises);
    assert x / 1 == x;
    assert x / 2 == (if ignorePromises then 1 else 0);
  }

  // ---------------------------------------------------------------------
  // napi_ext_run_script and napi_ext_run_serialized_script
  // ---------------------------------------------------------------------

  /** The source argument: missing, a value that is not a string, or a string (an opaque id). */
  datatype Source = NoSource | NotAString | Text(id: nat)

  /** The status and, on success, the value written to the result. */
  datatype Ran = Ran(status: Status, result: Option<nat>)

  /**
   * The checks of both entry points: a pending exception first, then a
   * missing source, URL or result, then a source that is not a string.
   */
  function RunChecks(pending: bool, source: Source, hasUrl: bool, hasResult: bool): (r: Option<Status>)
    ensures r.None? <==> !pending && source.Text? && hasUrl && hasResult
  {
    if pending then Some(PendingException)
    else if source.NoSource? || !hasUrl || !hasResult then Some(InvalidArg)
    else if source.NotAString? then Some(StringExpected)
    else None
  }

  /** A compile and run: the engine's completion value, or a generic failure when it gives none. */
  function Completion(v: Option<nat>): (r: Ran)
    ensures r.status == Ok <==> v.Some?
    ensures r.result == v
  {
    if v.Some? then Ran(Ok, v) else Ran(GenericFailure, None)
  }

  /** napi_ext_run_script; `run` is V8's compile and run of a source string. */
  function RunScript(pending: bool, source: Source, hasUrl: bool, hasResult: bool, run: nat -> Option<nat>): (r: Ran)
    ensures RunChecks(pending, source, hasUrl, hasResult).Some? ==>
      r == Ran(RunChecks(pending, source, hasUrl, hasResult).value, None)
    ensures RunChecks(pending, source, hasUrl, hasResult).None? ==> r == Completion(run(source.id))
  {
    var failed := RunChecks(pending, source, hasUrl, hasResult);
    if failed.Some? then Ran(failed.value, None) else Completion(run(source.id))
  }

  /**
   * napi_ext_run_serialized_script: with no buffer or an empty one it is
   * napi_ext_run_script; otherwise the same checks, then a compile that
   * consumes the buffer as V8's code cache (`runCached`).
   */
  function RunSerializedScript(
    pending: bool, buffer: Option<seq<uint8>>, source: Source, hasUrl: bool, hasResult: bool,
    run: nat -> Option<nat>, runCached: (nat, seq<uint8>) -> Option<nat>): (r: Ran)
  {
    if pending then Ran(PendingException, None)
    else if buffer.None? || |buffer.value| == 0 then RunScript(pending, source, hasUrl, hasResult, run)
    else
      var failed := RunChecks(pending, source, hasUrl, hasResult);
      if failed.Some? then Ran(failed.value, None) else Completion(runCached(source.id, buffer.value))
  }

  /**
   * A missing or empty buffer makes the serialized entry point run the
   * source as napi_ext_run_script would; with a buffer it fails on exactly
   * the same arguments, with the same status.
   */
  lemma {:induction false} SerializedScriptFallsBack(
    pending: bool, buffer: Option<seq<uint8>>, source: Source, hasUrl: bool, hasResult: bool,
    run: nat -> Option<nat>, runCached: (nat, seq<uint8>) -> Option<nat>)
    ensures buffer.None? || |buffer.value| == 0 ==>
      RunSerializedScript(pending, buffer, source, hasUrl, hasResult, run, runCached)
        == RunScript(pending, source, hasUrl, hasResult, run)
    ensures RunChecks(pending, source, hasUrl, hasResult).Some? ==>
      RunSerializedScript(pending, buffer, source, hasUrl, hasResult, run, runCached)
        == RunScript(pending, source, hasUrl, hasResult, run)
    ensures RunChecks(pending, source, hasUrl, hasResult).None? && buffer.Some? && |buffer.value| > 0 ==>
      RunSerializedScript(pending, buffer, source, hasUrl, hasResult, run, runCached)
        == Completion(runCached(source.id, buffer.value))
  {
  }
}

=== FILE: harness_tasks.dfy ===
/**
 * The sequential machinery of the two test harnesses: the FIFO task queue
 * with 32-bit task ids (NodeApiTaskRunner in src/node-api/test/node_api_test.h
 * and NapiTestContext's queue in src/napi/test/napitest.cpp), the wrapper a
 * posted JSR task runs in, the move-only NodeApiEnvScope, and the decision
 * NapiTestErrorHandler makes when a test body ends.
 */
module HarnessTasks {
  import opened Wrappers

  // ---------------------------------------------------------------------
  // Task queue
  // ---------------------------------------------------------------------

  /** A queued task and the id PostTask returned for it. */
  datatype Entry<T> = Entry(id: uint32, task: T)

  /** The queue, front first, and the uint32 id the next post will get. */
  datatype TaskQueue<T> = TaskQueue(entries: seq<Entry<T>>, nextId: uint32)

  /** A new queue: empty, and the first id handed out is 1. */
  function NewQueue<T>(): TaskQueue<T> {
    TaskQueue([], 1)
  }

  /** The tasks of some entries, in queue order. */
  function Tasks<T>(es: seq<Entry<T>>): (ts: seq<T>)
    ensures |ts| == |es|
    ensures forall i :: 0 <= i < |es| ==> ts[i] == es[i].task
  {
    seq(|es|, i requires 0 <= i < |es| => es[i].task)
  }

  predicate HasId<T>(es: seq<Entry<T>>, id: uint32) {
    exists i :: 0 <= i < |es| && es[i].id == id
  }

  /** The queue after a post and the id the post returned. */
  datatype Posted<T> = Posted(queue: TaskQueue<T>, id: uint32)

  /**
   * PostTask / AddTask: a posted task goes to the back under the current id,
   * and the uint32 counter moves on, wrapping after 0xFFFFFFFF.
   */
  function PostTask<T>(q: TaskQueue<T>, t: T): (r: Posted<T>)
  {
    Posted(TaskQueue(q.entries + [Entry(q.nextId, t)], (q.nextId + 1) % UINT32_LIMIT), q.nextId)
  }

  /** Posting several tasks one after another. */
  function PostAll<T>(q: TaskQueue<T>, ts: seq<T>): (r: TaskQueue<T>)
    decreases |ts|
  {
    if ts == [] then q else PostTask(PostAll(q, ts[..|ts| - 1]), ts[|ts| - 1]).queue
  }

  /**
   * Posts that do not run the counter past 0xFFFFFFFF append their tasks
   * in order, under the consecutive ids that follow the counter.
   */
  lemma {:induction false} PostAllAppends<T>(q: TaskQueue<T>, ts: seq<T>)
    requires q.nextId + |ts| < UINT32_LIMIT
    ensures var r := PostAll(q, ts);
      && |r.entries| == |q.entries| + |ts|
      && r.entries[..|q.entries|] == q.entries
      && (forall i :: 0 <= i < |ts| ==> r.entries[|q.entries| + i] == Entry(q.nextId + i, ts[i]))
      && r.nextId == q.nextId + |ts|
    decreases |ts|
  {
    if ts != [] {
      var n := |ts| - 1;
      PostAllAppends(q, ts[..n]);
      var before := PostAll(q, ts[..n]);
      var r := PostAll(q, ts);
      assert r.entries == before.entries + [Entry(before.nextId, ts[n])];
      forall i | 0 <= i < |ts|
        ensures r.entries[|q.entries| + i] == Entry(q.nextId + i, ts[i])
      {
        if i < n {
          assert ts[..n][i] == ts[i];
        }
      }
    }
  }

  /** From a new queue, the ids handed out are 1, 2, 3, … in the order of posting. */
  lemma {:induction false} FreshIdsIncrease<T>(ts: seq<T>)
    requires |ts| < UINT32_LIMIT - 1
    ensures var r := PostAll(NewQueue<T>(), ts);
      && Tasks(r.entries) == ts
      && (forall i :: 0 <= i < |ts| ==> r.entries[i].id == i + 1)
      && (forall i, j :: 0 <= i < j < |ts| ==> r.entries[i].id < r.entries[j].id)
  {
    PostAllAppends(NewQueue<T>(), ts);
  }

  /** Posting appends each task whatever the counter, so the tasks queued are the old ones and then the new. */
  lemma {:induction false} PostAllTasks<T>(q: TaskQueue<T>, ts: seq<T>)
    ensures Tasks(PostAll(q, ts).entries) == Tasks(q.entries) + ts
    decreases |ts|
  {
    if ts != [] {
      var n := |ts| - 1;
      PostAllTasks(q, ts[..n]);
      assert ts == ts[..n] + [ts[n]];
    }
  }

  /** The entries whose id is not `id`, in their order. */
  function Without<T>(es: seq<Entry<T>>, id: uint32): (r: seq<Entry<T>>)
    ensures |r| <= |es|
    ensures forall i :: 0 <= i < |r| ==> r[i].id != id
    ensures forall i :: 0 <= i < |es| && es[i].id != id ==> es[i] in r
    ensures forall i :: 0 <= i < |r| ==> r[i] in es
  {
    if es == [] then []
    else
      var rest := Without(es[1..], id);
      assert forall i :: 1 <= i < |es| ==> es[i] == es[1..][i - 1];
      (if es[0].id == id then [] else [es[0]]) + rest
  }

  /** RemoveTask: every entry with the id goes; the others stay. */
  function RemoveTask<T>(q: TaskQueue<T>, id: uint32): (r: TaskQueue<T>)
    ensures !HasId(r.entries, id)
    ensures r.nextId == q.nextId
    ensures forall i :: 0 <= i < |q.entries| && q.entries[i].id != id ==> q.entries[i] in r.entries
  {
    TaskQueue(Without(q.entries, id), q.nextId)
  }

  /** Removal works piecewise, so the surviving entries keep their relative order. */
  lemma {:induction false} WithoutAppend<T>(a: seq<Entry<T>>, b: seq<Entry<T>>, id: uint32)
    ensures Without(a + b, id) == Without(a, id) + Without(b, id)
    decreases |a|
  {
    if a != [] {
      assert (a + b)[1..] == a[1..] + b;
      WithoutAppend(a[1..], b, id);
    } else {
      assert a + b == b;
    }
  }

  /** Removing an id no entry carries changes nothing. */
  lemma {:induction false} WithoutAbsent<T>(es: seq<Entry<T>>, id: uint32)
    requires !HasId(es, id)
    ensures Without(es, id) == es
    decreases |es|
  {
    if es != [] {
      assert !HasId(es[1..], id) by {
        forall i | 0 <= i < |es[1..]|
          ensures es[1..][i].id != id
        {
          assert es[1..][i] == es[i + 1];
        }
      }
      WithoutAbsent(es[1..], id);
    }
  }

  /**
   * A task removed by the id its post returned (a cleared timeout) leaves
   * the queue as it was before the post, when that id was not already queued.
   */
  lemma {:induction false} PostThenRemove<T>(q: TaskQueue<T>, t: T)
    requires !HasId(q.entries, q.nextId)
    ensures var p := PostTask(q, t);
      RemoveTask(p.queue, p.id).entries == q.entries
  {
    var p := PostTask(q, t);
    WithoutAppend(q.entries, [Entry(q.nextId, t)], q.nextId);
    WithoutAbsent(q.entries, q.nextId);
    assert Without([Entry(q.nextId, t)], q.nextId) == [];
  }

  /** The entries whose id is `id`, in their order: what RemoveTask takes out. */
  function Matching<T>(es: seq<Entry<T>>, id: uint32): (r: seq<Entry<T>>)
    ensures forall i :: 0 <= i < |r| ==> r[i].id == id
  {
    if es == [] then [] else (if es[0].id == id then [es[0]] else []) + Matching(es[1..], id)
  }

  /** RemoveTask splits the entries into those kept and those taken out, losing none. */
  lemma {:induction false} WithoutAndMatching<T>(es: seq<Entry<T>>, id: uint32)
    ensures multiset(Without(es, id)) + multiset(Matching(es, id)) == multiset(es)
    decreases |es|
  {
    if es != [] {
      WithoutAndMatching(es[1..], id);
      assert es == [es[0]] + es[1..];
      MultisetSplitStep(es[0], es[1..], es[0].id == id, Without(es[1..], id), Matching(es[1..], id),
        es, Without(es, id), Matching(es, id));
    }
  }

  /** Multiset bookkeeping of one removal step: the front element goes to exactly one side. */
  lemma {:induction false} MultisetSplitStep<X>(x: X, tail: seq<X>, gone: bool, kept: seq<X>, out: seq<X>,
      all: seq<X>, allKept: seq<X>, allOut: seq<X>)
    requires multiset(kept) + multiset(out) == multiset(tail)
    requires all == [x] + tail
    requires allKept == (if gone then [] else [x]) + kept
    requires allOut == (if gone then [x] else []) + out
    ensures multiset(allKept) + multiset(allOut) == multiset(all)
  {
    assert multiset(all) == multiset([x]) + multiset(tail);
    if gone {
      assert allKept == kept;
    } else {
      assert allOut == out;
    }
  }

  // ---------------------------------------------------------------------
  // Subsequences
  // ---------------------------------------------------------------------

  /** `a` is `b` with some elements left out. */
  predicate Subseq<X(==)>(a: seq<X>, b: seq<X>)
    decreases |b|
  {
    if a == [] then true
    else if b == [] then false
    else (a[0] == b[0] && Subseq(a[1..], b[1..])) || Subseq(a, b[1..])
  }

  lemma {:induction false} SubseqRefl<X>(a: seq<X>)
    ensures Subseq(a, a)
    decreases |a|
  {
    if a != [] {
      SubseqRefl(a[1..]);
    }
  }

  /** A subsequence is no longer than the sequence, and one as long is the sequence itself. */
  lemma {:induction false} SubseqLength<X>(a: seq<X>, b: seq<X>)
    requires Subseq(a, b)
    ensures |a| <= |b|
    ensures |a| == |b| ==> a == b
    decreases |b|
  {
    if a != [] {
      if a[0] == b[0] && Subseq(a[1..], b[1..]) {
        SubseqLength(a[1..], b[1..]);
        if |a| == |b| {
          assert a == [a[0]] + a[1..] && b == [b[0]] + b[1..];
        }
      } else {
        SubseqLength(a, b[1..]);
      }
    }
  }

  /** Subsequences of the two halves make a subsequence of the whole. */
  lemma {:induction false} SubseqAppend<X>(a: seq<X>, b: seq<X>, c: seq<X>, d: seq<X>)
    requires Subseq(a, b) && Subseq(c, d)
    ensures Subseq(a + c, b + d)
    decreases |b|
  {
    if b == [] {
      assert a == [] && a + c == c && b + d == d;
    } else if a != [] && a[0] == b[0] && Subseq(a[1..], b[1..]) {
      SubseqAppend(a[1..], b[1..], c, d);
      assert (a + c)[1..] == a[1..] + c && (b + d)[1..] == b[1..] + d;
    } else {
      if a == [] {
        SubseqAppendRight(c, b, d);
        assert a + c == c;
      } else {
        SubseqAppend(a, b[1..], c, d);
        assert (b + d)[1..] == b[1..] + d;
      }
    }
  }

  /** Elements in front of the sequence can be left out. */
  lemma {:induction false} SubseqAppendRight<X>(c: seq<X>, b: seq<X>, d: seq<X>)
    requires Subseq(c, d)
    ensures Subseq(c, b + d)
    decreases |b|
  {
    if b == [] {
      assert b + d == d;
    } else {
      SubseqAppendRight(c, b[1..], d);
      assert (b + d)[1..] == b[1..] + d;
      if c != [] {
        assert Subseq(c, (b + d)[1..]);
      }
    }
  }

  lemma {:induction false} SubseqTrans<X>(a: seq<X>, b: seq<X>, c: seq<X>)
    requires Subseq(a, b) && Subseq(b, c)
    ensures Subseq(a, c)
    decreases |c|
  {
    if a != [] {
      assert b != [] && c != [];
      if b[0] == c[0] && Subseq(b[1..], c[1..]) {
        if a[0] == b[0] && Subseq(a[1..], b[1..]) {
          SubseqTrans(a[1..], b[1..], c[1..]);
        } else {
          SubseqTrans(a, b[1..], c[1..]);
        }
      } else {
        SubseqTrans(a, b, c[1..]);
      }
    }
  }

  /** Removal by id leaves a subsequence. */
  lemma {:induction false} WithoutSubseq<T>(es: seq<Entry<T>>, id: uint32)
    ensures Subseq(Without(es, id), es)
    decreases |es|
  {
    if es != [] {
      WithoutSubseq(es[1..], id);
      var rest := Without(es[1..], id);
      if es[0].id != id {
        assert Without(es, id) == [es[0]] + rest;
        assert Without(es, id)[1..] == rest;
      } else {
        assert Without(es, id) == rest;
      }
    }
  }

  // ---------------------------------------------------------------------
  // Draining
  // ---------------------------------------------------------------------

  /**
   * What a running task does to the queue, in order: post a task
   * (setImmediate, setTimeout) or remove the tasks with an id (clearTimeout).
   */
  datatype Action<T> = Post(task: T) | Remove(id: uint32)

  /** The tasks the actions post, in order. */
  function PostsOf<T>(acts: seq<Action<T>>): seq<T>
    decreases |acts|
  {
    if acts == [] then []
    else (if acts[0].Post? then [acts[0].task] else []) + PostsOf(acts[1..])
  }

  /** The queue after some actions, the entries they added and the entries they took out. */
  datatype Acted<T> = Acted(queue: TaskQueue<T>, posted: seq<Entry<T>>, removed: seq<Entry<T>>)

  /** The actions applied one by one. */
  function Perform<T>(q: TaskQueue<T>, acts: seq<Action<T>>): (r: Acted<T>)
    decreases |acts|
  {
    if acts == [] then Acted(q, [], [])
    else if acts[0].Post? then
      var rest := Perform(PostTask(q, acts[0].task).queue, acts[1..]);
      Acted(rest.queue, [Entry(q.nextId, acts[0].task)] + rest.posted, rest.removed)
    else
      var rest := Perform(RemoveTask(q, acts[0].id), acts[1..]);
      Acted(rest.queue, rest.posted, Matching(q.entries, acts[0].id) + rest.removed)
  }

  /** Multiset bookkeeping of a post: the posted entry moves from the queue's end to the front of the posts. */
  lemma {:induction false} MultisetShift<X>(x: X, a: seq<X>, b: seq<X>, c: seq<X>, d: seq<X>)
    requires multiset(a + [x]) + multiset(b) == multiset(c) + multiset(d)
    ensures multiset(a) + multiset([x] + b) == multiset(c) + multiset(d)
  {
    assert multiset(a + [x]) == multiset(a) + multiset([x]);
    assert multiset([x] + b) == multiset([x]) + multiset(b);
  }

  /** Multiset bookkeeping of a removal: the removed entries join the front of the removals. */
  lemma {:induction false} MultisetRemoval<X>(kept: seq<X>, gone: seq<X>, all: seq<X>, b: seq<X>, c: seq<X>, d: seq<X>)
    requires multiset(kept) + multiset(gone) == multiset(all)
    requires multiset(kept) + multiset(b) == multiset(c) + multiset(d)
    ensures multiset(all) + multiset(b) == multiset(c) + multiset(gone + d)
  {
    assert multiset(gone + d) == multiset(gone) + multiset(d);
    forall o
      ensures (multiset(all) + multiset(b))[o] == (multiset(c) + multiset(gone + d))[o]
    {
      assert (multiset(kept) + multiset(gone))[o] == multiset(all)[o];
      assert (multiset(kept) + multiset(b))[o] == (multiset(c) + multiset(d))[o];
    }
  }

  /** Multiset bookkeeping of one drain step, over plain sequences. */
  lemma {:induction false} MultisetDrainStep<X>(front: X, popped: seq<X>, posted: seq<X>, queued: seq<X>, removed: seq<X>,
      later: seq<X>, ran: seq<X>, left: seq<X>, dropped: seq<X>,
      all: seq<X>, allPosted: seq<X>, allRan: seq<X>, allRemoved: seq<X>)
    requires multiset(popped) + multiset(posted) == multiset(queued) + multiset(removed)
    requires multiset(queued + later) == multiset(ran + left + dropped)
    requires all == [front] + popped && allPosted == posted + later
    requires allRan == [front] + ran && allRemoved == removed + dropped
    ensures multiset(all + allPosted) == multiset(allRan + left + allRemoved)
  {
    assert multiset(all + allPosted)
      == multiset([front]) + multiset(popped) + multiset(posted) + multiset(later);
    assert multiset(queued + later) == multiset(queued) + multiset(later);
    assert multiset(ran + left + dropped) == multiset(ran) + multiset(left) + multiset(dropped);
    assert multiset(allRan + left + allRemoved)
      == multiset([front]) + multiset(ran) + multiset(left) + multiset(removed) + multiset(dropped);
    forall o
      ensures multiset(all + allPosted)[o] == multiset(allRan + left + allRemoved)[o]
    {
      assert (multiset(popped) + multiset(posted))[o] == (multiset(queued) + multiset(removed))[o];
      assert multiset(queued + later)[o] == multiset(ran + left + dropped)[o];
    }
  }

  /**
   * Nothing is lost: the entries queued before and those posted are those
   * queued after and those removed.
   */
  lemma {:induction false} PerformConserves<T>(q: TaskQueue<T>, acts: seq<Action<T>>)
    ensures var r := Perform(q, acts);
      multiset(q.entries) + multiset(r.posted) == multiset(r.queue.entries) + multiset(r.removed)
    decreases |acts|
  {
    if acts != [] {
      var act := acts[0];
      if act.Post? {
        var p := PostTask(q, act.task).queue;
        PerformConserves(p, acts[1..]);
        var rest := Perform(p, acts[1..]);
        assert p.entries == q.entries + [Entry(q.nextId, act.task)];
        MultisetShift(Entry(q.nextId, act.task), q.entries, rest.posted, rest.queue.entries, rest.removed);
      } else {
        var kept := RemoveTask(q, act.id);
        PerformConserves(kept, acts[1..]);
        WithoutAndMatching(q.entries, act.id);
        var rest := Perform(kept, acts[1..]);
        MultisetRemoval(kept.entries, Matching(q.entries, act.id), q.entries,
          rest.posted, rest.queue.entries, rest.removed);
      }
    }
  }

  /** The queue after the actions keeps the order of the queue before followed by the posts. */
  lemma {:induction false} PerformKeepsOrder<T>(q: TaskQueue<T>, acts: seq<Action<T>>)
    ensures var r := Perform(q, acts);
      Subseq(r.queue.entries, q.entries + r.posted)
    decreases |acts|
  {
    if acts == [] {
      SubseqRefl(q.entries);
      assert q.entries + [] == q.entries;
    } else {
      var act := acts[0];
      if act.Post? {
        var p := PostTask(q, act.task).queue;
        PerformKeepsOrder(p, acts[1..]);
        var rest := Perform(p, acts[1..]);
        assert q.entries + ([Entry(q.nextId, act.task)] + rest.posted) == p.entries + rest.posted;
      } else {
        var kept := RemoveTask(q, act.id);
        PerformKeepsOrder(kept, acts[1..]);
        var rest := Perform(kept, acts[1..]);
        WithoutSubseq(q.entries, act.id);
        SubseqRefl(rest.posted);
        SubseqAppend(kept.entries, q.entries, rest.posted, rest.posted);
        SubseqTrans(rest.queue.entries, kept.entries + rest.posted, q.entries + rest.posted);
      }
    }
  }

  /** The posts are the actions' tasks, and only the ids the actions name are removed. */
  lemma {:induction false} PerformFollowsActions<T>(q: TaskQueue<T>, acts: seq<Action<T>>)
    ensures var r := Perform(q, acts);
      && Tasks(r.posted) == PostsOf(acts)
      && forall i :: 0 <= i < |r.removed| ==> Remove(r.removed[i].id) in acts
    decreases |acts|
  {
    if acts != [] {
      var act := acts[0];
      var r := Perform(q, acts);
      assert forall a :: a in acts[1..] ==> a in acts;
      if act.Post? {
        var p := PostTask(q, act.task).queue;
        PerformFollowsActions(p, acts[1..]);
        var rest := Perform(p, acts[1..]);
        assert Tasks(r.posted) == [act.task] + Tasks(rest.posted);
      } else {
        var kept := RemoveTask(q, act.id);
        PerformFollowsActions(kept, acts[1..]);
        var rest := Perform(kept, acts[1..]);
        var gone := Matching(q.entries, act.id);
        forall i | 0 <= i < |r.removed|
          ensures Remove(r.removed[i].id) in acts
        {
          if i < |gone| {
            assert r.removed[i] == gone[i];
          } else {
            assert r.removed[i] == rest.removed[i - |gone|];
          }
        }
      }
    }
  }

  /**
   * What running a task does: the actions it performs on the queue, in
   * order, and whether it then threw. A JS callback that throws makes
   * napi_call_function fail, and THROW_IF_NOT_OK turns that into a C++
   * exception that leaves the drain loop.
   */
  datatype TaskRun<T> = TaskRun(actions: seq<Action<T>>, threw: bool)

  /** The tasks the tasks of `ran` post when they run, concatenated in running order. */
  function PostedBy<T>(run: T -> TaskRun<T>, ran: seq<T>): seq<T>
    decreases |ran|
  {
    if ran == [] then [] else PostsOf(run(ran[0]).actions) + PostedBy(run, ran[1..])
  }

  /**
   * What a drain ran, in order, the queue it left, the entries posted and
   * removed meanwhile, and whether it ended because the last task threw.
   */
  datatype QueueDrained<T> = QueueDrained(ran: seq<Entry<T>>, queue: TaskQueue<T>, posted: seq<Entry<T>>,
    removed: seq<Entry<T>>, threw: bool)

  /**
   * Nothing is lost or duplicated: the entries queued at the start and
   * those posted while draining are exactly those that ran, those left in
   * the queue and those a cleared timeout removed.
   */
  ghost predicate Conserved<T>(queued: seq<Entry<T>>, r: QueueDrained<T>) {
    multiset(queued + r.posted) == multiset(r.ran + r.queue.entries + r.removed)
  }

  /**
   * First in, first out: the tasks that ran, followed by those left, keep
   * the order of the queue at the start followed by the posts, leaving out
   * only removed ones.
   */
  ghost predicate KeepsOrder<T>(queued: seq<Entry<T>>, r: QueueDrained<T>) {
    Subseq(r.ran + r.queue.entries, queued + r.posted)
  }

  /**
   * The drain stops at the first task that throws: no task before the
   * last one that ran threw, and the drain reports a throw exactly when
   * the last one did.
   */
  predicate StopsAtThrow<T>(run: T -> TaskRun<T>, r: QueueDrained<T>) {
    && (r.threw ==> r.ran != [] && run(r.ran[|r.ran| - 1].task).threw)
    && (forall i :: 0 <= i < |r.ran| && run(r.ran[i].task).threw ==> r.threw && i == |r.ran| - 1)
  }

  /**
   * DrainTaskQueue: pop the front task and run it, until the queue is
   * empty or a task throws; the exception leaves the rest of the queue in
   * place. Running a task performs the actions `run` gives for it, also
   * when it then throws; `fuel` bounds the number of tasks run. What was
   * posted meanwhile is what the tasks that ran posted, in running order.
   */
  function DrainTaskQueue<T>(q: TaskQueue<T>, run: T -> TaskRun<T>, fuel: nat): (r: QueueDrained<T>)
    ensures |r.ran| <= fuel
    ensures |r.ran| < fuel && !r.threw ==> r.queue.entries == []
    ensures StopsAtThrow(run, r)
    ensures Conserved(q.entries, r)
    ensures KeepsOrder(q.entries, r)
    ensures Tasks(r.posted) == PostedBy(run, Tasks(r.ran))
    decreases fuel
  {
    if fuel == 0 || q.entries == [] then
      DrainIdle(q);
      QueueDrained([], q, [], [], false)
    else
      var front := q.entries[0];
      var popped := TaskQueue(q.entries[1..], q.nextId);
      var acted := Perform(popped, run(front.task).actions);
      var rest := if run(front.task).threw then DrainIdle(acted.queue); QueueDrained([], acted.queue, [], [], false)
        else DrainTaskQueue(acted.queue, run, fuel - 1);
      var r := QueueDrained([front] + rest.ran, rest.queue, acted.posted + rest.posted, acted.removed + rest.removed,
        run(front.task).threw || rest.threw);
      RoundConserves(q.entries, popped, run(front.task).actions, acted, rest, r);
      RoundKeepsOrder(q.entries, popped, run(front.task).actions, acted, rest, r);
      RoundPosts(front, popped, run, acted, rest, r);
      RoundStops(front, run, rest, r);
      r
  }

  /** One round of the drain stops at a throw when the rest of the drain does. */
  lemma {:induction false} RoundStops<T>(front: Entry<T>, run: T -> TaskRun<T>, rest: QueueDrained<T>, r: QueueDrained<T>)
    requires StopsAtThrow(run, rest)
    requires run(front.task).threw ==> rest.ran == [] && !rest.threw
    requires r.ran == [front] + rest.ran && r.threw == (run(front.task).threw || rest.threw)
    ensures StopsAtThrow(run, r)
  {
    forall i | 0 <= i < |r.ran| && run(r.ran[i].task).threw
      ensures r.threw && i == |r.ran| - 1
    {
      if i > 0 {
        assert r.ran[i] == rest.ran[i - 1];
      }
    }
    if r.threw && rest.threw {
      assert r.ran[|r.ran| - 1] == rest.ran[|rest.ran| - 1];
    }
  }

  /** One round of the drain conserves the entries when the rest of the drain does. */
  lemma {:induction false} RoundConserves<T>(entries: seq<Entry<T>>, popped: TaskQueue<T>, acts: seq<Action<T>>,
      acted: Acted<T>, rest: QueueDrained<T>, r: QueueDrained<T>)
    requires entries != [] && popped.entries == entries[1..] && acted == Perform(popped, acts)
    requires Conserved(acted.queue.entries, rest)
    requires r == QueueDrained([entries[0]] + rest.ran, rest.queue, acted.posted + rest.posted, acted.removed + rest.removed, r.threw)
    ensures Conserved(entries, r)
  {
    PerformConserves(popped, acts);
    DrainConservesStep(entries, acted, rest, r);
  }

  /** One round of the drain keeps the order when the rest of the drain does. */
  lemma {:induction false} RoundKeepsOrder<T>(entries: seq<Entry<T>>, popped: TaskQueue<T>, acts: seq<Action<T>>,
      acted: Acted<T>, rest: QueueDrained<T>, r: QueueDrained<T>)
    requires entries != [] && popped.entries == entries[1..] && acted == Perform(popped, acts)
    requires KeepsOrder(acted.queue.entries, rest)
    requires r == QueueDrained([entries[0]] + rest.ran, rest.queue, acted.posted + rest.posted, acted.removed + rest.removed, r.threw)
    ensures KeepsOrder(entries, r)
  {
    PerformKeepsOrder(popped, acts);
    SubseqDrainStep(entries[0], popped.entries, acted.posted, acted.queue.entries, rest.posted,
      rest.ran + rest.queue.entries, entries, r.posted, r.ran + r.queue.entries);
  }

  /** One round of the drain posts what its task posts, followed by the rest of the drain's posts. */
  lemma {:induction false} RoundPosts<T>(front: Entry<T>, popped: TaskQueue<T>, run: T -> TaskRun<T>,
      acted: Acted<T>, rest: QueueDrained<T>, r: QueueDrained<T>)
    requires acted == Perform(popped, run(front.task).actions)
    requires Tasks(rest.posted) == PostedBy(run, Tasks(rest.ran))
    requires r.ran == [front] + rest.ran && r.posted == acted.posted + rest.posted
    ensures Tasks(r.posted) == PostedBy(run, Tasks(r.ran))
  {
    PerformFollowsActions(popped, run(front.task).actions);
    DrainPostsStep(run, front, acted.posted, rest, r);
  }

  /** A drain that runs, posts and removes nothing trivially conserves and keeps order. */
  lemma {:induction false} DrainIdle<T>(q: TaskQueue<T>)
    ensures Conserved(q.entries, QueueDrained([], q, [], [], false))
    ensures KeepsOrder(q.entries, QueueDrained([], q, [], [], false))
  {
    var r := QueueDrained([], q, [], [], false);
    assert q.entries + r.posted == q.entries;
    assert r.ran + r.queue.entries + r.removed == q.entries;
    assert r.ran + r.queue.entries == q.entries;
    SubseqRefl(q.entries);
  }

  /** The multiset bookkeeping of one round of the drain, over the round's results. */
  lemma {:induction false} DrainConservesStep<T>(entries: seq<Entry<T>>, acted: Acted<T>, rest: QueueDrained<T>, r: QueueDrained<T>)
    requires entries != []
    requires multiset(entries[1..]) + multiset(acted.posted) == multiset(acted.queue.entries) + multiset(acted.removed)
    requires Conserved(acted.queue.entries, rest)
    requires r == QueueDrained([entries[0]] + rest.ran, rest.queue, acted.posted + rest.posted, acted.removed + rest.removed, r.threw)
    ensures Conserved(entries, r)
  {
    assert entries == [entries[0]] + entries[1..];
    MultisetDrainStep(entries[0], entries[1..], acted.posted, acted.queue.entries, acted.removed,
      rest.posted, rest.ran, rest.queue.entries, rest.removed,
      entries, r.posted, r.ran, r.removed);
  }

  /** The posts bookkeeping of one round of the drain, over the round's results. */
  lemma {:induction false} DrainPostsStep<T>(run: T -> TaskRun<T>, front: Entry<T>, posted: seq<Entry<T>>,
      rest: QueueDrained<T>, r: QueueDrained<T>)
    requires Tasks(posted) == PostsOf(run(front.task).actions)
    requires Tasks(rest.posted) == PostedBy(run, Tasks(rest.ran))
    requires r.ran == [front] + rest.ran && r.posted == posted + rest.posted
    ensures Tasks(r.posted) == PostedBy(run, Tasks(r.ran))
  {
    TasksAppend(posted, rest.posted);
    TasksAppend([front], rest.ran);
    PostedByCons(run, front.task, Tasks(rest.ran));
  }

  lemma {:induction false} TasksAppend<T>(a: seq<Entry<T>>, b: seq<Entry<T>>)
    ensures Tasks(a + b) == Tasks(a) + Tasks(b)
  {
  }

  lemma {:induction false} PostedByCons<T>(run: T -> TaskRun<T>, t: T, later: seq<T>)
    ensures PostedBy(run, [t] + later) == PostsOf(run(t).actions) + PostedBy(run, later)
  {
    assert ([t] + later)[1..] == later;
  }

  /** Order bookkeeping of one drain step, over plain sequences. */
  lemma {:induction false} SubseqDrainStep<X>(front: X, popped: seq<X>, posted: seq<X>, queued: seq<X>, later: seq<X>,
      done: seq<X>, all: seq<X>, allPosted: seq<X>, allDone: seq<X>)
    requires Subseq(queued, popped + posted)
    requires Subseq(done, queued + later)
    requires all == [front] + popped && allPosted == posted + later && allDone == [front] + done
    ensures Subseq(allDone, all + allPosted)
  {
    SubseqRefl(later);
    SubseqAppend(queued, popped + posted, later, later);
    SubseqTrans(done, queued + later, popped + posted + later);
    assert (all + allPosted)[1..] == popped + posted + later;
    assert allDone[1..] == done;
  }

  /**
   * When no entry was removed, the tasks that ran followed by those left
   * are exactly the tasks queued at the start followed by the posts, so
   * the tasks that ran are the front of that sequence, and the tasks
   * queued at the start all run first, in queue order, if the fuel allows
   * and none of them throws.
   */
  lemma {:induction false} DrainIsFifo<T>(q: TaskQueue<T>, run: T -> TaskRun<T>, fuel: nat)
    ensures var r := DrainTaskQueue(q, run, fuel);
      r.removed == [] ==> r.ran + r.queue.entries == q.entries + r.posted
    ensures var r := DrainTaskQueue(q, run, fuel);
      r.removed == [] ==> r.ran == (q.entries + r.posted)[..|r.ran|]
    ensures var r := DrainTaskQueue(q, run, fuel);
      r.removed == [] && fuel >= |q.entries| && !r.threw ==> |r.ran| >= |q.entries| && r.ran[..|q.entries|] == q.entries
  {
    var r := DrainTaskQueue(q, run, fuel);
    if r.removed == [] {
      SameLength(r.ran + r.queue.entries, q.entries + r.posted, r.removed);
      SubseqLength(r.ran + r.queue.entries, q.entries + r.posted);
      FrontOfSplit(r.ran, r.queue.entries, q.entries, r.posted);
      if fuel >= |q.entries| && !r.threw && |r.ran| < fuel {
        assert r.ran + [] == r.ran;
      }
    }
  }

  /** A first task that throws without posting or removing anything ends the drain at once: the
      exception reaches the caller and every task queued behind it stays queued. */
  lemma {:induction false} ThrowLeavesRest<T>(q: TaskQueue<T>, run: T -> TaskRun<T>, fuel: nat)
    requires q.entries != [] && fuel > 0
    requires run(q.entries[0].task) == TaskRun([], true)
    ensures DrainTaskQueue(q, run, fuel) == QueueDrained([q.entries[0]], TaskQueue(q.entries[1..], q.nextId), [], [], true)
  {
  }

  /** The front of a split sequence: what comes before the split is a prefix of the whole. */
  lemma {:induction false} FrontOfSplit<X>(ran: seq<X>, left: seq<X>, queued: seq<X>, posted: seq<X>)
    requires ran + left == queued + posted
    ensures ran == (queued + posted)[..|ran|]
    ensures |ran| >= |queued| ==> ran[..|queued|] == queued
  {
    assert (ran + left)[..|ran|] == ran;
    if |ran| >= |queued| {
      assert (queued + posted)[..|queued|] == queued;
      assert (ran + left)[..|queued|] == ran[..|queued|];
    }
  }

  /** Sequences with the same multiset have the same length. */
  lemma {:induction false} SameLength<X>(a: seq<X>, b: seq<X>, none: seq<X>)
    requires none == [] && multiset(b) == multiset(a + none)
    ensures |a| == |b|
  {
    assert a + none == a;
    assert |multiset(a)| == |a| && |multiset(b)| == |b|;
  }

  // ---------------------------------------------------------------------
  // The wrapper PostTaskCallback queues
  // ---------------------------------------------------------------------

  /** The calls the wrapper makes: the run callback with its task data, the delete callback with it and the deleter data. */
  datatype TaskCall = RunTask(cb: nat, data: nat) | DeleteTaskData(cb: nat, data: nat, deleterData: nat)

  /**
   * The function PostTaskCallback posts: it calls `task_run_cb(task_data)`
   * and then `task_data_delete_cb(task_data, deleter_data)`, skipping
   * either callback that is null.
   */
  function RunWrapper(runCb: Option<nat>, deleteCb: Option<nat>, data: nat, deleterData: nat): (calls: seq<TaskCall>)
    ensures |calls| == (if runCb.Some? then 1 else 0) + (if deleteCb.Some? then 1 else 0)
    ensures forall i :: 0 <= i < |calls| ==> calls[i].data == data
    ensures runCb.Some? <==> RunTask(runCb.GetOr(0), data) in calls
    ensures deleteCb.Some? <==> DeleteTaskData(deleteCb.GetOr(0), data, deleterData) in calls
    ensures deleteCb.Some? ==> calls[|calls| - 1] == DeleteTaskData(deleteCb.value, data, deleterData)
  {
    (if runCb.Some? then [RunTask(runCb.value, data)] else [])
      + (if deleteCb.Some? then [DeleteTaskData(deleteCb.value, data, deleterData)] else [])
  }

  // ---------------------------------------------------------------------
  // NodeApiEnvScope
  // ---------------------------------------------------------------------

  /** A NodeApiEnvScope: the env (null after a move) and the scope it opened. */
  datatype TestEnvScope = TestEnvScope(env: Option<nat>, scope: Option<nat>)

  /**
   * The constructor: it opens an env scope and crashes (None) when that
   * fails; `given` is the scope jsr_open_napi_env_scope gave, if it succeeded.
   */
  function OpenTestEnvScope(env: nat, given: Option<nat>): (r: Option<TestEnvScope>)
    ensures r.Some? <==> given.Some?
    ensures r.Some? ==> r.value.env == Some(env) && r.value.scope == given
  {
    if given.None? then None else Some(TestEnvScope(Some(env), given))
  }

  /** A jsr_close_napi_env_scope call. */
  datatype CloseCall = CloseCall(env: nat, scope: Option<nat>)

  /** The destructor closes the scope iff the env is not null. */
  function DestroyEnvScope(s: TestEnvScope): (calls: seq<CloseCall>)
    ensures |calls| <= 1
    ensures calls != [] <==> s.env.Some?
    ensures calls != [] ==> calls[0] == CloseCall(s.env.value, s.scope)
  {
    if s.env.Some? then [CloseCall(s.env.value, s.scope)] else []
  }

  /** The move constructor: both fields are exchanged for null. */
  function MoveEnvScope(other: TestEnvScope): (r: (TestEnvScope, TestEnvScope))
  {
    (TestEnvScope(other.env, other.scope), TestEnvScope(None, None))
  }

  /** Target and source after a move assignment, and the closes its temporary made. */
  datatype EnvScopeAssigned = EnvScopeAssigned(target: TestEnvScope, source: TestEnvScope, closed: seq<CloseCall>)

  /** The move assignment: the old contents move into a temporary that is destroyed; the source's move in. */
  function MoveAssignEnvScope(target: TestEnvScope, source: TestEnvScope, sameObject: bool): (r: EnvScopeAssigned)
    requires sameObject ==> target == source
  {
    if sameObject then EnvScopeAssigned(target, source, [])
    else
      var (temp, _) := MoveEnvScope(target);
      EnvScopeAssigned(TestEnvScope(source.env, source.scope), TestEnvScope(None, None), DestroyEnvScope(temp))
  }

  /**
   * A moved-from scope closes nothing, the moved-to one closes what the
   * original would have; after a move assignment the old scope is closed
   * once, and across the destructors each scope is closed exactly once.
   */
  lemma {:induction false} EnvScopeClosesOnce(target: TestEnvScope, source: TestEnvScope)
    ensures var (moved, from) := MoveEnvScope(source);
      DestroyEnvScope(from) == [] && DestroyEnvScope(moved) == DestroyEnvScope(source)
    ensures var a := MoveAssignEnvScope(target, source, false);
      && a.source.env.None?
      && a.closed == DestroyEnvScope(target)
      && a.closed + DestroyEnvScope(a.target) + DestroyEnvScope(a.source)
        == DestroyEnvScope(target) + DestroyEnvScope(source)
  {
    var a := MoveAssignEnvScope(target, source, false);
    assert DestroyEnvScope(a.source) == [];
  }

  // ---------------------------------------------------------------------
  // NapiTestErrorHandler
  // ---------------------------------------------------------------------

  /**
   * How a test body ended: without an exception, with a NapiTestException
   * (its JS error name when it has error info, and whether it carries
   * assertion info), with another std::exception, or with anything else.
   */
  datatype Ending =
    | NoException
    | NapiTestError(errorName: Option<string>, assertion: bool)
    | StdError
    | UnknownError

  /** What the test asked for: a handler, whether an exception is required, and the error name handled. */
  datatype Expectation = Expectation(handler: bool, mustThrow: bool, jsErrorName: string)

  /** A handler nobody configured: no handler, nothing required, an empty error name. */
  const NoExpectation := Expectation(false, false, "")

  /** Catch: sets the handler only. */
  function Catch(x: Expectation): (r: Expectation)
    ensures r.handler && r.mustThrow == x.mustThrow && r.jsErrorName == x.jsErrorName
  {
    x.(handler := true)
  }

  /** Throws: sets the handler and requires an exception; the named form also sets the error name. */
  function Throws(x: Expectation, name: Option<string>): (r: Expectation)
    ensures r.handler && r.mustThrow
    ensures r.jsErrorName == name.GetOr(x.jsErrorName)
  {
    Expectation(true, true, if name.Some? then name.value else x.jsErrorName)
  }

  /** What the destructor does: call the handler, report a failure under a title, or let the test pass. */
  datatype Verdict = HandlerCalled | Failure(title: string) | Pass

  const NOT_THROWN := "NapiTestException was expected, but it was not thrown"

  /**
   * ~NapiTestErrorHandler: a NapiTestException goes to the handler when
   * there is one and the exception has no error info or the expected
   * name; any other exception is a failure titled by its kind; no
   * exception fails only when one was required.
   */
  function Judge(x: Expectation, e: Ending): (r: Verdict)
    ensures r.HandlerCalled? <==>
      e.NapiTestError? && x.handler && (e.errorName.None? || e.errorName.value == x.jsErrorName)
    ensures r.Pass? <==> e.NoException? && !x.mustThrow
    ensures e.NoException? && x.mustThrow ==> r == Failure(NOT_THROWN)
  {
    match e
    case NoException => if x.mustThrow then Failure(NOT_THROWN) else Pass
    case NapiTestError(name, assertion) =>
      if x.handler && (name.None? || name.value == x.jsErrorName) then HandlerCalled
      else if assertion then Failure("JavaScript assertion error")
      else if name.Some? then Failure("JavaScript error")
      else Failure("Test native exception")
    case StdError => Failure("C++ exception")
    case UnknownError => Failure("Unexpected test exception")
  }

  /**
   * Throws turns a body that does not throw into a failure while Catch
   * lets it pass; a plain Catch, whose error name stays empty, handles a
   * JS error only when that error's name is empty.
   */
  lemma {:induction false} ThrowsVersusCatch(x: Expectation, name: Option<string>, errorName: string, assertion: bool)
    requires !x.mustThrow
    ensures Judge(Throws(x, name), NoException) == Failure(NOT_THROWN)
    ensures Judge(Catch(x), NoException) == Pass
    ensures Judge(Catch(NoExpectation), NapiTestError(Some(errorName), assertion)).HandlerCalled? <==> errorName == ""
    ensures Judge(Throws(x, Some(errorName)), NapiTestError(Some(errorName), assertion)) == HandlerCalled
  {
  }
}

=== FILE: harness_text.dfy ===
/**
 * The text utilities of the Node-API test harness
 * (src/node-api/test/node_api_test.cpp, testmain.cpp and
 * src/napi/test/napitest.cpp): replaceAll, the source path fix-up, the
 * module wrapper, the source slice shown for a failed assertion, the stack
 * trimming, the argument filtering of the test host, the exit message a
 * failing test process writes and the parser that reads it back, and the
 * test naming.
 */
module HarnessText {
  import opened Wrappers
  import opened Text

  // ---------------------------------------------------------------------
  // replaceAll
  // ---------------------------------------------------------------------

  /**
   * The reference meaning of replacing every `from` by `to`: scanning left
   * to right, an occurrence is replaced and scanning resumes after it, so
   * occurrences never overlap and the inserted text is never rescanned.
   */
  function Replaced(s: string, from: string, to: string): string
    requires from != []
    decreases |s|
  {
    if |s| < |from| then s
    else if s[..|from|] == from then to + Replaced(s[|from|..], from, to)
    else [s[0]] + Replaced(s[1..], from, to)
  }

  /** Text before the first occurrence is kept as it is. */
  lemma {:induction false} ReplacedSkips(s: string, from: string, to: string, k: nat)
    requires from != [] && k <= |s|
    requires forall j :: 0 <= j < k ==> !MatchAt(s, from, j)
    ensures Replaced(s, from, to) == s[..k] + Replaced(s[k..], from, to)
    decreases k
  {
    if k > 0 {
      var tail := s[1..];
      ReplacedSkipsOne(s, from, to);
      NoMatchInTail(s, from, k);
      ReplacedSkips(tail, from, to, k - 1);
      assert tail[k - 1..] == s[k..];
      assert [s[0]] + tail[..k - 1] == s[..k];
    } else {
      assert s[0..] == s;
    }
  }

  /** A first character that starts no match is kept. */
  lemma {:induction false} ReplacedSkipsOne(s: string, from: string, to: string)
    requires from != [] && s != [] && !MatchAt(s, from, 0)
    ensures Replaced(s, from, to) == [s[0]] + Replaced(s[1..], from, to)
  {
    if |s| < |from| {
      assert Replaced(s[1..], from, to) == s[1..];
      assert [s[0]] + s[1..] == s;
    }
  }

  /** No match among the first k positions leaves none among the first k - 1 of the tail. */
  lemma {:induction false} NoMatchInTail(s: string, from: string, k: nat)
    requires 0 < k <= |s|
    requires forall j :: 0 <= j < k ==> !MatchAt(s, from, j)
    ensures forall j :: 0 <= j < k - 1 ==> !MatchAt(s[1..], from, j)
  {
    forall j | 0 <= j < k - 1
      ensures !MatchAt(s[1..], from, j)
    {
      MatchAtSuffix(s, from, 1, j);
    }
  }

  /** Text where `from` does not occur comes back unchanged. */
  lemma {:induction false} ReplacedNoMatch(s: string, from: string, to: string)
    requires from != []
    requires forall j :: 0 <= j <= |s| ==> !MatchAt(s, from, j)
    ensures Replaced(s, from, to) == s
  {
    ReplacedSkips(s, from, to, |s|);
    assert s[..|s|] == s;
  }

  /** A match at the front is replaced and scanning resumes after it. */
  lemma {:induction false} ReplacedAtMatch(s: string, from: string, to: string)
    requires from != [] && MatchAt(s, from, 0)
    ensures Replaced(s, from, to) == to + Replaced(s[|from|..], from, to)
  {
  }

  /** MatchAt in a suffix is MatchAt in the whole text, shifted. */
  lemma {:induction false} MatchAtSuffix(s: string, from: string, start: nat, j: nat)
    requires start <= |s|
    ensures MatchAt(s[start..], from, j) <==> MatchAt(s, from, start + j)
  {
    if start + j + |from| <= |s| {
      assert s[start..][j..j + |from|] == s[start + j..start + j + |from|];
    }
  }

  /**
   * replaceAll, as its loop is written: with an empty `from` the input
   * comes back unchanged; otherwise each find resumes just after the text
   * last inserted.
   */
  method ReplaceAll(str: string, from: string, to: string) returns (result: string)
    ensures from == [] ==> result == str
    ensures from != [] ==> result == Replaced(str, from, to)
  {
    result := str;
    if from == [] {
      return;
    }
    var start: nat := 0;
    while true
      invariant start <= |result|
      invariant result[..start] + Replaced(result[start..], from, to) == Replaced(str, from, to)
      decreases |result| - start
    {
      var found := Find(result, from, start);
      if found.None? {
        ReplaceDone(result, start, from, to);
        return;
      }
      var pos := found.value;
      ReplaceStep(result, start, pos, from, to);
      result, start := result[..pos] + to + result[pos + |from|..], pos + |to|;
    }
  }

  /** No occurrence at or after `start`: the rest of the text is already final. */
  lemma {:induction false} ReplaceDone(result: string, start: nat, from: string, to: string)
    requires from != [] && start <= |result|
    requires Find(result, from, start).None?
    ensures result[..start] + Replaced(result[start..], from, to) == result
  {
    forall j | 0 <= j <= |result[start..]|
      ensures !MatchAt(result[start..], from, j)
    {
      MatchAtSuffix(result, from, start, j);
    }
    ReplacedNoMatch(result[start..], from, to);
    assert result[..start] + result[start..] == result;
  }

  /** One round of the loop: replacing the occurrence found keeps the invariant. */
  lemma {:induction false} ReplaceStep(result: string, start: nat, pos: nat, from: string, to: string)
    requires from != [] && start <= |result|
    requires Find(result, from, start) == Some(pos)
    ensures pos + |from| <= |result|
    ensures var next := result[..pos] + to + result[pos + |from|..];
      && pos + |to| <= |next|
      && next[..pos + |to|] + Replaced(next[pos + |to|..], from, to)
        == result[..start] + Replaced(result[start..], from, to)
  {
    NoMatchBeforeFound(result, start, pos, from);
    ReplacedAtFound(result, start, pos, from, to);
    var after := result[pos + |from|..];
    var rest := Replaced(after, from, to);
    var next := result[..pos] + to + after;
    assert next[..pos + |to|] == result[..pos] + to && next[pos + |to|..] == after by {
      assert |result[..pos]| == pos;
    }
    assert result[..start] + result[start..pos] == result[..pos];
    Regroup4(result[..start], result[start..pos], to, rest);
  }

  lemma {:induction false} Regroup4(a: string, b: string, c: string, d: string)
    ensures a + (b + (c + d)) == (a + b + c) + d
  {
  }

  /** The text from `start` on, with the occurrence found at `pos` first. */
  lemma {:induction false} ReplacedAtFound(result: string, start: nat, pos: nat, from: string, to: string)
    requires from != [] && start <= pos && pos + |from| <= |result|
    requires MatchAt(result, from, pos)
    requires forall j :: 0 <= j < pos - start ==> !MatchAt(result[start..], from, j)
    ensures Replaced(result[start..], from, to)
      == result[start..pos] + (to + Replaced(result[pos + |from|..], from, to))
  {
    var rest := result[start..];
    ReplacedSkips(rest, from, to, pos - start);
    assert rest[..pos - start] == result[start..pos] && rest[pos - start..] == result[pos..];
    MatchAtSuffix(result, from, pos, 0);
    ReplacedAtMatch(result[pos..], from, to);
    assert result[pos..][|from|..] == result[pos + |from|..];
  }

  /** Between `start` and the occurrence found there is no match in the text from `start` on. */
  lemma {:induction false} NoMatchBeforeFound(result: string, start: nat, pos: nat, from: string)
    requires from != [] && start <= |result|
    requires Find(result, from, start) == Some(pos)
    ensures pos + |from| <= |result|
    ensures forall j :: 0 <= j < pos - start ==> !MatchAt(result[start..], from, j)
  {
    forall j | 0 <= j < pos - start
      ensures !MatchAt(result[start..], from, j)
    {
      MatchAtSuffix(result, from, start, j);
    }
  }

  /** Every backslash doubled: the escaping GetJSModuleText gives a path. */
  function DoubleBackslashes(s: string): (r: string)
    ensures |r| == |s| + CountChar(s, '\\')
  {
    if s == [] then []
    else (if s[0] == '\\' then "\\\\" else [s[0]]) + DoubleBackslashes(s[1..])
  }

  /** How a JavaScript string literal reads escaped backslashes: a pair stands for one backslash. */
  function ReadBackslashes(s: string): string
    decreases |s|
  {
    if |s| >= 2 && s[0] == '\\' && s[1] == '\\' then "\\" + ReadBackslashes(s[2..])
    else if s == [] then []
    else [s[0]] + ReadBackslashes(s[1..])
  }

  /**
   * replaceAll(path, "\\", "\\\\") doubles every backslash, and the
   * JavaScript literal it is written into reads as the original path.
   */
  lemma {:induction false} EscapedPathReadsBack(s: string)
    ensures Replaced(s, "\\", "\\\\") == DoubleBackslashes(s)
    ensures ReadBackslashes(DoubleBackslashes(s)) == s
    decreases |s|
  {
    if s != [] {
      EscapedPathReadsBack(s[1..]);
      var d := DoubleBackslashes(s);
      if s[0] == '\\' {
        assert s[..1] == "\\";
        assert d[2..] == DoubleBackslashes(s[1..]);
      } else {
        assert s[..1] != "\\";
        assert d[1..] == DoubleBackslashes(s[1..]);
      }
    }
  }

  // ---------------------------------------------------------------------
  // UseSrcFilePath
  // ---------------------------------------------------------------------

  const BUILD_PATH := "build\\v8build\\v8\\jsi"

  /** UseSrcFilePath: the first occurrence of the build path becomes "src". */
  function UseSrcFilePath(file: string): (r: string)
  {
    match Find(file, BUILD_PATH, 0)
    case None => file
    case Some(pos) => file[..pos] + "src" + file[pos + |BUILD_PATH|..]
  }

  /**
   * A path without the build directory is kept; a path with it has its
   * first occurrence replaced by "src" and the rest kept.
   */
  lemma {:induction false} SrcFilePathMapsBuildPath(prefix: string, suffix: string, other: string)
    requires 'b' !in prefix
    requires forall j :: 0 <= j ==> !MatchAt(other, BUILD_PATH, j)
    ensures UseSrcFilePath(prefix + BUILD_PATH + suffix) == prefix + "src" + suffix
    ensures UseSrcFilePath(other) == other
  {
    var file := prefix + BUILD_PATH + suffix;
    assert MatchAt(file, BUILD_PATH, |prefix|) by {
      assert file[|prefix|..|prefix| + |BUILD_PATH|] == BUILD_PATH;
    }
    forall j | 0 <= j < |prefix|
      ensures !MatchAt(file, BUILD_PATH, j)
    {
      assert file[j] == prefix[j];
    }
    var found := Find(file, BUILD_PATH, 0);
    assert found == Some(|prefix|);
    assert file[..|prefix|] == prefix;
    assert file[|prefix| + |BUILD_PATH|..] == suffix;
  }

  // ---------------------------------------------------------------------
  // The module wrapper
  // ---------------------------------------------------------------------

  /** The lines of the two harnesses' module prefixes. */
  const LINE_STRICT := "  'use strict';"
  const LINE_FUNCTION := "  (function(module) {"
  const LINE_LET_EXPORTS := "    let exports = module.exports;"
  const LINE_FILENAME := "    const __filename = module.filename;"
  const LINE_DIRNAME := "    const __dirname = module.path;"
  const LINE_CONST_EXPORTS := "    const exports = module.exports;"

  /** ModulePrefix of the node-api harness, line by line: the text before the module's code. */
  const MODULE_PREFIX_LINES := ["", LINE_STRICT, LINE_FUNCTION, LINE_LET_EXPORTS, LINE_FILENAME, LINE_DIRNAME]
  const MODULE_PREFIX := JoinLines(MODULE_PREFIX_LINES)

  /** ModuleSuffix, split at its two %s conversions (the file name and its directory). */
  const SUFFIX_HEAD := "\n    return module.exports;\n  })({exports: {}, filename: \""
  const SUFFIX_MIDDLE := "\", path: \""
  const SUFFIX_TAIL := "\"});"

  /** ModuleSuffix with the escaped file name and directory written into it. */
  function ModuleSuffix(path: string, parent: string): string {
    SUFFIX_HEAD + Replaced(path, "\\", "\\\\") + SUFFIX_MIDDLE + Replaced(parent, "\\", "\\\\") + SUFFIX_TAIL
  }

  /** GetJSModuleText of the node-api harness; `parent` is the path's parent directory. */
  function ModuleText(code: string, path: string, parent: string): string {
    MODULE_PREFIX + code + ModuleSuffix(path, parent)
  }

  /** The napi harness' ModulePrefix and ModuleSuffix, which pass no paths. */
  const NAPI_MODULE_PREFIX_LINES := ["", LINE_STRICT, LINE_FUNCTION, LINE_CONST_EXPORTS]
  const NAPI_MODULE_PREFIX := JoinLines(NAPI_MODULE_PREFIX_LINES)
  const NAPI_MODULE_SUFFIX := "\n    return module.exports;\n  })({exports: {}});"

  /** GetJSModuleText of the napi harness. */
  function NapiModuleText(code: string): string {
    NAPI_MODULE_PREFIX + code + NAPI_MODULE_SUFFIX
  }

  /**
   * ModulePrefixLineCount, GetEndOfLineCount of the prefix, is its number
   * of lines: six in the node-api harness and four in the napi harness.
   */
  lemma {:induction false} PrefixLineCounts()
    ensures CountChar(MODULE_PREFIX, '\n') == |MODULE_PREFIX_LINES| == 6
    ensures CountChar(NAPI_MODULE_PREFIX, '\n') == |NAPI_MODULE_PREFIX_LINES| == 4
  {
    PrefixLinesHaveNoNewline();
    NewlineCountOfJoinLines(MODULE_PREFIX_LINES);
    NewlineCountOfJoinLines(NAPI_MODULE_PREFIX_LINES);
  }

  /** No line of either prefix holds a newline of its own. */
  lemma {:induction false} PrefixLinesHaveNoNewline()
    ensures forall k :: 0 <= k < |MODULE_PREFIX_LINES| ==> NoNewline(MODULE_PREFIX_LINES[k])
    ensures forall k :: 0 <= k < |NAPI_MODULE_PREFIX_LINES| ==> NoNewline(NAPI_MODULE_PREFIX_LINES[k])
  {
    OpeningLinesHaveNoNewline();
    ExportsLinesHaveNoNewline();
    PathLinesHaveNoNewline();
  }

  lemma {:induction false} OpeningLinesHaveNoNewline()
    ensures NoNewline(LINE_STRICT) && NoNewline(LINE_FUNCTION)
  {
    var s, f := LINE_STRICT, LINE_FUNCTION;
    assert forall j :: 0 <= j < |s| ==> s[j] != '\n';
    assert forall j :: 0 <= j < |f| ==> f[j] != '\n';
  }

  lemma {:induction false} ExportsLinesHaveNoNewline()
    ensures NoNewline(LINE_LET_EXPORTS) && NoNewline(LINE_CONST_EXPORTS)
  {
    var l, c := LINE_LET_EXPORTS, LINE_CONST_EXPORTS;
    assert forall j :: 0 <= j < |l| ==> l[j] != '\n';
    assert forall j :: 0 <= j < |c| ==> c[j] != '\n';
  }

  lemma {:induction false} PathLinesHaveNoNewline()
    ensures NoNewline(LINE_FILENAME) && NoNewline(LINE_DIRNAME)
  {
    var f, d := LINE_FILENAME, LINE_DIRNAME;
    assert forall j :: 0 <= j < |f| ==> f[j] != '\n';
    assert forall j :: 0 <= j < |d| ==> d[j] != '\n';
  }

  /**
   * The module's code sits right after the prefix, so its line n is line
   * n + ModulePrefixLineCount of the script; the file name and directory
   * are written with each backslash doubled, which the script reads back
   * as the original paths.
   */
  lemma {:induction false} ModuleTextLayout(code: string, path: string, parent: string)
    ensures var text := ModuleText(code, path, parent);
      && text[..|MODULE_PREFIX|] == MODULE_PREFIX
      && text[|MODULE_PREFIX|..|MODULE_PREFIX| + |code|] == code
      && text[|MODULE_PREFIX| + |code|..] == SUFFIX_HEAD + DoubleBackslashes(path) + SUFFIX_MIDDLE + DoubleBackslashes(parent) + SUFFIX_TAIL
      && ReadBackslashes(DoubleBackslashes(path)) == path
      && ReadBackslashes(DoubleBackslashes(parent)) == parent
  {
    EscapedPathReadsBack(path);
    EscapedPathReadsBack(parent);
    ThreeParts(MODULE_PREFIX, code, ModuleSuffix(path, parent));
  }

  /** In the napi harness the module's code sits right after its prefix too. */
  lemma {:induction false} NapiModuleTextLayout(code: string)
    ensures var text := NapiModuleText(code);
      && text[..|NAPI_MODULE_PREFIX|] == NAPI_MODULE_PREFIX
      && text[|NAPI_MODULE_PREFIX|..|NAPI_MODULE_PREFIX| + |code|] == code
      && text[|NAPI_MODULE_PREFIX| + |code|..] == NAPI_MODULE_SUFFIX
  {
    ThreeParts(NAPI_MODULE_PREFIX, code, NAPI_MODULE_SUFFIX);
  }

  lemma {:induction false} ThreeParts(a: string, b: string, c: string)
    ensures var s := a + b + c;
      s[..|a|] == a && s[|a|..|a| + |b|] == b && s[|a| + |b|..] == c
  {
    var s := a + b + c;
    assert s[..|a|] == a;
    assert s[|a|..|a| + |b|] == b;
    assert s[|a| + |b|..] == c;
  }

  // ---------------------------------------------------------------------
  // GetSourceCodeSliceForError
  // ---------------------------------------------------------------------

  const MARKER := "===> "
  const NO_MARKER := "     "

  /** A source line as the slice shows it: the marker on line `lineIndex`, five spaces on the others. */
  function Shown(line: string, current: int, lineIndex: int): string {
    (if current == lineIndex then MARKER else NO_MARKER) + line
  }

  /** The first line number the window shows. */
  function Lowest(lineIndex: int, extra: int): int {
    if lineIndex - extra < 1 then 1 else lineIndex - extra
  }

  /**
   * The reference window: the 1-based lines numbered from
   * max(1, lineIndex - extra) to min(n, lineIndex + extra), each shown.
   */
  function Window(lines: seq<string>, lineIndex: int, extra: int): (w: seq<string>)
    ensures var lo := Lowest(lineIndex, extra);
      var hi := if lineIndex + extra < |lines| then lineIndex + extra else |lines|;
      |w| == (if hi < lo then 0 else hi - lo + 1)
  {
    var lo := Lowest(lineIndex, extra);
    var hi := if lineIndex + extra < |lines| then lineIndex + extra else |lines|;
    var count := if hi < lo then 0 else hi - lo + 1;
    seq(count, j requires 0 <= j < count => Shown(lines[lo + j - 1], lo + j, lineIndex))
  }

  /** Looking at one more line grows the window by that line exactly when its number is inside it. */
  lemma {:induction false} WindowStep(lines: seq<string>, k: nat, lineIndex: int, extra: int)
    requires k < |lines|
    ensures Lowest(lineIndex, extra) <= k + 1 <= lineIndex + extra ==>
      Window(lines[..k + 1], lineIndex, extra) == Window(lines[..k], lineIndex, extra) + [Shown(lines[k], k + 1, lineIndex)]
    ensures !(Lowest(lineIndex, extra) <= k + 1 <= lineIndex + extra) && k + 1 <= lineIndex + extra ==>
      Window(lines[..k + 1], lineIndex, extra) == Window(lines[..k], lineIndex, extra)
  {
    var a := Window(lines[..k + 1], lineIndex, extra);
    var b := Window(lines[..k], lineIndex, extra);
    var lo := Lowest(lineIndex, extra);
    if lo <= k + 1 <= lineIndex + extra {
      assert |a| == |b| + 1;
      forall j | 0 <= j < |b|
        ensures a[j] == b[j]
      {
        assert lines[..k + 1][lo + j - 1] == lines[..k][lo + j - 1];
      }
      assert a[|b|] == Shown(lines[k], k + 1, lineIndex);
    } else if k + 1 <= lineIndex + extra {
      assert |a| == 0 && |b| == 0;
    }
  }

  /** Once the line number passes the window, the lines still unread change nothing. */
  lemma {:induction false} WindowPrefix(lines: seq<string>, k: nat, lineIndex: int, extra: int)
    requires k <= |lines|
    requires k == |lines| || lineIndex + extra < k + 1
    ensures Window(lines[..k], lineIndex, extra) == Window(lines, lineIndex, extra)
  {
    var a := Window(lines[..k], lineIndex, extra);
    var b := Window(lines, lineIndex, extra);
    assert |a| == |b|;
    forall j | 0 <= j < |a|
      ensures a[j] == b[j]
    {
      var lo := Lowest(lineIndex, extra);
      assert lines[..k][lo + j - 1] == lines[lo + j - 1];
    }
  }

  /** Adding a line to written text appends it and its newline. */
  lemma {:induction false} JoinLinesSnoc(ls: seq<string>, l: string)
    ensures JoinLines(ls + [l]) == JoinLines(ls) + l + "\n"
  {
    JoinLinesAppend(ls, [l]);
    assert JoinLines([l]) == l + "\n" + JoinLines([]);
  }

  /**
   * GetSourceCodeSliceForError, as its loop is written: the script plus a
   * final '\n' is read line by line; reading stops after line
   * lineIndex + extra, and lines from lineIndex - extra on are shown.
   */
  method SourceSlice(script: string, lineIndex: int, extra: int) returns (sourceCode: string)
    ensures sourceCode == JoinLines(Window(Lines(script + "\n"), lineIndex, extra))
  {
    var lines := Lines(script + "\n");
    sourceCode := "";
    var k: nat := 0;
    while k < |lines|
      invariant k <= |lines|
      invariant k <= Lowest(lineIndex, extra) - 1 || k <= lineIndex + extra
      invariant sourceCode == JoinLines(Window(lines[..k], lineIndex, extra))
    {
      var current := k + 1;
      if current > lineIndex + extra {
        break;
      }
      WindowStep(lines, k, lineIndex, extra);
      if current >= lineIndex - extra {
        JoinLinesSnoc(Window(lines[..k], lineIndex, extra), Shown(lines[k], current, lineIndex));
        sourceCode := sourceCode + Shown(lines[k], current, lineIndex) + "\n";
      }
      k := k + 1;
    }
    WindowPrefix(lines, k, lineIndex, extra);
  }

  /**
   * Inside the script the window is centred on the failing line: it shows
   * up to `extra` lines on each side, exactly one of them marked, and
   * every shown line is a source line behind its five-character prefix.
   */
  lemma {:induction false} WindowCentred(lines: seq<string>, lineIndex: int, extra: nat)
    requires 1 <= lineIndex <= |lines|
    ensures var w := Window(lines, lineIndex, extra);
      var before := if extra < lineIndex - 1 then extra else lineIndex - 1;
      var after := if extra < |lines| - lineIndex then extra else |lines| - lineIndex;
      && |w| == before + 1 + after
      && (forall j :: 0 <= j < |w| ==>
            w[j] == (if j == before then MARKER else NO_MARKER) + lines[lineIndex - before + j - 1])
  {
    var w := Window(lines, lineIndex, extra);
    var before := if extra < lineIndex - 1 then extra else lineIndex - 1;
    var lo := Lowest(lineIndex, extra);
    assert lo == lineIndex - before;
    forall j | 0 <= j < |w|
      ensures w[j] == (if j == before then MARKER else NO_MARKER) + lines[lineIndex - before + j - 1]
    {
      assert w[j] == Shown(lines[lo + j - 1], lo + j, lineIndex);
    }
  }

  // ---------------------------------------------------------------------
  // ProcessStack
  // ---------------------------------------------------------------------

  /**
   * Whether `frame` is the assert function's own frame: the pattern
   * "<method> (" occurs in it right after a '.' or a space.
   */
  predicate IsAssertFrame(frame: string, pattern: string) {
    match Find(frame, pattern, 0)
    case None => false
    case Some(pos) => pos > 0 && (frame[pos - 1] == '.' || frame[pos - 1] == ' ')
  }

  /** The index of the first assert frame, if any. */
  function FirstAssertFrame(frames: seq<string>, pattern: string): (r: Option<nat>)
    ensures r.Some? ==> r.value < |frames| && IsAssertFrame(frames[r.value], pattern)
    ensures r.Some? ==> forall j :: 0 <= j < r.value ==> !IsAssertFrame(frames[j], pattern)
    ensures r.None? ==> forall j :: 0 <= j < |frames| ==> !IsAssertFrame(frames[j], pattern)
  {
    if frames == [] then None
    else if IsAssertFrame(frames[0], pattern) then Some(0)
    else
      var r := FirstAssertFrame(frames[1..], pattern);
      assert forall j :: 1 <= j < |frames| ==> frames[j] == frames[1..][j - 1];
      if r.None? then None else Some(r.value + 1)
  }

  /** A frame after the assert frame: its rewritten form when that is non-empty, else the frame itself. */
  function ProcessFrame(frame: string, rewrite: string -> Option<string>): string {
    match rewrite(frame)
    case Some(processed) => if processed != [] then processed else frame
    case None => frame
  }

  /** The frames between the stack's first line (the error message) and its last (the module root call). */
  function InnerFrames(fs: seq<string>): (r: seq<string>)
    ensures |fs| >= 2 ==> |r| == |fs| - 2
    ensures |fs| < 2 ==> r == []
    ensures forall i :: 0 <= i < |r| ==> r[i] == fs[i + 1]
  {
    if |fs| >= 2 then fs[1..|fs| - 1] else []
  }

  /**
   * The frames ProcessStack prints, from the stack's lines `fs` as
   * getline reads them: the first and the last line are dropped; of the
   * rest, those after the first assert frame are printed, every one of
   * them and in order, each through `rewrite` (the location regex and
   * script-path lookup); without an assert frame nothing is printed.
   */
  function ProcessedFrames(fs: seq<string>, assertMethod: string, rewrite: string -> Option<string>): (r: seq<string>)
    ensures r == [] || |r| + 3 <= |fs|
    ensures forall j :: 0 <= j < |r| ==> r[j] == ProcessFrame(fs[|fs| - 1 - |r| + j], rewrite)
    ensures r != [] ==> exists k :: 1 <= k < |fs| - 1 - |r| && IsAssertFrame(fs[k], assertMethod + " (")
    ensures match FirstAssertFrame(InnerFrames(fs), assertMethod + " (")
      case None => r == []
      case Some(k) => |r| == |fs| - k - 3
  {
    match FirstAssertFrame(InnerFrames(fs), assertMethod + " (")
    case None => []
    case Some(k) =>
      assert IsAssertFrame(fs[k + 1], assertMethod + " (");
      FramesFrom(fs, k + 2, rewrite)
  }

  /** The lines from `from` on, the last one left out, each through `rewrite`. */
  function FramesFrom(fs: seq<string>, from: nat, rewrite: string -> Option<string>): (r: seq<string>)
    requires from < |fs|
    ensures |r| == |fs| - 1 - from
    ensures forall j :: 0 <= j < |r| ==> r[j] == ProcessFrame(fs[from + j], rewrite)
  {
    seq(|fs| - 1 - from, j requires 0 <= j < |fs| - 1 - from => ProcessFrame(fs[from + j], rewrite))
  }

  /** ProcessStack: the processed frames, one per line. */
  function ProcessStack(stack: string, assertMethod: string, rewrite: string -> Option<string>): string {
    JoinLines(ProcessedFrames(Lines(stack), assertMethod, rewrite))
  }

  // ---------------------------------------------------------------------
  // EvaluateJSFile
  // ---------------------------------------------------------------------

  /** An argument that is an option: it starts with "--" (find("--") == 0). */
  predicate IsOption(arg: string) {
    StartsWith(arg, "--")
  }

  /** The arguments without the options that come before the first non-option. */
  function DropLeadingOptions(args: seq<string>): seq<string> {
    if args != [] && IsOption(args[0]) then DropLeadingOptions(args[1..]) else args
  }

  /**
   * What is dropped is exactly the leading run of options: the result is
   * a suffix of the arguments, everything before it is an option, and it
   * is empty or starts with a non-option.
   */
  lemma {:induction false} DropLeadingOptionsShape(args: seq<string>)
    ensures var r := DropLeadingOptions(args);
      && |r| <= |args| && r == args[|args| - |r|..]
      && (forall j :: 0 <= j < |args| - |r| ==> IsOption(args[j]))
      && (r != [] ==> !IsOption(r[0]))
    decreases |args|
  {
    if args != [] && IsOption(args[0]) {
      DropLeadingOptionsShape(args[1..]);
      var r := DropLeadingOptions(args[1..]);
      assert args[1..][|args| - 1 - |r|..] == args[|args| - |r|..];
      forall j | 1 <= j < |args| - |r|
        ensures IsOption(args[j])
      {
        assert args[j] == args[1..][j - 1];
      }
    }
  }

  /** Reading one more argument. */
  lemma {:induction false} DropLeadingOptionsSnoc(args: seq<string>, arg: string)
    ensures DropLeadingOptions(args + [arg])
      == if DropLeadingOptions(args) == [] && IsOption(arg) then [] else DropLeadingOptions(args) + [arg]
    decreases |args|
  {
    if args != [] {
      assert (args + [arg])[1..] == args[1..] + [arg];
      DropLeadingOptionsSnoc(args[1..], arg);
    } else {
      assert [arg][1..] == [];
    }
  }

  /** The state of EvaluateJSFile's loop after reading the arguments before `i`. */
  predicate Scanned(argv: seq<string>, i: nat, kept: seq<string>, skipOptions: bool)
    requires 1 <= i <= |argv|
  {
    && kept == [argv[0]] + DropLeadingOptions(argv[1..i])
    && (skipOptions <==> DropLeadingOptions(argv[1..i]) == [])
  }

  /** One step of EvaluateJSFile's loop keeps its state equal to the options dropped so far. */
  lemma {:induction false} ReadArgument(argv: seq<string>, i: nat, kept: seq<string>, skipOptions: bool)
    requires 1 <= i < |argv| && Scanned(argv, i, kept, skipOptions)
    ensures !(skipOptions && IsOption(argv[i])) ==> Scanned(argv, i + 1, kept + [argv[i]], false)
    ensures skipOptions && IsOption(argv[i]) ==> Scanned(argv, i + 1, kept, skipOptions)
  {
    var before := DropLeadingOptions(argv[1..i]);
    assert argv[1..i + 1] == argv[1..i] + [argv[i]];
    DropLeadingOptionsSnoc(argv[1..i], argv[i]);
    if !(skipOptions && IsOption(argv[i])) {
      assert [argv[0]] + (before + [argv[i]]) == kept + [argv[i]];
    }
  }

  /** The loop's state once every argument is read. */
  lemma {:induction false} ScannedAll(argv: seq<string>, kept: seq<string>, skipOptions: bool)
    requires 1 <= |argv| && Scanned(argv, |argv|, kept, skipOptions)
    ensures kept == [argv[0]] + DropLeadingOptions(argv[1..])
  {
    assert argv[1..|argv|] == argv[1..];
  }

  /**
   * What EvaluateJSFile makes of its command line: the usage error (exit
   * code 1), the arguments it goes on with, or the read of `args[1]` from
   * a vector that holds only the program name.
   */
  datatype ArgsOutcome = Usage | Arguments(args: seq<string>) | ScriptPathOutOfBounds

  /**
   * The argument handling of EvaluateJSFile as written: the usage error
   * for fewer than two arguments; otherwise the program name followed by
   * the arguments from the first non-option on, and when every argument
   * is an option only the program name is left and `args[1]` is read past
   * its end.
   */
  function EvaluateArgs(argv: seq<string>): (r: ArgsOutcome)
    ensures r.Usage? <==> |argv| < 2
    ensures r.ScriptPathOutOfBounds? <==> |argv| >= 2 && forall j :: 1 <= j < |argv| ==> IsOption(argv[j])
    ensures r.Arguments? ==>
      && 2 <= |r.args| <= |argv| && r.args[0] == argv[0] && !IsOption(r.args[1])
      && r.args == argv[..1] + argv[|argv| - (|r.args| - 1)..]
      && r.args == [argv[0]] + DropLeadingOptions(argv[1..])
  {
    if |argv| < 2 then Usage
    else
      DropLeadingOptionsShape(argv[1..]);
      var kept := [argv[0]] + DropLeadingOptions(argv[1..]);
      if |kept| < 2 then
        assert forall j :: 1 <= j < |argv| ==> argv[j] == argv[1..][j - 1];
        ScriptPathOutOfBounds
      else
        assert !IsOption(argv[|argv| - (|kept| - 1)]);
        Arguments(kept)
  }

  /**
   * The intended handling: the usage error whenever no argument names a
   * script, so that `args[1]` always exists and is the first non-option.
   */
  function EvaluateArgsIntended(argv: seq<string>): (r: ArgsOutcome)
    ensures r.Usage? <==> forall j :: 1 <= j < |argv| ==> IsOption(argv[j])
    ensures !r.ScriptPathOutOfBounds?
    ensures r.Arguments? ==>
      && 2 <= |r.args| <= |argv| && r.args[0] == argv[0] && !IsOption(r.args[1])
      && r.args == argv[..1] + argv[|argv| - (|r.args| - 1)..]
  {
    if |argv| < 2 then Usage
    else
      match EvaluateArgs(argv)
      case ScriptPathOutOfBounds => Usage
      case other => other
  }

  /** The two agree on every command line except one made only of options. */
  lemma {:induction false} EvaluateArgsIntendedAgrees(argv: seq<string>)
    ensures EvaluateArgs(argv) != EvaluateArgsIntended(argv) <==>
      |argv| >= 2 && forall j :: 1 <= j < |argv| ==> IsOption(argv[j])
  {
  }

  /** As written, "prog --x" reads the script path past the end of the arguments; the intended handling reports the usage error. */
  lemma AsWrittenReadsPastArguments()
    ensures EvaluateArgs(["prog", "--x"]) == ScriptPathOutOfBounds
    ensures EvaluateArgsIntended(["prog", "--x"]) == Usage
  {
    assert IsOption(["prog", "--x"][1]);
  }

  /** The loop of EvaluateJSFile: options are skipped until the first non-option, which is kept with all after it. */
  method KeepArguments(argv: seq<string>) returns (kept: seq<string>)
    requires |argv| >= 1
    ensures kept == [argv[0]] + DropLeadingOptions(argv[1..])
  {
    kept := [argv[0]];
    var skipOptions := true;
    var i := 1;
    assert argv[1..1] == [];
    while i < |argv|
      invariant 1 <= i <= |argv|
      invariant Scanned(argv, i, kept, skipOptions)
    {
      ReadArgument(argv, i, kept, skipOptions);
      if !(skipOptions && IsOption(argv[i])) {
        skipOptions := false;
        kept := kept + [argv[i]];
      }
      i := i + 1;
    }
    ScannedAll(argv, kept, skipOptions);
  }

  // ---------------------------------------------------------------------
  // The exit message and its parser
  // ---------------------------------------------------------------------

  /** The exit code and the text a test process writes to stderr. */
  datatype Exit = Exit(code: int, stderr: string)

  /**
   * FormatExitMessage: "file:<file>", "line:<line>" and the message on
   * their own lines, then the details after a newline when there are any,
   * then std::endl; the process exits with 1.
   */
  function FormatExitMessage(file: string, line: int32, message: string, details: string): (r: Exit)
    ensures r.code == 1
    ensures |r.stderr| > 0 && r.stderr[|r.stderr| - 1] == '\n'
  {
    var fileLine, lineLine := "file:" + file, "line:" + IntToString(line);
    Exit(1, fileLine + "\n" + lineLine + "\n" + message + (if details != [] then "\n" + details else "") + "\n")
  }

  /** A failure the error handler reports: file, line, message and details. */
  datatype Report = Report(file: string, line: int32, message: string, details: string)

  /** HandleAtProcessExit: 0 without an exception; otherwise the exception's report is written. */
  function HandleAtProcessExit(exception: Option<Report>): (r: Exit)
    ensures r.code == 0 <==> exception.None?
  {
    match exception
    case None => Exit(0, "")
    case Some(rep) => FormatExitMessage(rep.file, rep.line, rep.message, rep.details)
  }

  /** A line read from stderr with a trailing '\r' removed. */
  function StripCarriageReturn(line: string): (r: string)
    ensures r == line || line == r + "\r"
  {
    if line != [] && line[|line| - 1] == '\r' then line[..|line| - 1] else line
  }

  /** The lines std::getline reads from stderr, each with its '\r' removed. */
  function ErrorLines(stderr: string): (ls: seq<string>)
    ensures |ls| == |Lines(stderr)|
  {
    var raw := Lines(stderr);
    seq(|raw|, k requires 0 <= k < |raw| => StripCarriageReturn(raw[k]))
  }

  /** What the test fixture concludes from the child process. */
  datatype Outcome =
    | Passed
    | Reported(file: string, line: int, message: string, details: string)
    | ParseThrew
    | StatusFailed(status: int)

  const UNKNOWN_FILE := "<Unknown>"

  /**
   * NodeApiTestFixture::TestBody: status 0 passes; otherwise, with at least
   * three stderr lines, the file and line come from the "file:" and
   * "line:" lines (or "<Unknown>" and 0), the third line is the message
   * and every later line, with its newline, the details; std::stoi
   * failing on the line number throws (ParseThrew). Anything else fails
   * on the status.
   */
  function TestBody(status: int, stderr: string): (r: Outcome)
    ensures status == 0 <==> r.Passed?
    ensures r.Reported? ==> |Lines(stderr)| >= 3 && r.message == ErrorLines(stderr)[2]
  {
    if status == 0 then Passed
    else
      var ls := ErrorLines(stderr);
      if stderr != [] && |ls| >= 3 then
        var file := if StartsWith(ls[0], "file:") then ls[0][5..] else UNKNOWN_FILE;
        var line := if StartsWith(ls[1], "line:") then Stoi(ls[1][5..]) else Some(0);
        if line.None? then ParseThrew
        else Reported(file, line.value, ls[2], JoinLines(ls[3..]))
      else StatusFailed(status)
  }

  /** Lines without '\r' come through ErrorLines unchanged. */
  lemma {:induction false} ErrorLinesWithoutReturns(stderr: string)
    requires forall k :: 0 <= k < |Lines(stderr)| ==> '\r' !in Lines(stderr)[k]
    ensures ErrorLines(stderr) == Lines(stderr)
  {
    var raw := Lines(stderr);
    forall k | 0 <= k < |raw|
      ensures StripCarriageReturn(raw[k]) == raw[k]
    {
      if raw[k] != [] {
        assert raw[k][|raw[k]| - 1] in raw[k];
      }
    }
  }

  /** The lines the exit message consists of: the three header lines, then the details' lines. */
  function ExitLines(rep: Report): seq<string> {
    ["file:" + rep.file, "line:" + IntToString(rep.line), rep.message]
      + (if rep.details == [] then [] else Lines(rep.details + "\n"))
  }

  /**
   * The exit message round-trips: what the test process reports, the test
   * fixture reads back as the same file, line and message, with the
   * details ended by a newline; a test without an exception passes.
   */
  lemma {:induction false} ExitMessageRoundTrip(rep: Report)
    requires NoNewline(rep.file) && NoNewline(rep.message)
    requires '\r' !in rep.file && '\r' !in rep.message && '\r' !in rep.details
    ensures var exit := HandleAtProcessExit(Some(rep));
      TestBody(exit.code, exit.stderr)
        == Reported(rep.file, rep.line, rep.message, if rep.details == [] then [] else rep.details + "\n")
    ensures var exit := HandleAtProcessExit(None);
      TestBody(exit.code, exit.stderr) == Passed
  {
    var exit := HandleAtProcessExit(Some(rep));
    ExitMessageLines(rep);
    ParseExitLines(exit.stderr, rep);
  }

  /** Lines that are a report's exit lines parse back as that report. */
  lemma {:induction false} ParseExitLines(stderr: string, rep: Report)
    requires stderr != [] && ErrorLines(stderr) == ExitLines(rep)
    ensures TestBody(1, stderr)
      == Reported(rep.file, rep.line, rep.message, if rep.details == [] then [] else rep.details + "\n")
  {
    var ls := ErrorLines(stderr);
    var number := IntToString(rep.line);
    assert StartsWith(ls[0], "file:") && ls[0][5..] == rep.file by {
      assert ls[0] == "file:" + rep.file;
    }
    assert StartsWith(ls[1], "line:") && ls[1][5..] == number by {
      assert ls[1] == "line:" + number;
    }
    StoiOfIntToString(rep.line);
    assert ls[2] == rep.message;
    assert JoinLines(ls[3..]) == if rep.details == [] then [] else rep.details + "\n" by {
      if rep.details != [] {
        assert ls[3..] == Lines(rep.details + "\n");
        JoinLinesOfLines(rep.details + "\n");
      } else {
        assert ls[3..] == [];
      }
    }
  }

  /** The test fixture reads the exit message as exactly its lines. */
  lemma {:induction false} ExitMessageLines(rep: Report)
    requires NoNewline(rep.file) && NoNewline(rep.message)
    requires '\r' !in rep.file && '\r' !in rep.message && '\r' !in rep.details
    ensures ErrorLines(HandleAtProcessExit(Some(rep)).stderr) == ExitLines(rep)
  {
    var stderr := HandleAtProcessExit(Some(rep)).stderr;
    ExitTextIsJoin(rep);
    ExitLinesHaveNoNewline(rep);
    LinesOfJoinLines(ExitLines(rep));
    ExitLinesLackReturns(rep);
    ErrorLinesWithoutReturns(stderr);
  }

  lemma {:induction false} ExitLinesLackReturns(rep: Report)
    requires '\r' !in rep.file && '\r' !in rep.message && '\r' !in rep.details
    ensures forall k :: 0 <= k < |ExitLines(rep)| ==> '\r' !in ExitLines(rep)[k]
  {
    var all := ExitLines(rep);
    NoReturnInLine(rep.line);
    assert '\r' !in "file:" + rep.file;
    assert '\r' !in "line:" + IntToString(rep.line);
    if rep.details != [] {
      LinesLackChar(rep.details + "\n", '\r');
    }
    forall k | 0 <= k < |all|
      ensures '\r' !in all[k]
    {
      if k >= 3 {
        assert all[k] == Lines(rep.details + "\n")[k - 3];
      }
    }
  }

  /** The exit message is its lines, each followed by a newline. */
  lemma {:induction false} ExitTextIsJoin(rep: Report)
    ensures HandleAtProcessExit(Some(rep)).stderr == JoinLines(ExitLines(rep))
  {
    JoinExitLines(rep);
    ExitTextParts(rep);
    var x := ExitHeader(rep);
    if rep.details != [] {
      var d := rep.details;
      JoinLinesOfLines(d + "\n");
      Regroup(x, d);
    } else {
      assert x + "" == x;
    }
  }

  /** The header lines written out, without the newline that ends the last. */
  function ExitHeader(rep: Report): string {
    var fileLine, lineLine := "file:" + rep.file, "line:" + IntToString(rep.line);
    fileLine + "\n" + lineLine + "\n" + rep.message
  }

  lemma {:induction false} ExitTextParts(rep: Report)
    ensures HandleAtProcessExit(Some(rep)).stderr
      == ExitHeader(rep) + (if rep.details != [] then "\n" + rep.details else "") + "\n"
  {
  }

  lemma {:induction false} JoinExitLines(rep: Report)
    ensures JoinLines(ExitLines(rep))
      == (ExitHeader(rep) + "\n") + JoinLines(if rep.details == [] then [] else Lines(rep.details + "\n"))
  {
    var a, b, c := "file:" + rep.file, "line:" + IntToString(rep.line), rep.message;
    var body := if rep.details == [] then [] else Lines(rep.details + "\n");
    JoinThree(a, b, c);
    JoinLinesAppend([a, b, c], body);
    assert ExitLines(rep) == [a, b, c] + body;
  }

  lemma {:induction false} Regroup(x: string, d: string)
    ensures x + ("\n" + d) + "\n" == (x + "\n") + (d + "\n")
  {
  }

  lemma {:induction false} ExitLinesHaveNoNewline(rep: Report)
    requires NoNewline(rep.file) && NoNewline(rep.message)
    ensures forall k :: 0 <= k < |ExitLines(rep)| ==> NoNewline(ExitLines(rep)[k])
  {
    var all := ExitLines(rep);
    HeaderLines(rep.file, IntToString(rep.line), rep.message);
    if rep.details != [] {
      LinesHaveNoNewline(rep.details + "\n");
    }
    forall k | 0 <= k < |all|
      ensures NoNewline(all[k])
    {
      if k >= 3 {
        assert all[k] == Lines(rep.details + "\n")[k - 3];
      }
    }
  }

  lemma {:induction false} JoinThree(a: string, b: string, c: string)
    ensures JoinLines([a, b, c]) == a + "\n" + b + "\n" + c + "\n"
  {
    assert JoinLines([c]) == c + "\n" by {
      assert [c][1..] == [];
    }
    assert JoinLines([b, c]) == b + "\n" + JoinLines([c]) by {
      assert [b, c][1..] == [c];
    }
    assert JoinLines([a, b, c]) == a + "\n" + JoinLines([b, c]) by {
      assert [a, b, c][1..] == [b, c];
    }
  }

  /** The three header lines carry no newline. */
  lemma {:induction false} HeaderLines(file: string, number: string, message: string)
    requires NoNewline(file) && NoNewline(message)
    requires forall k :: 0 <= k < |number| ==> IsDigit(number[k]) || number[k] == '-'
    ensures NoNewline("file:" + file) && NoNewline("line:" + number)
  {
    assert forall k :: 0 <= k < |number| ==> number[k] != '\n';
  }

  /** The decimal line number contains no carriage return. */
  lemma {:induction false} NoReturnInLine(line: int32)
    ensures '\r' !in IntToString(line)
  {
    var s := IntToString(line);
    assert forall k :: 0 <= k < |s| ==> s[k] != '\r';
  }

  // ---------------------------------------------------------------------
  // Test naming
  // ---------------------------------------------------------------------

  /** SanitizeName: every '-' becomes '_'. */
  function SanitizeName(name: string): (r: string)
    ensures |r| == |name|
    ensures '-' !in r
  {
    seq(|name|, i requires 0 <= i < |name| => if name[i] == '-' then '_' else name[i])
  }

  /**
   * Sanitising changes nothing but the dashes, works piecewise, and a
   * sanitised name stays as it is.
   */
  lemma {:induction false} SanitizeNameProperties(a: string, b: string)
    ensures forall i :: 0 <= i < |a| && a[i] != '-' ==> SanitizeName(a)[i] == a[i]
    ensures SanitizeName(a + b) == SanitizeName(a) + SanitizeName(b)
    ensures SanitizeName(SanitizeName(a)) == SanitizeName(a)
    ensures '-' !in a ==> SanitizeName(a) == a
  {
  }

  /** A path's component `back` places from the end, or "" when it has fewer. */
  function Component(path: seq<string>, back: nat): string {
    if back < |path| then path[|path| - 1 - back] else ""
  }

  /**
   * The test registered for a JS file: the suite is its grandparent
   * directory and the name is parent + "/" + file name, both sanitised.
   */
  function TestNames(path: seq<string>): (r: (string, string)) {
    (SanitizeName(Component(path, 2)), SanitizeName(Component(path, 1) + "/" + Component(path, 0)))
  }

  /**
   * The test name is the sanitised parent, a '/' and the sanitised file
   * name, and neither the suite nor the test name contains a '-'.
   */
  lemma {:induction false} TestNamesShape(path: seq<string>)
    ensures var (suite, test) := TestNames(path);
      && test == SanitizeName(Component(path, 1)) + "/" + SanitizeName(Component(path, 0))
      && '-' !in suite && '-' !in test
      && |suite| == |Component(path, 2)|
  {
    SanitizeNameProperties(Component(path, 1) + "/", Component(path, 0));
    SanitizeNameProperties(Component(path, 1), "/");
    assert SanitizeName("/") == "/";
  }
}

=== FILE: http_handler.dfy ===
/**
 * The inspector's HTTP side (src/inspector/inspector_socket.cpp): which Host
 * headers are accepted, how header callbacks of the HTTP parser accumulate
 * into a header table, how a completed request becomes an event, and how
 * the handler turns the events of one read into upgrades, plain GETs or a
 * refused handshake. The HTTP parser itself is not modelled: its callbacks
 * are the inputs here.
 */
module Http {
  import opened Wrappers
  import opened Text
  import opened InspectorUtils

  // ---------------------------------------------------------------------------
  // Host checks

  /**
   * TrimPort: drop everything from the last ':' on, unless that colon lies
   * inside a bracketed IPv6 literal (it comes before the last ']').
   */
  function TrimPort(host: string): (r: string)
    ensures |r| <= |host| && r == host[..|r|]
    ensures ':' !in host ==> r == host
    ensures r != host ==> host[|r|] == ':' && ':' !in host[|r| + 1..] && ']' !in host[|r|..]
  {
    match LastIndexOf(host, ':')
    case None => host
    case Some(colon) =>
      match LastIndexOf(host, ']')
      case None =>
        assert ']' !in host[colon..];
        host[..colon]
      case Some(bracket) =>
        if colon > bracket then
          assert forall j :: colon <= j < |host| ==> host[j] != ']';
          host[..colon]
        else host
  }

  /** A host name followed by ":port" loses exactly the port. */
  lemma {:induction false} TrimPortOfHostAndPort(name: string, port: string)
    requires ':' !in port && ']' !in port
    ensures TrimPort(name + ":" + port) == name
  {
    var h := name + ":" + port;
    assert h[|name|] == ':';
    assert forall j :: |name| < j < |h| ==> h[j] == port[j - |name| - 1];
    var colon := LastIndexOf(h, ':');
    assert colon == Some(|name|);
    assert h[..|name|] == name;
  }

  /** A host ending in ']' is an IPv6 literal without a port and is kept whole. */
  lemma {:induction false} TrimPortKeepsBracketedHost(host: string)
    requires |host| > 0 && host[|host| - 1] == ']'
    ensures TrimPort(host) == host
  {
  }

  predicate Bracketed(host: string) {
    |host| >= 4 && host[0] == '[' && host[|host| - 1] == ']'
  }

  /** Digits and dots only, with exactly three dots. */
  predicate DottedQuad(host: string) {
    (forall i :: 0 <= i < |host| ==> IsDigit(host[i]) || host[i] == '.') && CountChar(host, '.') == 3
  }

  /**
   * The loop of IsIPAddress from the char at `i` on, with `quads` dots seen
   * so far: a dot counts, a non-digit answers false at once, the end answers
   * whether exactly three dots were seen.
   */
  function ScanQuads(host: string, i: nat, quads: nat): bool
    requires i <= |host|
    decreases |host| - i
  {
    if i == |host| then quads == 3
    else if host[i] == '.' then ScanQuads(host, i + 1, quads + 1)
    else if !IsDigit(host[i]) then false
    else ScanQuads(host, i + 1, quads)
  }

  /** IsIPAddress: a bracketed literal of at least four chars, or a dotted quad. */
  function IsIPAddress(host: string): bool {
    Bracketed(host) || ScanQuads(host, 0, 0)
  }

  lemma {:induction false} ScanQuadsSpec(host: string, i: nat, quads: nat)
    requires i <= |host|
    requires quads == CountChar(host[..i], '.')
    requires forall j :: 0 <= j < i ==> IsDigit(host[j]) || host[j] == '.'
    ensures ScanQuads(host, i, quads) <==> DottedQuad(host)
    decreases |host| - i
  {
    if i == |host| {
      assert host[..i] == host;
    } else {
      assert host[..i + 1] == host[..i] + [host[i]];
      CountCharAppend(host[..i], [host[i]], '.');
      if host[i] == '.' || IsDigit(host[i]) {
        ScanQuadsSpec(host, i + 1, CountChar(host[..i + 1], '.'));
      }
    }
  }

  lemma {:induction false} IsIPAddressSpec(host: string)
    ensures IsIPAddress(host) <==> Bracketed(host) || DottedQuad(host)
  {
    assert host[..0] == [];
    ScanQuadsSpec(host, 0, 0);
  }

  /** `name` equals the lower-case word `word`, ignoring case (as a C string). */
  predicate NamesHost(name: string, word: string) {
    ToLower(NulTerminated(name)) == word
  }

  /**
   * IsAllowedHost: after the port is trimmed the host is empty, an IP
   * address, or "localhost"/"localhost6" in any case.
   */
  function IsAllowedHost(hostWithPort: string): bool {
    var host := TrimPort(hostWithPort);
    host == [] || IsIPAddress(host)
    || StringEqualNoCase(host, "localhost") || StringEqualNoCase(host, "localhost6")
  }

  lemma {:induction false} CStringWithoutNul(s: string)
    requires '\0' !in s
    ensures NulTerminated(s) == s
  {
    if s != [] {
      assert s[0] in s;
      assert forall c :: c in s[1..] ==> c in s;
      CStringWithoutNul(s[1..]);
    }
  }

  lemma {:induction false} LowerCaseWord(word: string)
    requires forall i :: 0 <= i < |word| ==> 'a' <= word[i] <= 'z' || '0' <= word[i] <= '9'
    ensures ToLower(word) == word && NulTerminated(word) == word
  {
    assert forall i :: 0 <= i < |word| ==> word[i] != '\0';
    CStringWithoutNul(word);
  }

  lemma {:induction false} EqualNoCaseToWord(name: string, word: string)
    requires forall i :: 0 <= i < |word| ==> 'a' <= word[i] <= 'z' || '0' <= word[i] <= '9'
    ensures StringEqualNoCase(name, word) <==> NamesHost(name, word)
  {
    LowerCaseWord(word);
    StringEqualNoCaseSpec(name, word);
  }

  /** The allowed hosts, stated without the scanning loops. */
  lemma {:induction false} IsAllowedHostSpec(hostWithPort: string)
    ensures IsAllowedHost(hostWithPort) <==>
      var host := TrimPort(hostWithPort);
      host == [] || Bracketed(host) || DottedQuad(host)
      || NamesHost(host, "localhost") || NamesHost(host, "localhost6")
  {
    var host := TrimPort(hostWithPort);
    IsIPAddressSpec(host);
    EqualNoCaseToWord(host, "localhost");
    EqualNoCaseToWord(host, "localhost6");
  }

  // ---------------------------------------------------------------------------
  // Header table

  datatype Header = Header(name: string, value: string)

  /** The value stored under exactly `name`, if any. */
  function Lookup(hs: seq<Header>, name: string): Option<string> {
    if hs == [] then None
    else if hs[0].name == name then Some(hs[0].value)
    else Lookup(hs[1..], name)
  }

  /** headers_[name].append(chunk): a missing entry starts out empty. */
  function AppendValue(hs: seq<Header>, name: string, chunk: string): (r: seq<Header>)
    ensures Lookup(r, name) == Some(Lookup(hs, name).GetOr("") + chunk)
    ensures forall n :: n != name ==> Lookup(r, n) == Lookup(hs, n)
  {
    if hs == [] then
      assert [Header(name, chunk)][1..] == [] && "" + chunk == chunk;
      [Header(name, chunk)]
    else if hs[0].name == name then [Header(name, hs[0].value + chunk)] + hs[1..]
    else
      var tail := AppendValue(hs[1..], name, chunk);
      assert ([hs[0]] + tail)[1..] == tail;
      [hs[0]] + tail
  }

  /** The parser-side state of an HttpHandler. */
  datatype Parser = Parser(
    parsingValue: bool,
    currentHeader: string,
    headers: seq<Header>,
    path: string,
    events: seq<HttpEvent>)

  /** What a completed request leaves for the handler. */
  datatype HttpEvent = HttpEvent(path: string, upgrade: bool, isGet: bool, wsKey: string, host: string)

  const FreshParser: Parser := Parser(false, "", [], "", [])

  /** on_header_field: a field after a value starts a new header name, otherwise continues it. */
  function OnHeaderField(p: Parser, chunk: string): (r: Parser)
    ensures !r.parsingValue
    ensures r.currentHeader == (if p.parsingValue then chunk else p.currentHeader + chunk)
    ensures r.headers == p.headers && r.path == p.path && r.events == p.events
  {
    if p.parsingValue then p.(parsingValue := false, currentHeader := chunk)
    else p.(currentHeader := p.currentHeader + chunk)
  }

  /** on_header_value: the chunk is appended to the value of the current header. */
  function OnHeaderValue(p: Parser, chunk: string): (r: Parser)
    ensures r.parsingValue && r.currentHeader == p.currentHeader
    ensures Lookup(r.headers, p.currentHeader) == Some(Lookup(p.headers, p.currentHeader).GetOr("") + chunk)
    ensures forall n :: n != p.currentHeader ==> Lookup(r.headers, n) == Lookup(p.headers, n)
    ensures r.path == p.path && r.events == p.events
  {
    p.(parsingValue := true, headers := AppendValue(p.headers, p.currentHeader, chunk))
  }

  /** on_url: the chunk is appended to the path. */
  function OnPath(p: Parser, chunk: string): (r: Parser)
    ensures r.path == p.path + chunk
    ensures r.headers == p.headers && r.events == p.events
  {
    p.(path := p.path + chunk)
  }

  /** A header name delivered in two pieces is the same as in one. */
  lemma {:induction false} HeaderFieldChunks(p: Parser, a: string, b: string)
    ensures OnHeaderField(OnHeaderField(p, a), b) == OnHeaderField(p, a + b)
  {
    if !p.parsingValue {
      assert p.currentHeader + a + b == p.currentHeader + (a + b);
    }
  }

  /** A header value delivered in two pieces is the same as in one. */
  lemma {:induction false} HeaderValueChunks(p: Parser, a: string, b: string)
    ensures Lookup(OnHeaderValue(OnHeaderValue(p, a), b).headers, p.currentHeader)
         == Lookup(OnHeaderValue(p, a + b).headers, p.currentHeader)
  {
    var v := Lookup(p.headers, p.currentHeader).GetOr("");
    assert v + a + b == v + (a + b);
  }

  /** After a value, a new field followed by a value stores that value under the new name. */
  lemma {:induction false} NextHeaderStored(p: Parser, field: string, value: string)
    requires p.parsingValue
    ensures Lookup(OnHeaderValue(OnHeaderField(p, field), value).headers, field)
         == Some(Lookup(p.headers, field).GetOr("") + value)
  {
  }

  // ---------------------------------------------------------------------------
  // HeaderValue

  /** The header `key` is looked up by `name`: a case-insensitive prefix test. */
  function KeyMatches(key: string, name: string): bool {
    StringEqualNoCaseN(key, name, |name|)
  }

  /**
   * The loop of HeaderValue from entry `i` on: the first match records its
   * value, a second match answers "" at once.
   */
  function HeaderValueFrom(hs: seq<Header>, name: string, i: nat, found: bool, value: string): string
    requires i <= |hs|
    decreases |hs| - i
  {
    if i == |hs| then value
    else if KeyMatches(hs[i].name, name) then
      if found then "" else HeaderValueFrom(hs, name, i + 1, true, hs[i].value)
    else HeaderValueFrom(hs, name, i + 1, found, value)
  }

  function HeaderValue(hs: seq<Header>, name: string): string {
    HeaderValueFrom(hs, name, 0, false, "")
  }

  /** The values of every entry whose name `name` matches, in table order. */
  function MatchingValues(hs: seq<Header>, name: string): seq<string> {
    if hs == [] then []
    else (if KeyMatches(hs[0].name, name) then [hs[0].value] else []) + MatchingValues(hs[1..], name)
  }

  lemma {:induction false} HeaderValueFromSpec(hs: seq<Header>, name: string, i: nat, found: bool, value: string)
    requires i <= |hs|
    ensures HeaderValueFrom(hs, name, i, found, value) ==
      var m := MatchingValues(hs[i..], name);
      if found then (if |m| == 0 then value else "")
      else (if |m| == 1 then m[0] else if |m| == 0 then value else "")
    decreases |hs| - i
  {
    if i < |hs| {
      assert hs[i..][1..] == hs[i + 1..];
      if KeyMatches(hs[i].name, name) {
        if !found {
          HeaderValueFromSpec(hs, name, i + 1, true, hs[i].value);
        }
      } else {
        HeaderValueFromSpec(hs, name, i + 1, found, value);
      }
    }
  }

  /**
   * HeaderValue answers the value of the one matching header, and "" when
   * no header or more than one matches.
   */
  lemma {:induction false} HeaderValueSpec(hs: seq<Header>, name: string)
    ensures HeaderValue(hs, name) ==
      var m := MatchingValues(hs, name);
      if |m| == 1 then m[0] else ""
  {
    assert hs[0..] == hs;
    HeaderValueFromSpec(hs, name, 0, false, "");
  }

  /** For names free of NUL, a match means `key` begins with `name`, ignoring case. */
  lemma {:induction false} KeyMatchesIsPrefix(key: string, name: string)
    requires '\0' !in key && '\0' !in name
    ensures KeyMatches(key, name) <==> |name| <= |key| && ToLower(key[..|name|]) == ToLower(name)
  {
    EqualNoCaseNIsPrefixTest(key, name);
  }

  /**
   * on_message_complete: the request becomes an event carrying its path, the
   * upgrade and GET flags, and the Sec-WebSocket-Key and Host values; the
   * per-request state starts over.
   */
  function OnMessageComplete(p: Parser, upgrade: bool, isGet: bool): (r: Parser)
    ensures |r.events| == |p.events| + 1 && r.events[..|p.events|] == p.events
    ensures r.events[|p.events|].path == p.path
    ensures r.events[|p.events|].upgrade == upgrade && r.events[|p.events|].isGet == isGet
    ensures r == FreshParser.(events := r.events)
  {
    var e := HttpEvent(p.path, upgrade, isGet,
                       HeaderValue(p.headers, "Sec-WebSocket-Key"), HeaderValue(p.headers, "Host"));
    FreshParser.(events := p.events + [e])
  }

  /** The event of a request with a single Host header carries that header's value. */
  lemma {:induction false} OnMessageCompleteHost(p: Parser, upgrade: bool, isGet: bool)
    requires MatchingValues(p.headers, "Host") == [Lookup(p.headers, "Host").GetOr("")]
    ensures OnMessageComplete(p, upgrade, isGet).events[|p.events|].host == Lookup(p.headers, "Host").GetOr("")
  {
    HeaderValueSpec(p.headers, "Host");
  }

  // ---------------------------------------------------------------------------
  // HttpHandler::OnData

  datatype HttpAction =
    | HttpGet(host: string, path: string)
    | SocketUpgrade(host: string, path: string, wsKey: string)
    | CancelHandshake

  /** The handshake is refused for this event. */
  predicate Refused(e: HttpEvent) {
    !IsAllowedHost(e.host) || !e.isGet || (e.upgrade && e.wsKey == [])
  }

  /** The delegate call for an event that is not refused. */
  function Accept(e: HttpEvent): HttpAction {
    if e.upgrade then SocketUpgrade(e.host, e.path, e.wsKey) else HttpGet(e.host, e.path)
  }

  /** The event loop of OnData: the first refused event cancels and stops the loop. */
  function DispatchEvents(events: seq<HttpEvent>): seq<HttpAction> {
    if events == [] then []
    else if !IsAllowedHost(events[0].host) || !events[0].isGet then [CancelHandshake]
    else if !events[0].upgrade then [HttpGet(events[0].host, events[0].path)] + DispatchEvents(events[1..])
    else if events[0].wsKey == [] then [CancelHandshake]
    else [SocketUpgrade(events[0].host, events[0].path, events[0].wsKey)] + DispatchEvents(events[1..])
  }

  /**
   * OnData after the parser has run: a parser error cancels the handshake,
   * and the events it queued are dispatched all the same.
   */
  function HandleData(parserError: bool, events: seq<HttpEvent>): seq<HttpAction> {
    (if parserError then [CancelHandshake] else []) + DispatchEvents(events)
  }

  /** Index of the first element that satisfies `p`, or |s| when none does. */
  function FirstWhere<T>(s: seq<T>, p: T -> bool): (k: nat)
    ensures k <= |s|
  {
    if s == [] || p(s[0]) then 0 else 1 + FirstWhere(s[1..], p)
  }

  /** No element before the first match satisfies `p`, and that one does. */
  lemma {:induction false} FirstWhereIsFirst<T>(s: seq<T>, p: T -> bool)
    ensures var k := FirstWhere(s, p);
      && (forall j :: 0 <= j < k ==> !p(s[j]))
      && (k < |s| ==> p(s[k]))
    decreases |s|
  {
    if s != [] && !p(s[0]) {
      var tail := s[1..];
      FirstWhereIsFirst(tail, p);
      forall j | 0 < j < FirstWhere(s, p)
        ensures !p(s[j])
      {
        assert s[j] == tail[j - 1];
      }
    }
  }

  /** Index of the first refused event, or |events| when none is. */
  function FirstRefused(events: seq<HttpEvent>): (k: nat)
    ensures k <= |events|
  {
    FirstWhere(events, Refused)
  }

  /** No event before the first refused one is refused, and that one is. */
  lemma {:induction false} FirstRefusedIsFirst(events: seq<HttpEvent>)
    ensures var k := FirstRefused(events);
      && (forall j :: 0 <= j < k ==> !Refused(events[j]))
      && (k < |events| ==> Refused(events[k]))
  {
    FirstWhereIsFirst(events, Refused);
  }

  /** The delegate calls for events that are all served. */
  function AcceptAll(events: seq<HttpEvent>): (r: seq<HttpAction>)
    ensures |r| == |events|
  {
    if events == [] then [] else [Accept(events[0])] + AcceptAll(events[1..])
  }

  /** Event `j` is served by the `j`-th call. */
  lemma {:induction false} AcceptAllAt(events: seq<HttpEvent>)
    ensures forall j :: 0 <= j < |events| ==> AcceptAll(events)[j] == Accept(events[j])
    decreases |events|
  {
    if events != [] {
      var tail := events[1..];
      AcceptAllAt(tail);
      forall j | 0 < j < |events|
        ensures AcceptAll(events)[j] == Accept(events[j])
      {
        assert events[j] == tail[j - 1];
      }
    }
  }

  /** One step of the event loop, in terms of Refused and Accept. */
  lemma {:induction false} DispatchEventsStep(events: seq<HttpEvent>)
    requires events != []
    ensures DispatchEvents(events) ==
      if Refused(events[0]) then [CancelHandshake] else [Accept(events[0])] + DispatchEvents(events[1..])
  {
  }

  /**
   * The events before the first refused one are served in order, each by its
   * own delegate call; a refused event ends the handling with one cancel.
   */
  lemma {:induction false} DispatchEventsSpec(events: seq<HttpEvent>)
    ensures var k := FirstRefused(events);
      DispatchEvents(events) ==
        AcceptAll(events[..k]) + (if k < |events| then [CancelHandshake] else [])
    decreases |events|
  {
    if events != [] {
      DispatchEventsStep(events);
      if Refused(events[0]) {
        assert events[..0] == [];
      } else {
        DispatchEventsSpec(events[1..]);
        ServedHead(events);
      }
    }
  }

  /** The prefix served of a list whose first event is served starts with that event. */
  lemma {:induction false} ServedHead(events: seq<HttpEvent>)
    requires events != [] && !Refused(events[0])
    ensures var k := FirstRefused(events);
      && k == 1 + FirstRefused(events[1..])
      && AcceptAll(events[..k]) == [Accept(events[0])] + AcceptAll(events[1..][..k - 1])
  {
    var k := FirstRefused(events);
    assert events[..k] == [events[0]] + events[1..][..k - 1];
  }

  /** Every upgrade the handler performs carries a non-empty key from an allowed GET request. */
  lemma {:induction false} UpgradesAreChecked(events: seq<HttpEvent>)
    ensures forall a :: a in DispatchEvents(events) && a.SocketUpgrade? ==>
      a.wsKey != [] && IsAllowedHost(a.host)
  {
    if events != [] {
      UpgradesAreChecked(events[1..]);
    }
  }
}

=== FILE: inspector_agent.dfy ===
/**
 * The sequential logic of the inspector agent (src/inspector/inspector_agent.cpp):
 * the target title built from loaded script URLs, the frontend session state
 * machine driven by "#connect"/"#disconnect" messages, the incoming message
 * queue and its non-reentrant pump, the wait-for-debugger flag, and the
 * target id generator. Threads, locks and the V8 inspector session are not
 * modelled: messages reaching the session are recorded in order instead.
 */
module InspectorAgent {
  import opened Wrappers
  import opened Text

  // ---------------------------------------------------------------------------
  // Title from loaded URLs

  /** std::string::npos, and size_t subtraction of one (0 - 1 wraps to npos). */
  const NPOS: nat := 0xFFFF_FFFF_FFFF_FFFF

  function SizeDec(x: nat): (r: nat)
    requires x <= NPOS
    ensures r <= NPOS
  {
    if x == 0 then NPOS else x - 1
  }

  predicate IsSeparator(c: char) {
    c == '/' || c == '\\'
  }

  /** The last separator at or before index `i`. */
  function LastSeparatorAtOrBefore(s: string, i: nat): (r: Option<nat>)
    requires i < |s|
    ensures r.Some? ==> r.value <= i && IsSeparator(s[r.value])
    ensures r.Some? ==> forall j :: r.value < j <= i ==> !IsSeparator(s[j])
    ensures r.None? ==> forall j :: 0 <= j <= i ==> !IsSeparator(s[j])
    decreases i
  {
    if IsSeparator(s[i]) then Some(i)
    else if i == 0 then None
    else LastSeparatorAtOrBefore(s, i - 1)
  }

  /** url.find_last_of("/\\", pos): the last separator at an index no greater than `pos`. */
  function FindLastSeparator(s: string, pos: nat): (r: Option<nat>)
    ensures r.Some? ==> r.value < |s| && r.value <= pos && IsSeparator(s[r.value])
    ensures r.Some? ==> forall j :: r.value < j < |s| && j <= pos ==> !IsSeparator(s[j])
    ensures r.None? ==> forall j :: 0 <= j < |s| && j <= pos ==> !IsSeparator(s[j])
  {
    if s == [] then None
    else LastSeparatorAtOrBefore(s, if pos < |s| then pos else |s| - 1)
  }

  /**
   * notifyLoadedUrl's suffix as written: each earlier separator is searched
   * from `found - 1` in size_t arithmetic, so a separator at index 0 makes
   * the next search start from npos again and find the last separator.
   */
  function UrlSuffixAsWritten(url: string): string {
    match FindLastSeparator(url, NPOS)
    case None => url
    case Some(f1) =>
      match FindLastSeparator(url, SizeDec(f1))
      case None => "..." + url
      case Some(f2) =>
        match FindLastSeparator(url, SizeDec(f2))
        case None => "..." + url
        case Some(f3) => "..." + url[f3 + 1..]
  }

  /** The separator before the one at `found`; there is none before index 0. */
  function PreviousSeparator(url: string, found: nat): (r: Option<nat>)
    ensures r.Some? ==> r.value < found && r.value < |url| && IsSeparator(url[r.value])
    ensures r.Some? ==> forall j :: r.value < j < found && j < |url| ==> !IsSeparator(url[j])
    ensures r.None? ==> forall j :: 0 <= j < found && j < |url| ==> !IsSeparator(url[j])
  {
    if found == 0 then None else FindLastSeparator(url, found - 1)
  }

  /** notifyLoadedUrl's suffix: at most the last three segments, "..." when shortened. */
  function UrlSuffix(url: string): string {
    match FindLastSeparator(url, NPOS)
    case None => url
    case Some(f1) =>
      match PreviousSeparator(url, f1)
      case None => "..." + url
      case Some(f2) =>
        match PreviousSeparator(url, f2)
        case None => "..." + url
        case Some(f3) => "..." + url[f3 + 1..]
  }

  /** With the separator at index 0 the written searches come back to the last separator. */
  lemma {:induction false} UrlSuffixAsWrittenLosesSegments()
    ensures UrlSuffixAsWritten("/a/b") == "...b"
    ensures UrlSuffix("/a/b") == ".../a/b"
  {
    var u := "/a/b";
    assert IsSeparator(u[2]) && !IsSeparator(u[3]) && !IsSeparator(u[1]) && IsSeparator(u[0]);
    assert FindLastSeparator(u, NPOS) == Some(2);
    assert FindLastSeparator(u, 1) == Some(0);
    assert u[3..] == "b";
  }

  /** The number of separators in `s`. */
  function SeparatorCount(s: string): nat {
    if s == [] then 0 else (if IsSeparator(s[0]) then 1 else 0) + SeparatorCount(s[1..])
  }

  lemma {:induction false} SeparatorCountAppend(a: string, b: string)
    ensures SeparatorCount(a + b) == SeparatorCount(a) + SeparatorCount(b)
  {
    if a == [] {
      assert a + b == b;
    } else {
      assert (a + b)[1..] == a[1..] + b;
      SeparatorCountAppend(a[1..], b);
    }
  }

  lemma {:induction false} SeparatorCountNone(s: string)
    requires forall j :: 0 <= j < |s| ==> !IsSeparator(s[j])
    ensures SeparatorCount(s) == 0
  {
    if s != [] {
      SeparatorCountNone(s[1..]);
    }
  }

  /** Counting from `lo`, where the first separator at or after `lo` is at `b`. */
  lemma {:induction false} SeparatorCountFrom(url: string, lo: nat, b: nat)
    requires lo <= b < |url| && IsSeparator(url[b])
    requires forall j :: lo <= j < b ==> !IsSeparator(url[j])
    ensures SeparatorCount(url[lo..]) == 1 + SeparatorCount(url[b + 1..])
  {
    assert url[lo..] == url[lo..b] + ([url[b]] + url[b + 1..]);
    SeparatorCountAppend(url[lo..b], [url[b]] + url[b + 1..]);
    SeparatorCountAppend([url[b]], url[b + 1..]);
    SeparatorCountNone(url[lo..b]);
  }

  lemma {:induction false} SeparatorCountSuffix(url: string, i: nat)
    requires i <= |url|
    ensures SeparatorCount(url) >= SeparatorCount(url[i..])
  {
    assert url == url[..i] + url[i..];
    SeparatorCountAppend(url[..i], url[i..]);
  }

  /**
   * A URL without separators is its own suffix; one with one or two is
   * prefixed by "..." whole; one with three or more keeps what follows the
   * third separator from the end, which is the part holding exactly two
   * separators: the last three segments.
   */
  lemma {:induction false} UrlSuffixSpec(url: string)
    requires |url| < NPOS
    ensures SeparatorCount(url) == 0 ==> UrlSuffix(url) == url
    ensures 1 <= SeparatorCount(url) <= 2 ==> UrlSuffix(url) == "..." + url
    ensures SeparatorCount(url) >= 3 ==>
      exists i :: 0 <= i < |url| && IsSeparator(url[i]) && SeparatorCount(url[i + 1..]) == 2
        && UrlSuffix(url) == "..." + url[i + 1..]
  {
    assert url[0..] == url;
    match FindLastSeparator(url, NPOS)
    case None =>
      SeparatorCountNone(url);
    case Some(f1) =>
      SeparatorCountNone(url[f1 + 1..]);
      match PreviousSeparator(url, f1)
      case None =>
        SeparatorCountFrom(url, 0, f1);
      case Some(f2) =>
        SeparatorCountFrom(url, f2 + 1, f1);
        match PreviousSeparator(url, f2)
        case None =>
          SeparatorCountFrom(url, 0, f2);
        case Some(f3) =>
          SeparatorCountFrom(url, f3 + 1, f2);
          SeparatorCountFrom(url, f3, f3);
          SeparatorCountSuffix(url, f3);
  }

  /** The text a URL adds to the title is never empty for a non-empty URL. */
  lemma {:induction false} UrlSuffixNonEmpty(url: string)
    requires url != []
    ensures UrlSuffix(url) != []
  {
  }

  /** The title state of an agent: the loaded URL list and the title built from it. */
  datatype TitleState = TitleState(loadedUrls: string, title: string)

  const TITLE_PREFIX: string := "V8JSI Host("

  const InitialTitle: TitleState := TitleState("", "")

  /** notifyLoadedUrl: append the URL's suffix, ", "-separated, and rebuild the title. */
  function NotifyLoadedUrl(st: TitleState, url: string): (r: TitleState)
    ensures r.title == TITLE_PREFIX + r.loadedUrls + ")"
    ensures st.loadedUrls == [] ==> r.loadedUrls == UrlSuffix(url)
    ensures st.loadedUrls != [] ==> r.loadedUrls == st.loadedUrls + ", " + UrlSuffix(url)
  {
    var loaded := (if |st.loadedUrls| > 0 then st.loadedUrls + ", " else st.loadedUrls) + UrlSuffix(url);
    TitleState(loaded, TITLE_PREFIX + loaded + ")")
  }

  function NotifyAll(st: TitleState, urls: seq<string>): TitleState
    decreases |urls|
  {
    if urls == [] then st else NotifyAll(NotifyLoadedUrl(st, urls[0]), urls[1..])
  }

  /** The pieces joined with ", ". */
  function JoinComma(pieces: seq<string>): string {
    if pieces == [] then []
    else if |pieces| == 1 then pieces[0]
    else pieces[0] + ", " + JoinComma(pieces[1..])
  }

  /** The suffix each URL adds, in order. */
  function Suffixes(urls: seq<string>): (r: seq<string>)
    ensures |r| == |urls|
  {
    if urls == [] then [] else [UrlSuffix(urls[0])] + Suffixes(urls[1..])
  }

  /** The suffixes of a non-empty list: the first URL's, then the rest's. */
  lemma {:induction false} SuffixesCons(urls: seq<string>)
    requires urls != []
    ensures Suffixes(urls)[0] == UrlSuffix(urls[0]) && Suffixes(urls)[1..] == Suffixes(urls[1..])
  {
    var t := Suffixes(urls[1..]);
    assert Suffixes(urls) == [UrlSuffix(urls[0])] + t;
    assert ([UrlSuffix(urls[0])] + t)[1..] == t;
  }

  /** Joining a head piece in front of the rest's join. */
  lemma {:induction false} JoinCommaCons(pieces: seq<string>)
    requires |pieces| >= 2
    ensures JoinComma(pieces) == pieces[0] + ", " + JoinComma(pieces[1..])
  {
  }

  lemma {:induction false} NotifyAllFrom(loaded: string, title: string, urls: seq<string>)
    requires loaded != []
    requires forall k :: 0 <= k < |urls| ==> urls[k] != []
    ensures urls != [] ==>
      NotifyAll(TitleState(loaded, title), urls).loadedUrls == loaded + ", " + JoinComma(Suffixes(urls))
    decreases |urls|
  {
    if urls != [] {
      var next := NotifyLoadedUrl(TitleState(loaded, title), urls[0]);
      var rest := urls[1..];
      assert forall k :: 0 <= k < |rest| ==> rest[k] != [] by {
        forall k | 0 <= k < |rest| ensures rest[k] != [] {
          assert rest[k] == urls[k + 1];
        }
      }
      NotifyAllFrom(next.loadedUrls, next.title, rest);
      SuffixesCons(urls);
      NotifyOneMore(loaded, UrlSuffix(urls[0]), Suffixes(urls), Suffixes(rest));
    }
  }

  /** The text after one more URL, whether or not more follow. */
  lemma {:induction false} NotifyOneMore(loaded: string, first: string, all: seq<string>, rest: seq<string>)
    requires all != [] && all[0] == first && all[1..] == rest
    ensures rest == [] ==> loaded + ", " + first == loaded + ", " + JoinComma(all)
    ensures rest != [] ==>
      (loaded + ", " + first) + ", " + JoinComma(rest) == loaded + ", " + JoinComma(all)
  {
    if rest == [] {
      assert |all| == 1;
    } else {
      JoinCommaCons(all);
    }
  }

  /**
   * After loading non-empty URLs into a fresh agent, the title is
   * "V8JSI Host(" + their suffixes joined with ", " + ")".
   */
  lemma {:induction false} TitleOfLoadedUrls(urls: seq<string>)
    requires urls != []
    requires forall k :: 0 <= k < |urls| ==> urls[k] != []
    ensures NotifyAll(InitialTitle, urls).title == TITLE_PREFIX + JoinComma(Suffixes(urls)) + ")"
  {
    var first := NotifyLoadedUrl(InitialTitle, urls[0]);
    UrlSuffixNonEmpty(urls[0]);
    NotifyAllFrom(first.loadedUrls, first.title, urls[1..]);
    assert Suffixes(urls)[1..] == Suffixes(urls[1..]);
    NotifyAllTitle(first, urls[1..]);
  }

  lemma {:induction false} NotifyAllTitle(st: TitleState, urls: seq<string>)
    requires st.title == TITLE_PREFIX + st.loadedUrls + ")"
    ensures NotifyAll(st, urls).title == TITLE_PREFIX + NotifyAll(st, urls).loadedUrls + ")"
    decreases |urls|
  {
    if urls != [] {
      NotifyAllTitle(NotifyLoadedUrl(st, urls[0]), urls[1..]);
    }
  }

  // ---------------------------------------------------------------------------
  // Frontend session

  datatype State = New | Accepting | Connected | Done | Error

  const TAG_CONNECT: string := "#connect"
  const TAG_DISCONNECT: string := "#disconnect"
  const RUN_IF_WAITING: string := "Runtime.runIfWaitingForDebugger"

  /** An incoming message and the id of the session it came from. */
  datatype Incoming = Incoming(sessionId: int, text: string)

  datatype Agent = Agent(
    state: State,
    sessionId: int,
    shuttingDown: bool,
    waitingForFrontend: bool,
    dispatching: bool,
    queue: seq<Incoming>,
    /** Protocol messages passed on to the session, in order. */
    delivered: seq<string>,
    frontendConnected: bool)

  const NewAgent: Agent := Agent(New, 0, false, true, false, [], [], false)

  /** Start: the agent begins accepting a frontend. */
  function Start(a: Agent): (r: Agent)
    ensures r.state == Accepting
    ensures r == a.(state := Accepting)
  {
    a.(state := Accepting)
  }

  /** WaitForDisconnect: a connected agent is marked as shutting down. */
  function WaitForDisconnect(a: Agent): (r: Agent)
    ensures r.shuttingDown == (a.shuttingDown || a.state == Connected)
    ensures r.state == a.state
  {
    if a.state == Connected then a.(shuttingDown := true) else a
  }

  /** The tag of a message: its text when it is as long as one of the tags, else "". */
  function TagOf(message: string): string {
    if |message| == |TAG_CONNECT| || |message| == |TAG_DISCONNECT| then message else ""
  }

  /** The length test only saves work: a message is a tag exactly when it equals one. */
  lemma {:induction false} TagOfSpec(message: string)
    ensures TagOf(message) == TAG_CONNECT <==> message == TAG_CONNECT
    ensures TagOf(message) == TAG_DISCONNECT <==> message == TAG_DISCONNECT
  {
  }

  /**
   * dispatchMessageFromFrontend: while the agent waits for the frontend, it
   * goes on waiting exactly when the message mentions
   * "Runtime.runIfWaitingForDebugger" (the `!=` test as written); the
   * message goes to the session.
   */
  function DispatchFromFrontend(a: Agent, message: string): (r: Agent)
    ensures r.waitingForFrontend <==> a.waitingForFrontend && Find(message, RUN_IF_WAITING, 0).Some?
    ensures r.delivered == a.delivered + [message]
    ensures r.state == a.state && r.queue == a.queue
  {
    var waiting := if a.waitingForFrontend then Find(message, RUN_IF_WAITING, 0).Some? else false;
    a.(waitingForFrontend := waiting, delivered := a.delivered + [message])
  }

  /**
   * The rule waitForDebugger's loop `while (waiting_for_frontend_)` needs:
   * the agent waits until the frontend asks it to run, so the message that
   * mentions "Runtime.runIfWaitingForDebugger" is the one that ends the wait.
   */
  function DispatchFromFrontendIntended(a: Agent, message: string): (r: Agent)
    ensures r.waitingForFrontend <==> a.waitingForFrontend && Find(message, RUN_IF_WAITING, 0).None?
    ensures r.delivered == a.delivered + [message]
    ensures r.state == a.state && r.queue == a.queue
  {
    var waiting := if a.waitingForFrontend then Find(message, RUN_IF_WAITING, 0).None? else false;
    a.(waitingForFrontend := waiting, delivered := a.delivered + [message])
  }

  /** Protocol messages dispatched one after another, by the rule as written or by the intended one. */
  function DispatchAll(a: Agent, ms: seq<string>, intended: bool): Agent
    decreases |ms|
  {
    if ms == [] then a
    else
      var next := if intended then DispatchFromFrontendIntended(a, ms[0]) else DispatchFromFrontend(a, ms[0]);
      DispatchAll(next, ms[1..], intended)
  }

  /** The message mentions "Runtime.runIfWaitingForDebugger". */
  predicate AsksToRun(message: string) {
    Find(message, RUN_IF_WAITING, 0).Some?
  }

  /**
   * As written, a waiting agent goes on waiting only while every message
   * the frontend sends mentions "Runtime.runIfWaitingForDebugger": the
   * first message that does not (in practice the first one) ends the wait.
   */
  lemma {:induction false} WaitsWhileEveryMessageAsksToRun(a: Agent, ms: seq<string>)
    ensures DispatchAll(a, ms, false).waitingForFrontend <==>
      a.waitingForFrontend && forall i :: 0 <= i < |ms| ==> AsksToRun(ms[i])
    ensures DispatchAll(a, ms, false).delivered == a.delivered + ms
    decreases |ms|
  {
    if ms != [] {
      WaitsWhileEveryMessageAsksToRun(DispatchFromFrontend(a, ms[0]), ms[1..]);
      assert forall i :: 1 <= i < |ms| ==> ms[i] == ms[1..][i - 1];
      assert a.delivered + [ms[0]] + ms[1..] == a.delivered + ms;
    }
  }

  /**
   * By the intended rule a waiting agent goes on waiting exactly until a
   * message mentions "Runtime.runIfWaitingForDebugger".
   */
  lemma {:induction false} IntendedWaitsUntilAskedToRun(a: Agent, ms: seq<string>)
    ensures DispatchAll(a, ms, true).waitingForFrontend <==>
      a.waitingForFrontend && forall i :: 0 <= i < |ms| ==> !AsksToRun(ms[i])
    ensures DispatchAll(a, ms, true).delivered == a.delivered + ms
    decreases |ms|
  {
    if ms != [] {
      IntendedWaitsUntilAskedToRun(DispatchFromFrontendIntended(a, ms[0]), ms[1..]);
      assert forall i :: 1 <= i < |ms| ==> ms[i] == ms[1..][i - 1];
      assert a.delivered + [ms[0]] + ms[1..] == a.delivered + ms;
    }
  }

  /**
   * The two rules disagree on the usual opening of a session: as written,
   * "Runtime.enable" releases a waiting agent and the request to run keeps
   * it waiting; the intended rule does the opposite.
   */
  lemma {:induction false} AsWrittenStopsWaitingEarly(a: Agent)
    requires a.waitingForFrontend
    ensures !DispatchFromFrontend(a, "Runtime.enable").waitingForFrontend
    ensures DispatchFromFrontendIntended(a, "Runtime.enable").waitingForFrontend
    ensures DispatchFromFrontend(a, RUN_IF_WAITING).waitingForFrontend
    ensures !DispatchFromFrontendIntended(a, RUN_IF_WAITING).waitingForFrontend
  {
    assert Find("Runtime.enable", RUN_IF_WAITING, 0).None?;
    assert RUN_IF_WAITING[0..|RUN_IF_WAITING|] == RUN_IF_WAITING;
    assert Find(RUN_IF_WAITING, RUN_IF_WAITING, 0) == Some(0);
  }

  /**
   * One message of DispatchMessages. None is the process stopping: a
   * failed CHECK_EQ ("#connect" outside Accepting or "#disconnect" outside
   * Connected), or a protocol message while no frontend is connected,
   * which dispatchMessageFromFrontend passes to a null session.
   */
  function HandleMessage(a: Agent, m: Incoming): (r: Option<Agent>)
  {
    var tag := TagOf(m.text);
    if tag == TAG_CONNECT then
      if a.state != Accepting then None
      else Some(a.(sessionId := m.sessionId, state := Connected, frontendConnected := true))
    else if tag == TAG_DISCONNECT then
      if a.state != Connected then None
      else Some(a.(state := if a.shuttingDown then Done else Accepting, frontendConnected := false))
    else if !a.frontendConnected then None
    else Some(DispatchFromFrontend(a, m.text))
  }

  /** "#connect" is accepted only while accepting, and connects that session. */
  lemma {:induction false} ConnectTransition(a: Agent, sessionId: int)
    ensures HandleMessage(a, Incoming(sessionId, TAG_CONNECT)).Some? <==> a.state == Accepting
    ensures a.state == Accepting ==>
      var r := HandleMessage(a, Incoming(sessionId, TAG_CONNECT)).value;
      r.state == Connected && r.sessionId == sessionId && r.frontendConnected && r.delivered == a.delivered
  {
  }

  /** "#disconnect" is accepted only while connected, and ends or reopens the session. */
  lemma {:induction false} DisconnectTransition(a: Agent, sessionId: int)
    ensures HandleMessage(a, Incoming(sessionId, TAG_DISCONNECT)).Some? <==> a.state == Connected
    ensures a.state == Connected ==>
      var r := HandleMessage(a, Incoming(sessionId, TAG_DISCONNECT)).value;
      r.state == (if a.shuttingDown then Done else Accepting) && !r.frontendConnected
  {
  }

  /**
   * Any other message stops the process when no frontend is connected;
   * otherwise it leaves the session state alone and reaches the session.
   */
  lemma {:induction false} ProtocolMessageTransition(a: Agent, m: Incoming)
    requires m.text != TAG_CONNECT && m.text != TAG_DISCONNECT
    ensures HandleMessage(a, m).None? <==> !a.frontendConnected
    ensures a.frontendConnected ==> HandleMessage(a, m) == Some(DispatchFromFrontend(a, m.text))
  {
    TagOfSpec(m.text);
  }

  /** The states a started agent can be in. */
  predicate Started(a: Agent) {
    (a.state == Accepting || a.state == Connected || a.state == Done)
    && (a.state == Connected <==> a.frontendConnected)
  }

  lemma {:induction false} HandleMessageKeepsStarted(a: Agent, m: Incoming)
    requires Started(a) && HandleMessage(a, m).Some?
    ensures Started(HandleMessage(a, m).value)
  {
  }

  /** Handle messages in order; a failed check ends everything. */
  function HandleAll(a: Agent, ms: seq<Incoming>): Option<Agent>
    decreases |ms|
  {
    if ms == [] then Some(a)
    else
      match HandleMessage(a, ms[0])
      case None => None
      case Some(a1) => HandleAll(a1, ms[1..])
  }

  lemma {:induction false} HandleAllKeepsStarted(a: Agent, ms: seq<Incoming>)
    requires Started(a) && HandleAll(a, ms).Some?
    ensures Started(HandleAll(a, ms).value)
    decreases |ms|
  {
    if ms != [] {
      HandleMessageKeepsStarted(a, ms[0]);
      HandleAllKeepsStarted(HandleMessage(a, ms[0]).value, ms[1..]);
    }
  }

  /** Once the agent stops waiting for the frontend it never waits again. */
  lemma {:induction false} WaitingNeverResumes(a: Agent, ms: seq<Incoming>)
    requires !a.waitingForFrontend && HandleAll(a, ms).Some?
    ensures !HandleAll(a, ms).value.waitingForFrontend
    decreases |ms|
  {
    if ms != [] {
      WaitingNeverResumes(HandleMessage(a, ms[0]).value, ms[1..]);
    }
  }

  lemma {:induction false} HandleAllAppend(a: Agent, xs: seq<Incoming>, ys: seq<Incoming>)
    ensures HandleAll(a, xs + ys) ==
      match HandleAll(a, xs)
      case None => None
      case Some(b) => HandleAll(b, ys)
    decreases |xs|
  {
    if xs == [] {
      assert xs + ys == ys;
    } else {
      assert (xs + ys)[1..] == xs[1..] + ys;
      match HandleMessage(a, xs[0])
      case None =>
      case Some(a1) => HandleAllAppend(a1, xs[1..], ys);
    }
  }

  /** A connect followed by a disconnect, while not shutting down, reopens the agent. */
  lemma {:induction false} SessionRoundTrip(a: Agent, sessionId: int)
    requires a.state == Accepting && !a.shuttingDown
    ensures HandleAll(a, [Incoming(sessionId, TAG_CONNECT), Incoming(sessionId, TAG_DISCONNECT)]).Some?
    ensures HandleAll(a, [Incoming(sessionId, TAG_CONNECT), Incoming(sessionId, TAG_DISCONNECT)]).value.state == Accepting
  {
    var ms := [Incoming(sessionId, TAG_CONNECT), Incoming(sessionId, TAG_DISCONNECT)];
    TagOfSpec(TAG_CONNECT);
    TagOfSpec(TAG_DISCONNECT);
    var a1 := a.(sessionId := sessionId, state := Connected, frontendConnected := true);
    assert HandleMessage(a, ms[0]) == Some(a1);
    var a2 := a1.(state := Accepting, frontendConnected := false);
    assert HandleMessage(a1, ms[1]) == Some(a2);
    assert ms[1..] == [ms[1]];
    assert ms[1..][1..] == [];
    assert HandleAll(a2, []) == Some(a2);
    assert HandleAll(a1, ms[1..]) == Some(a2);
  }

  // ---------------------------------------------------------------------------
  // Message queue

  /** AppendMessage: push the message; pumping is needed iff the queue was empty. */
  function AppendMessage(queue: seq<Incoming>, m: Incoming): (r: (seq<Incoming>, bool))
    ensures |r.0| == |queue| + 1 && r.0[..|queue|] == queue && r.0[|queue|] == m
    ensures r.1 <==> |queue| == 0
  {
    (queue + [m], queue == [])
  }

  /** All messages of the batches, in order. */
  function Flatten(batches: seq<seq<Incoming>>): seq<Incoming> {
    if batches == [] then [] else batches[0] + Flatten(batches[1..])
  }

  /**
   * The do-while loop of DispatchMessages: take the whole queue, handle it,
   * and go round again until a round finds the queue empty. `arriving[k]`
   * holds the messages other threads post while round k is handled.
   */
  function Pump(a: Agent, arriving: seq<seq<Incoming>>): Option<Agent>
    decreases |arriving|, if a.queue == [] then 0 else 1
  {
    var tasks := a.queue;
    if tasks == [] then Some(a)
    else
      match HandleAll(a.(queue := []), tasks)
      case None => None
      case Some(b) =>
        HandleAllKeepsQueue(a.(queue := []), tasks);
        var posted := if arriving == [] then [] else arriving[0];
        Pump(b.(queue := b.queue + posted), if arriving == [] then [] else arriving[1..])
  }

  /** DispatchMessages: a nested call returns at once; otherwise pump under the flag. */
  function DispatchMessages(a: Agent, arriving: seq<seq<Incoming>>): (r: Option<Agent>)
    ensures a.dispatching ==> r == Some(a)
    ensures !a.dispatching && r.Some? ==> !r.value.dispatching
  {
    if a.dispatching then Some(a)
    else
      match Pump(a.(dispatching := true), arriving)
      case None => None
      case Some(b) => Some(b.(dispatching := false))
  }

  /** Handling a message never touches the queue. */
  lemma {:induction false} HandleMessageKeepsQueue(a: Agent, m: Incoming)
    requires HandleMessage(a, m).Some?
    ensures HandleMessage(a, m).value.queue == a.queue
  {
  }

  lemma {:induction false} HandleAllKeepsQueue(a: Agent, ms: seq<Incoming>)
    requires HandleAll(a, ms).Some?
    ensures HandleAll(a, ms).value.queue == a.queue
    decreases |ms|
  {
    if ms != [] {
      HandleMessageKeepsQueue(a, ms[0]);
      HandleAllKeepsQueue(HandleMessage(a, ms[0]).value, ms[1..]);
    }
  }

  /**
   * When every round sees new messages arrive, the pump handles the queued
   * messages and then every arrival, each exactly once and in order, and
   * leaves the queue empty.
   */
  lemma {:induction false} PumpHandlesEverything(a: Agent, arriving: seq<seq<Incoming>>)
    requires a.queue != []
    requires forall k :: 0 <= k < |arriving| ==> arriving[k] != []
    ensures Pump(a, arriving) == (
      match HandleAll(a.(queue := []), a.queue + Flatten(arriving))
      case None => None
      case Some(b) => Some(b))
    ensures Pump(a, arriving).Some? ==> Pump(a, arriving).value.queue == []
    decreases |arriving|
  {
    var a0 := a.(queue := []);
    HandleAllAppend(a0, a.queue, Flatten(arriving));
    match HandleAll(a0, a.queue)
    case None =>
    case Some(b) =>
      HandleAllKeepsQueue(a0, a.queue);
      if arriving == [] {
        assert Flatten(arriving) == [];
        assert HandleAll(b, []) == Some(b);
      } else {
        var b1 := b.(queue := arriving[0]);
        assert b.queue + arriving[0] == arriving[0];
        PumpHandlesEverything(b1, arriving[1..]);
        HandleAllAppend(b1.(queue := []), arriving[0], Flatten(arriving[1..]));
        assert b1.(queue := []) == b;
      }
  }

  // ---------------------------------------------------------------------------
  // Target ids (version 4 UUIDs, section 4.4 of RFC 4122)

  const HEX_DIGITS: string := "0123456789abcdef"

  predicate IsLowerHex(c: char) {
    '0' <= c <= '9' || 'a' <= c <= 'f'
  }

  /** The hex digit of a value below 16. */
  function HexDigit(d: nat): (c: char)
    requires d < 16
    ensures IsLowerHex(c)
  {
    HEX_DIGITS[d]
  }

  /** %04x of a 16-bit value. */
  function Hex4(v: uint16): (s: string)
    ensures |s| == 4
    ensures forall k :: 0 <= k < 4 ==> IsLowerHex(s[k])
  {
    [HexDigit(v / 16 / 16 / 16), HexDigit(v / 16 / 16 % 16), HexDigit(v / 16 % 16), HexDigit(v % 16)]
  }

  function HexValue(c: char): nat {
    if '0' <= c <= '9' then c as nat - '0' as nat
    else if 'a' <= c <= 'f' then c as nat - 'a' as nat + 10
    else 0
  }

  lemma {:induction false} HexDigitValue(d: nat)
    requires d < 16
    ensures HexValue(HexDigit(d)) == d
  {
  }

  /** Reading four hex digits back gives the value that was printed. */
  lemma {:induction false} Hex4RoundTrip(v: uint16)
    ensures var s := Hex4(v);
      HexValue(s[0]) * 0x1000 + HexValue(s[1]) * 0x100 + HexValue(s[2]) * 0x10 + HexValue(s[3]) == v
  {
    var q1 := v / 16;
    var q2 := q1 / 16;
    var q3 := q2 / 16;
    HexDigitValue(q3);
    HexDigitValue(q2 % 16);
    HexDigitValue(q1 % 16);
    HexDigitValue(v % 16);
    assert v == q1 * 16 + v % 16;
    assert q1 == q2 * 16 + q1 % 16;
    assert q2 == q3 * 16 + q2 % 16;
  }

  /** (w & 0x0fff) | 0x4000: the version nibble set to 4. */
  function VersionWord(w: uint16): uint16 {
    w % 0x1000 + 0x4000
  }

  /** (w & 0x3fff) | 0x8000: the two variant bits set to 10. */
  function VariantWord(w: uint16): uint16 {
    w % 0x4000 + 0x8000
  }

  /** Every character a lower-case hex digit. */
  predicate AllHex(s: string) {
    forall k :: 0 <= k < |s| ==> IsLowerHex(s[k])
  }

  /** Five groups joined by dashes. */
  function Dashed(a: string, b: string, c: string, d: string, e: string): string {
    a + "-" + b + "-" + c + "-" + d + "-" + e
  }

  /**
   * GenerateID, given the eight random 16-bit words: the format
   * "%04x%04x-%04x-%04x-%04x-%04x%04x%04x".
   */
  function GenerateId(words: seq<uint16>): (id: string)
    requires |words| == 8
    ensures |id| == 36
  {
    Dashed(Hex4(words[0]) + Hex4(words[1]), Hex4(words[2]), Hex4(VersionWord(words[3])),
           Hex4(VariantWord(words[4])), Hex4(words[5]) + Hex4(words[6]) + Hex4(words[7]))
  }

  /** Groups of 8, 4, 4, 4 and 12 hex digits give the 36-character layout. */
  lemma {:induction false} DashedShape(a: string, b: string, c: string, d: string, e: string)
    requires |a| == 8 && |b| == 4 && |c| == 4 && |d| == 4 && |e| == 12
    requires AllHex(a) && AllHex(b) && AllHex(c) && AllHex(d) && AllHex(e)
    ensures var id := Dashed(a, b, c, d, e);
      && |id| == 36 && id[14] == c[0] && id[19] == d[0]
      && id[8] == '-' && id[13] == '-' && id[18] == '-' && id[23] == '-'
      && forall k :: 0 <= k < 36 && k != 8 && k != 13 && k != 18 && k != 23 ==> IsLowerHex(id[k])
  {
    var id := Dashed(a, b, c, d, e);
    forall k | 0 <= k < 36 && k != 8 && k != 13 && k != 18 && k != 23
      ensures IsLowerHex(id[k])
    {
      if k < 8 { assert id[k] == a[k]; }
      else if k < 13 { assert id[k] == b[k - 9]; }
      else if k < 18 { assert id[k] == c[k - 14]; }
      else if k < 23 { assert id[k] == d[k - 19]; }
      else { assert id[k] == e[k - 24]; }
    }
  }

  /** Hex digits side by side are hex digits. */
  lemma {:induction false} AllHexConcat(a: string, b: string)
    requires AllHex(a) && AllHex(b)
    ensures AllHex(a + b)
  {
    forall k | 0 <= k < |a + b|
      ensures IsLowerHex((a + b)[k])
    {
      if k < |a| { assert (a + b)[k] == a[k]; } else { assert (a + b)[k] == b[k - |a|]; }
    }
  }

  /** The id has dashes at 8, 13, 18 and 23 and lower-case hex digits elsewhere. */
  lemma {:induction false} GenerateIdShape(words: seq<uint16>)
    requires |words| == 8
    ensures var id := GenerateId(words);
      id[8] == '-' && id[13] == '-' && id[18] == '-' && id[23] == '-'
      && forall k :: 0 <= k < 36 && k != 8 && k != 13 && k != 18 && k != 23 ==> IsLowerHex(id[k])
  {
    var h0, h1, h2, h3 := Hex4(words[0]), Hex4(words[1]), Hex4(words[2]), Hex4(VersionWord(words[3]));
    var h4, h5, h6, h7 := Hex4(VariantWord(words[4])), Hex4(words[5]), Hex4(words[6]), Hex4(words[7]);
    AllHexConcat(h0, h1);
    AllHexConcat(h5, h6);
    AllHexConcat(h5 + h6, h7);
    DashedShape(h0 + h1, h2, h3, h4, h5 + h6 + h7);
  }

  /** The leading digit of the version word is 4. */
  lemma {:induction false} VersionDigit(w: uint16)
    ensures Hex4(VersionWord(w))[0] == '4'
  {
    var v := VersionWord(w);
    assert v / 16 / 16 / 16 == 4;
  }

  /** The leading digit of the variant word is 8, 9, a or b. */
  lemma {:induction false} VariantDigit(w: uint16)
    ensures var c := Hex4(VariantWord(w))[0];
      c == '8' || c == '9' || c == 'a' || c == 'b'
  {
    var v := VariantWord(w);
    assert 8 <= v / 16 / 16 / 16 <= 11;
  }

  /**
   * The third group begins with the version digit 4 and the fourth group
   * with 8, 9, a or b (the variant bits 10).
   */
  lemma {:induction false} GenerateIdVersionAndVariant(words: seq<uint16>)
    requires |words| == 8
    ensures var id := GenerateId(words);
      id[14] == '4' && (id[19] == '8' || id[19] == '9' || id[19] == 'a' || id[19] == 'b')
  {
    var h0, h1, h2, h3 := Hex4(words[0]), Hex4(words[1]), Hex4(words[2]), Hex4(VersionWord(words[3]));
    var h4, h5, h6, h7 := Hex4(VariantWord(words[4])), Hex4(words[5]), Hex4(words[6]), Hex4(words[7]);
    AllHexConcat(h0, h1);
    AllHexConcat(h5, h6);
    AllHexConcat(h5 + h6, h7);
    DashedShape(h0 + h1, h2, h3, h4, h5 + h6 + h7);
    VersionDigit(words[3]);
    VariantDigit(words[4]);
  }

  /** The random bits outside the version and variant fields survive in the id. */
  lemma {:induction false} GenerateIdKeepsRandomBits(words: seq<uint16>)
    requires |words| == 8
    ensures VersionWord(words[3]) % 0x1000 == words[3] % 0x1000
    ensures VariantWord(words[4]) % 0x4000 == words[4] % 0x4000
    ensures GenerateId(words)[..8] == Hex4(words[0]) + Hex4(words[1])
  {
  }
}

=== FILE: inspector_utils.dfy ===
/**
 * Text helpers of the inspector (src/inspector/inspector_utils.cpp):
 * UTF-16 to UTF-8 transcoding (section 3 of RFC 3629), ASCII lower-casing,
 * case-insensitive comparison of NUL-terminated strings and base64 encoding
 * (section 4 of RFC 4648).
 */
module InspectorUtils {
  import opened Wrappers

  // ---------------------------------------------------------------------------
  // UTF-16 to UTF-8

  const UTF8_ONE_BYTE_BOUNDARY: nat := 0x80
  const UTF8_TWO_BYTES_BOUNDARY: nat := 0x800
  const UTF16_HIGH_SUB_LOW_BOUNDARY: nat := 0xD800
  const UTF16_HIGH_SUB_HIGH_BOUNDARY: nat := 0xDC00
  const UTF16_LOW_SUB_HIGH_BOUNDARY: nat := 0xE000

  predicate IsHighSurrogate(ch: uint16) {
    UTF16_HIGH_SUB_LOW_BOUNDARY <= ch < UTF16_HIGH_SUB_HIGH_BOUNDARY
  }

  predicate IsLowSurrogate(ch: uint16) {
    UTF16_HIGH_SUB_HIGH_BOUNDARY <= ch < UTF16_LOW_SUB_HIGH_BOUNDARY
  }

  /** The text starts with a high surrogate immediately followed by a low one. */
  predicate StartsWithPair(u: seq<uint16>) {
    |u| >= 2 && IsHighSurrogate(u[0]) && IsLowSurrogate(u[1])
  }

  /**
   * The byte count utf16toUTF8Length accumulates: 1 below 0x80, 2 below
   * 0x800, 4 for a well-formed surrogate pair (both units) and 3 otherwise,
   * lone surrogates included.
   */
  function Utf8Count(u: seq<uint16>): nat
    decreases |u|
  {
    if u == [] then 0
    else if u[0] < UTF8_ONE_BYTE_BOUNDARY then 1 + Utf8Count(u[1..])
    else if u[0] < UTF8_TWO_BYTES_BOUNDARY then 2 + Utf8Count(u[1..])
    else if StartsWithPair(u) then 4 + Utf8Count(u[2..])
    else 3 + Utf8Count(u[1..])
  }

  /**
   * utf16toUTF8Length: 0 for a null or empty input; the count is kept in a
   * uint32, so it wraps past 2^32 - 1.
   */
  function Utf16ToUtf8Length(units: Option<seq<uint16>>): (r: nat)
    ensures units.None? || units.value == [] ==> r == 0
    ensures units.Some? && 3 * |units.value| < UINT32_LIMIT ==> r == Utf8Count(units.value)
  {
    if units.None? || units.value == [] then 0
    else
      Utf8CountBound(units.value);
      Utf8Count(units.value) % UINT32_LIMIT
  }

  lemma {:induction false} Utf8CountBound(u: seq<uint16>)
    ensures |u| <= Utf8Count(u) <= 3 * |u|
    decreases |u|
  {
    if u != [] {
      if StartsWithPair(u) {
        Utf8CountBound(u[2..]);
      } else {
        Utf8CountBound(u[1..]);
      }
    }
  }

  /**
   * The four bytes written for a surrogate pair. Every `|` in the source
   * combines disjoint bit fields, so it is written here as `+`.
   */
  function PairBytes(hi: uint16, lo: uint16): (r: seq<uint8>)
    requires IsHighSurrogate(hi) && IsLowSurrogate(lo)
    ensures |r| == 4
  {
    var trunc := (hi / 64) % 16 + 1;
    [0xF0 + trunc / 4,
     0x80 + (trunc % 4) * 16 + (hi / 4) % 16,
     0x80 + (hi % 4) * 16 + (lo / 64) % 16,
     0x80 + lo % 64]
  }

  /** The bytes utf16toUTF8 writes for the first unit (or pair) of `u`. */
  function LeadBytes(u: seq<uint16>): (r: seq<uint8>)
    requires u != []
  {
    var ch := u[0];
    if ch < UTF8_ONE_BYTE_BOUNDARY then [ch]
    else if ch < UTF8_TWO_BYTES_BOUNDARY then [0xC0 + ch / 64, 0x80 + ch % 64]
    else if StartsWithPair(u) then PairBytes(u[0], u[1])
    else [0xE0 + ch / 4096, 0x80 + (ch / 64) % 64, 0x80 + ch % 64]
  }

  /** Units consumed together with `u[0]`. */
  function LeadUnits(u: seq<uint16>): nat
    requires u != []
  {
    if u[0] >= UTF8_TWO_BYTES_BOUNDARY && StartsWithPair(u) then 2 else 1
  }

  /** utf16toUTF8 over a sequence of code units. */
  function Encode(u: seq<uint16>): (r: seq<uint8>)
    decreases |u|
  {
    if u == [] then [] else LeadBytes(u) + Encode(u[LeadUnits(u)..])
  }

  /** utf16toUTF8: the empty string for a null or empty input. */
  function Utf16ToUtf8(units: Option<seq<uint16>>): (r: seq<uint8>)
    ensures units.None? ==> r == []
  {
    if units.None? then [] else Encode(units.value)
  }

  /** The string is as long as the count it was sized with, branch by branch. */
  lemma {:induction false} EncodeLength(u: seq<uint16>)
    ensures |Encode(u)| == Utf8Count(u)
    decreases |u|
  {
    if u != [] {
      EncodeLength(u[LeadUnits(u)..]);
    }
  }

  /** utf16toUTF8 writes exactly utf16toUTF8Length bytes whenever the count fits in 32 bits. */
  lemma {:induction false} Utf16ToUtf8MatchesLength(units: Option<seq<uint16>>)
    requires units.Some? ==> 3 * |units.value| < UINT32_LIMIT
    ensures |Utf16ToUtf8(units)| == Utf16ToUtf8Length(units)
  {
    if units.Some? {
      EncodeLength(units.value);
    }
  }

  /** ASCII text is copied unchanged. */
  lemma {:induction false} EncodeAscii(u: seq<uint16>)
    requires forall k :: 0 <= k < |u| ==> u[k] < 0x80
    ensures Encode(u) == u
    decreases |u|
  {
    if u != [] {
      EncodeAscii(u[1..]);
      assert u == [u[0]] + u[1..];
    }
  }

  // UTF-8 byte classes (section 3 of RFC 3629)

  predicate IsContinuation(b: uint8) {
    0x80 <= b < 0xC0
  }

  /** Bytes in the lead sequence of `b`, judged by its first byte; 0 for a byte that cannot lead. */
  function SequenceLength(lead: uint8): nat {
    if lead < 0x80 then 1
    else if 0xC0 <= lead < 0xE0 then 2
    else if 0xE0 <= lead < 0xF0 then 3
    else if 0xF0 <= lead < 0xF8 then 4
    else 0
  }

  /** A sequence of lead bytes, each followed by its continuation bytes. */
  predicate WellFormed(b: seq<uint8>)
    decreases |b|
  {
    b == [] ||
    (var n := SequenceLength(b[0]);
     n > 0 && n <= |b|
     && (forall k :: 1 <= k < n ==> IsContinuation(b[k]))
     && WellFormed(b[n..]))
  }

  /** The value a well-formed sequence carries in its payload bits. */
  function SequenceValue(b: seq<uint8>): nat
    requires b != [] && 0 < SequenceLength(b[0]) <= |b|
  {
    var b0: int, b1: int := b[0], if |b| > 1 then b[1] else 0;
    var b2: int, b3: int := if |b| > 2 then b[2] else 0, if |b| > 3 then b[3] else 0;
    match SequenceLength(b[0])
    case 1 => b0
    case 2 => (b0 % 32) * 64 + b1 % 64
    case 3 => (b0 % 16) * 4096 + (b1 % 64) * 64 + b2 % 64
    case _ => (b0 % 8) * 262144 + (b1 % 64) * 4096 + (b2 % 64) * 64 + b3 % 64
  }

  /** A UTF-8 decoder: the code point of every sequence, in order. */
  function DecodeUtf8(b: seq<uint8>): seq<nat>
    requires WellFormed(b)
    decreases |b|
  {
    if b == [] then [] else [SequenceValue(b)] + DecodeUtf8(b[SequenceLength(b[0])..])
  }

  /** The code point a surrogate pair stands for. */
  function PairCodePoint(hi: uint16, lo: uint16): nat
    requires IsHighSurrogate(hi) && IsLowSurrogate(lo)
  {
    0x10000 + (hi - UTF16_HIGH_SUB_LOW_BOUNDARY) * 0x400 + (lo - UTF16_HIGH_SUB_HIGH_BOUNDARY)
  }

  /**
   * The code points of UTF-16 text: a well-formed pair gives one supplementary
   * code point, any other unit (a lone surrogate too) stands for itself.
   */
  function CodePoints(u: seq<uint16>): seq<nat>
    decreases |u|
  {
    if u == [] then []
    else if StartsWithPair(u) then [PairCodePoint(u[0], u[1])] + CodePoints(u[2..])
    else [u[0]] + CodePoints(u[1..])
  }

  /** The four bytes of a pair are a 4-byte sequence carrying the pair's code point. */
  lemma {:induction false} PairBytesCodePoint(hi: uint16, lo: uint16)
    requires IsHighSurrogate(hi) && IsLowSurrogate(lo)
    ensures var b := PairBytes(hi, lo);
      SequenceLength(b[0]) == 4 && IsContinuation(b[1]) && IsContinuation(b[2]) && IsContinuation(b[3])
      && SequenceValue(b) == PairCodePoint(hi, lo)
  {
    HighBits(hi);
    LowBits(lo);
    var q, r := (hi / 64) % 16, hi % 64;
    var t := q + 1;
    var b := PairBytes(hi, lo);
    PairBytesFields(hi, lo);
    FourByteValue(b);
    PairFields(t, r, (lo / 64) % 16, lo % 64);
  }

  /** The four bytes of a pair, field by field. */
  lemma {:induction false} PairBytesFields(hi: uint16, lo: uint16)
    requires IsHighSurrogate(hi) && IsLowSurrogate(lo)
    ensures var t, r := (hi / 64) % 16 + 1, hi % 64;
      var b := PairBytes(hi, lo);
      && b[0] as int == 0xF0 + t / 4 && b[1] as int == 0x80 + (t % 4) * 16 + r / 4
      && b[2] as int == 0x80 + (r % 4) * 16 + (lo / 64) % 16 && b[3] as int == 0x80 + lo % 64
  {
    HighBits(hi);
  }

  /** The payload bits of a high surrogate are its offset from 0xD800, of a low one from 0xDC00. */
  lemma {:induction false} HighBits(hi: uint16)
    requires IsHighSurrogate(hi)
    ensures var q, r := (hi / 64) % 16, hi % 64;
      && hi - 0xD800 == 64 * q + r
      && (hi / 4) % 16 == r / 4 && hi % 4 == r % 4
  {
    var x: int := hi - 0xD800;
    var q, r := x / 64, x % 64;
    assert hi == 64 * (864 + q) + r;
    assert hi / 64 == 864 + q;
    assert hi % 64 == r;
    assert (hi / 64) % 16 == q;
    assert hi == 4 * (13824 + 16 * q + r / 4) + r % 4;
    assert hi / 4 == 13824 + 16 * q + r / 4;
  }

  lemma {:induction false} LowBits(lo: uint16)
    requires IsLowSurrogate(lo)
    ensures lo - 0xDC00 == 64 * ((lo / 64) % 16) + lo % 64
  {
    var y: int := lo - 0xDC00;
    assert lo == 64 * (880 + y / 64) + y % 64;
  }

  /** A sequence led by a 11110xxx byte is four bytes long and carries their payload bits. */
  lemma {:induction false} FourByteValue(b: seq<uint8>)
    requires |b| == 4 && 0xF0 <= b[0] < 0xF8
    ensures SequenceLength(b[0]) == 4
    ensures SequenceValue(b) == (b[0] as int % 8) * 262144 + (b[1] as int % 64) * 4096
      + (b[2] as int % 64) * 64 + b[3] as int % 64
  {
  }

  /**
   * Four bytes holding the given bit fields after their 11110 and 10 tags
   * carry, reassembled, the value those fields spell.
   */
  lemma {:induction false} PairFields(t: int, r: int, yq: int, yr: int)
    requires 1 <= t <= 16 && 0 <= r < 64 && 0 <= yq < 16 && 0 <= yr < 64
    ensures var b0: int, b1: int := 0xF0 + t / 4, 0x80 + (t % 4) * 16 + r / 4;
      var b2: int, b3: int := 0x80 + (r % 4) * 16 + yq, 0x80 + yr;
      && 0xF0 <= b0 < 0xF8 && 0x80 <= b1 < 0xC0 && 0x80 <= b2 < 0xC0 && 0x80 <= b3 < 0xC0
      && (b0 % 8) * 262144 + (b1 % 64) * 4096 + (b2 % 64) * 64 + b3 % 64
         == 65536 * t + 1024 * r + 64 * yq + yr
  {
    var tq, tr, rq, rr := t / 4, t % 4, r / 4, r % 4;
    assert t == 4 * tq + tr && r == 4 * rq + rr;
    var b0: int, b1: int := 0xF0 + tq, 0x80 + tr * 16 + rq;
    var b2: int, b3: int := 0x80 + rr * 16 + yq, 0x80 + yr;
    assert b0 % 8 == tq && b1 % 64 == tr * 16 + rq && b2 % 64 == rr * 16 + yq && b3 % 64 == yr;
  }

  /** The lead bytes are one well-formed sequence carrying the lead code point. */
  lemma {:induction false} LeadBytesSequence(u: seq<uint16>)
    requires u != []
    ensures var b := LeadBytes(u);
      SequenceLength(b[0]) == |b|
      && (forall k :: 1 <= k < |b| ==> IsContinuation(b[k]))
      && SequenceValue(b) == (if LeadUnits(u) == 2 then PairCodePoint(u[0], u[1]) else u[0])
  {
    var ch := u[0];
    if ch < UTF8_ONE_BYTE_BOUNDARY {
    } else if ch < UTF8_TWO_BYTES_BOUNDARY {
      TwoByteSequence(ch);
    } else if StartsWithPair(u) {
      PairBytesCodePoint(u[0], u[1]);
    } else {
      ThreeByteSequence(ch);
    }
  }

  lemma {:induction false} TwoByteSequence(ch: uint16)
    requires 0x80 <= ch < 0x800
    ensures var b: seq<uint8> := [0xC0 + ch / 64, 0x80 + ch % 64];
      SequenceLength(b[0]) == 2 && IsContinuation(b[1]) && SequenceValue(b) == ch
  {
    var b: seq<uint8> := [0xC0 + ch / 64, 0x80 + ch % 64];
    assert b[0] % 32 == ch / 64;
  }

  lemma {:induction false} ThreeByteSequence(ch: uint16)
    requires 0x800 <= ch
    ensures var b: seq<uint8> := [0xE0 + ch / 4096, 0x80 + (ch / 64) % 64, 0x80 + ch % 64];
      SequenceLength(b[0]) == 3 && IsContinuation(b[1]) && IsContinuation(b[2]) && SequenceValue(b) == ch
  {
    var b: seq<uint8> := [0xE0 + ch / 4096, 0x80 + (ch / 64) % 64, 0x80 + ch % 64];
    assert b[0] % 16 == ch / 4096;
    assert (ch / 4096) * 4096 + ((ch / 64) % 64) * 64 + ch % 64 == ch;
  }

  /**
   * Every emitted byte sequence is well formed (a 0xxxxxxx, 110xxxxx,
   * 1110xxxx or 11110xxx lead followed by its 10xxxxxx continuation bytes),
   * and decoding it gives back the code points of the UTF-16 input.
   */
  lemma {:induction false} EncodeWellFormed(u: seq<uint16>)
    ensures WellFormed(Encode(u))
    ensures DecodeUtf8(Encode(u)) == CodePoints(u)
    decreases |u|
  {
    if u != [] {
      var rest := u[LeadUnits(u)..];
      EncodeWellFormed(rest);
      LeadBytesSequence(u);
      ConsSequence(LeadBytes(u), Encode(rest));
    }
  }

  /** A well-formed sequence followed by well-formed bytes is well formed and decodes in order. */
  lemma {:induction false} ConsSequence(lead: seq<uint8>, tail: seq<uint8>)
    requires lead != [] && SequenceLength(lead[0]) == |lead|
    requires forall k :: 1 <= k < |lead| ==> IsContinuation(lead[k])
    requires WellFormed(tail)
    ensures WellFormed(lead + tail)
    ensures DecodeUtf8(lead + tail) == [SequenceValue(lead)] + DecodeUtf8(tail)
  {
    var b := lead + tail;
    assert b[..|lead|] == lead;
    assert b[|lead|..] == tail;
    assert forall k :: 1 <= k < |lead| ==> b[k] == lead[k];
    assert SequenceValue(b) == SequenceValue(lead);
  }

  // ---------------------------------------------------------------------------
  // ASCII case

  /** ToLower(char): 'A'..'Z' become 'a'..'z', every other char is kept. */
  function ToLowerChar(c: char): (r: char)
    ensures 'A' <= c <= 'Z' ==> 'a' <= r <= 'z' && r as int - c as int == 'a' as int - 'A' as int
    ensures !('A' <= c <= 'Z') ==> r == c
  {
    if 'A' <= c <= 'Z' then (c as int + ('a' as int - 'A' as int)) as char else c
  }

  /** ToLower(std::string): same length, each char lower-cased. */
  function ToLower(s: string): (r: string)
    ensures |r| == |s|
    ensures forall i :: 0 <= i < |s| ==> r[i] == ToLowerChar(s[i])
  {
    seq(|s|, i requires 0 <= i < |s| => ToLowerChar(s[i]))
  }

  /** Lower-casing changes only upper-case letters. */
  lemma {:induction false} ToLowerChangesOnlyUpper(s: string)
    ensures forall i :: 0 <= i < |s| && ToLower(s)[i] != s[i] ==> 'A' <= s[i] <= 'Z'
    ensures ToLower(ToLower(s)) == ToLower(s)
  {
  }

  // ---------------------------------------------------------------------------
  // NUL-terminated strings

  /** The char at `i`, reading the end of the sequence as the terminating NUL. */
  function At(s: string, i: nat): char {
    if i < |s| then s[i] else '\0'
  }

  /** The C string a buffer holds: everything before its first NUL. */
  function NulTerminated(s: string): (r: string)
    ensures |r| <= |s| && r == s[..|r|]
    ensures '\0' !in r
    ensures At(s, |r|) == '\0'
  {
    if s == [] || s[0] == '\0' then [] else [s[0]] + NulTerminated(s[1..])
  }

  /** StringEqualNoCase from index `i` on. */
  function EqualNoCaseFrom(a: string, b: string, i: nat): bool
    decreases |a| - i
  {
    if At(a, i) == '\0' then At(b, i) == '\0'
    else if At(b, i) == '\0' then false
    else if ToLowerChar(At(a, i)) == ToLowerChar(At(b, i)) then EqualNoCaseFrom(a, b, i + 1)
    else false
  }

  /** StringEqualNoCase: walk both strings until a NUL or a case-insensitive mismatch. */
  function StringEqualNoCase(a: string, b: string): bool {
    EqualNoCaseFrom(a, b, 0)
  }

  /** The C strings agree case-insensitively from `i` on. */
  predicate SameTail(a: string, b: string, i: nat)
    requires i <= |a| && i <= |b|
  {
    |a| == |b| && ToLower(a[i..]) == ToLower(b[i..])
  }

  lemma {:induction false} EqualNoCaseFromSpec(a: string, b: string, i: nat)
    requires '\0' !in a && '\0' !in b
    requires i <= |a| && i <= |b|
    ensures EqualNoCaseFrom(a, b, i) <==> SameTail(a, b, i)
    decreases |a| - i
  {
    if i < |a| && i < |b| {
      EqualNoCaseFromSpec(a, b, i + 1);
      assert a[i..] == [a[i]] + a[i + 1..];
      assert b[i..] == [b[i]] + b[i + 1..];
      assert ToLower(a[i..])[0] == ToLowerChar(a[i]);
      assert ToLower(b[i..])[0] == ToLowerChar(b[i]);
      assert ToLower(a[i..]) == [ToLowerChar(a[i])] + ToLower(a[i + 1..]);
      assert ToLower(b[i..]) == [ToLowerChar(b[i])] + ToLower(b[i + 1..]);
    } else if i < |a| {
      assert a[i] in a;
    } else if i < |b| {
      assert b[i] in b;
    }
  }

  /**
   * StringEqualNoCase holds iff the two C strings have the same length and
   * are equal after lower-casing.
   */
  lemma {:induction false} StringEqualNoCaseSpec(a: string, b: string)
    ensures StringEqualNoCase(a, b) <==>
      |NulTerminated(a)| == |NulTerminated(b)| && ToLower(NulTerminated(a)) == ToLower(NulTerminated(b))
  {
    var ca := NulTerminated(a);
    var cb := NulTerminated(b);
    EqualNoCaseFromAgrees(a, b, 0);
    EqualNoCaseFromSpec(ca, cb, 0);
    assert ca[0..] == ca && cb[0..] == cb;
  }

  /** Reading a buffer or the C string it holds is the same up to the first NUL. */
  lemma {:induction false} EqualNoCaseFromAgrees(a: string, b: string, i: nat)
    requires i <= |NulTerminated(a)| && i <= |NulTerminated(b)|
    ensures EqualNoCaseFrom(a, b, i) == EqualNoCaseFrom(NulTerminated(a), NulTerminated(b), i)
    decreases |a| - i
  {
    var ca := NulTerminated(a);
    var cb := NulTerminated(b);
    assert At(a, i) == At(ca, i) by {
      if i < |ca| { assert ca[i] == a[i]; }
    }
    assert At(b, i) == At(cb, i) by {
      if i < |cb| { assert cb[i] == b[i]; }
    }
    if i < |ca| && i < |cb| {
      EqualNoCaseFromAgrees(a, b, i + 1);
    }
  }

  /** StringEqualNoCaseN from index `i` on. */
  function EqualNoCaseNFrom(a: string, b: string, length: nat, i: nat): bool
    decreases length - i
  {
    if i >= length then true
    else if ToLowerChar(At(a, i)) != ToLowerChar(At(b, i)) then false
    else if At(a, i) == '\0' then true
    else EqualNoCaseNFrom(a, b, length, i + 1)
  }

  /**
   * StringEqualNoCaseN: compare at most `length` chars case-insensitively,
   * stopping early (with true) when both strings end at the same index.
   */
  function StringEqualNoCaseN(a: string, b: string, length: nat): bool {
    EqualNoCaseNFrom(a, b, length, 0)
  }

  lemma {:induction false} EqualNoCaseNFromSpec(a: string, b: string, length: nat, i: nat)
    requires '\0' !in a && '\0' !in b && i <= |a|
    requires forall j :: 0 <= j < i && j < length ==> ToLowerChar(At(a, j)) == ToLowerChar(At(b, j))
    ensures EqualNoCaseNFrom(a, b, length, i) <==>
      forall j :: 0 <= j < length && j <= |a| ==> ToLowerChar(At(a, j)) == ToLowerChar(At(b, j))
    decreases length - i
  {
    if i < length && ToLowerChar(At(a, i)) == ToLowerChar(At(b, i)) && i < |a| {
      assert At(a, i) == a[i];
      assert a[i] in a;
      EqualNoCaseNFromSpec(a, b, length, i + 1);
    }
  }

  /**
   * StringEqualNoCaseN holds iff the two C strings agree case-insensitively
   * on every index below `length` up to and including the first one's NUL.
   */
  lemma {:induction false} StringEqualNoCaseNSpec(a: string, b: string, length: nat)
    requires '\0' !in a && '\0' !in b
    ensures StringEqualNoCaseN(a, b, length) <==>
      forall j :: 0 <= j < length && j <= |a| ==> ToLowerChar(At(a, j)) == ToLowerChar(At(b, j))
  {
    EqualNoCaseNFromSpec(a, b, length, 0);
  }

  /**
   * Comparing with the length of `name` is a case-insensitive prefix test:
   * `key` starts with `name`, ignoring case.
   */
  lemma {:induction false} EqualNoCaseNIsPrefixTest(key: string, name: string)
    requires '\0' !in key && '\0' !in name
    ensures StringEqualNoCaseN(key, name, |name|) <==>
      |name| <= |key| && ToLower(key[..|name|]) == ToLower(name)
  {
    StringEqualNoCaseNSpec(key, name, |name|);
    if |key| < |name| {
      var j := |key|;
      assert name[j] in name;
      assert ToLowerChar(At(key, j)) != ToLowerChar(At(name, j));
    } else if StringEqualNoCaseN(key, name, |name|) {
      forall j | 0 <= j < |name|
        ensures ToLower(key[..|name|])[j] == ToLower(name)[j]
      {
        assert ToLowerChar(At(key, j)) == ToLowerChar(At(name, j));
      }
    } else {
      var j :| 0 <= j < |name| && j <= |key| && ToLowerChar(At(key, j)) != ToLowerChar(At(name, j));
      assert ToLower(key[..|name|])[j] != ToLower(name)[j];
    }
  }

  // ---------------------------------------------------------------------------
  // Base64 (section 4 of RFC 4648)

  /**
   * The base64 alphabet "A".."Z", "a".."z", "0".."9", "+", "/": the
   * character for a 6-bit value.
   */
  function Sextet(v: nat): (c: char)
    requires v < 64
    ensures c != '='
  {
    if v < 26 then ('A' as int + v) as char
    else if v < 52 then ('a' as int + (v - 26)) as char
    else if v < 62 then ('0' as int + (v - 52)) as char
    else if v == 62 then '+'
    else '/'
  }

  predicate IsBase64Char(c: char) {
    'A' <= c <= 'Z' || 'a' <= c <= 'z' || '0' <= c <= '9' || c == '+' || c == '/'
  }

  lemma {:induction false} SextetInAlphabet(v: nat)
    requires v < 64
    ensures IsBase64Char(Sextet(v))
  {
  }

  /** base64_encoded_size: four characters per started 3-byte group. */
  function EncodedSize(n: nat): nat {
    4 * ((n + 2) / 3)
  }

  /** Four characters for a full 3-byte group. */
  function EncodeGroup(a: uint8, b: uint8, c: uint8): string {
    [Sextet(a / 4), Sextet((a % 4) * 16 + b / 16), Sextet((b % 16) * 4 + c / 64), Sextet(c % 64)]
  }

  /** The padded last group of a 1- or 2-byte tail. */
  function EncodeTail(t: seq<uint8>): string
    requires 1 <= |t| <= 2
  {
    if |t| == 1 then [Sextet(t[0] / 4), Sextet((t[0] % 4) * 16), '=', '=']
    else [Sextet(t[0] / 4), Sextet((t[0] % 4) * 16 + t[1] / 16), Sextet((t[1] % 16) * 4), '=']
  }

  /** The characters base64_encode writes into `dst`. */
  function Base64Text(src: seq<uint8>): (r: string)
    ensures |r| == EncodedSize(|src|)
    decreases |src|
  {
    if |src| >= 3 then EncodeGroup(src[0], src[1], src[2]) + Base64Text(src[3..])
    else if |src| == 0 then []
    else EncodeTail(src)
  }

  /**
   * base64_encode: writes the text into `dst` and returns
   * base64_encoded_size(slen). The source casts `slen` to int, so only
   * lengths that fit in an int are modelled.
   */
  function Base64Encode(src: seq<uint8>): (r: (string, nat))
    requires |src| <= INT32_MAX
    ensures r.1 == |r.0| == 4 * ((|src| + 2) / 3)
    ensures PaddedText(r.0, PadCount(|src|))
  {
    Base64Shape(src);
    (Base64Text(src), EncodedSize(|src|))
  }

  /** '=' characters that pad the last group: two after one byte, one after two. */
  function PadCount(n: nat): nat {
    (3 - n % 3) % 3
  }

  /** Alphabet characters throughout, then exactly `pad` '=' characters. */
  predicate PaddedText(t: string, pad: nat) {
    forall i :: 0 <= i < |t| ==> (t[i] == '=' <==> i >= |t| - pad) && (t[i] != '=' ==> IsBase64Char(t[i]))
  }

  lemma {:induction false} Base64Shape(src: seq<uint8>)
    ensures PaddedText(Base64Text(src), PadCount(|src|))
    decreases |src|
  {
    if |src| >= 3 {
      var g := EncodeGroup(src[0], src[1], src[2]);
      Base64Shape(src[3..]);
      GroupShape(src[0], src[1], src[2]);
      assert PadCount(|src| - 3) == PadCount(|src|);
      PaddedAfterGroup(g, Base64Text(src[3..]), PadCount(|src|));
    } else if |src| > 0 {
      TailShape(src);
    }
  }

  /** A full group is four alphabet characters. */
  lemma {:induction false} GroupShape(a: uint8, b: uint8, c: uint8)
    ensures PaddedText(EncodeGroup(a, b, c), 0)
  {
    SextetInAlphabet(a / 4);
    SextetInAlphabet((a % 4) * 16 + b / 16);
    SextetInAlphabet((b % 16) * 4 + c / 64);
    SextetInAlphabet(c % 64);
  }

  /** The last group of a tail is alphabet characters, then one '=' per missing byte. */
  lemma {:induction false} TailShape(t: seq<uint8>)
    requires 1 <= |t| <= 2
    ensures PaddedText(EncodeTail(t), PadCount(|t|))
  {
    var a: uint8 := t[0];
    var s0, s1 := Sextet(a / 4), Sextet((a % 4) * 16 + (if |t| == 2 then t[1] / 16 else 0));
    SextetInAlphabet(a / 4);
    SextetInAlphabet((a % 4) * 16 + (if |t| == 2 then t[1] / 16 else 0));
    if |t| == 1 {
      assert EncodeTail(t) == [s0, s1, '=', '='];
    } else {
      var s2 := Sextet((t[1] % 16) * 4);
      SextetInAlphabet((t[1] % 16) * 4);
      assert EncodeTail(t) == [s0, s1, s2, '='];
    }
  }

  /** Unpadded text followed by padded text is padded the same way. */
  lemma {:induction false} PaddedAfterGroup(g: string, rest: string, pad: nat)
    requires PaddedText(g, 0) && PaddedText(rest, pad) && pad <= |rest|
    ensures PaddedText(g + rest, pad)
  {
    var t := g + rest;
    forall i | 0 <= i < |t|
      ensures (t[i] == '=' <==> i >= |t| - pad) && (t[i] != '=' ==> IsBase64Char(t[i]))
    {
      if i >= |g| {
        assert t[i] == rest[i - |g|];
      } else {
        assert t[i] == g[i];
      }
    }
  }

  /** The value of a character of the alphabet. */
  function SextetValue(c: char): nat {
    if 'A' <= c <= 'Z' then c as int - 'A' as int
    else if 'a' <= c <= 'z' then c as int - 'a' as int + 26
    else if '0' <= c <= '9' then c as int - '0' as int + 52
    else if c == '+' then 62
    else 63
  }

  lemma {:induction false} SextetRoundTrip(v: nat)
    requires v < 64
    ensures SextetValue(Sextet(v)) == v
  {
  }

  /** Three bytes reassembled from four 6-bit values. */
  function Combine(c0: nat, c1: nat, c2: nat, c3: nat): (r: seq<uint8>)
    ensures |r| == 3
  {
    [(c0 * 4 + c1 / 16) % 256, ((c1 % 16) * 16 + c2 / 4) % 256, ((c2 % 4) * 64 + c3) % 256]
  }

  /** The three bytes four characters of the alphabet stand for. */
  function QuadBytes(q: string): (r: seq<uint8>)
    requires |q| == 4
    ensures |r| == 3
  {
    Combine(SextetValue(q[0]) % 64, SextetValue(q[1]) % 64, SextetValue(q[2]) % 64, SextetValue(q[3]) % 64)
  }

  /** A base64 decoder for padded text, the inverse of section 4 of RFC 4648. */
  function Base64Decode(t: string): seq<uint8>
    requires |t| % 4 == 0
    decreases |t|
  {
    if t == [] then []
    else
      var x := QuadBytes(t[..4]);
      if |t| == 4 && t[2] == '=' then x[..1]
      else if |t| == 4 && t[3] == '=' then x[..2]
      else x + Base64Decode(t[4..])
  }

  /** The bit shuffling of one group, undone. */
  lemma {:induction false} GroupArithmetic(a: uint8, b: uint8, c: uint8)
    ensures Combine(a / 4, (a % 4) * 16 + b / 16, (b % 16) * 4 + c / 64, c % 64) == [a, b, c]
  {
    var a1, a0, b1, b0, c1, c0 := a / 4, a % 4, b / 16, b % 16, c / 64, c % 64;
    assert a == 4 * a1 + a0 && b == 16 * b1 + b0 && c == 64 * c1 + c0;
    var s1, s2 := a0 * 16 + b1, b0 * 4 + c1;
    assert s1 / 16 == a0 && s1 % 16 == b1;
    assert s2 / 4 == b0 && s2 % 4 == c1;
    var r := Combine(a1, s1, s2, c0);
    assert r[0] == a && r[1] == b && r[2] == c;
  }

  lemma {:induction false} QuadOfGroup(a: uint8, b: uint8, c: uint8)
    ensures QuadBytes(EncodeGroup(a, b, c)) == [a, b, c]
  {
    var q := EncodeGroup(a, b, c);
    var c0, c1, c2, c3 := a / 4, (a % 4) * 16 + b / 16, (b % 16) * 4 + c / 64, c % 64;
    SextetRoundTrip(c0);
    SextetRoundTrip(c1);
    SextetRoundTrip(c2);
    SextetRoundTrip(c3);
    assert SextetValue(q[0]) % 64 == c0;
    assert SextetValue(q[1]) % 64 == c1;
    assert SextetValue(q[2]) % 64 == c2;
    assert SextetValue(q[3]) % 64 == c3;
    GroupArithmetic(a, b, c);
  }

  /** A full group decodes back to its three bytes. */
  lemma {:induction false} DecodeGroup(a: uint8, b: uint8, c: uint8, rest: string)
    requires |rest| % 4 == 0
    ensures Base64Decode(EncodeGroup(a, b, c) + rest) == [a, b, c] + Base64Decode(rest)
  {
    var g := EncodeGroup(a, b, c);
    var t := g + rest;
    QuadOfGroup(a, b, c);
    assert t[..4] == g;
    assert t[2] != '=' && t[3] != '=';
    assert t[4..] == rest;
  }

  /** Decoding what base64_encode wrote gives back the source bytes. */
  lemma {:induction false} Base64RoundTrip(src: seq<uint8>)
    ensures Base64Decode(Base64Text(src)) == src
    decreases |src|
  {
    if |src| >= 3 {
      var rest := Base64Text(src[3..]);
      var groups := (|src| - 1) / 3;
      assert |rest| == 4 * groups;
      assert |rest| % 4 == 0;
      assert Base64Text(src) == EncodeGroup(src[0], src[1], src[2]) + rest;
      Base64RoundTrip(src[3..]);
      DecodeGroup(src[0], src[1], src[2], rest);
      assert src == [src[0], src[1], src[2]] + src[3..];
    } else if |src| > 0 {
      assert Base64Text(src) == EncodeTail(src);
      TailRoundTrip(src);
    }
  }

  lemma {:induction false} TailRoundTrip(t: seq<uint8>)
    requires 1 <= |t| <= 2
    ensures Base64Decode(EncodeTail(t)) == t
  {
    var e := EncodeTail(t);
    assert e[..4] == e;
    if |t| == 2 {
      TwoByteTail(t[0], t[1]);
      assert QuadBytes(e)[..2] == [t[0], t[1]] == t;
    } else {
      OneByteTail(t[0]);
      assert QuadBytes(e)[..1] == [t[0]] == t;
    }
  }

  /** The group written for a one-byte tail starts with that byte. */
  lemma {:induction false} OneByteTail(a: uint8)
    ensures QuadBytes(EncodeTail([a]))[0] == a
  {
    var e := EncodeTail([a]);
    var c0, c1 := a / 4, (a % 4) * 16;
    SextetRoundTrip(c0);
    SextetRoundTrip(c1);
    assert e[0] == Sextet(c0) && e[1] == Sextet(c1);
    QuadPrefix(e, c0, c1, 0);
    GroupArithmetic(a, 0, 0);
  }

  /** The group written for a two-byte tail starts with those two bytes. */
  lemma {:induction false} TwoByteTail(a: uint8, b: uint8)
    ensures QuadBytes(EncodeTail([a, b]))[..2] == [a, b]
  {
    var e := EncodeTail([a, b]);
    var c0, c1, c2 := a / 4, (a % 4) * 16 + b / 16, (b % 16) * 4;
    SextetRoundTrip(c0);
    SextetRoundTrip(c1);
    SextetRoundTrip(c2);
    assert e[0] == Sextet(c0) && e[1] == Sextet(c1) && e[2] == Sextet(c2);
    QuadPrefix(e, c0, c1, c2);
    GroupArithmetic(a, b, 0);
  }

  /**
   * The first two bytes of a group depend on the values of its first three
   * characters only, the first byte on the first two.
   */
  lemma {:induction false} QuadPrefix(q: string, v0: nat, v1: nat, v2: nat)
    requires |q| == 4 && SextetValue(q[0]) == v0 && SextetValue(q[1]) == v1 && v0 < 64 && v1 < 64
    ensures QuadBytes(q)[0] == Combine(v0, v1, v2, 0)[0]
    ensures SextetValue(q[2]) == v2 < 64 ==> QuadBytes(q)[..2] == Combine(v0, v1, v2, 0)[..2]
  {
    QuadBytesOfValues(q);
    CombineLeadingBytes(v0, v1, SextetValue(q[2]), SextetValue(q[3]), v2);
  }

  /** Every character stands for a value below 64. */
  lemma {:induction false} SextetValueBound(c: char)
    ensures SextetValue(c) < 64
  {
  }

  /** A group's bytes combine its characters' values. */
  lemma {:induction false} QuadBytesOfValues(q: string)
    requires |q| == 4
    ensures QuadBytes(q) == Combine(SextetValue(q[0]), SextetValue(q[1]), SextetValue(q[2]), SextetValue(q[3]))
  {
    SextetValueBound(q[0]);
    SextetValueBound(q[1]);
    SextetValueBound(q[2]);
    SextetValueBound(q[3]);
    ModSmall(SextetValue(q[0]));
    ModSmall(SextetValue(q[1]));
    ModSmall(SextetValue(q[2]));
    ModSmall(SextetValue(q[3]));
  }

  lemma {:induction false} ModSmall(v: nat)
    requires v < 64
    ensures v % 64 == v
  {
  }

  /** Combine's first byte ignores the last two values, and its first two bytes the last one. */
  lemma {:induction false} CombineLeadingBytes(c0: nat, c1: nat, c2: nat, c3: nat, d2: nat)
    ensures Combine(c0, c1, c2, c3)[0] == Combine(c0, c1, d2, 0)[0]
    ensures c2 == d2 ==> Combine(c0, c1, c2, c3)[..2] == Combine(c0, c1, d2, 0)[..2]
  {
    var x, y := Combine(c0, c1, c2, c3), Combine(c0, c1, d2, 0);
    assert x[..2] == [x[0], x[1]] && y[..2] == [y[0], y[1]];
  }
}

=== FILE: murmur_hash.dfy ===
/**
 * MurmurHash3, x64 128-bit variant, as src/MurmurHash.cpp computes it,
 * together with the ASCII detection folded into its block and tail loops.
 * Words are `bv64`, so additions and multiplications wrap modulo 2^64 as
 * `uint64_t` does; 8-byte blocks are read little-endian.
 */
module Murmur {
  import opened Wrappers

  const C1: bv64 := 0x87c37b91114253d5
  const C2: bv64 := 0x4cf5ad432745937f
  const FMIX1: bv64 := 0xff51afd7ed558ccd
  const FMIX2: bv64 := 0xc4ceb9fe1a85ec53

  /** The seed murmurhash passes. */
  const MURMUR_SEED: uint32 := 31

  /** rotl64: the bits shifted out on the left come back in on the right. */
  function Rotl64(x: bv64, r: bv7): bv64
    requires 0 < r < 64
  {
    (x << r) | (x >> (64 - r))
  }

  /** The three rotation amounts the hash uses agree with a true rotation. */
  lemma {:induction false} Rotl64IsRotation(x: bv64)
    ensures Rotl64(x, 27) == x.RotateLeft(27)
    ensures Rotl64(x, 31) == x.RotateLeft(31)
    ensures Rotl64(x, 33) == x.RotateLeft(33)
  {
  }

  /** Rotating by 31 and then 33 goes once round the word. */
  lemma {:induction false} Rotl64Complement(x: bv64)
    ensures Rotl64(Rotl64(x, 31), 33) == x
    ensures Rotl64(Rotl64(x, 33), 31) == x
  {
  }

  /** fmix64: the finalisation avalanche. */
  function FMix64(k: bv64): bv64 {
    var k1 := k ^ (k >> 33);
    var k2 := k1 * FMIX1;
    var k3 := k2 ^ (k2 >> 33);
    var k4 := k3 * FMIX2;
    k4 ^ (k4 >> 33)
  }

  /** isAscii: no byte of the word has its top bit set. */
  predicate IsAscii(k: bv64) {
    k & 0x8080808080808080 == 0
  }

  predicate IsAsciiByte(b: bv8) {
    b <= 127
  }

  /** The 64-bit word stored little-endian at `data[at..at + 8]`. */
  function Load64(data: seq<bv8>, at: nat): bv64
    requires at + 8 <= |data|
  {
    Word64(data[at], data[at + 1], data[at + 2], data[at + 3], data[at + 4], data[at + 5], data[at + 6], data[at + 7])
  }

  /** Eight bytes, least significant first, as one word. */
  function Word64(b0: bv8, b1: bv8, b2: bv8, b3: bv8, b4: bv8, b5: bv8, b6: bv8, b7: bv8): bv64 {
    (b0 as bv64) | ((b1 as bv64) << 8) | ((b2 as bv64) << 16) | ((b3 as bv64) << 24)
    | ((b4 as bv64) << 32) | ((b5 as bv64) << 40) | ((b6 as bv64) << 48) | ((b7 as bv64) << 56)
  }

  /** A word tests ASCII exactly when each of its eight bytes does. */
  lemma {:induction false} IsAsciiLoad64(data: seq<bv8>, at: nat)
    requires at + 8 <= |data|
    ensures IsAscii(Load64(data, at)) <==> forall i :: at <= i < at + 8 ==> IsAsciiByte(data[i])
  {
    var b0, b1, b2, b3 := data[at], data[at + 1], data[at + 2], data[at + 3];
    var b4, b5, b6, b7 := data[at + 4], data[at + 5], data[at + 6], data[at + 7];
    assert IsAscii(Load64(data, at)) <==>
      b0 <= 127 && b1 <= 127 && b2 <= 127 && b3 <= 127 && b4 <= 127 && b5 <= 127 && b6 <= 127 && b7 <= 127;
  }

  /** The two hash lanes h1 and h2. */
  datatype Lanes = Lanes(h1: bv64, h2: bv64)

  function MixK1(k1: bv64): bv64 {
    Rotl64(k1 * C1, 31) * C2
  }

  function MixK2(k2: bv64): bv64 {
    Rotl64(k2 * C2, 33) * C1
  }

  /** One iteration of the body loop on the block words k1 and k2. */
  function BlockStep(h: Lanes, k1: bv64, k2: bv64): (r: Lanes)
  {
    var h1 := (Rotl64(h.h1 ^ MixK1(k1), 27) + h.h2) * 5 + 0x52dce729;
    var h2 := (Rotl64(h.h2 ^ MixK2(k2), 31) + h1) * 5 + 0x38495ab5;
    Lanes(h1, h2)
  }

  /**
   * The body loop from block `i` on: mix blocks `i` to `nblocks - 1`. The
   * loop also ANDs each block's ASCII test into a flag; the flag and the
   * lanes never feed into each other, so that half is BlocksAscii.
   */
  function Body(data: seq<bv8>, nblocks: nat, i: nat, h: Lanes): Lanes
    requires i <= nblocks && 16 * nblocks <= |data|
    decreases nblocks - i
  {
    if i == nblocks then h
    else Body(data, nblocks, i + 1, BlockStep(h, Load64(data, 16 * i), Load64(data, 16 * i + 8)))
  }

  /** The body loop's flag: `ascii` ANDed with the test of both words of blocks `i` to `nblocks - 1`. */
  function BlocksAscii(data: seq<bv8>, nblocks: nat, i: nat, ascii: bool): bool
    requires i <= nblocks && 16 * nblocks <= |data|
    decreases nblocks - i
  {
    if i == nblocks then ascii
    else BlocksAscii(data, nblocks, i + 1, ascii && IsAscii(Load64(data, 16 * i)) && IsAscii(Load64(data, 16 * i + 8)))
  }

  /**
   * The tail loop: the first tail byte above 127 clears the flag and stops
   * the scan.
   */
  function TailAscii(tail: seq<bv8>, i: nat, ascii: bool): bool
    requires i <= |tail|
    decreases |tail| - i
  {
    if i == |tail| then ascii
    else if tail[i] > 127 then false
    else TailAscii(tail, i + 1, ascii)
  }

  /** The byte at `i` of the tail, or 0 when the case for it is not reached. */
  function TailByte(tail: seq<bv8>, i: nat): bv64 {
    if i < |tail| then tail[i] as bv64 else 0
  }

  /** The k1 half of the switch: cases 8 down to 1 fall through into each other. */
  function TailK1(tail: seq<bv8>): bv64 {
    (TailByte(tail, 7) << 56) ^ (TailByte(tail, 6) << 48) ^ (TailByte(tail, 5) << 40)
    ^ (TailByte(tail, 4) << 32) ^ (TailByte(tail, 3) << 24) ^ (TailByte(tail, 2) << 16)
    ^ (TailByte(tail, 1) << 8) ^ TailByte(tail, 0)
  }

  /** The k2 half of the switch: cases 15 down to 9. */
  function TailK2(tail: seq<bv8>): bv64 {
    (TailByte(tail, 14) << 48) ^ (TailByte(tail, 13) << 40) ^ (TailByte(tail, 12) << 32)
    ^ (TailByte(tail, 11) << 24) ^ (TailByte(tail, 10) << 16) ^ (TailByte(tail, 9) << 8)
    ^ TailByte(tail, 8)
  }

  /** The switch on len & 15: k2 is mixed in when more than 8 bytes remain, k1 when any do. */
  function TailStep(h: Lanes, tail: seq<bv8>): Lanes
    requires |tail| < 16
  {
    var h2 := if |tail| > 8 then h.h2 ^ MixK2(TailK2(tail)) else h.h2;
    var h1 := if |tail| > 0 then h.h1 ^ MixK1(TailK1(tail)) else h.h1;
    Lanes(h1, h2)
  }

  /** The tail padded with zero bytes to a whole block. */
  function ZeroPad(tail: seq<bv8>): (r: seq<bv8>)
    requires |tail| < 16
    ensures |r| == 16
    ensures forall i :: 0 <= i < 16 ==> r[i] == (if i < |tail| then tail[i] else 0)
  {
    tail + seq(16 - |tail|, _ => 0)
  }

  /** The tail words are the two words of the zero-padded tail, as a block would give them. */
  lemma {:induction false} TailIsZeroPaddedBlock(tail: seq<bv8>)
    requires |tail| < 16
    ensures TailK1(tail) == Load64(ZeroPad(tail), 0)
    ensures TailK2(tail) == Load64(ZeroPad(tail), 8)
  {
    var p := ZeroPad(tail);
    assert forall i :: 0 <= i < 16 ==> TailByte(tail, i) == p[i] as bv64;
  }

  /** Finalisation: length into both lanes, cross-add, fmix64 each, cross-add again. */
  function FinalizeHash(h: Lanes, len: bv64): (r: Lanes)
  {
    var h1 := h.h1 ^ len;
    var h2 := h.h2 ^ len;
    var h1a := h1 + h2;
    var h2a := h2 + h1a;
    var f1 := FMix64(h1a);
    var f2 := FMix64(h2a);
    var g1 := f1 + f2;
    Lanes(g1, f2 + g1)
  }

  /**
   * MurmurHash3_x64_128: the 128-bit hash as two lanes. The length travels
   * as an `int`.
   */
  function MurmurHash3X64_128(key: seq<bv8>, seed: uint32): Lanes
    requires |key| <= INT32_MAX
  {
    var nblocks := |key| / 16;
    var body := Body(key, nblocks, 0, Lanes(seed as bv64, seed as bv64));
    FinalizeHash(TailStep(body, key[16 * nblocks..]), |key| as bv64)
  }

  /** The flag MurmurHash3_x64_128 returns: the body loop's, then the tail loop's. */
  function KeyAscii(key: seq<bv8>): bool
  {
    var nblocks := |key| / 16;
    TailAscii(key[16 * nblocks..], 0, BlocksAscii(key, nblocks, 0, true))
  }

  /** murmurhash: seed 31, the first lane as the hash, and the ASCII flag. */
  function MurmurHash(key: seq<bv8>): (r: (bv64, bool))
    requires |key| <= INT32_MAX
    ensures r.0 == MurmurHash3X64_128(key, MURMUR_SEED).h1
    ensures r.1 <==> forall i :: 0 <= i < |key| ==> IsAsciiByte(key[i])
  {
    MurmurHashAscii(key);
    (MurmurHash3X64_128(key, MURMUR_SEED).h1, KeyAscii(key))
  }

  // ---------------------------------------------------------------------------
  // The ASCII flag

  predicate AllAscii(data: seq<bv8>, lo: nat, hi: nat)
    requires lo <= hi <= |data|
  {
    forall i :: lo <= i < hi ==> IsAsciiByte(data[i])
  }

  lemma {:induction false} BodyAscii(data: seq<bv8>, nblocks: nat, i: nat, ascii: bool)
    requires i <= nblocks && 16 * nblocks <= |data|
    ensures BlocksAscii(data, nblocks, i, ascii) <==> ascii && AllAscii(data, 16 * i, 16 * nblocks)
    decreases nblocks - i
  {
    if i < nblocks {
      IsAsciiLoad64(data, 16 * i);
      IsAsciiLoad64(data, 16 * i + 8);
      BodyAscii(data, nblocks, i + 1, ascii && IsAscii(Load64(data, 16 * i)) && IsAscii(Load64(data, 16 * i + 8)));
    }
  }

  lemma {:induction false} TailAsciiSpec(tail: seq<bv8>, i: nat, ascii: bool)
    requires i <= |tail|
    ensures TailAscii(tail, i, ascii) <==> ascii && AllAscii(tail, i, |tail|)
    decreases |tail| - i
  {
    if i < |tail| && tail[i] <= 127 {
      TailAsciiSpec(tail, i + 1, ascii);
    }
  }

  /** The flag MurmurHash3_x64_128 returns holds iff every byte of the key is at most 127. */
  lemma {:induction false} MurmurHashAscii(key: seq<bv8>)
    ensures KeyAscii(key) <==> forall i :: 0 <= i < |key| ==> IsAsciiByte(key[i])
  {
    var nblocks := |key| / 16;
    var tail := key[16 * nblocks..];
    BodyAscii(key, nblocks, 0, true);
    TailAsciiSpec(tail, 0, BlocksAscii(key, nblocks, 0, true));
    assert forall i :: 16 * nblocks <= i < |key| ==> key[i] == tail[i - 16 * nblocks];
  }

  lemma {:induction false} Load64OfPrefix(data: seq<bv8>, extra: seq<bv8>, at: nat)
    requires at + 8 <= |data|
    ensures Load64(data + extra, at) == Load64(data, at)
  {
    var d := data + extra;
    assert d[at] == data[at] && d[at + 1] == data[at + 1] && d[at + 2] == data[at + 2] && d[at + 3] == data[at + 3];
    assert d[at + 4] == data[at + 4] && d[at + 5] == data[at + 5] && d[at + 6] == data[at + 6] && d[at + 7] == data[at + 7];
  }

  /** Bytes after the last whole block reach the hash only through the tail step. */
  lemma {:induction false} BodyReadsWholeBlocks(data: seq<bv8>, extra: seq<bv8>, nblocks: nat, i: nat, h: Lanes)
    requires i <= nblocks && 16 * nblocks <= |data|
    ensures Body(data + extra, nblocks, i, h) == Body(data, nblocks, i, h)
    decreases nblocks - i
  {
    if i < nblocks {
      Load64OfPrefix(data, extra, 16 * i);
      Load64OfPrefix(data, extra, 16 * i + 8);
      BodyReadsWholeBlocks(data, extra, nblocks, i + 1, BlockStep(h, Load64(data, 16 * i), Load64(data, 16 * i + 8)));
    }
  }
}

=== FILE: napi_jsi_runtime.dfy ===
/**
 * Pieces of the JSI runtime over Node-API (src/public/NapiJsiRuntime.cpp):
 * the move-only NapiRefHolder that owns one reference count of a napi_ext_ref,
 * the choice between a JSError and a native exception when a Node-API call
 * fails, and the rewrite of the stack-overflow message. The AutoRestore
 * guard is NodeApiRuntime's and the own-keys trap is OwnKeys'.
 */
module NapiJsiRuntime {
  import opened Wrappers
  import BigIntText

  // ---------------------------------------------------------------------
  // NapiRefHolder
  // ---------------------------------------------------------------------

  /** A holder: its runtime and the reference it owns, each possibly null. */
  datatype Holder = Holder(runtime: Option<nat>, ref: Option<nat>)

  const EmptyHolder := Holder(None, None)

  /** The destructor: the reference, when not null, is released once (after the field is cleared). */
  function DestroyHolder(h: Holder): (released: seq<nat>)
    ensures |released| <= 1
    ensures released != [] <==> h.ref.Some?
    ensures released != [] ==> released[0] == h.ref.value
  {
    if h.ref.Some? then [h.ref.value] else []
  }

  /** The move constructor: the new holder takes both fields, the source is left with nulls. */
  function MoveHolder(other: Holder): (r: (Holder, Holder))
    ensures r.0 == other && r.1 == EmptyHolder
  {
    (Holder(other.runtime, other.ref), EmptyHolder)
  }

  /** After a move assignment: the target, the source and what the temporary released. */
  datatype HolderAssigned = HolderAssigned(target: Holder, source: Holder, released: seq<nat>)

  /**
   * The move assignment: unless the target is the source, the target's
   * contents move into a temporary, the emptied target swaps fields with
   * the source, and the temporary's destructor releases the old reference.
   */
  function MoveAssignHolder(target: Holder, source: Holder, sameObject: bool): (r: HolderAssigned)
    requires sameObject ==> target == source
  {
    if sameObject then HolderAssigned(target, source, [])
    else
      var (temp, emptied) := MoveHolder(target);
      HolderAssigned(Holder(source.runtime, source.ref), Holder(emptied.runtime, emptied.ref), DestroyHolder(temp))
  }

  /**
   * A move-assigned holder takes over the other's reference and leaves it
   * null, the reference it held before is released exactly once, and
   * across the two destructors every reference is released once: none is
   * leaked or released twice.
   */
  lemma {:induction false} MoveAssignReleasesOld(target: Holder, source: Holder)
    ensures var a := MoveAssignHolder(target, source, false);
      && a.target == source && a.source == EmptyHolder
      && a.released == DestroyHolder(target)
      && multiset(a.released + DestroyHolder(a.target) + DestroyHolder(a.source))
        == multiset(DestroyHolder(target) + DestroyHolder(source))
  {
    var a := MoveAssignHolder(target, source, false);
    assert DestroyHolder(a.source) == [];
    assert a.released + DestroyHolder(a.target) + DestroyHolder(a.source) == DestroyHolder(target) + DestroyHolder(source);
  }

  /**
   * CloneRef: a non-null reference gains a count and is returned; a null
   * one is returned as it is. `counts` are the references' counts.
   */
  function CloneRef(h: Holder, counts: map<nat, nat>): (r: (Option<nat>, map<nat, nat>))
    requires h.ref.Some? ==> h.ref.value in counts
    ensures r.0 == h.ref
    ensures h.ref.None? ==> r.1 == counts
    ensures h.ref.Some? ==> r.1 == counts[h.ref.value := counts[h.ref.value] + 1]
  {
    if h.ref.Some? then (h.ref, counts[h.ref.value := counts[h.ref.value] + 1]) else (h.ref, counts)
  }

  /** Releasing references: each loses one count. */
  function ReleaseAll(counts: map<nat, nat>, released: seq<nat>): (r: map<nat, nat>)
    requires forall i :: 0 <= i < |released| ==> released[i] in counts
    ensures r.Keys == counts.Keys
    decreases |released|
  {
    if released == [] then counts
    else
      var ref := released[|released| - 1];
      var before := ReleaseAll(counts, released[..|released| - 1]);
      before[ref := if before[ref] == 0 then 0 else before[ref] - 1]
  }

  /** A clone handed to a new holder and destroyed with it leaves every count as it was. */
  lemma {:induction false} CloneThenReleaseBalanced(h: Holder, counts: map<nat, nat>)
    requires h.ref.Some? ==> h.ref.value in counts
    ensures var (cloned, after) := CloneRef(h, counts);
      var released := DestroyHolder(Holder(h.runtime, cloned));
      (forall i :: 0 <= i < |released| ==> released[i] in after)
      && ReleaseAll(after, released) == counts
  {
    var (cloned, after) := CloneRef(h, counts);
    var released := DestroyHolder(Holder(h.runtime, cloned));
    if h.ref.Some? {
      assert released[..0] == [];
      assert ReleaseAll(after, released) == after[h.ref.value := counts[h.ref.value]];
    }
  }

  // ---------------------------------------------------------------------
  // ThrowJsException and RewriteErrorMessage
  // ---------------------------------------------------------------------

  /** The numeric value of napi_pending_exception in Node-API's napi_status. */
  const PENDING_EXCEPTION_CODE := 10

  /** What reading the error's `message` property gives: the getter threw, a non-string, or a string. */
  datatype MessageRead = GetterThrew | NonStringMessage | StringMessage(text: string)

  /** What RewriteErrorMessage does: clear the getter's exception, set a new message, or nothing. */
  datatype Rewrite = ClearException | SetMessage(text: string) | KeepMessage

  const STACK_OVERFLOW_MESSAGE := "Out of stack space"
  const RANGE_ERROR_MESSAGE := "RangeError : Maximum call stack size exceeded"

  /**
   * RewriteErrorMessage: an exception from the getter is cleared and
   * ignored; the exact message "Out of stack space" becomes the V8-style
   * stack-overflow message; anything else is left alone.
   */
  function RewriteErrorMessage(m: MessageRead): (r: Rewrite)
    ensures m.GetterThrew? <==> r.ClearException?
    ensures r.SetMessage? <==> m == StringMessage(STACK_OVERFLOW_MESSAGE)
    ensures r.SetMessage? ==> r.text == RANGE_ERROR_MESSAGE
  {
    match m
    case GetterThrew => ClearException
    case NonStringMessage => KeepMessage
    case StringMessage(text) => if text == STACK_OVERFLOW_MESSAGE then SetMessage(RANGE_ERROR_MESSAGE) else KeepMessage
  }

  /** The message the error carries after the rewrite. */
  function MessageAfter(m: MessageRead, r: Rewrite): MessageRead {
    if r.SetMessage? then StringMessage(r.text) else m
  }

  /** Rewriting twice changes nothing more: the new message is not rewritten again. */
  lemma {:induction false} RewriteIdempotent(m: MessageRead)
    ensures var once := MessageAfter(m, RewriteErrorMessage(m));
      !RewriteErrorMessage(once).SetMessage?
  {
    assert |RANGE_ERROR_MESSAGE| != |STACK_OVERFLOW_MESSAGE|;
  }

  /** The C++ exception ThrowJsException throws. */
  datatype Thrown =
    | JSError(error: nat, rewrite: Rewrite)
    | NativeException(what: string)

  /** The exception and the runtime's pending-JS-error flag, as set while rewriting and after the throw. */
  datatype Throw = Throw(thrown: Thrown, flagWhileRewriting: Option<bool>, flagAfter: bool)

  const NATIVE_PREFIX := "A call to Chakra API returned error code 0x"

  /**
   * ThrowJsException: the last exception is taken from the env; when no JS
   * error is already being thrown and the status is napi_pending_exception
   * or the value is an Error, it becomes a JSError, its message rewritten
   * while an AutoRestore holds the pending flag; otherwise a native
   * exception names the status in hexadecimal.
   */
  function ThrowJsException(pendingJSError: bool, errorCode: nat, error: nat, isError: bool, message: MessageRead): (r: Throw)
    ensures r.thrown.JSError? <==> !pendingJSError && (errorCode == PENDING_EXCEPTION_CODE || isError)
    ensures r.thrown.JSError? ==> r.thrown.error == error && r.thrown.rewrite == RewriteErrorMessage(message)
    ensures r.thrown.JSError? <==> r.flagWhileRewriting == Some(true)
    ensures r.flagAfter == pendingJSError
  {
    if !pendingJSError && (errorCode == PENDING_EXCEPTION_CODE || isError) then
      Throw(JSError(error, RewriteErrorMessage(message)), Some(true), pendingJSError)
    else
      Throw(NativeException(NATIVE_PREFIX + BigIntText.RadixDigits(errorCode, 16) + "."), None, pendingJSError)
  }

  /** The native exception's text gives the failing status back: its hexadecimal digits read as the code. */
  lemma {:induction false} NativeExceptionNamesCode(pendingJSError: bool, errorCode: nat, error: nat, isError: bool, message: MessageRead)
    requires pendingJSError || (errorCode != PENDING_EXCEPTION_CODE && !isError)
    ensures var what := ThrowJsException(pendingJSError, errorCode, error, isError, message).thrown.what;
      && |what| > |NATIVE_PREFIX| + 1
      && what[..|NATIVE_PREFIX|] == NATIVE_PREFIX
      && what[|what| - 1] == '.'
      && BigIntText.RadixValue(what[|NATIVE_PREFIX|..|what| - 1], 16) == Some(errorCode)
  {
    var digits := BigIntText.RadixDigits(errorCode, 16);
    var what := NATIVE_PREFIX + digits + ".";
    assert what[..|NATIVE_PREFIX|] == NATIVE_PREFIX;
    assert what[|NATIVE_PREFIX|..|what| - 1] == digits;
    BigIntText.RadixDigitsRoundTrip(errorCode, 16);
  }
}

=== FILE: napi_status.dfy ===
/** The Node-API status codes the modelled functions return. */
module NapiStatus {

  /** napi_status, restricted to the values the modelled code paths produce. */
  datatype Status =
    | Ok
    | InvalidArg
    | ObjectExpected
    | StringExpected
    | GenericFailure
    | PendingException
}

=== FILE: napi_v8_api.dfy ===
/**
 * The JSR (JS runtime) Node-API environment of src/napi/v8_api.cpp. Its
 * isolate lockers, env scopes and ConfigWrapper are the same as those of
 * src/node-api/v8_api.cpp and are taken from NodeApiEnv; this module adds
 * what differs: scopes nested in any order of runtimes, the prepared-script
 * cache that always hands back a buffer, drainMicrotasks that leaves its
 * result alone, createPreparedScript, and V8TaskRunner's callbacks.
 */
module NapiV8Api {
  import opened Wrappers
  import opened NapiStatus
  import opened NodeApiEnv

  // ---------------------------------------------------------------------
  // Nested env scopes
  // ---------------------------------------------------------------------

  /**
   * Scopes opened for each runtime of `runtimes` in turn and closed again
   * innermost first with the handle each open returned, as nested C++
   * scopes do; None when some close fails.
   */
  function NestedScopes(l: Lockers, runtimes: seq<nat>): (r: Option<Lockers>)
    requires ValidLockers(l)
    ensures r.Some? ==> ValidLockers(r.value)
    decreases |runtimes|
  {
    if runtimes == [] then Some(l)
    else
      var o := OpenEnvScope(l, runtimes[0], true);
      match NestedScopes(o.lockers, runtimes[1..])
      case None => None
      case Some(inner) =>
        var c := CloseEnvScope(inner, o.scope);
        if c.status == Ok then Some(c.lockers) else None
  }

  /** closeEnvScope looks only at the stack of lockers. */
  lemma {:induction false} CloseSeesOnlyStack(a: Lockers, b: Lockers, scope: Option<nat>)
    requires ValidLockers(a) && ValidLockers(b) && a.stack == b.stack
    ensures CloseEnvScope(a, scope).status == CloseEnvScope(b, scope).status
    ensures CloseEnvScope(a, scope).lockers.stack == CloseEnvScope(b, scope).lockers.stack
  {
    if scope.Some? && Current(a).Some? && Current(a).value.id == scope.value {
      var top := a.stack[|a.stack| - 1];
      if top.refCount > 1 {
        assert CloseEnvScope(a, scope).lockers.stack == a.stack[..|a.stack| - 1] + [top.(refCount := top.refCount - 1)];
      }
    }
  }

  /**
   * However the runtimes of nested scopes alternate, every close succeeds
   * and, once the outermost scope is closed, the thread's lockers are
   * exactly those it had before: scopes restore in LIFO order.
   */
  lemma {:induction false} NestedScopesRestore(l: Lockers, runtimes: seq<nat>)
    requires ValidLockers(l)
    ensures NestedScopes(l, runtimes).Some?
    ensures NestedScopes(l, runtimes).value.stack == l.stack
    decreases |runtimes|
  {
    if runtimes != [] {
      var o := OpenEnvScope(l, runtimes[0], true);
      NestedScopesRestore(o.lockers, runtimes[1..]);
      var inner := NestedScopes(o.lockers, runtimes[1..]).value;
      CloseSeesOnlyStack(inner, o.lockers, o.scope);
      OpenCloseRestores(l, runtimes[0]);
    }
  }

  // ---------------------------------------------------------------------
  // V8ScriptCache and V8JsiBuffer
  // ---------------------------------------------------------------------

  /** tryGetPreparedScript: whatever the load callback wrote becomes a buffer, even an empty one. */
  function TryGetPreparedScriptAlways(loaded: Loaded): JsiBuffer
  {
    JsiBuffer(loaded.data, loaded.size, loaded.deleter, loaded.deleterData)
  }

  /**
   * The two runtimes' caches agree when the callback returned data, and
   * only there: where the Node-API runtime reports no prepared script, the
   * JSR one hands V8 a buffer with no data or no bytes.
   */
  lemma {:induction false} PreparedScriptVariants(loaded: Loaded)
    ensures TryGetPreparedScript(loaded) == Some(TryGetPreparedScriptAlways(loaded)) <==>
      loaded.data.Some? && loaded.size != 0
    ensures TryGetPreparedScript(loaded).None? ==>
      TryGetPreparedScriptAlways(loaded).data.None? || TryGetPreparedScriptAlways(loaded).size == 0
  {
  }

  /** A call of a delete callback: the callback, the data it frees and the deleter data it is given. */
  datatype DeleteCall = DeleteCall(callback: nat, data: Option<nat>, deleterData: Option<nat>)

  /** ~V8JsiBuffer: the delete callback, when there is one, gets the buffer's data and deleter data. */
  function ReleaseBuffer(b: JsiBuffer): (calls: seq<DeleteCall>)
    ensures |calls| <= 1
    ensures calls != [] <==> b.deleter.Some?
    ensures calls != [] ==> calls[0] == DeleteCall(b.deleter.value, b.data, b.deleterData)
  {
    if b.deleter.Some? then [DeleteCall(b.deleter.value, b.data, b.deleterData)] else []
  }

  /**
   * Whatever the load callback wrote, releasing the cached buffer hands
   * its data back to its deleter exactly once, even when the data is empty.
   */
  lemma {:induction false} CachedBufferReturnsData(loaded: Loaded, deleter: nat)
    requires loaded.deleter == Some(deleter)
    ensures ReleaseBuffer(TryGetPreparedScriptAlways(loaded)) == [DeleteCall(deleter, loaded.data, loaded.deleterData)]
  {
  }

  // ---------------------------------------------------------------------
  // drainMicrotasks
  // ---------------------------------------------------------------------

  /** drainMicrotasks: napi_ok, and whatever the caller's result held stays there. */
  function DrainMicrotasksUnwritten(resultOut: Option<bool>): (Status, Option<bool>)
  {
    (Ok, resultOut)
  }

  /**
   * The two runtimes report the same result only when the caller passes no
   * result or one already holding true; the Node-API runtime writes true.
   */
  lemma {:induction false} DrainMicrotasksVariants(resultOut: Option<bool>)
    ensures DrainMicrotasksUnwritten(resultOut) == DrainMicrotasks(resultOut) <==>
      resultOut.None? || resultOut == Some(true)
  {
  }

  // ---------------------------------------------------------------------
  // createPreparedScript
  // ---------------------------------------------------------------------

  /**
   * The outcome of createPreparedScript: the status returned, None when the
   * function ends without returning one, and the prepared script's buffer
   * written to the result.
   */
  datatype Prepared = Prepared(status: Option<Status>, script: Option<JsiBuffer>)

  /**
   * The checks both variants make before preparing: the preamble refuses
   * to run while an exception is pending, then every pointer but the
   * deleter's must be present.
   */
  function PrepareChecks(pending: bool, data: Option<nat>, hasSourceUrl: bool, hasResult: bool): (r: Option<Status>)
    ensures r.None? <==> !pending && data.Some? && hasSourceUrl && hasResult
    ensures pending ==> r == Some(PendingException)
    ensures !pending && r.Some? ==> r == Some(InvalidArg)
  {
    if pending then Some(PendingException)
    else if data.None? || !hasSourceUrl || !hasResult then Some(InvalidArg)
    else None
  }

  /**
   * createPreparedScript as written in the JSR runtime: after the checks
   * it wraps the data in a buffer and writes the prepared script, and then
   * falls off the end of the function without a return statement.
   */
  function CreatePreparedScriptAsWritten(
    pending: bool, data: Option<nat>, size: nat, deleter: Option<nat>, deleterData: Option<nat>,
    hasSourceUrl: bool, hasResult: bool): (r: Prepared)
    ensures PrepareChecks(pending, data, hasSourceUrl, hasResult).Some? ==>
      r == Prepared(PrepareChecks(pending, data, hasSourceUrl, hasResult), None)
    ensures PrepareChecks(pending, data, hasSourceUrl, hasResult).None? ==>
      r.script == Some(JsiBuffer(data, size, deleter, deleterData)) && r.status.None?
  {
    var failed := PrepareChecks(pending, data, hasSourceUrl, hasResult);
    if failed.Some? then Prepared(failed, None)
    else Prepared(None, Some(JsiBuffer(data, size, deleter, deleterData)))
  }

  /**
   * createPreparedScript as the Node-API runtime writes it, the evidently
   * intended one: the same checks and script, then the return status of
   * the call, napi_pending_exception when preparing left an exception.
   */
  function CreatePreparedScript(
    pending: bool, data: Option<nat>, size: nat, deleter: Option<nat>, deleterData: Option<nat>,
    hasSourceUrl: bool, hasResult: bool, exceptionAfter: bool): (r: Prepared)
    ensures r.status.Some?
    ensures r.status == Some(Ok) <==> PrepareChecks(pending, data, hasSourceUrl, hasResult).None? && !exceptionAfter
    ensures r.script.Some? <==> PrepareChecks(pending, data, hasSourceUrl, hasResult).None?
  {
    var failed := PrepareChecks(pending, data, hasSourceUrl, hasResult);
    if failed.Some? then Prepared(failed, None)
    else Prepared(Some(if exceptionAfter then PendingException else Ok), Some(JsiBuffer(data, size, deleter, deleterData)))
  }

  /**
   * The two agree on every failed check and on the script written, but on
   * success only the corrected one returns a status: the caller of the JSR
   * runtime reads an indeterminate value.
   */
  lemma {:induction false} PreparedScriptMissingStatus(
    pending: bool, data: Option<nat>, size: nat, deleter: Option<nat>, deleterData: Option<nat>,
    hasSourceUrl: bool, hasResult: bool, exceptionAfter: bool)
    ensures var w := CreatePreparedScriptAsWritten(pending, data, size, deleter, deleterData, hasSourceUrl, hasResult);
      var c := CreatePreparedScript(pending, data, size, deleter, deleterData, hasSourceUrl, hasResult, exceptionAfter);
      && w.script == c.script
      && (w.status == c.status <==> PrepareChecks(pending, data, hasSourceUrl, hasResult).Some?)
  {
  }

  // ---------------------------------------------------------------------
  // V8TaskRunner
  // ---------------------------------------------------------------------

  /** The JSI tasks alive on the heap and the tasks run so far, in order. */
  datatype TaskState = TaskState(live: set<nat>, ran: seq<nat>)

  /**
   * What postTask hands the embedder: the runner's data and its task,
   * whose ownership leaves the unique pointer, with a run and a delete
   * callback and no deleter data.
   */
  datatype PostedTask = PostedTask(runnerData: nat, task: nat, deleterData: Option<nat>)

  function PostToRunner(runnerData: nat, task: nat): PostedTask
  {
    PostedTask(runnerData, task, None)
  }

  /** The run callback: a task runs. */
  function RunCallback(t: TaskState, p: PostedTask): TaskState
  {
    t.(ran := t.ran + [p.task])
  }

  /** The delete callback: a task is deleted. */
  function DeleteCallback(t: TaskState, p: PostedTask): TaskState
  {
    t.(live := t.live - {p.task})
  }

  /**
   * An embedder that calls the run callback and then the delete callback
   * of each posted task runs every task once, in posting order, and leaves
   * none of them alive.
   */
  function RunPosted(t: TaskState, posted: seq<PostedTask>): (r: TaskState)
    decreases |posted|
  {
    if posted == [] then t
    else RunPosted(DeleteCallback(RunCallback(t, posted[0]), posted[0]), posted[1..])
  }

  /** The tasks of a sequence of posts. */
  function TasksOf(posted: seq<PostedTask>): (ts: seq<nat>)
    ensures |ts| == |posted|
  {
    if posted == [] then [] else [posted[0].task] + TasksOf(posted[1..])
  }

  /**
   * Running and deleting every posted task runs them in posting order,
   * each once, and frees exactly them.
   */
  lemma {:induction false} PostedTasksRunOnceAndFree(t: TaskState, runnerData: nat, tasks: seq<nat>, posted: seq<PostedTask>)
    requires |posted| == |tasks|
    requires forall i :: 0 <= i < |tasks| ==> posted[i] == PostToRunner(runnerData, tasks[i])
    ensures RunPosted(t, posted).ran == t.ran + tasks
    ensures RunPosted(t, posted).live == t.live - set i | 0 <= i < |tasks| :: tasks[i]
    decreases |posted|
  {
    if posted != [] {
      var next := DeleteCallback(RunCallback(t, posted[0]), posted[0]);
      PostedTasksRunOnceAndFree(next, runnerData, tasks[1..], posted[1..]);
      assert t.ran + tasks == t.ran + [tasks[0]] + tasks[1..];
      var rest := set i | 0 <= i < |tasks[1..]| :: tasks[1..][i];
      var all := set i | 0 <= i < |tasks| :: tasks[i];
      assert all == {tasks[0]} + rest by {
        forall x | x in all ensures x in {tasks[0]} + rest {
          var i :| 0 <= i < |tasks| && tasks[i] == x;
          if i > 0 { assert tasks[1..][i - 1] == x; }
        }
        forall x | x in rest ensures x in all {
          var i :| 0 <= i < |tasks[1..]| && tasks[1..][i] == x;
          assert tasks[i + 1] == x;
        }
      }
    }
  }

  /** ~V8TaskRunner: the runner's delete callback, when there is one, gets the runner's data and its deleter data. */
  function DestroyRunner(deleteCallback: Option<nat>, runnerData: nat, deleterData: Option<nat>): (calls: seq<DeleteCall>)
    ensures |calls| <= 1
    ensures calls != [] <==> deleteCallback.Some?
    ensures calls != [] ==> calls[0] == DeleteCall(deleteCallback.value, Some(runnerData), deleterData)
  {
    if deleteCallback.Some? then [DeleteCall(deleteCallback.value, Some(runnerData), deleterData)] else []
  }
}

=== FILE: node_api_env.dfy ===
/**
 * The Node-API environment of the V8 runtime (src/node-api/v8_api.cpp):
 * string and heap-snapshot output buffers, the finalizer queue with its
 * single scheduled drain, fatal finalizer exceptions, the list of module
 * environments, the per-thread stack of isolate lockers behind env scopes,
 * the runtime configuration and the prepared-script cache.
 */
module NodeApiEnv {
  import opened Wrappers
  import opened NapiStatus
  import V8Runtime
  import UtilInl

  // ---------------------------------------------------------------------
  // CopyStringToOutput
  // ---------------------------------------------------------------------

  /** The outcome of copying a string out: the status, the new buffer and the length written. */
  datatype Copied = Copied(status: Status, buffer: Option<string>, length: Option<nat>)

  /**
   * CopyStringToOutput: with both out-pointers present the caller gets a
   * fresh buffer holding the whole string (embedded NULs included) and a
   * terminating NUL, and its length; otherwise nothing is written.
   */
  function CopyStringToOutput(str: string, hasResult: bool, hasResultLength: bool): (r: Copied)
    ensures r.status == InvalidArg <==> !hasResult || !hasResultLength
    ensures r.status == InvalidArg ==> r.buffer.None? && r.length.None?
    ensures r.status != InvalidArg ==>
      && r.status == Ok
      && r.length == Some(|str|)
      && r.buffer.Some? && |r.buffer.value| == |str| + 1
      && r.buffer.value[..|str|] == str && r.buffer.value[|str|] == '\0'
  {
    if !hasResult || !hasResultLength then Copied(InvalidArg, None, None)
    else Copied(Ok, Some(str + ['\0']), Some(|str|))
  }

  /**
   * A reader of the copied buffer gets the string back: by the length the
   * call reports, and as a C string when the text holds no NUL.
   */
  lemma {:induction false} CopiedStringReadsBack(str: string)
    ensures var r := CopyStringToOutput(str, true, true);
      && r.buffer.value[..r.length.value] == str
      && ('\0' !in str ==> V8Runtime.CString(r.buffer.value) == str)
  {
    var b := str + ['\0'];
    assert b[..|str|] == str;
    if '\0' !in str {
      var c := V8Runtime.CString(b);
      assert b[|str|] == '\0';
      assert forall j :: 0 <= j < |c| ==> b[j] == c[j] && b[j] != '\0';
      assert forall j :: 0 <= j < |str| ==> b[j] == str[j] && b[j] != '\0';
      assert |c| == |str|;
    }
  }

  // ---------------------------------------------------------------------
  // createHeapSnapshotToString and its DirectBufferStream
  // ---------------------------------------------------------------------

  /**
   * The stream buffer over the caller's buffer: the buffer's contents (none
   * in counting-only mode), its length, the put position, the count kept by
   * overflow(), and how many characters overflow() stored past the end.
   */
  datatype StreamBuf = StreamBuf(
    buffer: Option<seq<char>>, size: nat, putPos: nat, currentSize: nat, strayWrites: nat)

  /** A well-formed stream buffer: a real buffer holds exactly `size` characters. */
  predicate ValidStreamBuf(sb: StreamBuf) {
    sb.buffer.Some? ==> |sb.buffer.value| == sb.size
  }

  /** The stream buffer as constructed: the put area is all but the last character. */
  function NewStreamBuf(buffer: Option<seq<char>>, size: nat): (sb: StreamBuf)
    requires buffer.Some? ==> |buffer.value| == size
    ensures ValidStreamBuf(sb) && sb.currentSize == 0 && sb.putPos == 0
  {
    StreamBuf(buffer, size, 0, 0, 0)
  }

  /**
   * One character through sputc: stored in the put area while it has room
   * (that path does not count), otherwise through overflow(), which counts
   * it and, on a real buffer, stores it while the count has not passed the
   * buffer length, even once the put position is past the end.
   */
  function PutChar(sb: StreamBuf, c: char): (r: StreamBuf)
    requires ValidStreamBuf(sb)
    ensures ValidStreamBuf(r) && r.size == sb.size && r.buffer.Some? == sb.buffer.Some?
  {
    if sb.buffer.Some? && sb.putPos < sb.size - 1 then
      sb.(buffer := Some(sb.buffer.value[sb.putPos := c]), putPos := sb.putPos + 1)
    else
      var counted := sb.currentSize + 1;
      if sb.buffer.None? || counted > sb.size then sb.(currentSize := counted)
      else if sb.putPos < sb.size then
        sb.(buffer := Some(sb.buffer.value[sb.putPos := c]), putPos := sb.putPos + 1, currentSize := counted)
      else
        sb.(putPos := sb.putPos + 1, currentSize := counted, strayWrites := sb.strayWrites + 1)
  }

  /** The snapshot text written through the stream, character by character. */
  function PutAll(sb: StreamBuf, text: string): (r: StreamBuf)
    requires ValidStreamBuf(sb)
    ensures ValidStreamBuf(r) && r.size == sb.size && r.buffer.Some? == sb.buffer.Some?
    decreases |text|
  {
    if text == [] then sb else PutAll(PutChar(sb, text[0]), text[1..])
  }

  /**
   * What createHeapSnapshotToString leaves: the status, *required_length
   * (None when the caller passed no such pointer) and the caller's buffer.
   */
  datatype Snapshot = Snapshot(status: Status, requiredLength: Option<nat>, buffer: Option<seq<char>>)

  /**
   * createHeapSnapshotToString as written: the required length is what the
   * stream counted, a NUL goes at that index when it is inside the buffer,
   * and the call fails when the count reaches the buffer length. A null
   * `required_length` is an argument error before anything is written.
   */
  function HeapSnapshotAsWritten(snapshot: string, buffer: Option<seq<char>>, bufferLength: nat, hasRequiredLength: bool): (r: Snapshot)
    requires buffer.Some? ==> |buffer.value| == bufferLength
    ensures !hasRequiredLength ==> r == Snapshot(InvalidArg, None, buffer)
    ensures hasRequiredLength ==> r.requiredLength.Some?
    ensures r.buffer.Some? == buffer.Some?
    ensures r.buffer.Some? ==> |r.buffer.value| == bufferLength
  {
    if !hasRequiredLength then Snapshot(InvalidArg, None, buffer)
    else
      var sb := PutAll(NewStreamBuf(buffer, bufferLength), snapshot);
      var size := sb.currentSize;
      var written :=
        if buffer.Some? && bufferLength > 0 && size < bufferLength then Some(sb.buffer.value[size := '\0'])
        else sb.buffer;
      var status := if buffer.Some? && bufferLength > 0 && size >= bufferLength then InvalidArg else Ok;
      Snapshot(status, Some(size), written)
  }

  /**
   * createHeapSnapshotToString as its contract reads: the required length
   * is the snapshot's length; a buffer with room gets the snapshot and a
   * NUL; a non-empty buffer without room is an argument error; a missing or
   * empty buffer only asks for the length. A null `required_length` is an
   * argument error that writes nothing.
   */
  function HeapSnapshotToString(snapshot: string, buffer: Option<seq<char>>, bufferLength: nat, hasRequiredLength: bool): (r: Snapshot)
    requires buffer.Some? ==> |buffer.value| == bufferLength
    ensures r.requiredLength == (if hasRequiredLength then Some(|snapshot|) else None)
    ensures r.status == InvalidArg <==>
      !hasRequiredLength || (buffer.Some? && bufferLength > 0 && |snapshot| >= bufferLength)
    ensures r.status != InvalidArg ==> r.status == Ok
    ensures r.buffer.Some? == buffer.Some?
    ensures r.buffer.Some? ==> |r.buffer.value| == bufferLength
    ensures r.buffer.Some? && r.status == Ok && bufferLength > 0 ==>
      r.buffer.value[..|snapshot|] == snapshot && r.buffer.value[|snapshot|] == '\0'
    ensures r.buffer.Some? && !(r.status == Ok && bufferLength > 0) ==> r.buffer == buffer
  {
    var n := |snapshot|;
    if !hasRequiredLength then Snapshot(InvalidArg, None, buffer)
    else if buffer.Some? && bufferLength > 0 && n < bufferLength then
      Snapshot(Ok, Some(n), Some(snapshot + ['\0'] + buffer.value[n + 1..]))
    else if buffer.Some? && bufferLength > 0 then Snapshot(InvalidArg, Some(n), buffer)
    else Snapshot(Ok, Some(n), buffer)
  }

  /** Without a buffer, or with an empty one, overflow() sees and counts every character and stores none. */
  lemma {:induction false} CountingModeCounts(sb: StreamBuf, text: string)
    requires ValidStreamBuf(sb) && (sb.buffer.None? || sb.size == 0)
    ensures PutAll(sb, text).currentSize == sb.currentSize + |text|
    ensures PutAll(sb, text).buffer == sb.buffer
    decreases |text|
  {
    if text != [] {
      CountingModeCounts(PutChar(sb, text[0]), text[1..]);
    }
  }

  /** In counting-only mode (no buffer, or an empty one) the call as written keeps its contract. */
  lemma {:induction false} CountingModeMeetsContract(snapshot: string, buffer: Option<seq<char>>, bufferLength: nat, hasRequiredLength: bool)
    requires buffer.None? || (bufferLength == 0 && |buffer.value| == 0)
    ensures HeapSnapshotAsWritten(snapshot, buffer, bufferLength, hasRequiredLength)
      == HeapSnapshotToString(snapshot, buffer, bufferLength, hasRequiredLength)
  {
    CountingModeCounts(NewStreamBuf(buffer, bufferLength), snapshot);
  }

  /**
   * With a real buffer the characters that fit the put area bypass
   * overflow() and go uncounted: a 3-character snapshot into a 10-character
   * buffer reports a required length of 0 and puts the NUL over its first
   * character, where the contract asks for 3 and the snapshot intact.
   */
  lemma {:induction false} AsWrittenLosesShortSnapshot()
    ensures var r := HeapSnapshotAsWritten("abc", Some("xxxxxxxxxx"), 10, true);
      r.status == Ok && r.requiredLength == Some(0) && r.buffer.value[0] == '\0'
    ensures var r := HeapSnapshotToString("abc", Some("xxxxxxxxxx"), 10, true);
      r.status == Ok && r.requiredLength == Some(3) && r.buffer.value[..4] == "abc\0"
  {
    var sb0 := NewStreamBuf(Some("xxxxxxxxxx"), 10);
    var sb1 := PutChar(sb0, 'a');
    var sb2 := PutChar(sb1, 'b');
    var sb3 := PutChar(sb2, 'c');
    assert sb3.currentSize == 0;
    assert PutAll(sb2, "c") == PutAll(sb3, "");
    assert PutAll(sb1, "bc") == PutAll(sb2, "c");
    assert PutAll(sb0, "abc") == PutAll(sb1, "bc");
  }

  /**
   * A snapshot longer than the buffer is accepted when it overruns by less
   * than the buffer's length: 4 characters into a 3-character buffer count
   * as 2, so the call reports success, and overflow() stores one character
   * past the end of the buffer; the contract asks for an argument error.
   */
  lemma {:induction false} AsWrittenAcceptsOverlongSnapshot()
    ensures HeapSnapshotAsWritten("abcd", Some("xxx"), 3, true).status == Ok
    ensures PutAll(NewStreamBuf(Some("xxx"), 3), "abcd").strayWrites == 1
    ensures HeapSnapshotToString("abcd", Some("xxx"), 3, true).status == InvalidArg
  {
    var sb0 := NewStreamBuf(Some("xxx"), 3);
    var sb1 := PutChar(sb0, 'a');
    var sb2 := PutChar(sb1, 'b');
    var sb3 := PutChar(sb2, 'c');
    var sb4 := PutChar(sb3, 'd');
    assert sb4.currentSize == 2 && sb4.strayWrites == 1;
    assert PutAll(sb3, "d") == PutAll(sb4, "");
    assert PutAll(sb2, "cd") == PutAll(sb3, "d");
    assert PutAll(sb1, "bcd") == PutAll(sb2, "cd");
    assert PutAll(sb0, "abcd") == PutAll(sb1, "bcd");
  }

  // ---------------------------------------------------------------------
  // The finalizer queue
  // ---------------------------------------------------------------------

  /** No element occurs twice. */
  predicate Distinct(s: seq<nat>) {
    forall i, j :: 0 <= i < j < |s| ==> s[i] != s[j]
  }

  /** The elements of `s` that are not in `gone`, in their order. */
  function Minus(s: seq<nat>, gone: seq<nat>): (r: seq<nat>)
    ensures forall x :: x in r <==> x in s && x !in gone
    ensures Distinct(s) ==> Distinct(r)
    decreases |s|
  {
    if s == [] then []
    else
      var rest := Minus(s[1..], gone);
      assert forall x :: x in s[1..] ==> x in s;
      assert forall x :: x in s ==> x == s[0] || x in s[1..];
      assert Distinct(s) ==> s[0] !in s[1..];
      (if s[0] in gone then [] else [s[0]]) + rest
  }

  /** The elements of `s` that are in `live`, in their order. */
  function Alive(s: seq<nat>, live: set<nat>): (r: seq<nat>)
    ensures forall x :: x in r <==> x in s && x in live
    decreases |s|
  {
    if s == [] then []
    else
      assert forall x :: x in s ==> x == s[0] || x in s[1..];
      (if s[0] in live then [s[0]] else []) + Alive(s[1..], live)
  }

  /**
   * The env's finalization state: the pending trackers, whether a drain
   * is scheduled, whether the env is being torn down, the env's reference
   * count and the drain tasks waiting on the foreground runner.
   */
  datatype Finalization = Finalization(
    pending: seq<nat>, scheduled: bool, destructing: bool, refs: int, drainTasks: nat)

  /** At most one drain waits, and it holds a reference on the env exactly while it is scheduled. */
  predicate OneDrainPending(f: Finalization, baseRefs: int) {
    && f.drainTasks == (if f.scheduled then 1 else 0)
    && f.refs == baseRefs + (if f.scheduled then 1 else 0)
    && Distinct(f.pending)
  }

  /**
   * EnqueueFinalizer: the tracker joins the pending set; a drain task is
   * scheduled, with a reference on the env, only when none is scheduled
   * and the env is not being torn down.
   */
  function EnqueueFinalizer(f: Finalization, tracker: nat): (r: Finalization)
    ensures tracker in r.pending
    ensures forall x :: x in r.pending <==> x in f.pending || x == tracker
    ensures Distinct(f.pending) ==> Distinct(r.pending)
    ensures r.destructing == f.destructing
    ensures r.drainTasks == f.drainTasks + (if f.scheduled || f.destructing then 0 else 1)
    ensures r.refs == f.refs + (if f.scheduled || f.destructing then 0 else 1)
    ensures r.scheduled == (f.scheduled || !f.destructing)
    ensures forall base :: OneDrainPending(f, base) ==> OneDrainPending(r, base)
  {
    var pending := if tracker in f.pending then f.pending else f.pending + [tracker];
    if !f.scheduled && !f.destructing then
      Finalization(pending, true, f.destructing, f.refs + 1, f.drainTasks + 1)
    else f.(pending := pending)
  }

  /**
   * Queuing several trackers one after another: they all join the pending
   * set, and the first call on a live env with nothing scheduled schedules
   * the one drain task and takes the one reference; during teardown
   * nothing is scheduled.
   */
  function EnqueueAll(f: Finalization, trackers: seq<nat>): (r: Finalization)
    ensures forall x :: x in r.pending <==> x in f.pending || x in trackers
    ensures Distinct(f.pending) ==> Distinct(r.pending)
    ensures r.destructing == f.destructing
    ensures r.scheduled == (f.scheduled || (!f.destructing && trackers != []))
    ensures var added := if !f.scheduled && !f.destructing && trackers != [] then 1 else 0;
      r.drainTasks == f.drainTasks + added && r.refs == f.refs + added
    decreases |trackers|
  {
    if trackers == [] then f
    else
      assert forall x :: x in trackers ==> x == trackers[0] || x in trackers[1..];
      EnqueueAll(EnqueueFinalizer(f, trackers[0]), trackers[1..])
  }

  /**
   * However many finalizers are queued in a row on a live env, exactly one
   * drain task ends up scheduled.
   */
  lemma {:induction false} QueuedFinalizersShareOneDrain(f: Finalization, trackers: seq<nat>, base: int)
    requires OneDrainPending(f, base) && !f.destructing && trackers != []
    ensures OneDrainPending(EnqueueAll(f, trackers), base)
    ensures EnqueueAll(f, trackers).drainTasks == 1
    decreases |trackers|
  {
    var next := EnqueueFinalizer(f, trackers[0]);
    assert OneDrainPending(next, base) && next.scheduled;
    if |trackers| > 1 {
      QueuedFinalizersShareOneDrain(next, trackers[1..], base);
    }
  }

  /**
   * What the user code in one tracker's finalizer does to the queue: the
   * references it deletes, whose trackers leave the pending set without
   * being finalized, and the trackers it queues through EnqueueFinalizer.
   */
  datatype FinalizerEffect = FinalizerEffect(deleted: seq<nat>, queued: seq<nat>)

  /** Everything the finalizers of `order` delete, in order. */
  function Deletions(order: seq<nat>, effect: nat -> FinalizerEffect): seq<nat>
    decreases |order|
  {
    if order == [] then [] else effect(order[0]).deleted + Deletions(order[1..], effect)
  }

  /** Everything the finalizers of `order` queue, in order. */
  function Queued(order: seq<nat>, effect: nat -> FinalizerEffect): seq<nat>
    decreases |order|
  {
    if order == [] then [] else effect(order[0]).queued + Queued(order[1..], effect)
  }

  /**
   * What a drain leaves: the new state, the order of the Finalize calls and
   * the trackers handed to EnqueueFinalizer while it ran.
   */
  datatype FinalizersDrained = FinalizersDrained(state: Finalization, finalized: seq<nat>, enqueued: seq<nat>)

  /**
   * DrainFinalizerQueue: take a pending tracker out and finalize it, until
   * none is left. Finalizing deletes the tracker; its user code may delete
   * other trackers, which leave the set, and may queue live ones through
   * EnqueueFinalizer, which join it (and may schedule a drain task) and are
   * drained by the same loop. `live` holds the trackers not yet deleted.
   */
  function DrainFinalizerQueue(f: Finalization, live: set<nat>, effect: nat -> FinalizerEffect): (r: FinalizersDrained)
    requires Distinct(f.pending) && forall x :: x in f.pending ==> x in live
    ensures r.state.pending == [] && r.state.destructing == f.destructing
    ensures Distinct(r.finalized) && forall x :: x in r.finalized ==> x in live
    ensures forall x :: x in f.pending ==> x in r.finalized || x in Deletions(r.finalized, effect)
    ensures forall x :: x in Queued(r.finalized, effect) && x in live ==>
      x in r.finalized || x in Deletions(r.finalized, effect)
    ensures forall x :: x in r.enqueued ==> x in Queued(r.finalized, effect) && x in live
    ensures r.state.scheduled == (f.scheduled || (!f.destructing && r.enqueued != []))
    ensures var added := if !f.scheduled && !f.destructing && r.enqueued != [] then 1 else 0;
      r.state.drainTasks == f.drainTasks + added && r.state.refs == f.refs + added
    decreases live
  {
    if f.pending == [] then FinalizersDrained(f, [], [])
    else
      var alive := Survivors(f, live, effect);
      var queued := Alive(effect(f.pending[0]).queued, alive);
      var d := DrainFinalizerQueue(AfterFront(f, live, effect), alive, effect);
      var r := FinalizersDrained(d.state, [f.pending[0]] + d.finalized, queued + d.enqueued);
      DrainStepOk(f, live, effect, d, r);
      r
  }

  /**
   * The trackers still alive once the front one is finalized: its finalizer
   * deletes it and the references its user code deletes.
   */
  function Survivors(f: Finalization, live: set<nat>, effect: nat -> FinalizerEffect): (alive: set<nat>)
    requires f.pending != [] && f.pending[0] in live
    ensures alive < live
    ensures forall x :: x in alive <==> x in live && x != f.pending[0] && x !in effect(f.pending[0]).deleted
  {
    live - {f.pending[0]} - (set x | x in effect(f.pending[0]).deleted)
  }

  /**
   * The state once the front tracker's finalizer has run: the rest of the
   * set without what it deleted, then what it queued while still alive.
   */
  function AfterFront(f: Finalization, live: set<nat>, effect: nat -> FinalizerEffect): (next: Finalization)
    requires f.pending != [] && Distinct(f.pending) && forall x :: x in f.pending ==> x in live
    ensures Distinct(next.pending)
    ensures forall x :: x in next.pending ==> x in Survivors(f, live, effect)
    ensures forall x :: x in next.pending <==>
      (x in f.pending[1..] && x !in effect(f.pending[0]).deleted)
      || x in Alive(effect(f.pending[0]).queued, Survivors(f, live, effect))
    ensures var queued := Alive(effect(f.pending[0]).queued, Survivors(f, live, effect));
      && next.destructing == f.destructing
      && next.scheduled == (f.scheduled || (!f.destructing && queued != []))
      && var added := if !f.scheduled && !f.destructing && queued != [] then 1 else 0;
      next.drainTasks == f.drainTasks + added && next.refs == f.refs + added
  {
    var e := effect(f.pending[0]);
    var rest := Minus(f.pending[1..], e.deleted);
    RestOfPending(f.pending, live, Survivors(f, live, effect), e.deleted, rest);
    EnqueueAll(f.(pending := rest), Alive(e.queued, Survivors(f, live, effect)))
  }

  /** One step of the drain loop: what the rest of the loop promises carries over to the whole loop. */
  lemma {:induction false} DrainStepOk(f: Finalization, live: set<nat>, effect: nat -> FinalizerEffect, d: FinalizersDrained, r: FinalizersDrained)
    requires f.pending != [] && Distinct(f.pending) && forall x :: x in f.pending ==> x in live
    requires var next := AfterFront(f, live, effect);
      var alive := Survivors(f, live, effect);
      && d.state.destructing == next.destructing
      && Distinct(d.finalized) && (forall x :: x in d.finalized ==> x in alive)
      && (forall x :: x in next.pending ==> x in d.finalized || x in Deletions(d.finalized, effect))
      && (forall x :: x in Queued(d.finalized, effect) && x in alive ==>
        x in d.finalized || x in Deletions(d.finalized, effect))
      && (forall x :: x in d.enqueued ==> x in Queued(d.finalized, effect) && x in alive)
      && d.state.scheduled == (next.scheduled || (!next.destructing && d.enqueued != []))
      && var added := if !next.scheduled && !next.destructing && d.enqueued != [] then 1 else 0;
      d.state.drainTasks == next.drainTasks + added && d.state.refs == next.refs + added
    requires r == FinalizersDrained(d.state, [f.pending[0]] + d.finalized,
      Alive(effect(f.pending[0]).queued, Survivors(f, live, effect)) + d.enqueued)
    ensures Distinct(r.finalized) && forall x :: x in r.finalized ==> x in live
    ensures forall x :: x in f.pending ==> x in r.finalized || x in Deletions(r.finalized, effect)
    ensures forall x :: x in Queued(r.finalized, effect) && x in live ==>
      x in r.finalized || x in Deletions(r.finalized, effect)
    ensures forall x :: x in r.enqueued ==> x in Queued(r.finalized, effect) && x in live
    ensures r.state.scheduled == (f.scheduled || (!f.destructing && r.enqueued != []))
    ensures var added := if !f.scheduled && !f.destructing && r.enqueued != [] then 1 else 0;
      r.state.drainTasks == f.drainTasks + added && r.state.refs == f.refs + added
  {
    var e := effect(f.pending[0]);
    var alive := Survivors(f, live, effect);
    var queued := Alive(e.queued, alive);
    var next := AfterFront(f, live, effect);
    DrainStep(f.pending[0], d.finalized, e, effect);
    DrainStepCovers(f.pending, live, alive, e, queued, next.pending, d.finalized, d.enqueued,
      Deletions(d.finalized, effect), Queued(d.finalized, effect));
    DrainStepSchedules(f, next, d.state, queued, d.enqueued);
  }

  /** The trackers behind the front one that were not deleted are still alive, and distinct. */
  lemma {:induction false} RestOfPending(pending: seq<nat>, live: set<nat>, alive: set<nat>, deleted: seq<nat>, rest: seq<nat>)
    requires pending != [] && Distinct(pending) && forall x :: x in pending ==> x in live
    requires forall x :: x in alive <==> x in live && x != pending[0] && x !in deleted
    requires forall x :: x in rest <==> x in pending[1..] && x !in deleted
    requires Distinct(pending[1..]) ==> Distinct(rest)
    ensures Distinct(rest) && forall x :: x in rest ==> x in alive
  {
    var tail := pending[1..];
    forall i, j | 0 <= i < j < |tail|
      ensures tail[i] != tail[j]
    {
      assert tail[i] == pending[i + 1] && tail[j] == pending[j + 1];
    }
    forall x | x in rest
      ensures x in alive
    {
      var i :| 0 <= i < |tail| && tail[i] == x;
      assert pending[i + 1] == x && pending[0] != x;
    }
  }

  /** Deletions and Queued of a drain order that starts with `tracker`. */
  lemma {:induction false} DrainStep(tracker: nat, later: seq<nat>, e: FinalizerEffect, effect: nat -> FinalizerEffect)
    requires effect(tracker) == e
    ensures Deletions([tracker] + later, effect) == e.deleted + Deletions(later, effect)
    ensures Queued([tracker] + later, effect) == e.queued + Queued(later, effect)
  {
    assert ([tracker] + later)[1..] == later;
  }

  /**
   * One step of the drain loop, for what it finalizes: the front tracker
   * with effect `e` is finalized first, then the rest (`later`, which
   * deletes `dels` and queues `ques`) drains what is left plus what `e`
   * queued.
   */
  lemma {:induction false} DrainStepCovers(pending: seq<nat>, live: set<nat>, alive: set<nat>, e: FinalizerEffect,
      queued: seq<nat>, next: seq<nat>, later: seq<nat>, enqueued: seq<nat>, dels: seq<nat>, ques: seq<nat>)
    requires pending != [] && Distinct(pending) && forall x :: x in pending ==> x in live
    requires forall x :: x in alive <==> x in live && x != pending[0] && x !in e.deleted
    requires forall x :: x in queued <==> x in e.queued && x in alive
    requires forall x :: x in next <==> (x in pending[1..] && x !in e.deleted) || x in queued
    requires Distinct(later) && forall x :: x in later ==> x in alive
    requires forall x :: x in next ==> x in later || x in dels
    requires forall x :: x in ques && x in alive ==> x in later || x in dels
    requires forall x :: x in enqueued ==> x in ques && x in alive
    ensures Distinct([pending[0]] + later) && forall x :: x in [pending[0]] + later ==> x in live
    ensures forall x :: x in pending ==> x in [pending[0]] + later || x in e.deleted + dels
    ensures forall x :: x in e.queued + ques && x in live ==> x in [pending[0]] + later || x in e.deleted + dels
    ensures forall x :: x in queued + enqueued ==> x in e.queued + ques && x in live
  {
    var order := [pending[0]] + later;
    forall i, j | 0 <= i < j < |order|
      ensures order[i] != order[j]
    {
      if i == 0 {
        assert pending[0] !in alive;
        assert order[j] == later[j - 1] && later[j - 1] in later;
      } else {
        assert order[i] == later[i - 1] && order[j] == later[j - 1];
      }
    }
    forall x | x in pending
      ensures x in order || x in e.deleted + dels
    {
      if x != pending[0] && x !in e.deleted {
        assert x in pending[1..] by {
          var i :| 0 <= i < |pending| && pending[i] == x;
          assert pending[1..][i - 1] == x;
        }
        assert x in next;
      }
    }
  }

  /** One step of the drain loop, for what it schedules. */
  lemma {:induction false} DrainStepSchedules(f: Finalization, next: Finalization, last: Finalization,
      queued: seq<nat>, enqueued: seq<nat>)
    requires next.destructing == f.destructing
    requires next.scheduled == (f.scheduled || (!f.destructing && queued != []))
    requires var added := if !f.scheduled && !f.destructing && queued != [] then 1 else 0;
      next.drainTasks == f.drainTasks + added && next.refs == f.refs + added
    requires last.scheduled == (next.scheduled || (!next.destructing && enqueued != []))
    requires var added := if !next.scheduled && !next.destructing && enqueued != [] then 1 else 0;
      last.drainTasks == next.drainTasks + added && last.refs == next.refs + added
    ensures last.scheduled == (f.scheduled || (!f.destructing && queued + enqueued != []))
    ensures var added := if !f.scheduled && !f.destructing && queued + enqueued != [] then 1 else 0;
      last.drainTasks == f.drainTasks + added && last.refs == f.refs + added
  {
  }

  /**
   * The scheduled task: it clears the flag and drops its reference, then
   * drains the queue. A finalizer that queues a tracker during the drain
   * finds the flag clear, so it schedules a new task with a new reference.
   */
  function RunDrainTask(f: Finalization, live: set<nat>, effect: nat -> FinalizerEffect): (r: FinalizersDrained)
    requires f.drainTasks > 0
    requires Distinct(f.pending) && forall x :: x in f.pending ==> x in live
    ensures r.state.pending == []
    ensures r.state.scheduled <==> !f.destructing && r.enqueued != []
    ensures var added := if r.state.scheduled then 1 else 0;
      r.state.drainTasks == f.drainTasks - 1 + added && r.state.refs == f.refs - 1 + added
    ensures forall x :: x in f.pending ==> x in r.finalized || x in Deletions(r.finalized, effect)
    ensures forall base :: OneDrainPending(f, base) ==> OneDrainPending(r.state, base)
  {
    DrainFinalizerQueue(f.(scheduled := false, refs := f.refs - 1, drainTasks := f.drainTasks - 1), live, effect)
  }

  /**
   * A finalizer run by the scheduled task that queues another live tracker
   * schedules a new task: the env is left with one scheduled drain and its
   * reference, and both trackers are finalized by the running one.
   */
  lemma {:induction false} DrainTaskReschedules()
    ensures var r := RunDrainTask(Finalization([1], true, false, 11, 1), {1, 2}, QueuesTwoFromOne);
      r.finalized == [1, 2] && r.state.scheduled && r.state.refs == 11 && r.state.drainTasks == 1
  {
    var start := Finalization([1], false, false, 10, 0);
    assert Finalization([1], true, false, 11, 1).(scheduled := false, refs := 10, drainTasks := 0) == start;
    FirstFinalizerQueuesSecond();
  }

  /** Tracker 1's finalizer queues tracker 2 on a live env with nothing scheduled. */
  lemma {:induction false} FirstFinalizerQueuesSecond()
    ensures DrainFinalizerQueue(Finalization([1], false, false, 10, 0), {1, 2}, QueuesTwoFromOne)
      == FinalizersDrained(Finalization([], true, false, 11, 1), [1, 2], [2])
  {
    var effect := QueuesTwoFromOne;
    var start := Finalization([1], false, false, 10, 0);
    var next := Finalization([2], true, false, 11, 1);
    FirstFinalizerStep();
    var d := DrainFinalizerQueue(next, {2}, effect);
    assert DrainFinalizerQueue(start, {1, 2}, effect) == FinalizersDrained(d.state, [1] + d.finalized, [2] + d.enqueued);
    SecondFinalizerQueuesNothing();
    assert [1] + [2] == [1, 2] && [2] + [] == [2];
  }

  /** After tracker 1's finalizer only tracker 2 is live, and it is pending with a task scheduled. */
  lemma {:induction false} FirstFinalizerStep()
    ensures var start := Finalization([1], false, false, 10, 0);
      && Survivors(start, {1, 2}, QueuesTwoFromOne) == {2}
      && Alive(QueuesTwoFromOne(1).queued, {2}) == [2]
      && AfterFront(start, {1, 2}, QueuesTwoFromOne) == Finalization([2], true, false, 11, 1)
  {
    var effect := QueuesTwoFromOne;
    var start := Finalization([1], false, false, 10, 0);
    var next := Finalization([2], true, false, 11, 1);
    assert effect(1) == FinalizerEffect([], [2]);
    assert Survivors(start, {1, 2}, effect) == {2} by {
      assert (set x | x in effect(1).deleted) == {};
      assert {1, 2} - {1} - {} == {2};
    }
    assert Alive([2], {2}) == [2];
    assert AfterFront(start, {1, 2}, effect) == next by {
      assert Minus([1][1..], []) == [];
      assert EnqueueAll(start.(pending := []), [2]) == next;
    }
  }

  /** Tracker 2's finalizer queues nothing: the scheduled task stays as it is. */
  lemma {:induction false} SecondFinalizerQueuesNothing()
    ensures DrainFinalizerQueue(Finalization([2], true, false, 11, 1), {2}, QueuesTwoFromOne)
      == FinalizersDrained(Finalization([], true, false, 11, 1), [2], [])
  {
    var effect := QueuesTwoFromOne;
    var next := Finalization([2], true, false, 11, 1);
    var last := Finalization([], true, false, 11, 1);
    assert effect(2) == FinalizerEffect([], []);
    assert Survivors(next, {2}, effect) == {} by {
      assert (set x | x in effect(2).deleted) == {};
      assert {2} - {2} - {} == {};
    }
    assert Alive([], {}) == [];
    assert AfterFront(next, {2}, effect) == last by {
      assert Minus([2][1..], []) == [];
      assert EnqueueAll(next.(pending := []), []) == last;
    }
    assert DrainFinalizerQueue(last, {}, effect) == FinalizersDrained(last, [], []);
  }

  /** The finalizer of tracker 1 queues tracker 2; no other finalizer does anything. */
  function QueuesTwoFromOne(t: nat): FinalizerEffect {
    if t == 1 then FinalizerEffect([], [2]) else FinalizerEffect([], [])
  }


  /**
   * DeleteMe's part in finalization: the env is marked as being torn down
   * and the queue is drained before the base teardown; finalizers queued
   * meanwhile are drained by the same loop and schedule nothing.
   */
  function DeleteFinalization(f: Finalization, live: set<nat>, effect: nat -> FinalizerEffect): (r: FinalizersDrained)
    requires Distinct(f.pending) && forall x :: x in f.pending ==> x in live
    ensures r.state.destructing && r.state.pending == []
    ensures r.state.scheduled == f.scheduled && r.state.drainTasks == f.drainTasks && r.state.refs == f.refs
    ensures forall x :: x in f.pending ==> x in r.finalized || x in Deletions(r.finalized, effect)
    ensures forall x :: x in Queued(r.finalized, effect) && x in live ==>
      x in r.finalized || x in Deletions(r.finalized, effect)
  {
    DrainFinalizerQueue(f.(destructing := true), live, effect)
  }

  // ---------------------------------------------------------------------
  // CallFinalizer and TriggerFatalException
  // ---------------------------------------------------------------------

  /** How a finalizer call ends: normally, or with the process exiting after writing to stderr. */
  datatype FinalizerOutcome = Finished | Aborted(code: int, stderr: string)

  /**
   * CallFinalizer: a finalizer run from the GC is called directly; any
   * other runs inside the module's error handling, and an exception it
   * throws, unless the env is terminating, prints the exception's detail
   * string and exits with ExitCode::kAbort.
   */
  function CallFinalizer(inGCFinalizer: bool, exception: Option<string>, terminating: bool): (r: FinalizerOutcome)
    ensures r.Aborted? <==> !inGCFinalizer && exception.Some? && !terminating
    ensures r.Aborted? ==>
      && UtilInl.FromCode(r.code) == Some(UtilInl.Abort)
      && r.stderr == exception.value + "\n\n"
  {
    if inGCFinalizer || exception.None? || terminating then Finished
    else Aborted(UtilInl.Code(UtilInl.Abort), exception.value + "\n" + "\n")
  }

  // ---------------------------------------------------------------------
  // The module envs of a runtime
  // ---------------------------------------------------------------------

  /** The runtime's envs in creation order, and its root env, if any. */
  datatype ModuleEnvs = ModuleEnvs(envs: seq<nat>, root: Option<nat>)

  /** A new runtime: it creates its root env, which is the first listed. */
  function NewModuleEnvs(rootEnv: nat): (m: ModuleEnvs)
    ensures m.envs == [rootEnv] && m.root == Some(rootEnv)
  {
    ModuleEnvs([rootEnv], Some(rootEnv))
  }

  /** createNodeApi: the new env is listed last. */
  function CreateNodeApi(m: ModuleEnvs, env: nat): (r: ModuleEnvs)
    ensures r.envs == m.envs + [env] && r.root == m.root
  {
    m.(envs := m.envs + [env])
  }

  /** The position of the first occurrence, as std::find gives it. */
  function PositionOf(s: seq<nat>, x: nat): (i: nat)
    requires x in s
    ensures i < |s| && s[i] == x && x !in s[..i]
  {
    if s[0] == x then 0
    else
      var i := 1 + PositionOf(s[1..], x);
      assert s[..i] == [s[0]] + s[1..][..i - 1];
      i
  }

  /** What removeModuleEnv leaves: the envs, whether the root went, and the envs unref'd. */
  datatype Removal = Removal(after: ModuleEnvs, wasRoot: bool, unrefed: seq<nat>)

  /**
   * removeModuleEnv: an unlisted env changes nothing. A listed one loses
   * its first entry; when it is the root, the root is cleared and every
   * env still listed is unref'd once.
   */
  function RemoveModuleEnv(m: ModuleEnvs, env: nat): (r: Removal)
    ensures env !in m.envs ==> r == Removal(m, false, [])
    ensures env in m.envs ==>
      && |r.after.envs| == |m.envs| - 1
      && multiset(r.after.envs) + multiset{env} == multiset(m.envs)
      && (r.wasRoot <==> m.root == Some(env))
    ensures r.wasRoot ==> r.after.root.None? && r.unrefed == r.after.envs
    ensures !r.wasRoot ==> r.after.root == m.root && r.unrefed == []
  {
    if env !in m.envs then Removal(m, false, [])
    else
      var i := PositionOf(m.envs, env);
      var rest := m.envs[..i] + m.envs[i + 1..];
      assert m.envs == m.envs[..i] + [env] + m.envs[i + 1..];
      if m.root == Some(env) then Removal(ModuleEnvs(rest, None), true, rest)
      else Removal(ModuleEnvs(rest, m.root), false, [])
  }

  /** An env created and removed again, that is not the root, leaves the runtime's list as it was. */
  lemma {:induction false} CreateThenRemove(m: ModuleEnvs, env: nat)
    requires env !in m.envs && m.root != Some(env)
    ensures RemoveModuleEnv(CreateNodeApi(m, env), env) == Removal(m, false, [])
  {
    var s := m.envs + [env];
    assert forall j :: 0 <= j < |m.envs| ==> s[j] == m.envs[j] && s[j] != env;
    assert PositionOf(s, env) == |m.envs|;
    assert s[..|m.envs|] + s[|m.envs| + 1..] == m.envs;
  }

  /** Removing the root of a new runtime unrefs the envs created since, in creation order. */
  lemma {:induction false} RemoveRootUnrefsModules(rootEnv: nat, modules: seq<nat>)
    requires rootEnv !in modules
    ensures var r := RemoveModuleEnv(ModuleEnvs([rootEnv] + modules, Some(rootEnv)), rootEnv);
      r.wasRoot && r.unrefed == modules && r.after == ModuleEnvs(modules, None)
  {
    var s := [rootEnv] + modules;
    assert PositionOf(s, rootEnv) == 0;
    assert s[..0] + s[1..] == modules;
  }

  // ---------------------------------------------------------------------
  // NodeApiIsolateLocker and env scopes
  // ---------------------------------------------------------------------

  /** A locker: its identity, the runtime it locks and its reference count. */
  datatype Locker = Locker(id: nat, runtime: nat, refCount: int)

  /**
   * The thread's lockers: each one's `previous_` is the one below it and
   * the current one is on top; ids of new lockers come from `nextId`.
   */
  datatype Lockers = Lockers(stack: seq<Locker>, nextId: nat)

  /** Every locker is held at least once and has an id below `nextId`, and no two share one. */
  predicate ValidLockers(l: Lockers) {
    && (forall i :: 0 <= i < |l.stack| ==> l.stack[i].refCount >= 1 && l.stack[i].id < l.nextId)
    && (forall i, j :: 0 <= i < j < |l.stack| ==> l.stack[i].id != l.stack[j].id)
  }

  const NoLockers := Lockers([], 0)

  /** The thread's current locker. */
  function Current(l: Lockers): (r: Option<Locker>)
    ensures r.Some? <==> l.stack != []
    ensures r.Some? ==> r.value == l.stack[|l.stack| - 1]
  {
    if l.stack == [] then None else Some(l.stack[|l.stack| - 1])
  }

  /** What openEnvScope leaves: the status, the lockers and the scope handle written out. */
  datatype Opened = Opened(status: Status, lockers: Lockers, scope: Option<nat>)

  /**
   * openEnvScope: when the current locker is for this runtime it gains a
   * reference, otherwise a new locker becomes current; the handle is the
   * current locker.
   */
  function OpenEnvScope(l: Lockers, runtime: nat, hasScopeOut: bool): (r: Opened)
    requires ValidLockers(l)
    ensures !hasScopeOut <==> r.status == InvalidArg
    ensures !hasScopeOut ==> r.lockers == l && r.scope.None?
    ensures hasScopeOut ==> r.status == Ok && ValidLockers(r.lockers)
    ensures hasScopeOut ==>
      && Current(r.lockers).Some? && r.scope == Some(Current(r.lockers).value.id)
      && Current(r.lockers).value.runtime == runtime
    ensures hasScopeOut && Current(l).Some? && Current(l).value.runtime == runtime ==>
      |r.lockers.stack| == |l.stack| && r.lockers.stack[..|l.stack| - 1] == l.stack[..|l.stack| - 1]
      && Current(r.lockers).value == Current(l).value.(refCount := Current(l).value.refCount + 1)
    ensures hasScopeOut && !(Current(l).Some? && Current(l).value.runtime == runtime) ==>
      r.lockers.stack == l.stack + [Locker(l.nextId, runtime, 1)]
  {
    if !hasScopeOut then Opened(InvalidArg, l, None)
    else if l.stack != [] && l.stack[|l.stack| - 1].runtime == runtime then
      var top := l.stack[|l.stack| - 1];
      var bumped := top.(refCount := top.refCount + 1);
      Opened(Ok, l.(stack := l.stack[..|l.stack| - 1] + [bumped]), Some(top.id))
    else
      var created := Locker(l.nextId, runtime, 1);
      Opened(Ok, Lockers(l.stack + [created], l.nextId + 1), Some(created.id))
  }

  /** What closeEnvScope leaves: the status and the lockers. */
  datatype Closed = Closed(status: Status, lockers: Lockers)

  /**
   * closeEnvScope: a missing handle is an argument error; a handle that is
   * not the current locker fails and changes nothing; otherwise the locker
   * loses a reference and, at the last one, is destroyed and the previous
   * locker becomes current again.
   */
  function CloseEnvScope(l: Lockers, scope: Option<nat>): (r: Closed)
    requires ValidLockers(l)
    ensures scope.None? ==> r == Closed(InvalidArg, l)
    ensures scope.Some? && (Current(l).None? || Current(l).value.id != scope.value) ==>
      r == Closed(GenericFailure, l)
    ensures scope.Some? && Current(l).Some? && Current(l).value.id == scope.value ==>
      && r.status == Ok && ValidLockers(r.lockers) && r.lockers.nextId == l.nextId
      && (Current(l).value.refCount == 1 ==> r.lockers.stack == l.stack[..|l.stack| - 1])
      && (Current(l).value.refCount > 1 ==>
            r.lockers.stack == l.stack[..|l.stack| - 1] + [Current(l).value.(refCount := Current(l).value.refCount - 1)])
  {
    if scope.None? then Closed(InvalidArg, l)
    else if l.stack == [] || l.stack[|l.stack| - 1].id != scope.value then Closed(GenericFailure, l)
    else
      var top := l.stack[|l.stack| - 1];
      if top.refCount - 1 == 0 then Closed(Ok, l.(stack := l.stack[..|l.stack| - 1]))
      else Closed(Ok, l.(stack := l.stack[..|l.stack| - 1] + [top.(refCount := top.refCount - 1)]))
  }

  /** A scope opened and closed again leaves the thread's lockers as they were. */
  lemma {:induction false} OpenCloseRestores(l: Lockers, runtime: nat)
    requires ValidLockers(l)
    ensures var o := OpenEnvScope(l, runtime, true);
      var c := CloseEnvScope(o.lockers, o.scope);
      c.status == Ok && c.lockers.stack == l.stack
  {
    var o := OpenEnvScope(l, runtime, true);
    if l.stack != [] && l.stack[|l.stack| - 1].runtime == runtime {
      assert l.stack == l.stack[..|l.stack| - 1] + [l.stack[|l.stack| - 1]];
    }
  }

  // ---------------------------------------------------------------------
  // ConfigWrapper
  // ---------------------------------------------------------------------

  /** The configuration the setters fill in; the runner and cache are opaque handles. */
  datatype Config = Config(
    enableInspector: bool,
    enableMultithreading: bool,
    enableGCApi: bool,
    inspectorRuntimeName: string,
    inspectorPort: uint16,
    inspectorBreakOnStart: bool,
    taskRunner: Option<nat>,
    scriptCache: Option<nat>)

  /** A fresh ConfigWrapper: every field value-initialised. */
  const DefaultConfig := Config(false, false, false, "", 0, false, None, None)

  /** One setter call. */
  datatype Setting =
    | EnableInspector(on: bool)
    | EnableGCApi(on: bool)
    | EnableMultithreading(on: bool)
    | SetInspectorRuntimeName(name: string)
    | SetInspectorPort(port: uint16)
    | SetInspectorBreakOnStart(on: bool)
    | SetTaskRunner(runner: Option<nat>)
    | SetScriptCache(cache: Option<nat>)

  /** A setter: it stores its value in its own field and returns napi_ok. */
  function Set(c: Config, s: Setting): (r: Config)
  {
    match s
    case EnableInspector(on) => c.(enableInspector := on)
    case EnableGCApi(on) => c.(enableGCApi := on)
    case EnableMultithreading(on) => c.(enableMultithreading := on)
    case SetInspectorRuntimeName(name) => c.(inspectorRuntimeName := name)
    case SetInspectorPort(port) => c.(inspectorPort := port)
    case SetInspectorBreakOnStart(on) => c.(inspectorBreakOnStart := on)
    case SetTaskRunner(runner) => c.(taskRunner := runner)
    case SetScriptCache(cache) => c.(scriptCache := cache)
  }

  /** The setters called in order on a fresh wrapper. */
  function Configure(settings: seq<Setting>): Config
    decreases |settings|
  {
    if settings == [] then DefaultConfig
    else Set(Configure(settings[..|settings| - 1]), settings[|settings| - 1])
  }

  /** The V8 flags of the runtime arguments. */
  datatype Flags = Flags(
    trackGCObjectStats: bool,
    enableJitTracing: bool,
    enableMessageTracing: bool,
    enableGCTracing: bool,
    enableInspector: bool,
    waitForDebugger: bool,
    enableGCApi: bool,
    ignoreUnhandledPromises: bool,
    enableSystemInstrumentation: bool,
    sparkplug: bool,
    predictable: bool,
    optimizeForSize: bool,
    alwaysCompact: bool,
    jitless: bool,
    liteMode: bool,
    threadPoolSize: nat,
    enableMultiThread: bool)

  /** The runtime arguments; the store is absent unless a script cache was set. */
  datatype RuntimeArgs = RuntimeArgs(
    flags: Flags,
    inspectorPort: uint16,
    debuggerRuntimeName: string,
    foregroundTaskRunner: Option<nat>,
    preparedScriptStore: Option<nat>)

  /** Every flag no setter controls is off. */
  predicate OtherFlagsOff(f: Flags) {
    && !f.trackGCObjectStats && !f.enableJitTracing && !f.enableMessageTracing
    && !f.enableGCTracing && !f.ignoreUnhandledPromises && !f.enableSystemInstrumentation
    && !f.sparkplug && !f.predictable && !f.optimizeForSize && !f.alwaysCompact
    && !f.jitless && !f.liteMode && f.threadPoolSize == 0
  }

  /** getV8RuntimeArgs. */
  function GetV8RuntimeArgs(c: Config): (a: RuntimeArgs)
    ensures OtherFlagsOff(a.flags)
  {
    var flags := Flags(
      false, false, false, false,
      c.enableInspector, c.inspectorBreakOnStart, c.enableGCApi,
      false, false, false, false, false, false, false, false, 0,
      c.enableMultithreading);
    RuntimeArgs(flags, c.inspectorPort, c.inspectorRuntimeName, c.taskRunner,
                if c.scriptCache.Some? then c.scriptCache else None)
  }

  /** The value the last call of one setter gave, or the field's default when it was never called. */
  function LastSet<T>(settings: seq<Setting>, pick: Setting -> Option<T>, default: T): T
    decreases |settings|
  {
    if settings == [] then default
    else
      match pick(settings[|settings| - 1])
      case Some(v) => v
      case None => LastSet(settings[..|settings| - 1], pick, default)
  }

  function InspectorOf(s: Setting): Option<bool> { if s.EnableInspector? then Some(s.on) else None }
  function GCApiOf(s: Setting): Option<bool> { if s.EnableGCApi? then Some(s.on) else None }
  function MultithreadingOf(s: Setting): Option<bool> { if s.EnableMultithreading? then Some(s.on) else None }
  function NameOf(s: Setting): Option<string> { if s.SetInspectorRuntimeName? then Some(s.name) else None }
  function PortOf(s: Setting): Option<uint16> { if s.SetInspectorPort? then Some(s.port) else None }
  function BreakOnStartOf(s: Setting): Option<bool> { if s.SetInspectorBreakOnStart? then Some(s.on) else None }
  function RunnerOf(s: Setting): Option<Option<nat>> { if s.SetTaskRunner? then Some(s.runner) else None }
  function CacheOf(s: Setting): Option<Option<nat>> { if s.SetScriptCache? then Some(s.cache) else None }

  /** The inspector's flags hold the last value their setter was given, or false. */
  lemma {:induction false} ConfigureReflectsInspectorFlags(settings: seq<Setting>)
    ensures var c := Configure(settings);
      && c.enableInspector == LastSet(settings, InspectorOf, false)
      && c.inspectorBreakOnStart == LastSet(settings, BreakOnStartOf, false)
    decreases |settings|
  {
    if settings != [] {
      var prefix := settings[..|settings| - 1];
      var last := settings[|settings| - 1];
      ConfigureReflectsInspectorFlags(prefix);
      assert Configure(settings) == Set(Configure(prefix), last);
      match last {
        case EnableInspector(_) =>
        case EnableGCApi(_) =>
        case EnableMultithreading(_) =>
        case SetInspectorRuntimeName(_) =>
        case SetInspectorPort(_) =>
        case SetInspectorBreakOnStart(_) =>
        case SetTaskRunner(_) =>
        case SetScriptCache(_) =>
      }
    }
  }

  /** The GC API and multithreading flags hold the last value their setter was given, or false. */
  lemma {:induction false} ConfigureReflectsRuntimeFlags(settings: seq<Setting>)
    ensures var c := Configure(settings);
      && c.enableGCApi == LastSet(settings, GCApiOf, false)
      && c.enableMultithreading == LastSet(settings, MultithreadingOf, false)
    decreases |settings|
  {
    if settings != [] {
      var prefix := settings[..|settings| - 1];
      var last := settings[|settings| - 1];
      ConfigureReflectsRuntimeFlags(prefix);
      assert Configure(settings) == Set(Configure(prefix), last);
      match last {
        case EnableInspector(_) =>
        case EnableGCApi(_) =>
        case EnableMultithreading(_) =>
        case SetInspectorRuntimeName(_) =>
        case SetInspectorPort(_) =>
        case SetInspectorBreakOnStart(_) =>
        case SetTaskRunner(_) =>
        case SetScriptCache(_) =>
      }
    }
  }

  /** The other fields hold the last value their setter was given, or the default. */
  lemma {:induction false} ConfigureReflectsValues(settings: seq<Setting>)
    ensures var c := Configure(settings);
      && c.inspectorRuntimeName == LastSet(settings, NameOf, "")
      && c.inspectorPort == LastSet(settings, PortOf, 0)
      && c.taskRunner == LastSet(settings, RunnerOf, None)
      && c.scriptCache == LastSet(settings, CacheOf, None)
    decreases |settings|
  {
    if settings != [] {
      var prefix := settings[..|settings| - 1];
      var last := settings[|settings| - 1];
      ConfigureReflectsValues(prefix);
      assert Configure(settings) == Set(Configure(prefix), last);
      match last {
        case EnableInspector(_) =>
        case EnableGCApi(_) =>
        case EnableMultithreading(_) =>
        case SetInspectorRuntimeName(_) =>
        case SetInspectorPort(_) =>
        case SetInspectorBreakOnStart(_) =>
        case SetTaskRunner(_) =>
        case SetScriptCache(_) =>
      }
    }
  }

  /** The wrapper's fields hold the last value each setter was given, or the default. */
  lemma {:induction false} ConfigureReflectsSetters(settings: seq<Setting>)
    ensures var c := Configure(settings);
      && c.enableInspector == LastSet(settings, InspectorOf, false)
      && c.enableGCApi == LastSet(settings, GCApiOf, false)
      && c.enableMultithreading == LastSet(settings, MultithreadingOf, false)
      && c.inspectorBreakOnStart == LastSet(settings, BreakOnStartOf, false)
      && c.inspectorRuntimeName == LastSet(settings, NameOf, "")
      && c.inspectorPort == LastSet(settings, PortOf, 0)
      && c.taskRunner == LastSet(settings, RunnerOf, None)
      && c.scriptCache == LastSet(settings, CacheOf, None)
  {
    ConfigureReflectsInspectorFlags(settings);
    ConfigureReflectsRuntimeFlags(settings);
    ConfigureReflectsValues(settings);
  }

  /**
   * Whatever the setter calls, the runtime arguments carry the last value
   * each setter was given (the default where it was never called), and
   * every other flag is off.
   */
  lemma {:induction false} ArgsReflectLastSetters(settings: seq<Setting>)
    ensures var a := GetV8RuntimeArgs(Configure(settings));
      && a.flags.enableInspector == LastSet(settings, InspectorOf, false)
      && a.flags.enableGCApi == LastSet(settings, GCApiOf, false)
      && a.flags.enableMultiThread == LastSet(settings, MultithreadingOf, false)
      && a.flags.waitForDebugger == LastSet(settings, BreakOnStartOf, false)
      && a.debuggerRuntimeName == LastSet(settings, NameOf, "")
      && a.inspectorPort == LastSet(settings, PortOf, 0)
      && a.foregroundTaskRunner == LastSet(settings, RunnerOf, None)
      && a.preparedScriptStore == LastSet(settings, CacheOf, None)
      && OtherFlagsOff(a.flags)
  {
    ConfigureReflectsSetters(settings);
  }

  // ---------------------------------------------------------------------
  // V8ScriptCache and drainMicrotasks
  // ---------------------------------------------------------------------

  /** What the embedder's load callback wrote: a data pointer, a size, a deleter and the deleter's data. */
  datatype Loaded = Loaded(data: Option<nat>, size: nat, deleter: Option<nat>, deleterData: Option<nat>)

  /** The JSI buffer handed to V8: it owns the data and calls the deleter, with its data, when released. */
  datatype JsiBuffer = JsiBuffer(data: Option<nat>, size: nat, deleter: Option<nat>, deleterData: Option<nat>)

  /** tryGetPreparedScript: a buffer only when the callback returned non-empty data. */
  function TryGetPreparedScript(loaded: Loaded): (r: Option<JsiBuffer>)
    ensures r.Some? <==> loaded.data.Some? && loaded.size != 0
    ensures r.Some? ==> r.value == JsiBuffer(loaded.data, loaded.size, loaded.deleter, loaded.deleterData)
  {
    if loaded.data.Some? && loaded.size != 0 then Some(JsiBuffer(loaded.data, loaded.size, loaded.deleter, loaded.deleterData))
    else None
  }

  /** drainMicrotasks: V8 drains after each call, so the result, when asked for, is true. */
  function DrainMicrotasks(resultOut: Option<bool>): (r: (Status, Option<bool>))
    ensures r.0 == Ok
    ensures r.1.Some? <==> resultOut.Some?
    ensures resultOut.Some? ==> r.1 == Some(true)
  {
    if resultOut.Some? then (Ok, Some(true)) else (Ok, None)
  }
}

=== FILE: node_api_runtime.dfy ===
/**
 * Lifetime bookkeeping of the Node-API JSI runtime
 * (src/node-api-jsi/NodeApiJsiRuntime.cpp): the intrusive reference count
 * of pointer values, the stack of pointer-value scopes, the string keys of
 * the property-name cache, and the AutoRestore guard.
 */
module NodeApiRuntime {
  import opened Wrappers

  // ---------------------------------------------------------------------
  // NodeApiRefCount
  // ---------------------------------------------------------------------

  /** What one step on a reference count does: a new count, or a crash with its message. */
  datatype CountStep = Counted(count: int, reachedZero: bool) | Crashed(message: string)

  const BOUNCE_MESSAGE := "The ref count cannot bounce from zero."
  const TOO_BIG_MESSAGE := "The ref count is too big."
  const NEGATIVE_MESSAGE := "The ref count must not be negative."

  /**
   * incRefCount: the count after the increment must be above one (a count
   * of zero must not come back to life) and below INT32_MAX.
   */
  function IncRefCount(count: int): (r: CountStep)
    ensures r.Crashed? <==> count < 1 || count >= INT32_MAX - 1
    ensures r.Crashed? && count < 1 ==> r.message == BOUNCE_MESSAGE
    ensures r.Counted? ==> r.count == count + 1 && 2 <= r.count < INT32_MAX && !r.reachedZero
  {
    var refCount := count + 1;
    if refCount <= 1 then Crashed(BOUNCE_MESSAGE)
    else if refCount >= INT32_MAX then Crashed(TOO_BIG_MESSAGE)
    else Counted(refCount, false)
  }

  /** decRefCount: a negative result crashes; the result says whether the count reached zero. */
  function DecRefCount(count: int): (r: CountStep)
    ensures r.Crashed? <==> count < 1
    ensures r.Counted? ==> r.count == count - 1 && r.count >= 0
    ensures r.Counted? ==> (r.reachedZero <==> count == 1)
  {
    var refCount := count - 1;
    if refCount < 0 then Crashed(NEGATIVE_MESSAGE)
    else Counted(refCount, refCount == 0)
  }

  /** A reference taken and dropped again leaves a live count as it was. */
  lemma {:induction false} IncThenDec(count: int)
    requires 1 <= count < INT32_MAX - 1
    ensures IncRefCount(count).Counted?
    ensures DecRefCount(IncRefCount(count).count) == Counted(count, false)
  {
  }

  /**
   * `n` successive decRefCount calls from `count`: the results they return,
   * or none when one of them crashes.
   */
  function Releases(count: int, n: nat): Option<seq<bool>>
    decreases n
  {
    if n == 0 then Some([])
    else
      match DecRefCount(count)
      case Crashed(_) => None
      case Counted(c, zero) =>
        match Releases(c, n - 1)
        case None => None
        case Some(rest) => Some([zero] + rest)
  }

  /**
   * Of the releases of `count` holders, exactly the last reports zero, and
   * one release more than there are holders crashes.
   */
  lemma {:induction false} ReleasesSpec(count: nat, n: nat)
    ensures Releases(count, n).Some? <==> n <= count
    ensures Releases(count, n).Some? ==>
      |Releases(count, n).value| == n &&
      forall k :: 0 <= k < n ==> (Releases(count, n).value[k] <==> k == count - 1)
    decreases n
  {
    if n > 0 && count >= 1 {
      ReleasesSpec(count - 1, n - 1);
      var rest := Releases(count - 1, n - 1);
      if rest.Some? {
        var all := [count == 1] + rest.value;
        assert Releases(count, n) == Some(all);
        forall k | 1 <= k < n
          ensures all[k] <==> k == count - 1
        {
          assert all[k] == rest.value[k - 1];
        }
      }
    }
  }

  /** isZero. */
  predicate IsZero(count: int) {
    count == 0
  }

  /** After as many releases as holders the count is zero. */
  lemma {:induction false} ReleasedCountIsZero(count: nat)
    ensures Releases(count, count).Some? && |Releases(count, count).value| == count
    ensures count > 0 ==> Releases(count, count).value[count - 1]
  {
    ReleasesSpec(count, count);
  }

  // ---------------------------------------------------------------------
  // Pointer-value scopes
  // ---------------------------------------------------------------------

  /**
   * The runtime's stack values (opaque ids of the pointer values a scope
   * owns) and its scope stack, each entry the stack length when the scope
   * was pushed.
   */
  datatype Scopes = Scopes(values: seq<nat>, marks: seq<nat>)

  /** Every mark is within the stack, and inner scopes start no earlier than outer ones. */
  predicate ValidScopes(s: Scopes) {
    && (forall i :: 0 <= i < |s.marks| ==> s.marks[i] <= |s.values|)
    && (forall i, j :: 0 <= i < j < |s.marks| ==> s.marks[i] <= s.marks[j])
  }

  const NoScopes := Scopes([], [])

  /** addStackValue. */
  function AddStackValue(s: Scopes, v: nat): (r: Scopes)
    ensures r.marks == s.marks && |r.values| == |s.values| + 1
    ensures r.values[..|s.values|] == s.values && r.values[|s.values|] == v
    ensures ValidScopes(s) ==> ValidScopes(r)
  {
    Scopes(s.values + [v], s.marks)
  }

  /** addStackValue for each of `vs`, in order. */
  function AddStackValues(s: Scopes, vs: seq<nat>): (r: Scopes)
    ensures r.marks == s.marks && r.values == s.values + vs
    ensures ValidScopes(s) ==> ValidScopes(r)
    decreases |vs|
  {
    if vs == [] then s
    else
      var r := AddStackValues(AddStackValue(s, vs[0]), vs[1..]);
      assert s.values + [vs[0]] + vs[1..] == s.values + vs;
      r
  }

  /** pushPointerValueScope. */
  function PushScope(s: Scopes): (r: Scopes)
    ensures r.values == s.values && r.marks == s.marks + [|s.values|]
    ensures ValidScopes(s) ==> ValidScopes(r)
  {
    Scopes(s.values, s.marks + [|s.values|])
  }

  /** A pop deletes the values above the mark, first to last, or crashes with no scope open. */
  datatype PopResult = Popped(after: Scopes, deleted: seq<nat>) | PopCrashed(message: string)

  const NO_SCOPE_MESSAGE := "There are no scopes to pop"

  /** popPointerValueScope. */
  function PopScope(s: Scopes): (r: PopResult)
    requires ValidScopes(s)
    ensures r.PopCrashed? <==> s.marks == []
    ensures r.Popped? ==> ValidScopes(r.after)
    ensures r.Popped? ==> r.after.marks == s.marks[..|s.marks| - 1]
    ensures r.Popped? ==> r.after.values + r.deleted == s.values
    ensures r.Popped? ==> |r.after.values| == s.marks[|s.marks| - 1]
  {
    if s.marks == [] then PopCrashed(NO_SCOPE_MESSAGE)
    else
      var newSize := s.marks[|s.marks| - 1];
      assert s.values == s.values[..newSize] + s.values[newSize..];
      Popped(Scopes(s.values[..newSize], s.marks[..|s.marks| - 1]), s.values[newSize..])
  }

  /**
   * Scopes nest: pushing a scope, adding values and popping it deletes
   * exactly those values and restores the state before the push.
   */
  lemma {:induction false} ScopeRestores(s: Scopes, vs: seq<nat>)
    requires ValidScopes(s)
    ensures PopScope(AddStackValues(PushScope(s), vs)) == Popped(s, vs)
  {
    var inner := AddStackValues(PushScope(s), vs);
    assert inner.marks[..|inner.marks| - 1] == s.marks;
    assert inner.values[..|s.values|] == s.values;
    assert inner.values[|s.values|..] == vs;
  }

  /** The empty runtime is valid, and popping it crashes. */
  lemma {:induction false} NoScopesToPop()
    ensures ValidScopes(NoScopes)
    ensures PopScope(NoScopes) == PopCrashed(NO_SCOPE_MESSAGE)
  {
  }

  // ---------------------------------------------------------------------
  // StringKey
  // ---------------------------------------------------------------------

  /** A key owns its string or views someone else's. */
  datatype Storage = OwnedString | View

  /** The key's text and its cached hash. */
  datatype StringKey = StringKey(storage: Storage, text: string, hash: nat)

  /** The three constructors: the hash is std::hash of the text, here the function `h`. */
  function NewStringKey(storage: Storage, text: string, h: string -> nat): (k: StringKey)
    ensures HashConsistent(k, h) && k.text == text && k.storage == storage
  {
    StringKey(storage, text, h(text))
  }

  predicate HashConsistent(k: StringKey, h: string -> nat) {
    k.hash == h(k.text)
  }

  /**
   * The move constructor: the new key takes the storage kind, the text and
   * the hash; the source's hash becomes zero and its text empty.
   */
  function MoveStringKey(source: StringKey): (r: (StringKey, StringKey))
    ensures r.0.storage == source.storage && r.0.text == source.text && r.0.hash == source.hash
    ensures r.1.hash == 0 && r.1.text == [] && r.1.storage == source.storage
  {
    (StringKey(source.storage, source.text, source.hash), StringKey(source.storage, [], 0))
  }

  /** Move assignment: a self-move changes nothing; otherwise it is the move constructor. */
  function MoveAssignStringKey(target: StringKey, source: StringKey, sameObject: bool): (r: (StringKey, StringKey))
    ensures sameObject ==> r == (target, source)
    ensures !sameObject ==> r.0.text == source.text && r.0.hash == source.hash && r.1.hash == 0
  {
    if sameObject then (target, source) else MoveStringKey(source)
  }

  /** Moving keeps a key's hash consistent with its text. */
  lemma {:induction false} MoveKeepsHash(source: StringKey, h: string -> nat)
    requires HashConsistent(source, h)
    ensures HashConsistent(MoveStringKey(source).0, h)
    ensures StringKeyEqual(MoveStringKey(source).0, source)
  {
    CompareSelf(source.text);
  }

  /** std::string_view::compare: lexicographic, negative, zero or positive. */
  function Compare(a: string, b: string): (r: int)
    ensures -1 <= r <= 1
    decreases |a|
  {
    if a == [] && b == [] then 0
    else if a == [] then -1
    else if b == [] then 1
    else if a[0] < b[0] then -1
    else if a[0] > b[0] then 1
    else Compare(a[1..], b[1..])
  }

  lemma {:induction false} CompareSelf(a: string)
    ensures Compare(a, a) == 0
    decreases |a|
  {
    if a != [] {
      CompareSelf(a[1..]);
    }
  }

  /** Compare is zero exactly for equal strings. */
  lemma {:induction false} CompareZero(a: string, b: string)
    ensures Compare(a, b) == 0 <==> a == b
    decreases |a|
  {
    if a == b {
      CompareSelf(a);
    } else if a != [] && b != [] && a[0] == b[0] {
      CompareZero(a[1..], b[1..]);
      assert a == [a[0]] + a[1..] && b == [b[0]] + b[1..];
    }
  }

  /** equalTo: the two views compare equal. */
  predicate StringKeyEqual(a: StringKey, b: StringKey) {
    Compare(a.text, b.text) == 0
  }

  /**
   * Keys are equal exactly when their texts are, whichever storage they
   * use, and equal keys built with one hash have equal hashes, as an
   * unordered_map needs.
   */
  lemma {:induction false} StringKeyEqualSpec(a: StringKey, b: StringKey, h: string -> nat)
    ensures StringKeyEqual(a, b) <==> a.text == b.text
    ensures StringKeyEqual(a, b) && HashConsistent(a, h) && HashConsistent(b, h) ==> a.hash == b.hash
  {
    CompareZero(a.text, b.text);
  }

  // ---------------------------------------------------------------------
  // AutoRestore
  // ---------------------------------------------------------------------

  /** Entering guards with the values `news`, outermost first: the variable and the saved values. */
  function EnterGuards<T>(v: T, news: seq<T>): (r: (T, seq<T>))
    ensures |r.1| == |news|
    ensures news == [] ==> r.0 == v
    ensures news != [] ==> r.0 == news[|news| - 1] && r.1[0] == v
    ensures forall i :: 0 < i < |news| ==> r.1[i] == news[i - 1]
    decreases |news|
  {
    if news == [] then (v, [])
    else
      var (cur, saved) := EnterGuards(v, news[..|news| - 1]);
      (news[|news| - 1], saved + [cur])
  }

  /** Destroying the `k` innermost guards, each putting back the value it saved. */
  function LeaveGuards<T>(v: T, saved: seq<T>, k: nat): (r: T)
    requires k <= |saved|
    decreases k
  {
    if k == 0 then v
    else LeaveGuards(saved[|saved| - 1], saved[..|saved| - 1], k - 1)
  }

  /**
   * Guards restore in LIFO order: after the `k` innermost of nested guards
   * are gone the variable holds the value the next enclosing guard set, and
   * after all of them its original value.
   */
  lemma {:induction false} GuardsRestore<T>(v: T, news: seq<T>, k: nat)
    requires k <= |news|
    ensures var (cur, saved) := EnterGuards(v, news);
      LeaveGuards(cur, saved, k) == if k == |news| then v else news[|news| - 1 - k]
    decreases k
  {
    if k > 0 {
      var (cur, saved) := EnterGuards(v, news);
      var init := news[..|news| - 1];
      var (cur', saved') := EnterGuards(v, init);
      assert saved == saved' + [cur'] && cur == news[|news| - 1];
      GuardsRestore(v, init, k - 1);
      if k - 1 < |init| {
        assert init[|init| - 1 - (k - 1)] == news[|news| - 1 - k];
      }
    }
  }
}

=== FILE: own_keys.dfy ===
/**
 * The host-object Proxy `ownKeys` trap: hostObjectOwnKeysTrap in
 * src/node-api-jsi/NodeApiJsiRuntime.cpp, and the plain deduplicating
 * HostObjectOwnKeysTrap in src/public/NapiJsiRuntime.cpp. Engine values are
 * opaque: a key is its pointer identity plus what the engine reports
 * about it.
 */
module OwnKeys {
  import opened Wrappers
  import opened ArrayIndex

  /** What `typeOf` reports for a key, with the string's text. */
  datatype KeyValue = Str(text: string) | Sym(symbol: nat) | OtherType

  /** A property key; `id` is the identity of its PointerValue (or of its napi_ext_ref). */
  datatype Key = Key(id: nat, value: KeyValue)

  datatype TrapResult = Keys(keys: seq<Key>) | UnexpectedKeyType | NonUniqueTargetKeys

  function Ids(ks: seq<Key>): set<nat> {
    set i | 0 <= i < |ks| :: ks[i].id
  }

  predicate DistinctIds(ks: seq<Key>) {
    forall i, j :: 0 <= i < j < |ks| ==> ks[i].id != ks[j].id
  }

  predicate HasOtherType(ks: seq<Key>) {
    exists i :: 0 <= i < |ks| && ks[i].value.OtherType?
  }

  lemma {:induction false} IdsAppend(a: seq<Key>, b: seq<Key>)
    ensures Ids(a + b) == Ids(a) + Ids(b)
  {
    forall x | x in Ids(a + b)
      ensures x in Ids(a) + Ids(b)
    {
      var i :| 0 <= i < |a + b| && (a + b)[i].id == x;
      if i >= |a| {
        assert b[i - |a|].id == x;
      }
    }
    forall x | x in Ids(a) + Ids(b)
      ensures x in Ids(a + b)
    {
      if x in Ids(a) {
        var i :| 0 <= i < |a| && a[i].id == x;
        assert (a + b)[i].id == x;
      } else {
        var i :| 0 <= i < |b| && b[i].id == x;
        assert (a + b)[|a| + i].id == x;
      }
    }
  }

  // ---------------------------------------------------------------------
  // Reading the target's own keys
  // ---------------------------------------------------------------------

  /** The target keys the trap keeps: all but the host-object symbol. */
  function Kept(ks: seq<Key>, hostSymbol: nat): (r: seq<Key>)
    ensures |r| <= |ks|
  {
    if ks == [] then []
    else (if ks[0].value == Sym(hostSymbol) then [] else [ks[0]]) + Kept(ks[1..], hostSymbol)
  }

  /**
   * The loop over the target keys from index `i`, `acc` holding the keys
   * added so far: a key of another type throws, the host-object symbol is
   * skipped, and a key whose identity is already present throws.
   */
  function ReadTarget(target: seq<Key>, hostSymbol: nat, i: nat, acc: seq<Key>): TrapResult
    requires i <= |target|
    decreases |target| - i
  {
    if i == |target| then Keys(acc)
    else
      var k := target[i];
      if k.value.OtherType? then UnexpectedKeyType
      else if k.value == Sym(hostSymbol) then ReadTarget(target, hostSymbol, i + 1, acc)
      else if k.id in Ids(acc) then NonUniqueTargetKeys
      else ReadTarget(target, hostSymbol, i + 1, acc + [k])
  }

  lemma {:induction false} ReadTargetSpec(target: seq<Key>, hostSymbol: nat, i: nat, acc: seq<Key>)
    requires i <= |target| && DistinctIds(acc)
    ensures var r := ReadTarget(target, hostSymbol, i, acc);
      var all := acc + Kept(target[i..], hostSymbol);
      && (r.Keys? <==> !HasOtherType(target[i..]) && DistinctIds(all))
      && (r.Keys? ==> r.keys == all)
      && (r == UnexpectedKeyType ==> HasOtherType(target[i..]))
      && (r == NonUniqueTargetKeys ==> !DistinctIds(all))
    decreases |target| - i
  {
    if i == |target| {
      assert target[i..] == [];
      assert acc + Kept(target[i..], hostSymbol) == acc;
    } else {
      var k := target[i];
      var rest := target[i + 1..];
      assert target[i..] == [k] + rest;
      assert target[i..][1..] == rest;
      var keptHere := if k.value == Sym(hostSymbol) then [] else [k];
      assert Kept(target[i..], hostSymbol) == keptHere + Kept(rest, hostSymbol);
      if k.value.OtherType? {
        assert target[i..][0] == k;
      } else if k.value == Sym(hostSymbol) {
        ReadTargetSpec(target, hostSymbol, i + 1, acc);
        assert acc + Kept(target[i..], hostSymbol) == acc + Kept(rest, hostSymbol);
        NoOtherTypeInTail(target[i..]);
      } else if k.id in Ids(acc) {
        var j :| 0 <= j < |acc| && acc[j].id == k.id;
        var all := acc + Kept(target[i..], hostSymbol);
        assert all[j].id == all[|acc|].id;
      } else {
        var acc' := acc + [k];
        AppendFreshKeepsDistinct(acc, k);
        ReadTargetSpec(target, hostSymbol, i + 1, acc');
        assert acc' + Kept(rest, hostSymbol) == acc + Kept(target[i..], hostSymbol);
        NoOtherTypeInTail(target[i..]);
      }
    }
  }

  /** A list has a key of another type iff its head or its tail has. */
  lemma {:induction false} NoOtherTypeInTail(ks: seq<Key>)
    requires ks != []
    ensures HasOtherType(ks) <==> ks[0].value.OtherType? || HasOtherType(ks[1..])
  {
    if HasOtherType(ks) && !ks[0].value.OtherType? {
      var i :| 0 <= i < |ks| && ks[i].value.OtherType?;
      assert ks[1..][i - 1] == ks[i];
    }
    if HasOtherType(ks[1..]) {
      var i :| 0 <= i < |ks[1..]| && ks[1..][i].value.OtherType?;
      assert ks[i + 1] == ks[1..][i];
    }
  }

  /** The target's keys are read only when it has more than one. */
  function ReadTargetKeys(target: seq<Key>, hostSymbol: nat): TrapResult {
    if |target| > 1 then ReadTarget(target, hostSymbol, 0, []) else Keys([])
  }

  /** What the trap keeps from the target: nothing for one key or none, else all but the host-object symbol. */
  function ExpectedTargetKeys(target: seq<Key>, hostSymbol: nat): seq<Key> {
    if |target| > 1 then Kept(target, hostSymbol) else []
  }

  lemma {:induction false} ReadTargetKeysSpec(target: seq<Key>, hostSymbol: nat)
    ensures var r := ReadTargetKeys(target, hostSymbol);
      && (r.Keys? <==> |target| <= 1 || (!HasOtherType(target) && DistinctIds(Kept(target, hostSymbol))))
      && (r.Keys? ==> r.keys == ExpectedTargetKeys(target, hostSymbol))
      && (r == UnexpectedKeyType ==> HasOtherType(target))
      && (r == NonUniqueTargetKeys ==> !DistinctIds(Kept(target, hostSymbol)))
  {
    if |target| > 1 {
      ReadTargetSpec(target, hostSymbol, 0, []);
      assert target[0..] == target;
      assert [] + Kept(target, hostSymbol) == Kept(target, hostSymbol);
    }
  }

  /** The host-object symbol never survives from the target. */
  lemma {:induction false} KeptDropsHostSymbol(ks: seq<Key>, hostSymbol: nat)
    ensures forall i :: 0 <= i < |Kept(ks, hostSymbol)| ==> Kept(ks, hostSymbol)[i].value != Sym(hostSymbol)
    ensures forall i :: 0 <= i < |ks| && ks[i].value != Sym(hostSymbol) ==> ks[i] in Kept(ks, hostSymbol)
    decreases |ks|
  {
    if ks != [] {
      KeptDropsHostSymbol(ks[1..], hostSymbol);
      forall i | 0 <= i < |ks| && ks[i].value != Sym(hostSymbol)
        ensures ks[i] in Kept(ks, hostSymbol)
      {
        if i > 0 {
          assert ks[1..][i - 1] == ks[i];
        }
      }
    }
  }

  // ---------------------------------------------------------------------
  // Adding the host's keys
  // ---------------------------------------------------------------------

  /** The host keys loop: a key goes in only if its identity is new. */
  function AddHostKeys(acc: seq<Key>, host: seq<Key>): (r: seq<Key>)
    ensures |r| >= |acc| && r[..|acc|] == acc
    ensures DistinctIds(acc) ==> DistinctIds(r)
    ensures Ids(r) == Ids(acc) + Ids(host)
    ensures forall i :: |acc| <= i < |r| ==> r[i] in host
    decreases |host|
  {
    if host == [] then acc
    else
      var k := host[0];
      var acc' := if k.id in Ids(acc) then acc else acc + [k];
      IdsAppend(acc, [k]);
      IdsSingleton(k);
      assert host == [k] + host[1..];
      IdsAppend([k], host[1..]);
      AppendFreshKeepsDistinct(acc, k);
      var r := AddHostKeys(acc', host[1..]);
      assert r[..|acc|] == r[..|acc'|][..|acc|];
      r
  }

  lemma {:induction false} IdsSingleton(k: Key)
    ensures Ids([k]) == {k.id}
  {
    assert [k][0].id == k.id;
  }

  lemma {:induction false} AppendFreshKeepsDistinct(acc: seq<Key>, k: Key)
    ensures DistinctIds(acc) && k.id !in Ids(acc) ==> DistinctIds(acc + [k])
  {
    if DistinctIds(acc) && k.id !in Ids(acc) {
      forall a, b | 0 <= a < b < |acc + [k]|
        ensures (acc + [k])[a].id != (acc + [k])[b].id
      {
        if b == |acc| {
          assert acc[a].id in Ids(acc);
        }
      }
    }
  }

  // ---------------------------------------------------------------------
  // Index keys before named keys
  // ---------------------------------------------------------------------

  /** The array index a key stands for: a string key toArrayIndex accepts. */
  function IndexOf(k: Key): Option<uint32> {
    match k.value
    case Str(t) => ToArrayIndex(t)
    case _ => None
  }

  datatype IndexKey = IndexKey(index: uint32, key: Key)

  function KeysOf(s: seq<IndexKey>): (r: seq<Key>)
    ensures |r| == |s|
  {
    if s == [] then [] else [s[0].key] + KeysOf(s[1..])
  }

  lemma {:induction false} KeysOfAt(s: seq<IndexKey>)
    ensures forall i :: 0 <= i < |s| ==> KeysOf(s)[i] == s[i].key
    decreases |s|
  {
    if s != [] {
      KeysOfAt(s[1..]);
    }
  }

  /** The named keys in their order: the keys that are not array indices. */
  function Named(ks: seq<Key>): seq<Key> {
    if ks == [] then [] else (if IndexOf(ks[0]).None? then [ks[0]] else []) + Named(ks[1..])
  }

  /** The partitioning loop: index keys with their index, and the other keys. */
  function Partition(ks: seq<Key>): (r: (seq<IndexKey>, seq<Key>))
    ensures AllIndexed(r.0)
    ensures r.1 == Named(ks)
  {
    if ks == [] then ([], [])
    else
      var rest := Partition(ks[1..]);
      var k := ks[0];
      match IndexOf(k)
      case Some(n) => ([IndexKey(n, k)] + rest.0, rest.1)
      case None => (rest.0, [k] + rest.1)
  }

  /** Partitioning neither loses nor adds a key. */
  lemma {:induction false} PartitionKeepsKeys(ks: seq<Key>)
    ensures var r := Partition(ks);
      multiset(KeysOf(r.0)) + multiset(r.1) == multiset(ks)
    decreases |ks|
  {
    if ks != [] {
      var rest := Partition(ks[1..]);
      var k := ks[0];
      PartitionKeepsKeys(ks[1..]);
      assert multiset(ks) == multiset{k} + multiset(ks[1..]) by {
        assert ks == [k] + ks[1..];
      }
      match IndexOf(k)
      case Some(n) => KeysOfCons(IndexKey(n, k), rest.0);
      case None =>
    }
  }

  lemma {:induction false} NamedAreNotIndices(ks: seq<Key>)
    ensures forall i :: 0 <= i < |Named(ks)| ==> IndexOf(Named(ks)[i]).None?
    decreases |ks|
  {
    if ks != [] {
      NamedAreNotIndices(ks[1..]);
    }
  }

  predicate SortedByIndex(s: seq<IndexKey>) {
    forall i, j :: 0 <= i < j < |s| ==> s[i].index <= s[j].index
  }

  /** Every entry carries the index of its key. */
  predicate AllIndexed(s: seq<IndexKey>) {
    forall i :: 0 <= i < |s| ==> IndexOf(s[i].key) == Some(s[i].index)
  }

  function Insert(x: IndexKey, s: seq<IndexKey>): (r: seq<IndexKey>)
    requires SortedByIndex(s) && AllIndexed(s) && IndexOf(x.key) == Some(x.index)
    ensures SortedByIndex(r) && AllIndexed(r)
    ensures |r| == |s| + 1 && (r[0] == x || (s != [] && r[0] == s[0]))
  {
    if s == [] || x.index <= s[0].index then [x] + s
    else
      var t := Insert(x, s[1..]);
      assert t[0].index >= s[0].index;
      [s[0]] + t
  }

  lemma {:induction false} KeysOfCons(x: IndexKey, s: seq<IndexKey>)
    ensures KeysOf([x] + s) == [x.key] + KeysOf(s)
  {
    assert ([x] + s)[1..] == s;
  }

  lemma {:induction false} InsertKeys(x: IndexKey, s: seq<IndexKey>)
    requires SortedByIndex(s) && AllIndexed(s) && IndexOf(x.key) == Some(x.index)
    ensures multiset(KeysOf(Insert(x, s))) == multiset(KeysOf(s)) + multiset{x.key}
    decreases |s|
  {
    if s == [] || x.index <= s[0].index {
      KeysOfCons(x, s);
    } else {
      var t := Insert(x, s[1..]);
      assert Insert(x, s) == [s[0]] + t;
      InsertKeys(x, s[1..]);
      ConsKeys(s, t, x.key);
    }
  }

  /** Putting the head back in front of a sequence with one key more adds the head's key. */
  lemma {:induction false} ConsKeys(s: seq<IndexKey>, t: seq<IndexKey>, k: Key)
    requires s != [] && multiset(KeysOf(t)) == multiset(KeysOf(s[1..])) + multiset{k}
    ensures multiset(KeysOf([s[0]] + t)) == multiset(KeysOf(s)) + multiset{k}
  {
    KeysOfCons(s[0], t);
    assert s == [s[0]] + s[1..];
    KeysOfCons(s[0], s[1..]);
  }

  /** std::sort by index; ties cannot arise between distinct index keys of one name table. */
  function SortByIndex(s: seq<IndexKey>): (r: seq<IndexKey>)
    requires AllIndexed(s)
    ensures SortedByIndex(r) && AllIndexed(r)
  {
    if s == [] then [] else Insert(s[0], SortByIndex(s[1..]))
  }

  /** Sorting keeps every key, as many times as it occurs. */
  lemma {:induction false} SortByIndexKeys(s: seq<IndexKey>)
    requires AllIndexed(s)
    ensures multiset(KeysOf(SortByIndex(s))) == multiset(KeysOf(s))
    decreases |s|
  {
    if s != [] {
      var t := SortByIndex(s[1..]);
      assert SortByIndex(s) == Insert(s[0], t);
      SortByIndexKeys(s[1..]);
      InsertKeys(s[0], t);
      assert KeysOf(s) == [s[0].key] + KeysOf(s[1..]);
      assert multiset([s[0].key] + KeysOf(s[1..])) == multiset{s[0].key} + multiset(KeysOf(s[1..]));
    }
  }

  // ---------------------------------------------------------------------
  // The trap
  // ---------------------------------------------------------------------

  /** The keys the trap collects before ordering them: the target's, then the host's new ones. */
  function CollectedKeys(target: seq<Key>, host: seq<Key>, hostSymbol: nat): TrapResult {
    match ReadTargetKeys(target, hostSymbol)
    case Keys(fromTarget) => Keys(AddHostKeys(fromTarget, host))
    case err => err
  }

  /** hostObjectOwnKeysTrap: the collected keys with the index keys sorted first. */
  function OwnKeysTrap(target: seq<Key>, host: seq<Key>, hostSymbol: nat): TrapResult {
    match CollectedKeys(target, host, hostSymbol)
    case Keys(ks) =>
      var (indexKeys, named) := Partition(ks);
      Keys(KeysOf(SortByIndex(indexKeys)) + named)
    case err => err
  }

  /**
   * The trap fails exactly when it reads the target keys and finds one of
   * another type or two with one identity; otherwise every key appears
   * once: the target's (less the host-object symbol) and the host's.
   */
  lemma {:induction false} OwnKeysTrapKeys(target: seq<Key>, host: seq<Key>, hostSymbol: nat)
    ensures var r := OwnKeysTrap(target, host, hostSymbol);
      && (r.Keys? <==> |target| <= 1 || (!HasOtherType(target) && DistinctIds(Kept(target, hostSymbol))))
      && (r.Keys? ==> DistinctIds(r.keys))
      && (r.Keys? ==> Ids(r.keys) == Ids(ExpectedTargetKeys(target, hostSymbol)) + Ids(host))
      && (r.Keys? ==> multiset(r.keys) == multiset(AddHostKeys(ExpectedTargetKeys(target, hostSymbol), host)))
  {
    ReadTargetKeysSpec(target, hostSymbol);
    var t := ReadTargetKeys(target, hostSymbol);
    if t.Keys? {
      var ks := AddHostKeys(t.keys, host);
      var (indexKeys, named) := Partition(ks);
      PartitionKeepsKeys(ks);
      var sorted := SortByIndex(indexKeys);
      SortByIndexKeys(indexKeys);
      var out := KeysOf(sorted) + named;
      assert multiset(out) == multiset(ks);
      DistinctIdsOfPermutation(ks, out);
      IdsOfPermutation(ks, out);
    }
  }

  lemma {:induction false} DistinctIdsOfPermutation(a: seq<Key>, b: seq<Key>)
    requires DistinctIds(a) && multiset(a) == multiset(b)
    ensures DistinctIds(b)
  {
    forall i, j | 0 <= i < j < |b|
      ensures b[i].id != b[j].id
    {
      assert b[i] in multiset(a) && b[j] in multiset(a);
      var p :| 0 <= p < |a| && a[p] == b[i];
      var q :| 0 <= q < |a| && a[q] == b[j];
      if p == q {
        CountAtMostOne(a, p);
        CountAtLeastTwo(b, i, j);
      }
    }
  }

  lemma {:induction false} CountAtMostOne(a: seq<Key>, p: nat)
    requires DistinctIds(a) && p < |a|
    ensures multiset(a)[a[p]] == 1
  {
    assert a == a[..p] + [a[p]] + a[p + 1..];
    forall k | 0 <= k < p
      ensures a[..p][k] != a[p]
    {
      assert a[k].id != a[p].id;
    }
    forall k | p < k < |a|
      ensures a[k] != a[p]
    {
      assert a[k].id != a[p].id;
    }
    assert a[p] !in a[..p] && a[p] !in a[p + 1..];
  }

  lemma {:induction false} CountAtLeastTwo(b: seq<Key>, i: nat, j: nat)
    requires i < j < |b| && b[i] == b[j]
    ensures multiset(b)[b[i]] >= 2
  {
    assert b == b[..i] + [b[i]] + b[i + 1..j] + [b[j]] + b[j + 1..];
  }

  lemma {:induction false} IdsOfPermutation(a: seq<Key>, b: seq<Key>)
    requires multiset(a) == multiset(b)
    ensures Ids(a) == Ids(b)
  {
    forall x | x in Ids(a) ensures x in Ids(b) {
      var i :| 0 <= i < |a| && a[i].id == x;
      assert a[i] in multiset(b);
      var j :| 0 <= j < |b| && b[j] == a[i];
    }
    forall x | x in Ids(b) ensures x in Ids(a) {
      var i :| 0 <= i < |b| && b[i].id == x;
      assert b[i] in multiset(a);
      var j :| 0 <= j < |a| && a[j] == b[i];
    }
  }

  /**
   * `ks` is `n` array-index keys in ascending index order followed by the
   * keys `named`, none of which is an array index.
   */
  predicate IndexedThenNamed(ks: seq<Key>, n: nat, named: seq<Key>) {
    && n <= |ks|
    && (forall i :: 0 <= i < n ==> IndexOf(ks[i]).Some?)
    && (forall i, j :: 0 <= i < j < n ==> IndexOf(ks[i]).value <= IndexOf(ks[j]).value)
    && ks[n..] == named
    && (forall i :: n <= i < |ks| ==> IndexOf(ks[i]).None?)
  }

  /**
   * The order: a prefix of array-index keys in ascending index order,
   * then the named keys in the order they were collected.
   */
  lemma {:induction false} OwnKeysTrapOrder(target: seq<Key>, host: seq<Key>, hostSymbol: nat)
    requires OwnKeysTrap(target, host, hostSymbol).Keys?
    ensures exists n :: IndexedThenNamed(OwnKeysTrap(target, host, hostSymbol).keys, n,
      Named(CollectedKeys(target, host, hostSymbol).keys))
  {
    var collected := CollectedKeys(target, host, hostSymbol).keys;
    var (indexKeys, named) := Partition(collected);
    var sorted := SortByIndex(indexKeys);
    assert OwnKeysTrap(target, host, hostSymbol).keys == KeysOf(sorted) + named;
    SortedThenNamed(sorted, collected);
  }

  lemma {:induction false} SortedThenNamed(sorted: seq<IndexKey>, collected: seq<Key>)
    requires SortedByIndex(sorted) && AllIndexed(sorted)
    ensures IndexedThenNamed(KeysOf(sorted) + Named(collected), |sorted|, Named(collected))
  {
    var named := Named(collected);
    var ks := KeysOf(sorted) + named;
    var n := |sorted|;
    SortedKeysAscend(sorted);
    NamedAreNotIndices(collected);
    assert ks[..n] == KeysOf(sorted);
    assert ks[n..] == named;
    forall i | 0 <= i < n
      ensures IndexOf(ks[i]) == Some(sorted[i].index)
    {
      assert ks[i] == KeysOf(sorted)[i];
    }
    forall i | n <= i < |ks|
      ensures IndexOf(ks[i]).None?
    {
      assert ks[i] == named[i - n];
    }
  }

  /** The keys of a sorted table carry ascending indices. */
  lemma {:induction false} SortedKeysAscend(sorted: seq<IndexKey>)
    requires SortedByIndex(sorted) && AllIndexed(sorted)
    ensures forall i :: 0 <= i < |sorted| ==> IndexOf(KeysOf(sorted)[i]) == Some(sorted[i].index)
    ensures forall i, j :: 0 <= i < j < |sorted| ==>
      IndexOf(KeysOf(sorted)[i]).value <= IndexOf(KeysOf(sorted)[j]).value
  {
    KeysOfAt(sorted);
  }

  // ---------------------------------------------------------------------
  // The public runtime's trap: deduplication only
  // ---------------------------------------------------------------------

  /** Insert every key ref into a set and emit the set (first-seen order stands in for the hash order). */
  function DedupRefs(refs: seq<nat>, seen: set<nat>): (r: seq<nat>)
    ensures forall i, j :: 0 <= i < j < |r| ==> r[i] != r[j]
    ensures forall i :: 0 <= i < |r| ==> r[i] !in seen
    ensures forall x :: x in r <==> x in refs && x !in seen
    decreases |refs|
  {
    if refs == [] then []
    else if refs[0] in seen then DedupRefs(refs[1..], seen)
    else [refs[0]] + DedupRefs(refs[1..], seen + {refs[0]})
  }

  /** HostObjectOwnKeysTrap in the public runtime: each distinct key ref exactly once. */
  function PublicOwnKeysTrap(refs: seq<nat>): (r: seq<nat>)
    ensures forall i, j :: 0 <= i < j < |r| ==> r[i] != r[j]
    ensures forall x :: x in r <==> x in refs
  {
    DedupRefs(refs, {})
  }
}

=== FILE: text.dfy ===
/**
 * Text utilities of the C++ standard library that the modelled code leans on:
 * std::string::find, std::getline splitting, std::count, std::to_string and
 * std::stoi, each stated over `string` (a sequence of `char`).
 */
module Text {
  import opened Wrappers

  predicate IsDigit(c: char) {
    '0' <= c <= '9'
  }

  /** True when `pat` occurs in `s` starting at index `i`. */
  predicate MatchAt(s: string, pat: string, i: nat) {
    i + |pat| <= |s| && s[i..i + |pat|] == pat
  }

  /** std::string::find(pat, from): the first occurrence at or after `from`. */
  function Find(s: string, pat: string, from: nat): (r: Option<nat>)
    ensures r.Some? ==> from <= r.value && MatchAt(s, pat, r.value)
    ensures r.Some? ==> forall j :: from <= j < r.value ==> !MatchAt(s, pat, j)
    ensures r.None? ==> forall j :: from <= j ==> !MatchAt(s, pat, j)
    decreases |s| - from
  {
    if from + |pat| > |s| then None
    else if s[from..from + |pat|] == pat then Some(from)
    else Find(s, pat, from + 1)
  }

  /** s.rfind(pat, 0) == 0, i.e. `s` begins with `pat`. */
  predicate StartsWith(s: string, pat: string) {
    |pat| <= |s| && s[..|pat|] == pat
  }

  lemma {:induction false} FindAtZero(s: string, pat: string)
    ensures Find(s, pat, 0) == Some(0) <==> StartsWith(s, pat)
  {
  }

  /** std::count(s.begin(), s.end(), c). */
  function CountChar(s: string, c: char): (n: nat)
    ensures n <= |s|
    ensures n == 0 <==> c !in s
  {
    if s == [] then 0 else (if s[0] == c then 1 else 0) + CountChar(s[1..], c)
  }

  lemma {:induction false} CountCharAppend(a: string, b: string, c: char)
    ensures CountChar(a + b, c) == CountChar(a, c) + CountChar(b, c)
  {
    if a != [] {
      assert (a + b)[1..] == a[1..] + b;
      CountCharAppend(a[1..], b, c);
    } else {
      assert a + b == b;
    }
  }

  /** The index of the first `c` in `s`, or |s| when there is none. */
  function FirstIndexOf(s: string, c: char): (i: nat)
    ensures i <= |s|
    ensures i < |s| ==> s[i] == c
  {
    if s == [] then 0 else if s[0] == c then 0 else 1 + FirstIndexOf(s[1..], c)
  }

  /** The first `c` comes no later than any `c`. */
  lemma {:induction false} FirstIndexOfAtMost(s: string, c: char, p: nat)
    requires p < |s| && s[p] == c
    ensures FirstIndexOf(s, c) <= p
    decreases |s|
  {
    if s[0] != c {
      FirstIndexOfAtMost(s[1..], c, p - 1);
    }
  }

  /** No `c` comes before the first one. */
  lemma {:induction false} FirstIndexOfIsFirst(s: string, c: char)
    ensures forall j :: 0 <= j < FirstIndexOf(s, c) ==> s[j] != c
    decreases |s|
  {
    if s != [] && s[0] != c {
      var tail := s[1..];
      FirstIndexOfIsFirst(tail, c);
      forall j | 0 < j < FirstIndexOf(s, c)
        ensures s[j] != c
      {
        assert s[j] == tail[j - 1];
      }
    }
  }

  /** std::string::rfind(c): the index of the last `c` in `s`, if any. */
  function LastIndexOf(s: string, c: char): (r: Option<nat>)
    ensures r.None? <==> c !in s
    ensures r.Some? ==> r.value < |s| && s[r.value] == c
    ensures r.Some? ==> forall j :: r.value < j < |s| ==> s[j] != c
  {
    if s == [] then None
    else if s[|s| - 1] == c then Some(|s| - 1)
    else
      var r := LastIndexOf(s[..|s| - 1], c);
      assert s == s[..|s| - 1] + [s[|s| - 1]];
      r
  }

  /**
   * The pieces std::getline(stream, piece, '\n') extracts from `s`, in order:
   * every '\n' ends a piece, and an unterminated last piece is kept only
   * when it is non-empty.
   */
  function Lines(s: string): seq<string>
    decreases |s|
  {
    if s == [] then []
    else
      var i := FirstIndexOf(s, '\n');
      if i == |s| then [s] else [s[..i]] + Lines(s[i + 1..])
  }

  /** Every piece followed by '\n', concatenated. */
  function JoinLines(ls: seq<string>): string {
    if ls == [] then [] else ls[0] + "\n" + JoinLines(ls[1..])
  }

  predicate NoNewline(s: string) {
    '\n' !in s
  }

  /** Splitting text written one piece per line gives the pieces back. */
  lemma {:induction false} LinesOfJoinLines(ls: seq<string>)
    requires forall k :: 0 <= k < |ls| ==> NoNewline(ls[k])
    ensures Lines(JoinLines(ls)) == ls
  {
    if ls != [] {
      var s := JoinLines(ls);
      var rest := JoinLines(ls[1..]);
      assert s == ls[0] + "\n" + rest;
      FirstIndexOfPrefix(ls[0], rest);
      assert s[..|ls[0]|] == ls[0];
      assert s[|ls[0]| + 1..] == rest;
      LinesOfJoinLines(ls[1..]);
    }
  }

  lemma {:induction false} FirstIndexOfPrefix(a: string, rest: string)
    requires NoNewline(a)
    ensures FirstIndexOf(a + "\n" + rest, '\n') == |a|
  {
    var s := a + "\n" + rest;
    assert s[|a|] == '\n';
    FirstIndexOfAtMost(s, '\n', |a|);
    assert forall j :: 0 <= j < |a| ==> s[j] == a[j] && s[j] != '\n';
  }

  /** Text that ends in '\n' is rebuilt exactly from its lines. */
  lemma {:induction false} JoinLinesOfLines(s: string)
    requires s == [] || s[|s| - 1] == '\n'
    ensures JoinLines(Lines(s)) == s
    decreases |s|
  {
    if s != [] {
      FirstIndexOfAtMost(s, '\n', |s| - 1);
      var i := FirstIndexOf(s, '\n');
      var tail := s[i + 1..];
      assert tail == [] || tail[|tail| - 1] == '\n';
      JoinLinesOfLines(tail);
      LinesStep(s);
    }
  }

  /** Text ending in '\n' is its first line, the newline, and the text after. */
  lemma {:induction false} LinesStep(s: string)
    requires s != [] && s[|s| - 1] == '\n'
    ensures FirstIndexOf(s, '\n') < |s|
    ensures var i := FirstIndexOf(s, '\n');
      && JoinLines(Lines(s)) == s[..i] + "\n" + JoinLines(Lines(s[i + 1..]))
      && s == s[..i] + "\n" + s[i + 1..]
  {
    FirstIndexOfAtMost(s, '\n', |s| - 1);
    var i := FirstIndexOf(s, '\n');
    LinesUnfold(s);
    JoinLinesCons(s[..i], Lines(s[i + 1..]));
    SplitAt(s, i);
  }

  /** Text with a newline splits into the line before the first one and the lines after it. */
  lemma {:induction false} LinesUnfold(s: string)
    requires FirstIndexOf(s, '\n') < |s|
    ensures var i := FirstIndexOf(s, '\n');
      Lines(s) == [s[..i]] + Lines(s[i + 1..])
  {
  }

  lemma {:induction false} JoinLinesCons(l: string, ls: seq<string>)
    ensures JoinLines([l] + ls) == l + "\n" + JoinLines(ls)
  {
    assert ([l] + ls)[1..] == ls;
  }

  lemma {:induction false} SplitAt(s: string, i: nat)
    requires i < |s| && s[i] == '\n'
    ensures s == s[..i] + "\n" + s[i + 1..]
  {
    assert s[..i + 1] == s[..i] + "\n";
    assert s == s[..i + 1] + s[i + 1..];
  }

  /** The lines of `s` carry no '\n'. */
  lemma {:induction false} LinesHaveNoNewline(s: string)
    ensures forall k :: 0 <= k < |Lines(s)| ==> NoNewline(Lines(s)[k])
    decreases |s|
  {
    if s != [] {
      var i := FirstIndexOf(s, '\n');
      FirstIndexOfIsFirst(s, '\n');
      if i < |s| {
        LinesHaveNoNewline(s[i + 1..]);
        assert forall j :: 0 <= j < i ==> s[..i][j] != '\n';
      }
    }
  }

  /** Writing two runs of lines one after the other writes their concatenation. */
  lemma {:induction false} JoinLinesAppend(a: seq<string>, b: seq<string>)
    ensures JoinLines(a + b) == JoinLines(a) + JoinLines(b)
    decreases |a|
  {
    if a != [] {
      assert (a + b)[1..] == a[1..] + b;
      JoinLinesAppend(a[1..], b);
    } else {
      assert a + b == b;
    }
  }

  /** Lines without newlines, written one per line, make as many newlines as lines. */
  lemma {:induction false} NewlineCountOfJoinLines(ls: seq<string>)
    requires forall k :: 0 <= k < |ls| ==> NoNewline(ls[k])
    ensures CountChar(JoinLines(ls), '\n') == |ls|
    decreases |ls|
  {
    if ls != [] {
      NewlineCountOfJoinLines(ls[1..]);
      CountCharAppend(ls[0], "\n" + JoinLines(ls[1..]), '\n');
      CountCharAppend("\n", JoinLines(ls[1..]), '\n');
      assert ls[0] + "\n" + JoinLines(ls[1..]) == ls[0] + ("\n" + JoinLines(ls[1..]));
    }
  }

  /** A character absent from `s` is absent from each of its lines. */
  lemma {:induction false} LinesLackChar(s: string, c: char)
    requires c !in s
    ensures forall k :: 0 <= k < |Lines(s)| ==> c !in Lines(s)[k]
    decreases |s|
  {
    if s != [] {
      var i := FirstIndexOf(s, '\n');
      if i < |s| {
        var tail := s[i + 1..];
        assert c !in tail by {
          forall j | 0 <= j < |tail|
            ensures tail[j] != c
          {
            assert tail[j] == s[i + 1 + j];
          }
        }
        LinesLackChar(tail, c);
        assert c !in s[..i] by {
          forall j | 0 <= j < i
            ensures s[..i][j] != c
          {
            assert s[..i][j] == s[j];
          }
        }
      }
    }
  }

  /** Text that ends in '\n' has as many lines as newlines. */
  lemma {:induction false} LineCountIsNewlineCount(s: string)
    requires s == [] || s[|s| - 1] == '\n'
    ensures |Lines(s)| == CountChar(s, '\n')
    decreases |s|
  {
    if s != [] {
      FirstIndexOfAtMost(s, '\n', |s| - 1);
      FirstIndexOfIsFirst(s, '\n');
      var i := FirstIndexOf(s, '\n');
      var tail := s[i + 1..];
      assert |Lines(s)| == 1 + |Lines(tail)|;
      LineCountIsNewlineCount(tail);
      CountFirstNewline(s, i);
    }
  }

  /** The newlines of `s` are its first one, at `i`, and those after it. */
  lemma {:induction false} CountFirstNewline(s: string, i: nat)
    requires i < |s| && s[i] == '\n'
    requires forall j :: 0 <= j < i ==> s[j] != '\n'
    ensures CountChar(s, '\n') == 1 + CountChar(s[i + 1..], '\n')
    decreases i
  {
    if i > 0 {
      CountFirstNewline(s[1..], i - 1);
      assert s[1..][i..] == s[i + 1..];
    }
  }

  // ---------------------------------------------------------------------------
  // Decimal text

  function DigitChar(d: nat): char
    requires d < 10
  {
    ('0' as int + d) as char
  }

  /** The decimal digits of a natural number, most significant first. */
  function NatDigits(n: nat): (s: string)
    ensures |s| > 0
    ensures forall k :: 0 <= k < |s| ==> IsDigit(s[k])
    decreases n
  {
    if n < 10 then [DigitChar(n)] else NatDigits(n / 10) + [DigitChar(n % 10)]
  }

  /** std::to_string of an integer. */
  function IntToString(n: int): (s: string)
    ensures |s| > 0
    ensures forall k :: 0 <= k < |s| ==> IsDigit(s[k]) || s[k] == '-'
  {
    if n < 0 then "-" + NatDigits(-n) else NatDigits(n)
  }

  /** The value of a non-empty run of decimal digits. */
  function DigitsValue(s: string): nat
    requires forall k :: 0 <= k < |s| ==> IsDigit(s[k])
    decreases |s|
  {
    if s == [] then 0
    else
      assert IsDigit(s[|s| - 1]);
      DigitsValue(s[..|s| - 1]) * 10 + (s[|s| - 1] as int - '0' as int)
  }

  lemma {:induction false} DigitsValueOfNatDigits(n: nat)
    ensures DigitsValue(NatDigits(n)) == n
    decreases n
  {
    if n >= 10 {
      var s := NatDigits(n);
      assert s[..|s| - 1] == NatDigits(n / 10);
      DigitsValueOfNatDigits(n / 10);
    }
  }

  /** The length of the run of digits that begins `s`. */
  function DigitRun(s: string): (k: nat)
    ensures k <= |s|
    ensures forall j :: 0 <= j < k ==> IsDigit(s[j])
    ensures k < |s| ==> !IsDigit(s[k])
  {
    if s == [] || !IsDigit(s[0]) then 0 else 1 + DigitRun(s[1..])
  }

  predicate IsSpace(c: char) {
    c == ' ' || c == '\t' || c == '\n' || c == '\U{000B}' || c == '\U{000C}' || c == '\r'
  }

  function SkipSpaces(s: string): (t: string)
    ensures |t| <= |s| && t == s[|s| - |t|..]
    ensures t != [] ==> !IsSpace(t[0])
  {
    if s != [] && IsSpace(s[0]) then SkipSpaces(s[1..]) else s
  }

  /**
   * std::stoi: skips leading white space, takes an optional sign and the
   * longest run of digits after it. None stands for the std::invalid_argument
   * (no digits) and std::out_of_range (outside int32) exceptions.
   */
  function Stoi(s: string): (r: Option<int>)
    ensures r.Some? ==> INT32_MIN <= r.value <= INT32_MAX
  {
    var t := SkipSpaces(s);
    var neg := t != [] && t[0] == '-';
    var u := if t != [] && (t[0] == '-' || t[0] == '+') then t[1..] else t;
    var k := DigitRun(u);
    if k == 0 then None
    else
      var v: int := DigitsValue(u[..k]);
      var signed: int := if neg then -v else v;
      if INT32_MIN <= signed <= INT32_MAX then Some(signed) else None
  }

  lemma {:induction false} NatDigitsRun(n: nat)
    ensures DigitRun(NatDigits(n)) == |NatDigits(n)|
  {
  }

  /** std::stoi reads back what std::to_string wrote, for every int32. */
  lemma {:induction false} StoiOfIntToString(n: int)
    requires INT32_MIN <= n <= INT32_MAX
    ensures Stoi(IntToString(n)) == Some(n)
  {
    var m: nat := if n < 0 then -n else n;
    var d := NatDigits(m);
    NatDigitsRun(m);
    DigitsValueOfNatDigits(m);
    if n < 0 {
      StoiOfDigits("-" + d, d, true);
    } else {
      assert IntToString(n) == d;
      StoiOfDigits(d, d, false);
    }
  }

  /** Digits, after a '-' when `neg`, read as their value, negated after the '-'. */
  lemma {:induction false} StoiOfDigits(s: string, d: string, neg: bool)
    requires s == (if neg then "-" + d else d)
    requires d != [] && DigitRun(d) == |d|
    requires INT32_MIN <= (if neg then -(DigitsValue(d) as int) else DigitsValue(d)) <= INT32_MAX
    ensures Stoi(s) == Some(if neg then -(DigitsValue(d) as int) else DigitsValue(d))
  {
    assert !IsSpace(s[0]);
    assert SkipSpaces(s) == s;
    assert (s[0] == '-') == neg;
    if neg {
      assert s[1..] == d;
    }
    assert d[..|d|] == d;
  }
}

=== FILE: util_inl.dfy ===
/**
 * Small helpers of the Node-API sources (src/node-api/util-inl.h): the
 * process exit codes, the unique-pointer cast and
 * the OnScopeLeave guard whose function runs once across moves.
 */
module UtilInl {
  import opened Wrappers

  // ---------------------------------------------------------------------
  // ExitCode
  // ---------------------------------------------------------------------

  /** The named process exit codes. */
  datatype ExitCode =
    | NoFailure
    | GenericUserError
    | InternalJSParseError
    | InternalJSEvaluationFailure
    | V8FatalError
    | InvalidFatalExceptionMonkeyPatching
    | ExceptionInFatalExceptionHandler
    | InvalidCommandLineArgument
    | BootstrapFailure
    | InvalidCommandLineArgument2
    | UnsettledTopLevelAwait
    | StartupSnapshotFailure
    | Abort

  /** The integer each exit code stands for. */
  function Code(e: ExitCode): int {
    match e
    case NoFailure => 0
    case GenericUserError => 1
    case InternalJSParseError => 3
    case InternalJSEvaluationFailure => 4
    case V8FatalError => 5
    case InvalidFatalExceptionMonkeyPatching => 6
    case ExceptionInFatalExceptionHandler => 7
    case InvalidCommandLineArgument => 9
    case BootstrapFailure => 10
    case InvalidCommandLineArgument2 => 12
    case UnsettledTopLevelAwait => 13
    case StartupSnapshotFailure => 14
    case Abort => 134
  }

  /** The number of the SIGABRT signal. */
  const SIGABRT := 6

  /** The exit code of a given number, if one is named. */
  function FromCode(n: int): (r: Option<ExitCode>)
    ensures r.Some? ==> Code(r.value) == n
  {
    if n == 0 then Some(NoFailure)
    else if n == 1 then Some(GenericUserError)
    else if n == 3 then Some(InternalJSParseError)
    else if n == 4 then Some(InternalJSEvaluationFailure)
    else if n == 5 then Some(V8FatalError)
    else if n == 6 then Some(InvalidFatalExceptionMonkeyPatching)
    else if n == 7 then Some(ExceptionInFatalExceptionHandler)
    else if n == 9 then Some(InvalidCommandLineArgument)
    else if n == 10 then Some(BootstrapFailure)
    else if n == 12 then Some(InvalidCommandLineArgument2)
    else if n == 13 then Some(UnsettledTopLevelAwait)
    else if n == 14 then Some(StartupSnapshotFailure)
    else if n == 134 then Some(Abort)
    else None
  }

  /**
   * Every code is named once: reading the number of an exit code back gives
   * that exit code, the numbers 2, 8 and 11 are unused, and Abort is the
   * conventional 128 + SIGABRT.
   */
  lemma {:induction false} CodesRoundTrip(e: ExitCode)
    ensures FromCode(Code(e)) == Some(e)
    ensures 0 <= Code(e) <= 134
    ensures FromCode(2).None? && FromCode(8).None? && FromCode(11).None?
    ensures Code(Abort) == 128 + SIGABRT
  {
  }

  // ---------------------------------------------------------------------
  // static_unique_pointer_cast
  // ---------------------------------------------------------------------

  /** A unique pointer: empty, or owning one object. */
  datatype UniquePtr = Null | Owning(target: nat)

  /** The cast's effect: the source left empty and the result. */
  datatype CastResult = CastResult(source: UniquePtr, result: UniquePtr)

  /** static_unique_pointer_cast: ownership moves to the result and the source is left empty. */
  function StaticUniquePointerCast(p: UniquePtr): (r: CastResult)
    ensures r.source == Null
    ensures r.result == p
  {
    CastResult(Null, p)
  }

  // ---------------------------------------------------------------------
  // OnScopeLeaveImpl
  // ---------------------------------------------------------------------

  /** A scope-leave guard: the function it holds (an opaque id) and whether it is still active. */
  datatype Guard = Guard(fn: nat, active: bool)

  /** The constructor: an active guard. */
  function OnScopeLeave(fn: nat): (g: Guard)
    ensures g.active && g.fn == fn
  {
    Guard(fn, true)
  }

  /** The destructor: the calls it makes, which is the function once when active. */
  function Leave(g: Guard): (calls: seq<nat>)
    ensures |calls| <= 1
    ensures calls != [] <==> g.active
    ensures calls != [] ==> calls[0] == g.fn
  {
    if g.active then [g.fn] else []
  }

  /** A move: the moved-from guard, left inactive, and the new guard. */
  datatype Moved = Moved(from: Guard, to: Guard)

  /** The move constructor: the obligation passes to the new guard. */
  function MoveGuard(g: Guard): (m: Moved)
    ensures !m.from.active
    ensures m.to == g
  {
    Moved(Guard(g.fn, false), Guard(g.fn, g.active))
  }

  /**
   * A chain of `n` moves from `g`: every guard that ever existed, the
   * moved-from ones first and the last one at the end.
   */
  function MoveChain(g: Guard, n: nat): (gs: seq<Guard>)
    ensures |gs| == n + 1
    decreases n
  {
    if n == 0 then [g]
    else
      var m := MoveGuard(g);
      [m.from] + MoveChain(m.to, n - 1)
  }

  /** The calls the destructors of all the guards make together. */
  function LeaveAll(gs: seq<Guard>): seq<nat>
  {
    if gs == [] then [] else Leave(gs[0]) + LeaveAll(gs[1..])
  }

  /**
   * However many times a guard is moved, when every guard of the chain has
   * been destroyed its function has run exactly as often as the original
   * guard would have run it: once for a guard made by OnScopeLeave.
   */
  lemma {:induction false} MoveChainRunsOnce(g: Guard, n: nat)
    ensures LeaveAll(MoveChain(g, n)) == Leave(g)
    decreases n
  {
    if n > 0 {
      MoveChainRunsOnce(MoveGuard(g).to, n - 1);
      var gs := MoveChain(g, n);
      assert gs[0] == MoveGuard(g).from;
      assert gs[1..] == MoveChain(g, n - 1);
    } else {
      assert MoveChain(g, 0)[1..] == [];
    }
  }
}

=== FILE: v8_runtime.dfy ===
/**
 * Sequential pieces of the V8 JSI runtime (src/V8JsiRuntime.cpp): the
 * d8-style performance counters, the near-heap-limit callback, the
 * trimming of exception messages and stacks in ReportException, and the
 * text GC callbacks trace.
 */
module V8Runtime {
  import opened Wrappers
  import opened Text

  // ---------------------------------------------------------------------
  // Counters
  // ---------------------------------------------------------------------

  const MAX_NAME_SIZE: nat := 64
  const MAX_COUNTERS: nat := 512

  /**
   * One counter: its count, the sum of its samples, whether it is a
   * histogram, and the bytes Bind wrote into its name buffer (the copied
   * characters and the terminating NUL).
   */
  datatype Counter = Counter(count: int32, sampleTotal: int32, isHistogram: bool, name: string)

  /** A slot of the zero-initialised collection. */
  const FreshCounter := Counter(0, 0, false, [])

  /** The C string `name` points at: its characters up to the first NUL. */
  function CString(name: string): (r: string)
    ensures |r| <= |name| && r == name[..|r|] && '\0' !in r
    ensures |r| < |name| ==> name[|r|] == '\0'
  {
    FirstIndexOfIsFirst(name, '\0');
    name[..FirstIndexOf(name, '\0')]
  }

  /**
   * Counter::Bind: copy characters while fewer than 63 are copied and the
   * name goes on, NUL-terminate, and record the histogram flag.
   */
  function Bind(c: Counter, name: string, isHistogram: bool): (r: Counter)
    ensures r.count == c.count && r.sampleTotal == c.sampleTotal && r.isHistogram == isHistogram
  {
    var copied := BindCopy(name, 0);
    Counter(c.count, c.sampleTotal, isHistogram, name[..copied] + ['\0'])
  }

  /** The copying loop: the index at which it stops. */
  function BindCopy(name: string, i: nat): (n: nat)
    requires i <= MAX_NAME_SIZE - 1 && i <= |name|
    ensures i <= n <= MAX_NAME_SIZE - 1 && n <= |name|
    decreases MAX_NAME_SIZE - i
  {
    if i < MAX_NAME_SIZE - 1 && i < |name| && name[i] != '\0' then BindCopy(name, i + 1) else i
  }

  /**
   * The bound name is the C string cut to 63 characters, always followed
   * by one NUL: at most 64 bytes in all.
   */
  lemma {:induction false} BindNameSpec(c: Counter, name: string, isHistogram: bool)
    ensures var r := Bind(c, name, isHistogram);
      var s := CString(name);
      && |r.name| <= MAX_NAME_SIZE
      && r.name[|r.name| - 1] == '\0'
      && r.name[..|r.name| - 1] == (if |s| <= MAX_NAME_SIZE - 1 then s else s[..MAX_NAME_SIZE - 1])
  {
    var n := BindCopy(name, 0);
    BindCopyStops(name, 0);
    var s := CString(name);
    var r := Bind(c, name, isHistogram);
    assert r.name[..|r.name| - 1] == name[..n];
  }

  /** The copy stops at the first NUL, at the end of the name, or after 63 characters. */
  lemma {:induction false} BindCopyStops(name: string, i: nat)
    requires i <= MAX_NAME_SIZE - 1 && i <= |name| && '\0' !in name[..i]
    ensures var n := BindCopy(name, i);
      '\0' !in name[..n] && (n == MAX_NAME_SIZE - 1 || n == |name| || name[n] == '\0')
    decreases MAX_NAME_SIZE - i
  {
    if i < MAX_NAME_SIZE - 1 && i < |name| && name[i] != '\0' {
      assert name[..i + 1] == name[..i] + [name[i]];
      BindCopyStops(name, i + 1);
    }
  }

  /** Counter::AddSample: one more sample, its value added, both in 32-bit arithmetic. */
  function AddSample(c: Counter, sample: int32): (r: Counter)
    ensures (r.count - c.count - 1) % 0x1_0000_0000 == 0
    ensures (r.sampleTotal - c.sampleTotal - sample) % 0x1_0000_0000 == 0
    ensures c.count < INT32_MAX ==> r.count == c.count + 1
    ensures r.isHistogram == c.isHistogram && r.name == c.name
  {
    Counter(Wrap32(c.count + 1), Wrap32(c.sampleTotal + sample), c.isHistogram, c.name)
  }

  /** The samples of a counter, added one by one. */
  function AddSamples(c: Counter, samples: seq<int32>): Counter
    decreases |samples|
  {
    if samples == [] then c else AddSamples(AddSample(c, samples[0]), samples[1..])
  }

  /** Below the 32-bit limit a counter counts its samples exactly. */
  lemma {:induction false} AddSamplesCount(c: Counter, samples: seq<int32>)
    requires c.count >= 0 && c.count + |samples| <= INT32_MAX
    ensures AddSamples(c, samples).count == c.count + |samples|
    ensures AddSamples(c, samples).name == c.name
    decreases |samples|
  {
    if samples != [] {
      AddSamplesCount(AddSample(c, samples[0]), samples[1..]);
    }
  }

  /** CounterCollection: 512 slots of which the first `inUse` are handed out. */
  datatype Collection = Collection(inUse: nat, counters: seq<Counter>)

  predicate ValidCollection(cc: Collection) {
    |cc.counters| == MAX_COUNTERS && cc.inUse <= MAX_COUNTERS
  }

  /** The constructor: no counter in use. */
  const NewCollection := Collection(0, seq(MAX_COUNTERS, _ => FreshCounter))

  /** GetNextCounter: none when all 512 are in use, otherwise the next slot. */
  function GetNextCounter(cc: Collection): (r: (Option<nat>, Collection))
    requires ValidCollection(cc)
    ensures ValidCollection(r.1) && r.1.counters == cc.counters
    ensures r.0.None? <==> cc.inUse == MAX_COUNTERS
    ensures r.0.None? ==> r.1 == cc
    ensures r.0.Some? ==> r.0.value == cc.inUse && r.1.inUse == cc.inUse + 1
  {
    if cc.inUse == MAX_COUNTERS then (None, cc)
    else (Some(cc.inUse), Collection(cc.inUse + 1, cc.counters))
  }

  /** A fresh collection hands out exactly 512 slots, numbered from zero. */
  lemma {:induction false} SlotsHandedOut(cc: Collection, n: nat)
    requires ValidCollection(cc) && cc.inUse + n <= MAX_COUNTERS
    ensures TakeSlots(cc, n).0 == seq(n, i => cc.inUse + i)
    ensures TakeSlots(cc, n).1.inUse == cc.inUse + n
    decreases n
  {
    if n > 0 {
      var (slot, next) := GetNextCounter(cc);
      SlotsHandedOut(next, n - 1);
      assert seq(n, i => cc.inUse + i) == [cc.inUse] + seq(n - 1, i => next.inUse + i);
    }
  }

  /** `n` calls of GetNextCounter: the slots they return. */
  function TakeSlots(cc: Collection, n: nat): (seq<nat>, Collection)
    requires ValidCollection(cc)
    decreases n
  {
    if n == 0 then ([], cc)
    else
      match GetNextCounter(cc)
      case (None, c) => ([], c)
      case (Some(slot), next) =>
        var (rest, last) := TakeSlots(next, n - 1);
        ([slot] + rest, last)
  }

  /** The counter map from names to slots, with the collection behind it. */
  datatype Counters = Counters(names: map<string, nat>, collection: Collection)

  /** Every mapped slot is handed out, and no two names share one. */
  predicate ValidCounters(cs: Counters) {
    && ValidCollection(cs.collection)
    && (forall n :: n in cs.names ==> cs.names[n] < cs.collection.inUse)
    && (forall n, m :: n in cs.names && m in cs.names && n != m ==> cs.names[n] != cs.names[m])
  }

  /**
   * What V8Runtime::GetCounter gives back: a slot, none because all 512
   * are in use, or the failed debug `assert` on a known name asked for with
   * the other histogram flag.
   */
  datatype CounterLookup = Slot(index: nat) | NoSlot | KindAssertFails

  /**
   * V8Runtime::GetCounter: the slot already mapped to the name when its
   * kind agrees, or the next free slot mapped and bound, or none when the
   * collection is full.
   */
  function GetCounter(cs: Counters, name: string, isHistogram: bool): (r: (CounterLookup, Counters))
    requires ValidCounters(cs)
    ensures ValidCounters(r.1)
    ensures r.0.KindAssertFails? <==>
      CString(name) in cs.names && cs.collection.counters[cs.names[CString(name)]].isHistogram != isHistogram
    ensures CString(name) in cs.names ==> r.1 == cs
    ensures CString(name) in cs.names && !r.0.KindAssertFails? ==> r.0 == Slot(cs.names[CString(name)])
    ensures CString(name) !in cs.names && cs.collection.inUse == MAX_COUNTERS ==> r == (NoSlot, cs)
    ensures CString(name) !in cs.names && cs.collection.inUse < MAX_COUNTERS ==>
      && r.0 == Slot(cs.collection.inUse)
      && r.1.names == cs.names[CString(name) := cs.collection.inUse]
      && r.1.collection.counters[cs.collection.inUse] == Bind(cs.collection.counters[cs.collection.inUse], name, isHistogram)
  {
    var key := CString(name);
    if key in cs.names then
      var slot := cs.names[key];
      if cs.collection.counters[slot].isHistogram == isHistogram then (Slot(slot), cs)
      else (KindAssertFails, cs)
    else
      match GetNextCounter(cs.collection)
      case (None, c) => (NoSlot, cs)
      case (Some(slot), c) =>
        var bound := Bind(c.counters[slot], name, isHistogram);
        var r := Counters(cs.names[key := slot], Collection(c.inUse, c.counters[slot := bound]));
        assert forall n :: n in r.names && n != key ==> r.names[n] == cs.names[n];
        (Slot(slot), r)
  }

  /** Asking again for a name with the same flag returns the same counter and changes nothing. */
  lemma {:induction false} GetCounterTwice(cs: Counters, name: string, isHistogram: bool)
    requires ValidCounters(cs)
    requires GetCounter(cs, name, isHistogram).0.Slot?
    ensures var (first, after) := GetCounter(cs, name, isHistogram);
      GetCounter(after, name, isHistogram) == (first, after)
  {
  }

  /**
   * A name handed out as one kind fails the assert when asked for as the
   * other: CreateHistogram after LookupCounter on the same name, or the
   * reverse.
   */
  lemma {:induction false} GetCounterOtherKindFails(cs: Counters, name: string, isHistogram: bool)
    requires ValidCounters(cs)
    requires GetCounter(cs, name, isHistogram).0.Slot?
    ensures GetCounter(GetCounter(cs, name, isHistogram).1, name, !isHistogram) ==
      (KindAssertFails, GetCounter(cs, name, isHistogram).1)
  {
  }

  // ---------------------------------------------------------------------
  // NearHeapLimitCallback
  // ---------------------------------------------------------------------

  const HEAP_LIMIT_STEP: nat := 5 * 1024 * 1024
  const SIZE_T_LIMIT: nat := 0x1_0000_0000_0000_0000

  /** The new heap limit: 5 MiB above the current one, in size_t arithmetic. */
  function NearHeapLimit(current: uint64, initial: uint64): (r: uint64)
    ensures current < SIZE_T_LIMIT - HEAP_LIMIT_STEP ==> r == current + HEAP_LIMIT_STEP && r > current
    ensures (r - current - HEAP_LIMIT_STEP) % SIZE_T_LIMIT == 0
  {
    (current + HEAP_LIMIT_STEP) % SIZE_T_LIMIT
  }

  // ---------------------------------------------------------------------
  // ReportException
  // ---------------------------------------------------------------------

  const UNCAUGHT_PREFIX := "Uncaught Error:"
  const STACK_OVERFLOW_TEXT := "Maximum call stack size exceeded"

  /** std::string::npos. */
  const STRING_NPOS: uint64 := SIZE_T_LIMIT - 1

  /** Erasing 16 characters from a message that starts with the 15-character prefix. */
  function StripUncaught(m: string): (r: string)
    ensures !StartsWith(m, UNCAUGHT_PREFIX) ==> r == m
    ensures StartsWith(m, UNCAUGHT_PREFIX) && |m| >= 16 ==> m == m[..16] + r
    ensures StartsWith(m, UNCAUGHT_PREFIX) && |m| < 16 ==> r == []
  {
    if StartsWith(m, UNCAUGHT_PREFIX) then (if |m| >= 16 then m[16..] else []) else m
  }

  /** The message V8 prefixes comes back as written. */
  lemma {:induction false} StripUncaughtPrefix(m: string)
    ensures StripUncaught("Uncaught Error: " + m) == m
  {
    assert ("Uncaught Error: " + m)[..|UNCAUGHT_PREFIX|] == UNCAUGHT_PREFIX;
    assert ("Uncaught Error: " + m)[16..] == m;
  }

  /** The index of the first newline at or after `from`, or |s| when there is none. */
  function NextNewline(s: string, from: nat): (r: nat)
    ensures from <= |s| ==> from <= r <= |s|
    ensures from > |s| ==> r == |s|
    ensures r < |s| ==> s[r] == '\n'
    decreases |s| - from
  {
    if from >= |s| then |s| else if s[from] == '\n' then from else NextNewline(s, from + 1)
  }

  /** stack.find("\n", pos): npos when there is none at or after `pos`. */
  function FindNewline(s: string, pos: uint64): (r: uint64)
    ensures r != STRING_NPOS ==> pos <= r < |s| && s[r] == '\n'
  {
    if pos >= |s| then STRING_NPOS
    else
      var i := NextNewline(s, pos);
      if i == |s| || i >= STRING_NPOS then STRING_NPOS else i
  }

  /** size_t `x + 1`: npos + 1 wraps to 0. */
  function SizeSucc(x: uint64): uint64 {
    if x == STRING_NPOS then 0 else x + 1
  }

  /** The loop `endOfMessage = stack.find("\n", endOfMessage + 1)`, `k` times. */
  function SkipNewlines(s: string, end: uint64, k: nat): uint64
    decreases k
  {
    if k == 0 then end else SkipNewlines(s, FindNewline(s, SizeSucc(end)), k - 1)
  }

  /**
   * The stack without the message: everything up to and including the
   * newline found after skipping as many newlines as the message holds.
   */
  function TrimStack(stack: string, message: string): string
  {
    var end := SkipNewlines(stack, FindNewline(stack, 0), CountChar(message, '\n'));
    var erase := SizeSucc(end);
    if erase <= |stack| then stack[erase..] else []
  }

  /** Whatever the message, the trimmed stack is a suffix of the stack. */
  lemma {:induction false} TrimStackIsSuffix(stack: string, message: string)
    ensures var r := TrimStack(stack, message);
      |r| <= |stack| && r == stack[|stack| - |r|..]
  {
    var end := SkipNewlines(stack, FindNewline(stack, 0), CountChar(message, '\n'));
    var erase := SizeSucc(end);
    if erase > |stack| {
      assert stack[|stack|..] == [];
    }
  }

  /** No newline lies between `from` and the next one. */
  lemma {:induction false} NextNewlineIsFirst(s: string, from: nat, j: nat)
    requires from <= j < NextNewline(s, from)
    ensures s[j] != '\n'
    decreases |s| - from
  {
    if j > from {
      NextNewlineIsFirst(s, from + 1, j);
    }
  }

  /** A newline with none before it from `from` is the next one. */
  lemma {:induction false} NextNewlineIs(s: string, from: nat, i: nat)
    requires from <= i < |s| && s[i] == '\n' && forall j :: from <= j < i ==> s[j] != '\n'
    ensures NextNewline(s, from) == i
    decreases i - from
  {
    if from < i {
      NextNewlineIs(s, from + 1, i);
    }
  }

  /** The newlines of `s` at or after `from`. */
  function NewlinesFrom(s: string, from: nat): nat
    decreases |s| - from
  {
    if from >= |s| then 0 else (if s[from] == '\n' then 1 else 0) + NewlinesFrom(s, from + 1)
  }

  /** Past the next newline there is one newline fewer; with none, there are none at all. */
  lemma {:induction false} NewlinesAfterNext(s: string, from: nat)
    requires from <= |s|
    ensures var i := NextNewline(s, from);
      i < |s| ==> NewlinesFrom(s, i + 1) + 1 == NewlinesFrom(s, from)
    ensures NextNewline(s, from) == |s| ==> NewlinesFrom(s, from) == 0
    decreases |s| - from
  {
    if from < |s| && s[from] != '\n' {
      NewlinesAfterNext(s, from + 1);
    }
  }

  /** The newline count of a suffix is the count from its first index. */
  lemma {:induction false} CountCharFrom(s: string, from: nat)
    requires from <= |s|
    ensures CountChar(s[from..], '\n') == NewlinesFrom(s, from)
    decreases |s| - from
  {
    if from < |s| {
      CountCharFrom(s, from + 1);
      assert s[from..][1..] == s[from + 1..];
    }
  }

  /** The newlines before `p` and those from `p` on make up all of them. */
  lemma {:induction false} NewlinesSplit(s: string, p: nat)
    requires p <= |s|
    ensures CountChar(s[..p], '\n') + NewlinesFrom(s, p) == CountChar(s, '\n')
  {
    CountCharFrom(s, p);
    CountCharAppend(s[..p], s[p..], '\n');
    assert s[..p] + s[p..] == s;
  }

  /**
   * Starting at a newline with at least `k` more after it, the loop lands on
   * the `k`-th of them.
   */
  lemma {:induction false} SkipNewlinesSpec(s: string, end: nat, k: nat)
    requires end < |s| < STRING_NPOS && s[end] == '\n' && NewlinesFrom(s, end + 1) >= k
    ensures var e := SkipNewlines(s, end, k);
      && end <= e < |s| && s[e] == '\n'
      && NewlinesFrom(s, e + 1) + k == NewlinesFrom(s, end + 1)
    decreases k
  {
    if k > 0 {
      NewlinesAfterNext(s, end + 1);
      var next := NextNewline(s, end + 1);
      assert SizeSucc(end) == end + 1;
      assert FindNewline(s, end + 1) == next;
      SkipNewlinesSpec(s, next, k - 1);
    }
  }

  /**
   * When the stack holds more newlines than the message, trimming keeps
   * the text after its (n + 1)-th newline, n being the message's newlines:
   * it drops the line the error type and the message's first line share,
   * and one more line per newline of the message.
   */
  lemma {:induction false} TrimStackDropsMessageLines(stack: string, message: string)
    requires |stack| < STRING_NPOS && CountChar(stack, '\n') > CountChar(message, '\n')
    ensures var r := TrimStack(stack, message);
      var p := |stack| - |r|;
      && 0 < p <= |stack| && r == stack[p..] && stack[p - 1] == '\n'
      && CountChar(stack[..p], '\n') == CountChar(message, '\n') + 1
  {
    var n := CountChar(message, '\n');
    NewlinesSplit(stack, 0);
    NewlinesAfterNext(stack, 0);
    var first := NextNewline(stack, 0);
    assert FindNewline(stack, 0) == first;
    SkipNewlinesSpec(stack, first, n);
    var e := SkipNewlines(stack, first, n);
    assert SizeSucc(e) == e + 1;
    NewlinesSplit(stack, e + 1);
  }

  /** A stack without any newline is kept whole: npos + 1 erases nothing. */
  lemma {:induction false} TrimStackWithoutNewline(stack: string, message: string)
    requires '\n' !in stack && |stack| < STRING_NPOS
    ensures TrimStack(stack, message) == stack
  {
    var k := CountChar(message, '\n');
    assert FindNewline(stack, 0) == STRING_NPOS;
    SkipNowhere(stack, k);
  }

  lemma {:induction false} SkipNowhere(stack: string, k: nat)
    requires '\n' !in stack && |stack| < STRING_NPOS
    ensures SkipNewlines(stack, STRING_NPOS, k) == STRING_NPOS
    decreases k
  {
    if k > 0 {
      assert FindNewline(stack, SizeSucc(STRING_NPOS)) == STRING_NPOS;
      SkipNowhere(stack, k - 1);
    }
  }

  /** The error ReportException throws: the message, and the stack when it sets one. */
  datatype ThrownError = ThrownError(message: string, stack: Option<string>)

  /**
   * ReportException: with no message object the exception's text alone;
   * otherwise the message without V8's prefix, and the stack trace (plus
   * std::endl) with the message lines trimmed off unless the stack tells of
   * a stack overflow, when it is kept whole.
   */
  function ReportException(exceptionText: string, message: Option<string>, stackTrace: Option<string>): (r: ThrownError)
    ensures message.None? ==> r == ThrownError(exceptionText, None)
    ensures message.Some? ==> r.message == StripUncaught(message.value) && r.stack.Some?
  {
    match message
    case None => ThrownError(exceptionText, None)
    case Some(m) =>
      var stack := if stackTrace.Some? && |stackTrace.value| > 0 then stackTrace.value + "\n" else "";
      var text := StripUncaught(m);
      if Find(stack, STACK_OVERFLOW_TEXT, 0).None? then ThrownError(text, Some(TrimStack(stack, text)))
      else ThrownError(text, Some(stack))
  }

  /**
   * V8's stack "Error: <message>\n<frames>" comes back as the frames alone
   * (with the newline std::endl adds) when the message has no newline of
   * its own and the stack does not tell of a stack overflow.
   */
  lemma {:induction false} ReportExceptionStack(header: string, frames: string)
    requires '\n' !in header && |header| + |frames| + 2 < STRING_NPOS
    requires Find(header + "\n" + frames + "\n", STACK_OVERFLOW_TEXT, 0).None?
    ensures ReportException([], Some(header), Some(header + "\n" + frames)).stack == Some(frames + "\n")
  {
    var stack := header + "\n" + frames + "\n";
    assert (header + "\n" + frames) + "\n" == stack;
    var text := StripUncaught(header);
    assert CountChar(text, '\n') == 0 by {
      assert forall k :: 0 <= k < |text| ==> text[k] == header[|header| - |text| + k];
    }
    assert stack == header + "\n" + (frames + "\n");
    HeaderLineDropped(header, frames + "\n");
    assert FindNewline(stack, 0) == |header|;
  }

  /** The first newline of "<header>\n<rest>" is the one after the header. */
  lemma {:induction false} HeaderLineDropped(header: string, rest: string)
    requires '\n' !in header
    ensures NextNewline(header + "\n" + rest, 0) == |header|
    ensures (header + "\n" + rest)[|header| + 1..] == rest
  {
    var s := header + "\n" + rest;
    assert s[|header|] == '\n';
    NextNewlineIs(s, 0, |header|);
  }

  // ---------------------------------------------------------------------
  // GCTypeToString
  // ---------------------------------------------------------------------

  /** The GC types the trace names, and any other by its number. */
  datatype GCType = Scavenge | IncrementalMarking | MarkSweepCompact | ProcessWeakCallbacks | OtherGCType(number: nat)

  /** The callback flags the trace names, and any other combination by its number. */
  datatype GCFlags =
    | AllGarbage | AllExternalMemory | ConstructRetainedObjectInfos | Forced
    | SynchronousPhantomCallbackProcessing | ScheduleIdleGarbageCollection
    | OtherFlags(number: nat)

  function TypeLabel(t: GCType): string {
    match t
    case Scavenge => "Scavenge "
    case IncrementalMarking => "IncrementalMarking"
    case MarkSweepCompact => "MarkSweepCompact"
    case ProcessWeakCallbacks => "ProcessWeakCallbacks"
    case OtherGCType(n) => NatDigits(n)
  }

  function FlagsLabel(f: GCFlags): string {
    match f
    case AllGarbage => "AllGarbage"
    case AllExternalMemory => "AllExternalMemory"
    case ConstructRetainedObjectInfos => "ConstructRetainedObjectInfos"
    case Forced => "Forces"
    case SynchronousPhantomCallbackProcessing => "SynchronousPhantomCallbackProcessing"
    case ScheduleIdleGarbageCollection => "ScheduleIdleGarbageCollection"
    case OtherFlags(n) => NatDigits(n)
  }

  /**
   * GCTypeToString as written: the second switch's default appends the
   * number of the GC type, `typeNumber` (V8's value for `gcType`), where
   * the flags were meant.
   */
  function GCTypeToStringAsWritten(prefix: string, gcType: GCType, typeNumber: nat, flags: GCFlags): (r: string)
    requires gcType.OtherGCType? ==> typeNumber == gcType.number
    ensures |r| > |prefix| && r[..|prefix|] == prefix && r[|prefix|] == ','
  {
    var withType := prefix + "," + TypeLabel(gcType);
    match flags
    case OtherFlags(_) => withType + "," + NatDigits(typeNumber)
    case _ => withType + "," + FlagsLabel(flags)
  }

  /** GCTypeToString with the flags' own number in the default case. */
  function GCTypeToString(prefix: string, gcType: GCType, flags: GCFlags): (r: string)
    ensures |r| > |prefix| && r[..|prefix|] == prefix && r[|prefix|] == ','
  {
    prefix + "," + TypeLabel(gcType) + "," + FlagsLabel(flags)
  }

  predicate NoComma(s: string) {
    forall k :: 0 <= k < |s| ==> s[k] != ','
  }

  /** The text after the last comma. */
  function LastField(s: string): string {
    match LastIndexOf(s, ',')
    case Some(i) => s[i + 1..]
    case None => s
  }

  /** The text before the last comma. */
  function DropLastField(s: string): string {
    match LastIndexOf(s, ',')
    case Some(i) => s[..i]
    case None => []
  }

  lemma {:induction false} LabelsHaveNoComma(t: GCType, f: GCFlags)
    ensures NoComma(TypeLabel(t)) && NoComma(FlagsLabel(f))
  {
    TypeLabelHasNoComma(t);
    FlagsLabelHasNoComma(f);
  }

  lemma {:induction false} TypeLabelHasNoComma(t: GCType)
    ensures NoComma(TypeLabel(t))
  {
    match t
    case OtherGCType(n) => NatDigitsHaveNoComma(n);
    case Scavenge => assert NoComma("Scavenge ");
    case IncrementalMarking => assert NoComma("IncrementalMarking");
    case MarkSweepCompact => assert NoComma("MarkSweepCompact");
    case ProcessWeakCallbacks => assert NoComma("ProcessWeakCallbacks");
  }

  lemma {:induction false} FlagsLabelHasNoComma(f: GCFlags)
    ensures NoComma(FlagsLabel(f))
  {
    match f
    case OtherFlags(n) => NatDigitsHaveNoComma(n);
    case AllGarbage => assert NoComma("AllGarbage");
    case AllExternalMemory => assert NoComma("AllExternalMemory");
    case ConstructRetainedObjectInfos => assert NoComma("ConstructRetainedObjectInfos");
    case Forced => assert NoComma("Forces");
    case SynchronousPhantomCallbackProcessing => assert NoComma("SynchronousPhantomCallbackProcessing");
    case ScheduleIdleGarbageCollection => assert NoComma("ScheduleIdleGarbageCollection");
  }

  lemma {:induction false} NatDigitsHaveNoComma(n: nat)
    ensures NoComma(NatDigits(n))
  {
    var d := NatDigits(n);
    forall k | 0 <= k < |d|
      ensures d[k] != ','
    {
      assert IsDigit(d[k]);
    }
  }

  lemma {:induction false} LastFieldAfterComma(a: string, b: string)
    requires NoComma(b)
    ensures LastField(a + "," + b) == b
  {
    var s := a + "," + b;
    assert s[|a|] == ',';
    assert forall j :: |a| < j < |s| ==> s[j] == b[j - |a| - 1];
    assert s[|a| + 1..] == b;
  }

  lemma {:induction false} DropLastFieldAfterComma(a: string, b: string)
    requires NoComma(b)
    ensures DropLastField(a + "," + b) == a
  {
    var s := a + "," + b;
    assert s[|a|] == ',';
    assert forall j :: |a| < j < |s| ==> s[j] == b[j - |a| - 1];
    assert s[..|a|] == a;
  }

  /**
   * The corrected trace can be split back at its commas: the field before
   * the last is the GC type's label, and what precedes it is the prefix.
   */
  lemma {:induction false} GCTypeToStringNamesType(prefix: string, gcType: GCType, flags: GCFlags)
    ensures LastField(DropLastField(GCTypeToString(prefix, gcType, flags))) == TypeLabel(gcType)
    ensures DropLastField(DropLastField(GCTypeToString(prefix, gcType, flags))) == prefix
  {
    LabelsHaveNoComma(gcType, flags);
    DropLastFieldAfterComma(prefix + "," + TypeLabel(gcType), FlagsLabel(flags));
    LastFieldAfterComma(prefix, TypeLabel(gcType));
    DropLastFieldAfterComma(prefix, TypeLabel(gcType));
  }

  /** The corrected trace ends with the flags' label: the flags can be read back from it. */
  lemma {:induction false} GCTypeToStringNamesFlags(prefix: string, gcType: GCType, flags: GCFlags)
    ensures LastField(GCTypeToString(prefix, gcType, flags)) == FlagsLabel(flags)
  {
    LabelsHaveNoComma(gcType, flags);
    LastFieldAfterComma(prefix + "," + TypeLabel(gcType), FlagsLabel(flags));
  }

  /**
   * The code as written reports a scavenge with no flags (flags value 0,
   * the type's value 1) as ",Scavenge ,1": the last field is the type's
   * number, not the flags'.
   */
  lemma {:induction false} AsWrittenReportsTypeForFlags()
    ensures LastField(GCTypeToStringAsWritten("GCPrologue", Scavenge, 1, OtherFlags(0))) == "1"
    ensures LastField(GCTypeToString("GCPrologue", Scavenge, OtherFlags(0))) == "0"
  {
    assert NatDigits(1) == "1" && NatDigits(0) == "0";
    LastFieldAfterComma("GCPrologue" + "," + TypeLabel(Scavenge), "1");
    GCTypeToStringNamesFlags("GCPrologue", Scavenge, OtherFlags(0));
  }
}

=== FILE: v8_runtime_impl.dfy ===
/**
 * Lifetime state kept by the V8 JSI runtime's private header
 * (src/V8JsiRuntime_impl.h): the tracker that tears down a host object's
 * proxy once, the proxies' teardown, and the process-wide platform holder.
 */
module V8RuntimeImpl {
  import opened Wrappers

  // ---------------------------------------------------------------------
  // Host proxies
  // ---------------------------------------------------------------------

  /** A host function: the embedder's (an opaque id), or the stub destroy leaves. */
  datatype HostFunction = Embedder(id: nat) | ReturnsUndefined

  /** What a proxy holds: a shared host object, or a host function. */
  datatype Proxy = ObjectProxy(hostObject: Option<nat>) | FunctionProxy(func: HostFunction)

  /**
   * destroy: an object proxy drops its host object, a function proxy
   * replaces its function with one that returns undefined.
   */
  function Destroy(p: Proxy): (r: Proxy)
    ensures r.ObjectProxy? <==> p.ObjectProxy?
    ensures r.ObjectProxy? ==> r.hostObject.None?
    ensures r.FunctionProxy? ==> r.func == ReturnsUndefined
  {
    match p
    case ObjectProxy(_) => ObjectProxy(None)
    case FunctionProxy(_) => FunctionProxy(ReturnsUndefined)
  }

  /** A destroyed proxy holds nothing of the embedder's. */
  predicate Released(p: Proxy) {
    match p
    case ObjectProxy(o) => o.None?
    case FunctionProxy(f) => f == ReturnsUndefined
  }

  /** Destroying releases, and destroying again changes nothing. */
  lemma {:induction false} DestroyReleases(p: Proxy)
    ensures Released(Destroy(p)) && Destroy(Destroy(p)) == Destroy(p)
    ensures Released(p) ==> Destroy(p) == p
  {
  }

  // ---------------------------------------------------------------------
  // HostObjectLifetimeTracker
  // ---------------------------------------------------------------------

  /** The tracker: whether it has reset, its proxy, and how often it called destroy. */
  datatype Tracker = Tracker(isReset: bool, proxy: Proxy, proxyId: nat, destroyCalls: nat)

  /** The constructor. */
  function NewTracker(proxy: Proxy, proxyId: nat): (t: Tracker)
    ensures !t.isReset && t.destroyCalls == 0
  {
    Tracker(false, proxy, proxyId, 0)
  }

  /** A reset, or the debug assertion that a weak callback comes before any other reset. */
  datatype ResetResult = ResetDone(tracker: Tracker) | GCAfterReset

  /**
   * ResetHostObject: the first reset destroys the proxy; later ones do
   * nothing; a reset from the GC after an earlier reset trips the assertion.
   */
  function ResetHostObject(t: Tracker, isGC: bool): (r: ResetResult)
    ensures r.GCAfterReset? <==> isGC && t.isReset
    ensures r.ResetDone? ==> r.tracker.isReset && r.tracker.proxyId == t.proxyId
    ensures r.ResetDone? && t.isReset ==> r.tracker == t
    ensures r.ResetDone? && !t.isReset ==>
      r.tracker.proxy == Destroy(t.proxy) && r.tracker.destroyCalls == t.destroyCalls + 1
  {
    if isGC && t.isReset then GCAfterReset
    else if !t.isReset then ResetDone(Tracker(true, Destroy(t.proxy), t.proxyId, t.destroyCalls + 1))
    else ResetDone(t)
  }

  /** A series of resets, each from the GC or not; none once the assertion trips. */
  function Resets(t: Tracker, fromGC: seq<bool>): Option<Tracker>
    decreases |fromGC|
  {
    if fromGC == [] then Some(t)
    else
      match ResetHostObject(t, fromGC[0])
      case GCAfterReset => None
      case ResetDone(next) => Resets(next, fromGC[1..])
  }

  /**
   * However many resets a tracker sees, destroy runs once (none without a
   * reset); the assertion holds exactly when no GC reset follows another
   * reset.
   */
  lemma {:induction false} ResetsDestroyOnce(proxy: Proxy, proxyId: nat, fromGC: seq<bool>)
    ensures Resets(NewTracker(proxy, proxyId), fromGC).Some? <==>
      forall k :: 0 < k < |fromGC| ==> !fromGC[k]
    ensures Resets(NewTracker(proxy, proxyId), fromGC).Some? ==>
      var t := Resets(NewTracker(proxy, proxyId), fromGC).value;
      && t.destroyCalls == (if fromGC == [] then 0 else 1)
      && t.isReset == (fromGC != [])
      && t.proxy == (if fromGC == [] then proxy else Destroy(proxy))
  {
    if fromGC != [] {
      var first := Tracker(true, Destroy(proxy), proxyId, 1);
      assert ResetHostObject(NewTracker(proxy, proxyId), fromGC[0]) == ResetDone(first);
      LaterResetsIdle(first, fromGC[1..]);
      forall k | 0 < k < |fromGC|
        ensures fromGC[k] == fromGC[1..][k - 1]
      {
      }
    }
  }

  /** After the first reset, resets change nothing and fail at the first GC one. */
  lemma {:induction false} LaterResetsIdle(t: Tracker, fromGC: seq<bool>)
    requires t.isReset
    ensures Resets(t, fromGC).Some? <==> forall k :: 0 <= k < |fromGC| ==> !fromGC[k]
    ensures Resets(t, fromGC).Some? ==> Resets(t, fromGC).value == t
    decreases |fromGC|
  {
    if fromGC != [] && !fromGC[0] {
      LaterResetsIdle(t, fromGC[1..]);
      forall k | 0 < k < |fromGC|
        ensures fromGC[k] == fromGC[1..][k - 1]
      {
      }
    }
  }

  /** The destructor's assertion: the tracker has been reset. */
  predicate DestructionAllowed(t: Tracker) {
    t.isReset
  }

  /**
   * A tracker that was never reset may not be destroyed; one that came
   * through a series of resets without tripping the reset assertion may be
   * destroyed exactly when the series was not empty.
   */
  lemma {:induction false} DestructionNeedsReset(proxy: Proxy, proxyId: nat, fromGC: seq<bool>)
    ensures !DestructionAllowed(NewTracker(proxy, proxyId))
    ensures Resets(NewTracker(proxy, proxyId), fromGC).Some? ==>
      (DestructionAllowed(Resets(NewTracker(proxy, proxyId), fromGC).value) <==> fromGC != [])
  {
    ResetsDestroyOnce(proxy, proxyId, fromGC);
  }

  /** IsEqual: the tracker watches that proxy. */
  predicate IsEqual(t: Tracker, proxyId: nat) {
    t.proxyId == proxyId
  }

  // ---------------------------------------------------------------------
  // V8PlatformHolder
  // ---------------------------------------------------------------------

  /** The static use count (an unsigned 32-bit atomic), whether a platform exists, and how often one was made. */
  datatype Platform = Platform(useCount: uint32, exists_: bool, created: nat)

  const NoPlatform := Platform(0, false, 0)

  /** addUsage: the platform is made on a use count of zero when there is none. */
  function AddUsage(p: Platform): (r: Platform)
    ensures r.exists_ <==> p.exists_ || p.useCount == 0
    ensures r.created == p.created + (if p.useCount == 0 && !p.exists_ then 1 else 0)
    ensures r.useCount == (p.useCount + 1) % UINT32_LIMIT
  {
    var created := if p.useCount == 0 && !p.exists_ then p.created + 1 else p.created;
    Platform((p.useCount + 1) % UINT32_LIMIT, p.exists_ || p.useCount == 0, created)
  }

  /** releaseUsage: the count goes down; the platform is never torn down. */
  function ReleaseUsage(p: Platform): (r: Platform)
    ensures r.exists_ == p.exists_ && r.created == p.created
    ensures p.useCount > 0 ==> r.useCount == p.useCount - 1
    ensures p.useCount == 0 ==> r.useCount == UINT32_LIMIT - 1
  {
    Platform((p.useCount - 1) % UINT32_LIMIT, p.exists_, p.created)
  }

  /** firstInit. */
  predicate FirstInit(p: Platform) {
    p.useCount == 0 && !p.exists_
  }

  datatype Usage = Add | Release

  function Apply(p: Platform, ops: seq<Usage>): Platform
    decreases |ops|
  {
    if ops == [] then p
    else Apply(if ops[0] == Add then AddUsage(p) else ReleaseUsage(p), ops[1..])
  }

  /** Every release matches an earlier use, and the count stays within 32 bits. */
  predicate Balanced(count: nat, ops: seq<Usage>)
    decreases |ops|
  {
    ops == [] ||
    (if ops[0] == Add then count + 1 < UINT32_LIMIT && Balanced(count + 1, ops[1..])
     else count > 0 && Balanced(count - 1, ops[1..]))
  }

  /** The holder's invariant: a platform exists while anyone uses it, and it was made at most once. */
  predicate PlatformInvariant(p: Platform) {
    (p.useCount > 0 ==> p.exists_) && p.created == (if p.exists_ then 1 else 0)
  }

  /**
   * Whatever the order of balanced uses and releases, the platform is made
   * at most once, it exists exactly when some use was added, and firstInit
   * holds only until then.
   */
  lemma {:induction false} PlatformMadeOnce(p: Platform, ops: seq<Usage>)
    requires PlatformInvariant(p) && Balanced(p.useCount, ops)
    ensures PlatformInvariant(Apply(p, ops))
    ensures Apply(p, ops).exists_ <==> p.exists_ || Add in ops
    ensures FirstInit(Apply(p, ops)) ==> !p.exists_ && Add !in ops
    decreases |ops|
  {
    if ops != [] {
      var next := if ops[0] == Add then AddUsage(p) else ReleaseUsage(p);
      PlatformMadeOnce(next, ops[1..]);
      assert ops == [ops[0]] + ops[1..];
    }
  }
}

=== FILE: wrappers.dfy ===
/** Option and machine-width helpers shared by every module of the model. */
module Wrappers {

  /** A value that may be absent: std::optional, a nullable pointer, std::string::npos. */
  datatype Option<+T> = None | Some(value: T) {
    function GetOr(default: T): T {
      match this
      case Some(v) => v
      case None => default
    }
  }

  /** An unsigned byte. */
  type uint8 = x: int | 0 <= x < 0x100

  /** Unsigned 16-, 32- and 64-bit values, kept as mathematical integers. */
  type uint16 = x: int | 0 <= x < 0x1_0000
  type uint32 = x: int | 0 <= x < 0x1_0000_0000
  type uint64 = x: int | 0 <= x < 0x1_0000_0000_0000_0000

  /** A signed 32-bit value. */
  type int32 = x: int | -0x8000_0000 <= x < 0x8000_0000

  /** Two's-complement wrap-around of an int into 32 bits. */
  function Wrap32(x: int): (r: int32)
    ensures -0x8000_0000 <= x < 0x8000_0000 ==> r == x
    ensures (r - x) % 0x1_0000_0000 == 0
  {
    (x + 0x8000_0000) % 0x1_0000_0000 - 0x8000_0000
  }

  const UINT32_LIMIT: int := 0x1_0000_0000
  const INT32_MAX: int := 0x7FFF_FFFF
  const INT32_MIN: int := -0x8000_0000
}

=== FILE: ws_frame.dfy ===
/**
 * The inspector's WebSocket framing (src/inspector/inspector_socket.cpp):
 * the server-side encoder of text frames, the decoder of client frames and
 * the WsHandler loop that feeds received bytes through the decoder.
 *
 * Frames follow section 5.2 (base framing) and section 5.3 (client-to-server
 * masking) of RFC 6455.
 */
module WsFrame {
  import opened Wrappers
  import opened Bits

  // ---------------------------------------------------------------------------
  // Frame constants

  // Bytes are integers in [0, 256); a test `b & FLAG` on a single-bit FLAG is
  // HasFlag(b, FLAG), the opcode `b & 0xF` is b % 16 and the 7-bit length
  // `b & 0x7F` is b % 128.

  const OP_CONTINUATION: uint8 := 0x0
  const OP_TEXT: uint8 := 0x1
  const OP_BINARY: uint8 := 0x2
  const OP_CLOSE: uint8 := 0x8
  const OP_PING: uint8 := 0x9
  const OP_PONG: uint8 := 0xA

  const FINAL_BIT: uint8 := 0x80
  const RESERVED1_BIT: uint8 := 0x40
  const RESERVED2_BIT: uint8 := 0x20
  const RESERVED3_BIT: uint8 := 0x10
  const OP_CODE_MASK: uint8 := 0xF
  const MASK_BIT: uint8 := 0x80
  const PAYLOAD_LENGTH_MASK: uint8 := 0x7F

  const MAX_SINGLE_BYTE_PAYLOAD_LENGTH: nat := 125
  const TWO_BYTE_PAYLOAD_LENGTH_FIELD: nat := 126
  const EIGHT_BYTE_PAYLOAD_LENGTH_FIELD: nat := 127
  const MASKING_KEY_WIDTH: nat := 4

  /** Largest payload length a frame may declare (the top bit must be clear). */
  const MAX_PAYLOAD_LENGTH: nat := 0x7FFF_FFFF_FFFF_FFFF
  /** SIZE_MAX of a 64-bit size_t. */
  const SIZE_MAX: nat := 0xFFFF_FFFF_FFFF_FFFF

  /** The close frame the server writes back: FIN + close opcode, no payload. */
  const CLOSE_FRAME: seq<uint8> := [0x88, 0x00]

  // ---------------------------------------------------------------------------
  // Network byte order

  /** `n` as `k` bytes, most significant first. */
  function BeBytes(n: nat, k: nat): (r: seq<uint8>)
    ensures |r| == k
  {
    if k == 0 then [] else BeBytes(n / 256, k - 1) + [n % 256]
  }

  /** The unsigned value of bytes in network byte order. */
  function BeValue(s: seq<uint8>): nat {
    if s == [] then 0 else BeValue(s[..|s| - 1]) * 256 + s[|s| - 1]
  }

  function Pow256(k: nat): nat {
    if k == 0 then 1 else 256 * Pow256(k - 1)
  }

  lemma {:induction false} BeValueBound(s: seq<uint8>)
    ensures BeValue(s) < Pow256(|s|)
  {
    if s != [] {
      BeValueBound(s[..|s| - 1]);
    }
  }

  /** Reading back `k` big-endian bytes gives the number that was written. */
  lemma {:induction false} BeValueOfBeBytes(n: nat, k: nat)
    requires n < Pow256(k)
    ensures BeValue(BeBytes(n, k)) == n
  {
    if k > 0 {
      var s := BeBytes(n, k);
      assert s[..|s| - 1] == BeBytes(n / 256, k - 1);
      BeValueOfBeBytes(n / 256, k - 1);
    }
  }

  // ---------------------------------------------------------------------------
  // Masking (section 5.3 of RFC 6455)

  /** Each payload byte XOR-ed with the key byte at its index modulo 4. */
  function Mask(data: seq<uint8>, key: seq<uint8>): (r: seq<uint8>)
    requires |key| == MASKING_KEY_WIDTH
    ensures |r| == |data|
    ensures forall i :: 0 <= i < |data| ==> r[i] == Xor8(data[i], key[i % MASKING_KEY_WIDTH])
  {
    seq(|data|, i requires 0 <= i < |data| => Xor8(data[i], key[i % MASKING_KEY_WIDTH]))
  }

  /** Masking twice with the same key restores the data. */
  lemma {:induction false} MaskInvolution(data: seq<uint8>, key: seq<uint8>)
    requires |key| == MASKING_KEY_WIDTH
    ensures Mask(Mask(data, key), key) == data
  {
    var m := Mask(data, key);
    forall i | 0 <= i < |data|
      ensures Mask(m, key)[i] == data[i]
    {
      Xor8Involution(data[i], key[i % 4]);
    }
  }

  // ---------------------------------------------------------------------------
  // Encoding

  /** Number of extended length bytes the encoder uses for a payload of `n` bytes. */
  function ExtendedLengthBytes(n: nat): nat {
    if n <= MAX_SINGLE_BYTE_PAYLOAD_LENGTH then 0 else if n <= 0xFFFF then 2 else 8
  }

  /** The 7-bit length field followed by its extension, for a payload of `n` bytes. */
  function LengthField(n: nat): (r: seq<uint8>)
    requires n <= SIZE_MAX
    ensures |r| == 1 + ExtendedLengthBytes(n)
  {
    if n <= MAX_SINGLE_BYTE_PAYLOAD_LENGTH then [n]
    else if n <= 0xFFFF then [TWO_BYTE_PAYLOAD_LENGTH_FIELD] + BeBytes(n, 2)
    else [EIGHT_BYTE_PAYLOAD_LENGTH_FIELD] + BeBytes(n, 8)
  }

  /**
   * encode_frame_hybi17: one final, unmasked text frame carrying `message`.
   */
  function EncodeFrame(message: seq<uint8>): (r: seq<uint8>)
    requires |message| <= SIZE_MAX
    ensures |r| == 2 + ExtendedLengthBytes(|message|) + |message|
    ensures r[0] == FINAL_BIT + OP_TEXT
    ensures r[2 + ExtendedLengthBytes(|message|)..] == message
  {
    var r := [FINAL_BIT + OP_TEXT] + LengthField(|message|) + message;
    assert r[2 + ExtendedLengthBytes(|message|)..] == message;
    r
  }

  /**
   * The encoder's length field: a short payload's length in the second byte,
   * otherwise 126 or 127 there and the length in 2 or 8 big-endian bytes;
   * the mask bit is never set on a server frame.
   */
  lemma {:induction false} EncodeFrameLengthField(message: seq<uint8>)
    requires |message| <= SIZE_MAX
    ensures var r := EncodeFrame(message);
      && r[1] < MASK_BIT
      && (|message| <= 125 ==> r[1] == |message|)
      && (125 < |message| <= 0xFFFF ==> r[1] == 126 && BeValue(r[2..4]) == |message|)
      && (0xFFFF < |message| ==> r[1] == 127 && BeValue(r[2..10]) == |message|)
  {
    var n := |message|;
    var r := EncodeFrame(message);
    var field := LengthField(n);
    assert r[1] == field[0];
    if n <= 125 {
    } else if n <= 0xFFFF {
      assert r[2..4] == field[1..];
      BeValueOfBeBytes(n, 2);
    } else {
      assert r[2..10] == field[1..];
      BeValueOfBeBytes(n, 8);
    }
  }

  /**
   * A text frame as a client sends it: the encoder's header with the
   * (clear) mask bit set, then the masking key, then the masked payload.
   */
  function ClientFrame(message: seq<uint8>, key: seq<uint8>): (r: seq<uint8>)
    requires |message| <= MAX_PAYLOAD_LENGTH && |key| == MASKING_KEY_WIDTH
    ensures |r| == 2 + ExtendedLengthBytes(|message|) + MASKING_KEY_WIDTH + |message|
  {
    var f := EncodeFrame(message);
    var h := 2 + ExtendedLengthBytes(|message|);
    [f[0], f[1] + MASK_BIT] + f[2..h] + key + Mask(message, key)
  }

  // ---------------------------------------------------------------------------
  // Decoding

  datatype DecodeResult = FrameOk | FrameIncomplete | FrameClose | FrameError

  /** What decode_frame_hybi17 reports through its return value and out-parameters. */
  datatype Decoded = Decoded(result: DecodeResult, consumed: nat, output: seq<uint8>, compressed: bool)

  function OpCode(b0: uint8): uint8 {
    b0 % (OP_CODE_MASK + 1)
  }

  /** The 7-bit payload length of the second byte. */
  function Length7(b1: uint8): nat {
    b1 % (PAYLOAD_LENGTH_MASK + 1)
  }

  /** FIN set, RSV2 and RSV3 clear, and an opcode the decoder accepts (text or close). */
  predicate FirstByteAccepted(b0: uint8) {
    HasFlag(b0, FINAL_BIT) && !HasFlag(b0, RESERVED2_BIT) && !HasFlag(b0, RESERVED3_BIT)
    && (OpCode(b0) == OP_TEXT || OpCode(b0) == OP_CLOSE)
  }

  /** The frame's first two bytes pass every check that precedes the length. */
  predicate PrefixAccepted(b: seq<uint8>, clientFrame: bool) {
    |b| >= 2 && FirstByteAccepted(b[0]) && (!clientFrame || HasFlag(b[1], MASK_BIT))
  }

  /** Extended length bytes announced by the second byte's 7-bit length. */
  function ExtendedLengthSize(b1: uint8): nat {
    var len7 := Length7(b1);
    if len7 <= MAX_SINGLE_BYTE_PAYLOAD_LENGTH then 0
    else if len7 == TWO_BYTE_PAYLOAD_LENGTH_FIELD then 2
    else 8
  }

  /** Bytes before the masking key. */
  function HeaderSize(b1: uint8): nat {
    2 + ExtendedLengthSize(b1)
  }

  /** The payload length the header declares. */
  function DeclaredLength(b: seq<uint8>): nat
    requires |b| >= 2 && |b| >= HeaderSize(b[1])
  {
    if ExtendedLengthSize(b[1]) == 0 then Length7(b[1])
    else BeValue(b[2..HeaderSize(b[1])])
  }

  /** A header read up to (not including) the masking key. */
  datatype FrameHeader = FrameHeader(compressed: bool, closed: bool, headerSize: nat, payloadLength: nat)

  datatype HeaderParse = Parsed(header: FrameHeader) | Stopped(result: DecodeResult, compressed: bool)

  /** The checks decode_frame_hybi17 makes before it looks at the masking key. */
  function ParseHeader(b: seq<uint8>, clientFrame: bool): (r: HeaderParse)
    ensures r.Stopped? ==> r.result == FrameIncomplete || r.result == FrameError
    ensures r.Parsed? ==>
      && PrefixAccepted(b, clientFrame) && |b| >= HeaderSize(b[1])
      && r.header.headerSize == HeaderSize(b[1]) && r.header.payloadLength == DeclaredLength(b)
      && r.header.payloadLength <= MAX_PAYLOAD_LENGTH
  {
    if |b| < 2 then Stopped(FrameIncomplete, false)
    else
      var first := b[0];
      var second := b[1];
      var compressed := HasFlag(first, RESERVED1_BIT);
      if !HasFlag(first, FINAL_BIT) || HasFlag(first, RESERVED2_BIT) || HasFlag(first, RESERVED3_BIT) then
        Stopped(FrameError, compressed)
      else if OpCode(first) != OP_CLOSE && OpCode(first) != OP_TEXT then
        Stopped(FrameError, compressed)
      else if clientFrame && !HasFlag(second, MASK_BIT) then
        Stopped(FrameError, compressed)
      else
        var ext := ExtendedLengthSize(second);
        if |b| - 2 < ext then Stopped(FrameIncomplete, compressed)
        else
          var length := DeclaredLength(b);
          if length > MAX_PAYLOAD_LENGTH || length > SIZE_MAX - MASKING_KEY_WIDTH then
            Stopped(FrameError, compressed)
          else
            Parsed(FrameHeader(compressed, OpCode(first) == OP_CLOSE, 2 + ext, length))
  }

  /**
   * decode_frame_hybi17 with the completeness check the frame layout needs:
   * the buffer must hold the header, the 4-byte masking key and the payload.
   */
  function Decode(b: seq<uint8>, clientFrame: bool): (r: Decoded)
    ensures |b| < 2 ==> r == Decoded(FrameIncomplete, 0, [], false)
    ensures |b| >= 2 ==> r.compressed == HasFlag(b[0], RESERVED1_BIT)
    ensures |b| >= 2 && !FirstByteAccepted(b[0]) ==> r.result == FrameError
    ensures |b| >= 2 && clientFrame && !HasFlag(b[1], MASK_BIT) ==> r.result == FrameError
    ensures r.result == FrameIncomplete || r.result == FrameError ==> r.consumed == 0 && r.output == []
    ensures PrefixAccepted(b, clientFrame) && |b| < HeaderSize(b[1]) ==> r.result == FrameIncomplete
    ensures PrefixAccepted(b, clientFrame) && |b| >= HeaderSize(b[1]) && DeclaredLength(b) > MAX_PAYLOAD_LENGTH
      ==> r.result == FrameError
    ensures PrefixAccepted(b, clientFrame) && |b| >= HeaderSize(b[1]) && DeclaredLength(b) <= MAX_PAYLOAD_LENGTH
      ==> (r.result == FrameIncomplete <==> |b| < HeaderSize(b[1]) + MASKING_KEY_WIDTH + DeclaredLength(b))
    ensures r.result == FrameOk || r.result == FrameClose ==>
      PrefixAccepted(b, clientFrame) && |b| >= HeaderSize(b[1])
      && (r.result == FrameClose <==> OpCode(b[0]) == OP_CLOSE)
      && DeclaredLength(b) <= MAX_PAYLOAD_LENGTH
      && r.consumed == HeaderSize(b[1]) + MASKING_KEY_WIDTH + DeclaredLength(b) <= |b|
      && r.output == Mask(b[r.consumed - DeclaredLength(b)..r.consumed], b[HeaderSize(b[1])..HeaderSize(b[1]) + MASKING_KEY_WIDTH])
  {
    match ParseHeader(b, clientFrame)
    case Stopped(result, compressed) => Decoded(result, 0, [], compressed)
    case Parsed(h) =>
      var keyAt := h.headerSize;
      var payloadAt := keyAt + MASKING_KEY_WIDTH;
      if |b| < payloadAt + h.payloadLength then Decoded(FrameIncomplete, 0, [], h.compressed)
      else
        var output := Mask(b[payloadAt..payloadAt + h.payloadLength], b[keyAt..payloadAt]);
        Decoded(if h.closed then FrameClose else FrameOk, payloadAt + h.payloadLength, output, h.compressed)
  }

  /**
   * A client frame is decoded back to its message, whatever bytes follow it,
   * and exactly the frame's bytes are consumed.
   */
  lemma {:induction false} DecodeClientFrame(message: seq<uint8>, key: seq<uint8>, rest: seq<uint8>)
    requires |message| <= MAX_PAYLOAD_LENGTH && |key| == MASKING_KEY_WIDTH
    ensures var f := ClientFrame(message, key);
      Decode(f + rest, true) == Decoded(FrameOk, |f|, message, false)
  {
    ClientFrameHeaderParses(message, key, rest);
    ClientFramePayload(message, key, rest);
    MaskInvolution(message, key);
  }

  /** The header of a client frame parses back to the message's length, masked and unfragmented. */
  lemma {:induction false} ClientFrameHeaderParses(message: seq<uint8>, key: seq<uint8>, rest: seq<uint8>)
    requires |message| <= MAX_PAYLOAD_LENGTH && |key| == MASKING_KEY_WIDTH
    ensures ParseHeader(ClientFrame(message, key) + rest, true)
      == Parsed(FrameHeader(false, false, 2 + ExtendedLengthBytes(|message|), |message|))
  {
    var e := EncodeFrame(message);
    var b := ClientFrame(message, key) + rest;
    var ext := ExtendedLengthBytes(|message|);
    EncodeFrameLengthField(message);
    assert b[0] == e[0] == 0x81;
    assert b[1] == e[1] + MASK_BIT;
    assert Length7(b[1]) == e[1];
    assert ExtendedLengthSize(b[1]) == ext;
    assert b[2..2 + ext] == e[2..2 + ext];
    assert DeclaredLength(b) == |message|;
  }

  /** After the header of a client frame come its key and its masked payload. */
  lemma {:induction false} ClientFramePayload(message: seq<uint8>, key: seq<uint8>, rest: seq<uint8>)
    requires |message| <= MAX_PAYLOAD_LENGTH && |key| == MASKING_KEY_WIDTH
    ensures var b := ClientFrame(message, key) + rest;
      var at := 2 + ExtendedLengthBytes(|message|);
      && b[at..at + 4] == key
      && b[at + 4..at + 4 + |message|] == Mask(message, key)
  {
  }

  // ---------------------------------------------------------------------------
  // The completeness check as the source writes it

  /**
   * The source compares `buffer.size() - 4` (size_t arithmetic, so it wraps
   * for buffers shorter than 4 bytes) with the payload length alone, leaving
   * out the 2, 4 or 10 header bytes.
   */
  function AsWrittenPayloadFits(bufferSize: nat, payloadLength: nat): bool
    requires bufferSize <= SIZE_MAX
  {
    !((bufferSize - MASKING_KEY_WIDTH) % (SIZE_MAX + 1) < payloadLength)
  }

  /**
   * A 9-byte buffer announcing a 5-byte payload is two bytes short of a
   * frame, yet passes the check as written; so does a bare 2-byte header,
   * whose subtraction wraps around. The corrected decoder reports both as
   * incomplete.
   */
  lemma {:induction false} AsWrittenCheckAdmitsShortFrames()
    ensures var b: seq<uint8> := [0x81, 0x85, 1, 2, 3, 4, 5, 6, 7];
      ParseHeader(b, true) == Parsed(FrameHeader(false, false, 2, 5))
      && AsWrittenPayloadFits(|b|, 5) && |b| < 2 + MASKING_KEY_WIDTH + 5
      && Decode(b, true).result == FrameIncomplete
    ensures var b: seq<uint8> := [0x81, 0x80];
      ParseHeader(b, true) == Parsed(FrameHeader(false, false, 2, 0))
      && AsWrittenPayloadFits(|b|, 0) && |b| < 2 + MASKING_KEY_WIDTH
      && Decode(b, true).result == FrameIncomplete
  {
    var b: seq<uint8> := [0x81, 0x85, 1, 2, 3, 4, 5, 6, 7];
    assert DeclaredLength(b) == 5;
    var c: seq<uint8> := [0x81, 0x80];
    assert DeclaredLength(c) == 0;
  }

  // ---------------------------------------------------------------------------
  // WsHandler: feeding received bytes through the decoder

  /** What one ParseWsFrames call makes the handler do. */
  datatype WsAction =
    | Wait                          // incomplete frame: keep the bytes
    | Eof                           // error or compressed frame: drop the connection
    | CloseReceived(reply: seq<uint8>) // close frame: write a close frame back
    | Message(payload: seq<uint8>)    // text frame: handed to the delegate's OnWsFrame

  /**
   * ParseWsFrames: decode one client frame and return the bytes to remove,
   * which is zero for anything but a delivered text frame.
   */
  function ParseWsFrames(buffer: seq<uint8>): (r: (nat, WsAction))
    ensures r.0 > 0 <==> r.1.Message?
    ensures r.0 <= |buffer|
    ensures r.1.CloseReceived? ==> r.1.reply == CLOSE_FRAME
  {
    var d := Decode(buffer, true);
    if d.compressed || d.result == FrameError then (0, Eof)
    else if d.result == FrameClose then (0, CloseReceived(CLOSE_FRAME))
    else if d.result == FrameOk then (d.consumed, Message(d.output))
    else (0, Wait)
  }

  /**
   * Which decoder outcome leads to which action: a text frame is delivered
   * (and its bytes removed) unless it is flagged compressed, an incomplete
   * frame waits, and errors and compressed frames end the connection.
   */
  lemma {:induction false} ParseWsFramesOutcome(buffer: seq<uint8>)
    ensures var d := Decode(buffer, true);
      var (n, action) := ParseWsFrames(buffer);
      && (action.Message? <==> d.result == FrameOk && !d.compressed)
      && (action.Message? ==> n == d.consumed && action.payload == d.output)
      && (action.Wait? <==> d.result == FrameIncomplete && !d.compressed)
      && (action.Eof? <==> d.result == FrameError || d.compressed)
      && (action.CloseReceived? <==> d.result == FrameClose && !d.compressed)
  {
  }

  /**
   * WsHandler::OnData: parse frames and drop their bytes while frames are
   * delivered and bytes remain. Returns the actions taken, in order, and the
   * bytes left in the buffer.
   */
  function OnData(data: seq<uint8>): (r: (seq<WsAction>, seq<uint8>))
    decreases |data|
  {
    var step := ParseWsFrames(data);
    if step.0 == 0 then (if step.1.Wait? then [] else [step.1], data)
    else if step.0 == |data| then ([step.1], [])
    else
      var tail := OnData(data[step.0..]);
      ([step.1] + tail.0, tail.1)
  }

  /**
   * OnData leaves a suffix of what arrived, every action but the last is a
   * delivered message, and what is left does not start with a deliverable
   * frame.
   */
  lemma {:induction false} OnDataSpec(data: seq<uint8>)
    ensures var r := OnData(data);
      && |r.1| <= |data| && r.1 == data[|data| - |r.1|..]
      && (forall k :: 0 <= k < |r.0| - 1 ==> r.0[k].Message?)
      && (r.1 != [] ==> !ParseWsFrames(r.1).1.Message?)
    decreases |data|
  {
    var step := ParseWsFrames(data);
    if 0 < step.0 < |data| {
      var rest := data[step.0..];
      OnDataSpec(rest);
      var tail := OnData(rest);
      assert OnData(data) == ([step.1] + tail.0, tail.1);
      assert rest[|rest| - |tail.1|..] == data[|data| - |tail.1|..];
      var actions := [step.1] + tail.0;
      assert forall k :: 0 < k < |actions| ==> actions[k] == tail.0[k - 1];
    }
  }

  /** Every text frame of `messages`, masked with the matching key, back to back. */
  function ClientFrames(messages: seq<seq<uint8>>, keys: seq<seq<uint8>>): seq<uint8>
    requires |keys| == |messages|
    requires forall k :: 0 <= k < |messages| ==> |messages[k]| <= MAX_PAYLOAD_LENGTH && |keys[k]| == MASKING_KEY_WIDTH
  {
    if messages == [] then [] else ClientFrame(messages[0], keys[0]) + ClientFrames(messages[1..], keys[1..])
  }

  function Messages(messages: seq<seq<uint8>>): (r: seq<WsAction>)
    ensures |r| == |messages|
  {
    if messages == [] then [] else [Message(messages[0])] + Messages(messages[1..])
  }

  /**
   * Back-to-back client frames arriving in one read are delivered to the
   * delegate in order, and every byte is consumed.
   */
  lemma {:induction false} OnDataDeliversClientFrames(messages: seq<seq<uint8>>, keys: seq<seq<uint8>>)
    requires |keys| == |messages|
    requires forall k :: 0 <= k < |messages| ==> |messages[k]| <= MAX_PAYLOAD_LENGTH && |keys[k]| == MASKING_KEY_WIDTH
    ensures OnData(ClientFrames(messages, keys)) == (Messages(messages), [])
  {
    if messages != [] {
      var f := ClientFrame(messages[0], keys[0]);
      var rest := ClientFrames(messages[1..], keys[1..]);
      assert f + rest == ClientFrames(messages, keys);
      ParseClientFrame(messages[0], keys[0], rest);
      OnDataAfterMessage(f + rest, |f|, messages[0]);
      assert (f + rest)[|f|..] == rest;
      assert Messages(messages) == [Message(messages[0])] + Messages(messages[1..]);
      if rest == [] {
        assert Messages(messages) == [Message(messages[0])];
        assert OnData(f + rest) == ([Message(messages[0])], []);
      } else {
        OnDataDeliversClientFrames(messages[1..], keys[1..]);
      }
    }
  }

  /** After a delivered frame, OnData carries on with the bytes that follow it. */
  lemma {:induction false} OnDataAfterMessage(data: seq<uint8>, n: nat, message: seq<uint8>)
    requires ParseWsFrames(data) == (n, Message(message))
    ensures n <= |data|
    ensures n == |data| ==> OnData(data) == ([Message(message)], [])
    ensures n < |data| ==> OnData(data) == ([Message(message)] + OnData(data[n..]).0, OnData(data[n..]).1)
  {
  }

  lemma {:induction false} ParseClientFrame(message: seq<uint8>, key: seq<uint8>, rest: seq<uint8>)
    requires |message| <= MAX_PAYLOAD_LENGTH && |key| == MASKING_KEY_WIDTH
    ensures var f := ClientFrame(message, key);
      ParseWsFrames(f + rest) == (|f|, Message(message))
  {
    DecodeClientFrame(message, key, rest);
  }
}
